=== FILE: README.md ===
# Atoman / CDJSVis core, modelled in Dafny

This project models the computational core of Atoman (formerly CDJSVis),
an atomistic visualiser. The model covers:

- **Point-defect detection.** `findDefects` in `defects.c` does the basic
  vacancy, interstitial and antisite classification. It then refines with
  adaptive common neighbour analysis (ACNA), identifies split (dumbbell)
  interstitials, excludes defects by type and species, clusters the defects,
  filters clusters by size, and fills the per-species counters.
- **Vector routines** of `vectors.c`: minimum-image separations, norms,
  maximum movement and partial displacements.
- **Lattice readers** of `input.c`.
- **The per-species split** of visible atoms in `rendering.c`.
- **The species filter.**
- **The fluorite lattice generator.**
- **The Python filter driver** in `src/filtering.py`: running a filter list,
  species arrays, cluster lists, and periodic-image unwrapping of cluster
  hulls.
- **The GUI's list logic:**
  - the filter list and the filter form;
  - the species settings check list;
  - the renderer window's toggles and on-screen counts;
  - the renderer's camera placement, rotate-and-save loop, file-name choice,
    overlay bounding box and hull mesh numbering;
  - the simulation-time unit line.

Each module follows one source file. `Base` holds what several modules share:

- `Option` and `Result`;
- `Vec3` and `Lattice`;
- counting, summing and order-preserving selection over sequences;
- the first-appearance order of ids;
- decimal rendering of numbers.

Positions are `real`. Most square roots are left out: the model reports
squared magnitudes where the source returns their roots (the separation and
magnitude helpers, and the force norm). Where the source compares them, a
squared separation against a squared cut-off gives the same verdict.
`maxMovement` reports roots; there the root function is a parameter that
the contract only asks to be never negative.

Some library pieces the source calls are not part of this model:

- the spatial-decomposition ("boxes") neighbour search;
- `qsort`;
- the native filters;
- VTK, Qt, POV-Ray and `qconvex`.

The model handles them in three ways:

- **Neighbour lists** are characterised by a predicate, `IsNeighbourList`:
  every target strictly within the cut-off appears once, nearest first. The
  `Neighbours` module gives a whole-configuration construction that meets it.
- **Per-atom results of a native filter** are an input, its verdict.
- **What the GUI toolkit reports** (a cancelled dialog, a failed save,
  existing files) is an input.

## Model

| member | source | states |
|---|---|---|
| Vectors.Round | CDJSVis/visclibs/vectors.c:61-69 | C's round(): within a half of its argument, and a tie goes away from zero |
| Vectors.RoundOdd | CDJSVis/visclibs/vectors.c:61-69 | rounding commutes with negation, so that minimum-image reduction is odd |
| Vectors.MinImage | CDJSVis/visclibs/vectors.c:59-70 | a periodic component is reduced into [-dim/2, dim/2] by a whole number of cells, a tie at half a cell going to the side opposite the input's sign; a free component is unchanged |
| Vectors.MinImageUnique | CDJSVis/visclibs/vectors.c:59-70 | any shift by whole cells that lands strictly inside half a cell is the minimum image |
| Vectors.SeparationVector | CDJSVis/visclibs/vectors.c:48-79 | each axis is b - a when free; when periodic it is b - a shifted by whole cells and lies within half a cell |
| Vectors.SeparationAntisymmetric | CDJSVis/visclibs/vectors.c:48-79 | swapping the atoms negates the separation vector |
| Vectors.Sep2Symmetric | CDJSVis/visclibs/vectors.c:48-79 | the squared separation does not depend on the order of the atoms |
| Vectors.SelfSeparation | CDJSVis/visclibs/vectors.c:48-79 | an atom is at squared separation 0 from itself |
| Vectors.FirstMaximum | CDJSVis/visclibs/vectors.c:18-46 | the first index of the largest value; -1 with best -1 for an empty array |
| Vectors.CalcForceInfNorm | CDJSVis/visclibs/vectors.c:18-46 | the largest squared force magnitude, and the first atom that has it; (-1, -1) without atoms |
| Vectors.MaxMovement | CDJSVis/visclibs/vectors.c:81-125 | None without atoms; otherwise the first atom with the largest displacement root, that root, the mean of the roots, and the root of the summed squared displacements |
| Vectors.Mean | CDJSVis/visclibs/vectors.c:114-115 | the mean times the count is the sum |
| Vectors.MaxMovementBySquares | CDJSVis/visclibs/vectors.c:94-105 | with a true square root, the first maximum over the roots is the first maximum over the squared displacements |
| Vectors.SeparationMagnitudeIsNorm | CDJSVis/visclibs/vectors.c:127-166 | separationMagnitude squared is the squared magnitude of the separationVector result |
| Vectors.SeparationRowsAntisymmetric | CDJSVis/visclibs/vectors.c:127-145 | swapping the two configurations negates every row of separationVector |
| Vectors.ImageSelfSeparation | CDJSVis/visclibs/vectors.c:168-190 | an image's separation from itself has magnitude zero |
| Vectors.ImageMagnitudes | CDJSVis/visclibs/vectors.c:232-255 | imageSeparationMagnitude squared is the squared norm of the imageSeparationVector result |
| Vectors.FixedMagnitudes | CDJSVis/visclibs/vectors.c:257-295 | imageSeparationMagnitude_fixed squared is the squared norm of the imageSeparationVector_fixed result, for the same choice of states |
| Vectors.ImageFixedRow | CDJSVis/visclibs/vectors.c:192-230 | row i separates atom i of the fixed array pos1 from image2 of pos2 when image1 is 0, and atom i of image1 of pos1 from atom i of pos2 otherwise |
| Vectors.AddUndoesSubtract | CDJSVis/visclibs/vectors.c:350-382 | adding b back to a - b gives a |
| Vectors.SubtractIsAddNegated | CDJSVis/visclibs/vectors.c:333-382 | subtracting is adding the vector scaled by -1 |
| Vectors.DotProduct | CDJSVis/visclibs/vectors.c:384-400 | the loop computes the reference dot product; a vector dotted with itself gives its squared magnitude |
| Vectors.DotSymmetric | CDJSVis/visclibs/vectors.c:384-400 | the dot product is symmetric |
| Vectors.ApplyPartialDisplacement | CDJSVis/visclibs/vectors.c:402-420 | each listed atom's row gains the matching displacement row; nothing changes when the shapes do not match |
| Vectors.PartialDisplacementRoundTrip | CDJSVis/visclibs/vectors.c:402-420 | applying the displacements and then their negation restores the positions |
| Vectors.ApplyPartialDisplacementReverse | CDJSVis/visclibs/vectors.c:422-440 | pos2 plus the gathered rows of the listed atoms; unchanged when the shapes do not match |
| Vectors.PartialDotProduct | CDJSVis/visclibs/vectors.c:442-460 | the dot product of the gathered rows with pos2; zero when the shapes do not match |
| Neighbours.NeighbourListSpec | atoman/filtering/filters/defects.c:376-407 | the computed list holds every target strictly inside the cut-off exactly once, in non-decreasing separation |
| Neighbours.SortBySpec | atoman/filtering/filters/defects.c:311-319 | sorting by separation gives a non-decreasing, duplicate-free permutation |
| Neighbours.HeadIsNearest | atoman/filtering/filters/defects.c:463-466 | the head of any neighbour list is a nearest target within the cut-off |
| BasicDefects.NearestUnclaimed | atoman/filtering/filters/defects.c:148-240 | the nearest input atom that is untaken and strictly within the radius; the first of equally near atoms; -1 if there is none |
| BasicDefects.BasicClassification | atoman/filtering/filters/defects.c:73-307 | every site's occupant obeys the nearest-untaken rule; vacancies, interstitials and antisites follow from the occupants in ascending order; both lattices lose the same number of atoms |
| SplitInterstitials.FindPair | atoman/filtering/filters/defects.c:439-470 | how many interstitials of the vacancy's list have it as nearest, capped at two, and the first two of them in list order |
| SplitInterstitials.MarkSplits | atoman/filtering/filters/defects.c:439-527 | a vacancy becomes a split exactly when two interstitials of its list have it as nearest; no interstitial is taken twice |
| SplitInterstitials.SplitWithLists | atoman/filtering/filters/defects.c:439-555 | the splits found, stored as (site, atom, atom), with both defect arrays compacted |
| SplitInterstitials.IdentifySplitInterstitials | atoman/filtering/filters/defects.c:325-556 | the above, given neighbour lists that meet IsNeighbourList for a cut-off of twice the vacancy radius |
| SplitInterstitials.SplitMembers | atoman/filtering/filters/defects.c:439-527 | every split is made of a given vacancy and two given interstitials |
| SplitInterstitials.SplitsDisjoint | atoman/filtering/filters/defects.c:439-527 | no vacancy or interstitial is in two splits |
| SplitInterstitials.SplitGeometry | atoman/filtering/filters/defects.c:377-470 | both atoms of a split are strictly within twice the vacancy radius, and the split's vacancy is nearest to each of them |
| AcnaRefinement.CheckVacancy | atoman/filtering/filters/defects.c:776-873 | afterwards vacancy v is checked; vacancies checked before keep their entry and partner; the marks only grow; pairings stay one-to-one between mutual neighbours; every vacancy this call checked is either paired with the first interstitial of its list it could still take, or left with every mutual-neighbour ACNA interstitial taken |
| AcnaRefinement.RefineUsingAcna | atoman/filtering/filters/defects.c:875-1083 | each pair removes one vacancy and one ACNA-ideal interstitial; every removed interstitial went to a vacancy; a paired vacancy took the first interstitial of its nearest-first list still there to take; no unpaired vacancy has a free mutual-neighbour ACNA interstitial; both arrays keep their order |
| AcnaRefinement.FinishMaximal | atoman/filtering/filters/defects.c:867-874 | once every vacancy is checked, every removed ACNA interstitial has a partner vacancy, and the pairing cannot be extended: no unpaired vacancy and free ACNA interstitial are mutual neighbours |
| AcnaRefinement.AcnaPairGeometry | atoman/filtering/filters/defects.c:895-1017 | a paired interstitial is ACNA-ideal after truncation, and lies strictly within twice the vacancy radius of its vacancy |
| DefectClusters.FindNeighbours | atoman/filtering/filters/defects.c:2021-2060 | every unassigned defect linked to an explored one gets the cluster id; the count of assignments is returned |
| DefectClusters.FindClusters | atoman/filtering/filters/defects.c:1975-2019 | two defects share a cluster exactly when a chain of links joins them; ids are numbered in order of first appearance and every id is used; the sizes count the members |
| DefectClusters.ReachSameCluster | atoman/filtering/filters/defects.c:2021-2060 | when linked defects share their cluster, so do defects joined by a chain of links |
| DefectClusters.SizesTotal | atoman/filtering/filters/defects.c:1975-2019 | the cluster sizes add up to the number of defects |
| DefectsPost.Exclude | atoman/filtering/filters/defects.c:1525-1635 | a category is emptied when its type is off; under species filtering, a defect stays exactly when its species is not excluded; order is kept |
| DefectsPost.ExclusionMembership | atoman/filtering/filters/defects.c:1525-1635 | a defect survives exclusion exactly when its type is included and its species is not excluded |
| DefectsPost.ExclusionSplits | atoman/filtering/filters/defects.c:1610-1635 | a split survives exactly when interstitials are included and neither of its atoms is of an excluded species |
| DefectsPost.ExclusionKeepsOrder | atoman/filtering/filters/defects.c:1525-1635 | the exclusion keeps each index array ascending |
| DefectsPost.AdjustSplitSizes | atoman/filtering/filters/defects.c:1776-1792 | each split takes one off the size of the cluster of its second entry and of its third |
| DefectsPost.AdjustedSizesCountDefects | atoman/filtering/filters/defects.c:1776-1792 | a corrected size counts each defect of the cluster once, a split by its first entry |
| DefectsPost.FilterBySize | atoman/filtering/filters/defects.c:1796-1901 | a defect is kept exactly when its cluster's corrected size passes the test (a maximum below the minimum means no upper bound); order is kept; clusters left with members are counted |
| DefectsPost.ClustersLeft | atoman/filtering/filters/defects.c:1897-1901 | clusters left are at most those found, and zero exactly when nothing passed |
| DefectsPost.PairIndexDecode | atoman/filtering/filters/defects.c:1942-1952 | the flat index a*n+b of a species pair gives back the pair, so distinct pairs never share a counter |
| DefectsPost.CountDefects | atoman/filtering/filters/defects.c:1925-1961 | NDefectsType holds the total and the sizes of each category; each per-species table gains one count per defect at its species or species pair |
| DefectsPost.VacancyTableTotal | atoman/filtering/filters/defects.c:1925-1927 | the vacancy table gains one count per vacancy in total |
| DefectsPost.AntisitePairCell | atoman/filtering/filters/defects.c:1936-1943 | cell (a, b) gains the number of antisites with reference species a that an atom of species b occupies |
| DefectsPost.PostProcess | atoman/filtering/filters/defects.c:1525-1961 | the defects handed back are those the exclusion keeps, clustered with corrected sizes and filtered by size when clustering is asked for, and every type counter and per-species table is the tally of exactly those defects |
| FindDefects.ClassifyStages | atoman/filtering/filters/defects.c:1407-1520 | antisites come from the basic stage unchanged; each ACNA change removes one vacancy and one interstitial, none without an ACNA array; splits occur only when asked for and each takes a vacancy and two interstitials; reference sites minus vacancies plus splits equals input atoms minus interstitials |
| FindDefects.RunFindDefects | atoman/filtering/filters/defects.c:1271-1974 | the classification stages, then the post-processing, with the cluster search on drift-compensated reference positions; every type counter and every per-species table is the post-processing's tally of the defects handed back |
| Reader.SpecieIndex | CDJSVis/visclibs/input.c:21-39 | the first position of the symbol in the list, or the list's length when the symbol is absent |
| Reader.SpecieIndexStable | CDJSVis/visclibs/input.c:21-39 | a symbol found in a list is found at the same place in any extension of the list |
| Reader.InternSpecies | CDJSVis/visclibs/input.c:109-130 | the species list is duplicate-free in order of first appearance; each record's index names its own symbol; each counter grows by its records |
| Reader.UnpackPacked | CDJSVis/visclibs/input.c:123-124 | the two-characters-per-species list ending in "XX" reads back as the species list |
| Reader.Extents | CDJSVis/visclibs/input.c:78-155 | the corners start at ±1e6 and only strictly beyond values move them; every position read lies between them |
| Reader.ReadLatticeLBOMD | CDJSVis/visclibs/input.c:277-393 | -3 exactly when the header or a record does not scan; otherwise record i is atom i with id i+1, its species and its charge, and the extents are the corners of Reader.Extents over the positions read |
| Reader.ReadRefAsWritten | CDJSVis/visclibs/input.c:91-156 | as written: record i's id, position, kinetic and potential energy and charge go to slot id-1 (the last record with that id wins), but its species index goes to slot i; the species list is distinct and holds the file's symbols, the counters grow by each record's species, and the extents are the corners over the positions read; a file cut short is error -3 |
| Reader.ReadRef | CDJSVis/visclibs/input.c:45-168 | the slot an id names holds that record's id, position, energies, charge and species; the species list is distinct and holds the file's symbols, the counters grow by each record's species, and the extents are the corners over the positions read; -3 when a read fails |
| Reader.RefSpeciesMisplaced | CDJSVis/visclibs/input.c:110-112 | on a file listing atom 2 before atom 1, the reader as written gives slot 0 the wrong species and the corrected reader the right one |
| SpeciesSplit.Gather | CDJSVis/visclibs/rendering.c:40-90 | the positions and scalars of the visible atoms of one species, in visible order |
| SpeciesSplit.SplitVisAtomsBySpecie | CDJSVis/visclibs/rendering.c:14-94 | the counters grow by each species' number of visible atoms; each group holds exactly that species' visible atoms, in order (the entries the C fills) |
| SpeciesSplit.GroupsCoverVisible | CDJSVis/visclibs/rendering.c:14-94 | starting from zeroed counters, the counts total the visible atoms |
| SpeciesFilter.Apply | atoman/filtering/filters/speciesFilter.py:34-71 | TypeError for a wrong first or second argument, in that order; otherwise the visible atoms of a listed species, in order |
| SpeciesFilter.DefaultHidesAll | atoman/filtering/filters/speciesFilter.py:23-71 | under the default settings no atom stays visible |
| Fluorite.GenerateLattice | atoman/lattice_gen/lattice_gen_fluorite.py:62-181 | the generated atoms are the candidates in loop order less those beyond the edge tolerance, and all lie within it; the PBC flags are copied; charges are fixed exactly when no axis is periodic and a charge is non-zero, and the total is then the fixed total, otherwise the atoms' summed charge |
| Fluorite.BlockMembership | atoman/lattice_gen/lattice_gen_fluorite.py:112-146 | the candidates are exactly the twelve unit-cell atoms of every cell below the loop stops |
| Fluorite.Generates | atoman/lattice_gen/lattice_gen_fluorite.py:112-157 | an atom is generated exactly when it belongs to a cell within the loop bounds and is not beyond the edge |
| Fluorite.PeriodicKeepsAll | atoman/lattice_gen/lattice_gen_fluorite.py:112-157 | with every axis periodic and a0 > 0, the edge test removes no candidate |
| Fluorite.FullyPeriodic | atoman/lattice_gen/lattice_gen_fluorite.py:97-181 | fully periodic with a0 > 0: 12 Nx Ny Nz atoms, 4 per cell of the first species and 8 of the second when the symbols differ, and the charge of Nx Ny Nz unit cells |
| FilterDriver.VisibleSpecies | src/filtering.py:176-193 | all species indices when all are selected, otherwise the ascending indices whose symbol is listed |
| FilterDriver.ExcludedSpecies | src/filtering.py:295-316 | empty when all species are selected, otherwise the ascending indices whose symbol is not listed; since exclusion depends on the symbol alone, a species both lattices know is excluded from both or from neither |
| FilterDriver.SpeciesPartition | src/filtering.py:176-316 | each species index is in exactly one of the visible and excluded arrays |
| FilterDriver.ApplyFilter | src/filtering.py:102-141 | Specie keeps the atoms of shown species; a displacement filter with differing atom counts empties the list; native tests keep the atoms they accept; other names leave the list alone; together, an atom is kept exactly when it was visible and passes the filter's test (Keeps) |
| FilterDriver.RunFilters | src/filtering.py:85-141 | an atom is in the result exactly when it is an input atom, was in the prior list for a defect filter list, and passes every filter of the list; from a fresh start the result is ascending |
| FilterDriver.RunFromAppend | src/filtering.py:102-141 | running a list is running its first part, then running its second part on the result |
| FilterDriver.DisplacementMismatch | src/filtering.py:199-211 | with differing atom counts, a list holding a displacement filter shows nothing |
| FilterDriver.ClusterLists | src/filtering.py:491-509 | the k-th list collects, in visible order, the atoms whose cluster id is the k-th to appear; None when an id finds no list |
| FilterDriver.DefectClusterLists | src/filtering.py:378-433 | one shared first-appearance mapping over vacancies, then interstitials, then antisites; defectType[k] holds, in defect order, "R" for each vacancy or antisite and "I" for each interstitial whose raw id, read as a Python index, is k; None (the IndexError) when an id lies outside the cluster count |
| FilterDriver.ApplyPbcsToCluster | src/filtering.py:766-855 | only the lowest set flag is handled and cleared; each atom moves by whole cells along that flag's axes only |
| FilterDriver.ApplyKeepsShape | src/filtering.py:766-855 | handling a flag moves the cluster rigidly, so separations inside it are kept |
| FilterDriver.UnwrapRounds | src/filtering.py:611-632 | nothing for a cluster of at most one atom; otherwise one round per set flag, in flag order, round t being the cluster moved along the t-th set flag's axes alone; at most seven rounds |
| FilterDriver.CheckFacetsPbcs | src/filtering.py:859-882 | the facets whose vertices all lie within the radius of the cell on every periodic axis, in order |
| FilterDriver.ClusterFacets | src/filtering.py:549-561 | a triangle for three atoms, nothing for two or fewer, the hull for more |
| FilterList.AddFilter | CDJSVis/gui/filterList.py:691-732 | each outcome holds exactly in its case: refused on a frozen list; ignored without a name on offer; a point-defect conflict; a displacement filter with differing atom counts; otherwise "name [counter]" is appended, and showing a missing form raises (NoForm) before the point-defects flag is set |
| FilterList.CounterAfterForm | CDJSVis/gui/filterList.py:762-788 | the counter grows by one exactly when a settings form is made |
| FilterList.QuickAdd | CDJSVis/gui/filterList.py:320-329 | only a name on offer reaches addFilter |
| FilterList.RemoveFilter | CDJSVis/gui/filterList.py:734-760 | removes the row's item on an unfrozen non-empty list; clears the defect flag when that item is the point-defects filter; an item without a settings form is still taken out, then closing its form raises (NoForm) and the flag is left as it was |
| FilterList.MoveDown | CDJSVis/gui/filterList.py:564-583 | swaps the row with the next one; does nothing at the last row or on a frozen list |
| FilterList.MoveUp | CDJSVis/gui/filterList.py:585-604 | swaps the row with the previous one; does nothing at row 0 or on a frozen list |
| FilterList.MoveDownUp | CDJSVis/gui/filterList.py:564-604 | moving down and then back up restores the list |
| FilterList.ClearList | CDJSVis/gui/filterList.py:521-548 | when every item has a settings form: no items, no defect flag, not frozen, not persistent, the counter kept; otherwise accepting a missing form raises (NoForm) before the clear and the list is unchanged |
| FilterList.DriftCompClicked | CDJSVis/gui/filterList.py:275-291 | unchecking turns compensation off; checking with agreeing atom counts turns it on; checking with differing counts unchecks the button and leaves the list as it was |
| FilterList.DriftFlagFollowsButton | CDJSVis/gui/filterList.py:275-291 | when the flag agrees with the button before a click, it agrees with the button after it |
| FilterList.AddKeepsDefectAlone | CDJSVis/gui/filterList.py:691-732 | while the point-defects flag is set, the list holds just that filter |
| FilterForm.AddFilterList | CDJSVis/gui/filterForm.py:137-159 | appends an empty list and an empty visible array, adds a tab labelled with the old count, selects it; the form stays consistent |
| FilterForm.RemoveFilterList | CDJSVis/gui/filterForm.py:175-197 | never below one list; when the selected list holds an item without a settings form its clearList raises (NoForm) and the form is unchanged; otherwise removes the selected list and its array, relabels later tabs one lower, selects the tab now in the removed one's place (the last tab when it was last), and stays consistent |
| FilterForm.AddThenRemove | CDJSVis/gui/filterForm.py:137-197 | removing the list just added succeeds and gives back the form's lists, arrays and tabs |
| FilterForm.ClearAllFilterLists | CDJSVis/gui/filterForm.py:161-169 | as written: with every item of every list holding a form, the loop stops half way, so from n > 1 lists n / 2 are left and a single list is cleared and kept; a raising clear ends the call: one on the first list leaves the form unchanged, and one in the first step's removeFilterList leaves the first list cleared and nothing removed |
| FilterForm.ClearAllLeavesFilters | CDJSVis/gui/filterForm.py:161-169 | four lists with the first tab selected end as two, the second still holding its filters |
| FilterForm.ClearAllFilterListsIntended | CDJSVis/gui/filterForm.py:161-197 | corrected: one list is left (none from none), and every list left is empty, unfrozen and without the defect flag, items without a settings form included |
| FilterForm.ListsToRun | CDJSVis/gui/filterForm.py:112-122 | a list is run exactly when it is not frozen |
| FilterForm.RunAllFilterLists | CDJSVis/gui/filterForm.py:100-126 | frozen lists keep their visible atoms; every other list takes its new result |
| FilterForm.GatherVisibleAtoms | CDJSVis/gui/filterForm.py:211-227 | ascending, each atom once, and exactly the atoms some list shows |
| FilterForm.AscendingDetermined | CDJSVis/gui/filterForm.py:225 | two ascending arrays with the same members are equal, so the gathered array is determined |
| SpeciesSettings.VisibleFacts | CDJSVis/gui/filterSettings/speciesSettingsDialog.py:61-72 | a symbol is visible exactly when a checked item has it; distinct items give distinct symbols |
| SpeciesSettings.Refresh | CDJSVis/gui/filterSettings/speciesSettingsDialog.py:74-113 | the result starts with the items whose species is still in either lattice, in their old order and with their check states; every item after them is a new checked item for a species not listed before; the symbols are exactly the lattices' species; distinct symbols stay distinct |
| SpeciesSettings.RefreshIdempotent | CDJSVis/gui/filterSettings/speciesSettingsDialog.py:74-113 | refreshing twice against the same lattices changes nothing more |
| SpeciesSettings.RefreshedVisible | CDJSVis/gui/filterSettings/speciesSettingsDialog.py:61-113 | after a refresh only the lattices' species are visible, and every species new to the list is visible |
| RendererWindow.CheckTextRGB | CDJSVis/gui/rendererSubWindow.py:1046-1059 | black text on black turns white, white on white turns black, and other colours are kept |
| RendererWindow.CheckTextIdempotent | CDJSVis/gui/rendererSubWindow.py:1046-1059 | checking a checked colour again changes nothing |
| RendererWindow.TextVisible | CDJSVis/gui/rendererSubWindow.py:268-289 | on a coherent window, checked text never has the background's colour |
| RendererWindow.IncreaseThenDecrease | CDJSVis/gui/rendererSubWindow.py:239-266 | decreasing after increasing restores the anti-aliasing frame count |
| RendererWindow.DecreaseAA | CDJSVis/gui/rendererSubWindow.py:252-266 | one frame fewer, except at zero |
| RendererWindow.ToggleProjection | CDJSVis/gui/rendererSubWindow.py:200-218 | flips the projection; turning parallel projection on sets the scale to the mean of the first two cell dimensions |
| RendererWindow.BackgroundTwice | CDJSVis/gui/rendererSubWindow.py:268-289 | toggling the background twice restores a coherent window |
| RendererWindow.OnScreenCounts | CDJSVis/gui/rendererSubWindow.py:761-777 | the visible count appears exactly when a shown list has no defect filter, and totals their NVis; the cluster count appears exactly when its total is non-zero |
| RendererWindow.VisibleSpecieCount | CDJSVis/gui/rendererSubWindow.py:778-788 | species s's total adds the counts of s of the counted lists with atoms and full count arrays |
| RendererWindow.SplitEntriesCover | CDJSVis/gui/rendererSubWindow.py:871-881 | the entries are the pairs i <= j, each with the diagonal count or both orders added |
| RendererWindow.SplitEntriesTotal | CDJSVis/gui/rendererSubWindow.py:871-881 | the entries' counts add up to the whole split-interstitial matrix |
| RendererWindow.AntisiteRowsAsWritten | CDJSVis/gui/rendererSubWindow.py:883-888 | as written: pairs (i, j) of reference and input species, skipping i == j |
| RendererWindow.AntisiteRows | src/filtering.py:371-375 | corrected: exactly the pairs whose symbols differ |
| RendererWindow.AntisiteRowsAgree | CDJSVis/gui/rendererSubWindow.py:883-888 | with one shared list of distinct species, both listings coincide |
| RendererWindow.AntisiteRowsByIndexWrong | CDJSVis/gui/rendererSubWindow.py:883-888 | with reference [Pu, Ga] and input [Ga, Pu] the listing by index shows "Pu on Pu" and hides "Ga on Pu" |
| Renderer.SetCameraToCell | atoman/rendering/renderer.py:128-150 | nothing without a reference; otherwise focus on the cell centre, level with it, 3 times the larger y/z extent back along -x, y up |
| Renderer.NRotationsCover | atoman/rendering/renderer.py:298 | with a positive step, NRotations - 1 whole steps fit in a turn and NRotations steps do not |
| Renderer.RotateAndSaveImage | atoman/rendering/renderer.py:292-369 | status 0 when every step completes, 1 at a failed save, 2 at a cancel; the images saved so far are named prefix0, prefix1, ...; the camera is restored |
| Renderer.FirstStopAt | atoman/rendering/renderer.py:315-356 | the stopping step is the first one that does not complete |
| Renderer.NumberedInjective | atoman/rendering/renderer.py:397-401 | different counts give different "prefix(k).fmt" names |
| Renderer.ChooseFileName | atoman/rendering/renderer.py:516-520 | with overwrite, the plain name; otherwise a free name: the plain one, or the first free "prefix(k).fmt" |
| Renderer.FindOverlayExtremes | atoman/rendering/renderer.py:667-698 | each foreground pixel lies in the box; each side is its initial value or attained; an image without foreground gives (1000, 0, 1000, 0) |
| Renderer.VertexMapper | atoman/rendering/renderer.py:957-964 | mesh numbers follow the first appearance of each vertex index |
| Renderer.HullMesh | atoman/rendering/renderer.py:946-1001 | nothing below three atoms; otherwise one vertex per distinct index, and faces renumbered to pick those vertices |
| TimeUnits.SimulationTimeLine | src/utilities.py:203-224 | the value times the unit's factor is the time; the unit is the largest one the time strictly exceeds |
| TimeUnits.UnitDetermined | src/utilities.py:208-224 | the largest exceeded unit is the one chosen |
| TimeUnits.UnitMonotone | src/utilities.py:208-224 | a later time is never shown in a smaller unit |
| TimeUnits.Boundaries | src/utilities.py:208-224 | a time exactly at a threshold stays in the smaller unit; anything up to 1000 fs, including zero and negatives, is in fs |

## Left out

- Square roots: outside `maxMovement` the model reports squared magnitudes where the source returns their roots (CDJSVis/visclibs/vectors.c: separationMagnitude, imageSeparationMagnitude, imageSeparationMagnitude_fixed, magnitude). A caller that needs the length takes the root itself.
- Vectors.CalcForceInfNorm: reports the largest squared force magnitude, where the source returns its root. Without atoms the source takes the root of -1 and returns NaN; the model returns -1.
- FindDefects.RunFindDefects: the refineAcnaOld and identifySplitsOld flags are taken as 0. The older routines they select, refineDefectsUsingAcnaOld (atoman/filtering/filters/defects.c:1085) and identifySplitInterstitialsOld (atoman/filtering/filters/defects.c:562), are not part of this model.
- SpeciesSplit.SplitVisAtomsBySpecie: with non-zero starting counters the C allocates each group at the full counter's length and fills only this call's atoms, leaving the rest uninitialised. The model's group holds just the filled entries.
- Vectors.MaxMovement: the square root is a parameter, required only to be never negative. MaxMovementBySquares shows that with a true square root the reported atom is the first maximum of the squared displacements.
- The spatial-decomposition neighbour search and `qsort`:
  - neighbour lists are characterised by `IsNeighbourList`;
  - the whole-configuration construction sorts stably, so equally near targets come in index order;
  - the basic classification breaks ties by lowest index, where the source follows box order.
- C-API plumbing in `findDefects`: argument parsing, allocation failures and the numbered error returns. Memory allocation has no counterpart in the model.
- DefectsPost.CountDefects: requires species indices below the species count and tables of the right shape. The C writes without checking, so out-of-range input is undefined behaviour there.
- `readLBOMDXYZ` is left out: it is the same scanning pattern without species. Symbols are limited to the scanner's two characters.
- Reader: the scanner itself (`fscanf`) is replaced by the records it would yield and whether every read succeeded.
- Fluorite.GenerateLattice: the boundary charge fixing (`fixChargesOnFixedBoundaries`) is not modelled. Its total is passed in as `fixedQ`.
- SpeciesFilter.Apply: the native `specieFilter` is stood in for by an order-preserving compaction to the listed species.
- Native filters (crop, energies, charge, displacement, clustering) are represented by their per-atom verdicts.
- `refreshAvailableFilters` is left out: a combo-box refresh.
- FilterForm.GatherVisibleAtoms requires at least one list. The form always holds one, and with none numpy would be handed None.
- SpeciesSettings.Refresh: the order in which Python walks the set of symbols is not determined by the source. It is a parameter, `setOrder`: any duplicate-free listing of the set.
- Qt's choice of the current row after list edits is not modelled: the model keeps the row it had. After `removeTab` the model selects as the tab bar does by default: the tab that moves into the removed one's place, or the last tab.
- Renderer.RotateAndSaveImage: the camera's azimuth turn is an abstract function. The cancel and save outcomes of each step are inputs.
- Renderer.RotateAndSaveImage: requires a non-zero step. At 0 the source raises ZeroDivisionError at atoman/rendering/renderer.py:298, before any image is saved; the model has no exception path.
- Renderer.ChooseFileName: the file system is a finite set of existing names.
- Renderer.HullMesh: the POV-Ray text is not produced. The model keeps the vertex list and the renumbered faces it prints.
- The convex hull (`qconvex`) is left out: hull facets are an input.
- The VTK and POV-Ray writers, the overlay image pipeline, threads and all file I/O are left out.
- TimeUnits.SimulationTimeLine: the "%.3f" text formatting is not modelled. The model returns the number and the unit.
- Floating point is modelled as exact reals:
  - rounding error in the divisions and comparisons is not modelled;
  - the ±1e6 extents and the 1000/0 overlay sentinels are exact.

## Findings

| source | as written | input that shows it | evidently intended | confidence | as-written member | corrected member |
|---|---|---|---|---|---|---|
| CDJSVis/visclibs/input.c:110-112 | readRef stores every field of a record at slot id-1, but stores the species index at slot i, the record's place in the file | a reference file listing atom 2 (Ga) before atom 1 (Pu): slot 0 holds atom 1's position with species Ga | the species index at slot id-1, beside the other fields of the same atom | not executed | Reader.ReadRefAsWritten | Reader.ReadRef |
| CDJSVis/gui/filterForm.py:161-169 | clearAllFilterLists iterates over the list of filter lists while removeFilterList pops from it, so the loop stops once its position reaches the shrinking length | four lists, the first tab selected, filters only in the fourth: two lists are left and the fourth still holds its filters | every list cleared and the form left with a single list | not executed | FilterForm.ClearAllLeavesFilters | FilterForm.ClearAllFilterListsIntended |
| CDJSVis/gui/rendererSubWindow.py:883-888 | the antisite rows skip the pair when the reference index equals the input index, though the two index different species lists | reference species [Pu, Ga] and input species [Ga, Pu]: "Pu on Pu" is listed and "Ga on Pu" is hidden | skip the pair when the two symbols are equal, as the driver's log at src/filtering.py:371-375 does | not executed | RendererWindow.AntisiteRowsAsWritten | RendererWindow.AntisiteRows |

=== FILE: base.dfy ===
/*
 * Shared vocabulary of the model: optional values, three-vectors of reals,
 * and the sequence operations the C and Python code keep re-implementing
 * with index arrays (order-preserving selection, "-1 marks a removed entry"
 * compaction, counting).
 */
module Base {

  datatype Option<T> = None | Some(value: T)
  {
    predicate IsSome() { Some? }
  }

  /** An error code returned in place of a value, as the C routines do. */
  datatype Result<T> = Ok(value: T) | Err(code: int)

  /** A position, displacement or cell-dimension triple. */
  datatype Vec3 = Vec3(x: real, y: real, z: real)
  {
    function Get(k: int): real
      requires 0 <= k < 3
    {
      if k == 0 then x else if k == 1 then y else z
    }
    function Plus(o: Vec3): Vec3 { Vec3(x + o.x, y + o.y, z + o.z) }
    function Minus(o: Vec3): Vec3 { Vec3(x - o.x, y - o.y, z - o.z) }
    function Norm2(): real { x * x + y * y + z * z }
  }

  /** Species symbols are short strings ("Fe", "H_"). */
  type Symbol = seq<char>

  /**
   * The part of a lattice the defect and filter routines read: the species
   * symbols, each atom's species index into them, and each atom's position.
   */
  datatype Lattice = Lattice(specieList: seq<Symbol>, specie: seq<int>, pos: seq<Vec3>)
  {
    predicate Valid()
    {
      |specie| == |pos| && forall i :: 0 <= i < |specie| ==> 0 <= specie[i] < |specieList|
    }
    function NAtoms(): nat { |pos| }
  }

  // ---------------------------------------------------------------------
  // Counting

  function CountTrue(s: seq<bool>): (n: nat)
    ensures n <= |s|
  {
    if |s| == 0 then 0 else CountTrue(s[..|s| - 1]) + (if s[|s| - 1] then 1 else 0)
  }

  function CountEq(s: seq<int>, v: int): (n: nat)
    ensures n <= |s|
  {
    if |s| == 0 then 0 else CountEq(s[..|s| - 1], v) + (if s[|s| - 1] == v then 1 else 0)
  }

  function Sum(s: seq<int>): int
  {
    if |s| == 0 then 0 else Sum(s[..|s| - 1]) + s[|s| - 1]
  }

  function SumReal(s: seq<real>): real
  {
    if |s| == 0 then 0.0 else SumReal(s[..|s| - 1]) + s[|s| - 1]
  }

  lemma SumAppend(s: seq<int>, t: seq<int>)
    ensures Sum(s + t) == Sum(s) + Sum(t)
  {
    if |t| > 0 {
      assert (s + t)[..|s + t| - 1] == s + t[..|t| - 1];
      SumAppend(s, t[..|t| - 1]);
    } else {
      assert s + t == s;
    }
  }

  /** A prefix one longer is the prefix and the next element. */
  lemma TakeNext<T>(s: seq<T>, i: int)
    requires 0 <= i < |s|
    ensures s[..i + 1] == s[..i] + [s[i]]
  {
  }

  /** The prefix of full length is the whole sequence. */
  lemma TakeAll<T>(s: seq<T>)
    ensures s[..|s|] == s
  {
  }

  lemma AppendAssoc<T>(a: seq<T>, b: seq<T>, c: seq<T>)
    ensures (a + b) + c == a + (b + c)
  {
  }

  /** A prefix of a prefix is a prefix of the whole. */
  lemma TakeTake<T>(s: seq<T>, j: int, n: int)
    requires 0 <= j <= n <= |s|
    ensures s[..n][..j] == s[..j]
  {
  }

  /** Two duplicate-free sequences with no element in common join into one. */
  lemma DistinctConcat<T>(a: seq<T>, b: seq<T>)
    requires Distinct(a) && Distinct(b) && forall x :: x in a ==> x !in b
    ensures Distinct(a + b)
  {
    var c := a + b;
    forall i, j | 0 <= i < j < |c|
      ensures c[i] != c[j]
    {
      if i < |a| && j >= |a| {
        assert c[i] == a[i] && c[j] == b[j - |a|];
        assert a[i] in a && b[j - |a|] in b;
      } else if i >= |a| {
        assert c[i] == b[i - |a|] && c[j] == b[j - |a|];
      }
    }
  }

  lemma SumSnoc(s: seq<int>, x: int)
    ensures Sum(s + [x]) == Sum(s) + x
  {
    assert (s + [x])[..|s|] == s;
  }

  lemma CountTrueAppend(s: seq<bool>, b: bool)
    ensures CountTrue(s + [b]) == CountTrue(s) + (if b then 1 else 0)
  {
    assert (s + [b])[..|s|] == s;
  }

  lemma CountEqAppend(s: seq<int>, x: int, v: int)
    ensures CountEq(s + [x], v) == CountEq(s, v) + (if x == v then 1 else 0)
  {
    assert (s + [x])[..|s|] == s;
  }

  /** A prefix one longer counts one more when the next flag is set. */
  lemma CountTrueNext(s: seq<bool>, i: int)
    requires 0 <= i < |s|
    ensures CountTrue(s[..i + 1]) == CountTrue(s[..i]) + (if s[i] then 1 else 0)
  {
    TakeNext(s, i);
    CountTrueAppend(s[..i], s[i]);
  }

  /** A prefix one longer counts one more when the next element is v. */
  lemma CountEqNext(s: seq<int>, i: int, v: int)
    requires 0 <= i < |s|
    ensures CountEq(s[..i + 1], v) == CountEq(s[..i], v) + (if s[i] == v then 1 else 0)
  {
    TakeNext(s, i);
    CountEqAppend(s[..i], s[i], v);
  }

  /** Setting one false flag to true adds exactly one to the count. */
  lemma {:induction false} CountTrueSet(s: seq<bool>, k: int)
    requires 0 <= k < |s| && !s[k]
    ensures CountTrue(s[k := true]) == CountTrue(s) + 1
  {
    if k < |s| - 1 {
      assert s[k := true][..|s| - 1] == s[..|s| - 1][k := true];
      CountTrueSet(s[..|s| - 1], k);
    } else {
      assert s[k := true][..|s| - 1] == s[..|s| - 1];
    }
  }

  /** Overwriting an entry different from v by v adds exactly one to its count. */
  lemma {:induction false} CountEqSet(s: seq<int>, k: int, v: int)
    requires 0 <= k < |s| && s[k] != v
    ensures CountEq(s[k := v], v) == CountEq(s, v) + 1
  {
    if k < |s| - 1 {
      assert s[k := v][..|s| - 1] == s[..|s| - 1][k := v];
      CountEqSet(s[..|s| - 1], k, v);
    } else {
      assert s[k := v][..|s| - 1] == s[..|s| - 1];
    }
  }

  lemma {:induction false} CountTrueAll(s: seq<bool>)
    requires forall i :: 0 <= i < |s| ==> s[i]
    ensures CountTrue(s) == |s|
  {
    if |s| > 0 {
      CountTrueAll(s[..|s| - 1]);
    }
  }

  lemma {:induction false} CountTrueNone(s: seq<bool>)
    requires forall i :: 0 <= i < |s| ==> !s[i]
    ensures CountTrue(s) == 0
  {
    if |s| > 0 {
      CountTrueNone(s[..|s| - 1]);
    }
  }

  /** A flag set that only grows never has more false entries. */
  lemma {:induction false} CountTrueMonotone(a: seq<bool>, b: seq<bool>)
    requires |a| == |b|
    requires forall i :: 0 <= i < |a| && a[i] ==> b[i]
    ensures CountTrue(a) <= CountTrue(b)
  {
    if |a| > 0 {
      CountTrueMonotone(a[..|a| - 1], b[..|b| - 1]);
    }
  }

  /** Pointwise negation of a flag list. */
  function Negate(s: seq<bool>): (r: seq<bool>)
    ensures |r| == |s|
    ensures forall i :: 0 <= i < |s| ==> r[i] == !s[i]
  {
    seq(|s|, i requires 0 <= i < |s| => !s[i])
  }

  lemma {:induction false} CountTrueComplement(s: seq<bool>)
    ensures CountTrue(s) + CountTrue(Negate(s)) == |s|
  {
    if |s| > 0 {
      CountTrueComplement(s[..|s| - 1]);
      assert Negate(s)[..|s| - 1] == Negate(s[..|s| - 1]);
    }
  }

  // ---------------------------------------------------------------------
  // Order

  predicate StrictlyIncreasing(s: seq<int>)
  {
    forall i, j :: 0 <= i < j < |s| ==> s[i] < s[j]
  }

  predicate Distinct<T(==)>(s: seq<T>)
  {
    forall i, j :: 0 <= i < j < |s| ==> s[i] != s[j]
  }

  /** Every entry is a valid index into a sequence of length n. */
  predicate AllIndices(s: seq<int>, n: int)
  {
    forall i :: 0 <= i < |s| ==> 0 <= s[i] < n
  }

  // ---------------------------------------------------------------------
  // Order-preserving selection

  /**
   * The entries of s whose mask entry is set, in their original order: the
   * effect of every "copy the kept entries down to the next free slot" loop
   * in the C and Python code.
   */
  function Select<T>(s: seq<T>, mask: seq<bool>): (r: seq<T>)
    requires |s| == |mask|
    ensures |r| == CountTrue(mask)
  {
    if |s| == 0 then []
    else Select(s[..|s| - 1], mask[..|s| - 1]) + (if mask[|s| - 1] then [s[|s| - 1]] else [])
  }

  lemma {:induction false} SelectMembership<T>(s: seq<T>, mask: seq<bool>, x: T)
    requires |s| == |mask|
    ensures x in Select(s, mask) <==> exists i :: 0 <= i < |s| && mask[i] && s[i] == x
  {
    if |s| > 0 {
      SelectMembership(s[..|s| - 1], mask[..|s| - 1], x);
      if x in Select(s, mask) && x !in Select(s[..|s| - 1], mask[..|s| - 1]) {
        assert mask[|s| - 1] && s[|s| - 1] == x;
      }
      if exists i :: 0 <= i < |s| && mask[i] && s[i] == x {
        var i :| 0 <= i < |s| && mask[i] && s[i] == x;
        if i < |s| - 1 {
          assert s[..|s| - 1][i] == x && mask[..|s| - 1][i];
        }
      }
    }
  }

  lemma {:induction false} SelectIncreasing(s: seq<int>, mask: seq<bool>)
    requires |s| == |mask| && StrictlyIncreasing(s)
    ensures StrictlyIncreasing(Select(s, mask))
  {
    if |s| > 0 {
      var p := Select(s[..|s| - 1], mask[..|s| - 1]);
      SelectIncreasing(s[..|s| - 1], mask[..|s| - 1]);
      forall k | 0 <= k < |p|
        ensures p[k] < s[|s| - 1]
      {
        SelectMembership(s[..|s| - 1], mask[..|s| - 1], p[k]);
      }
      SelectAppend(s[..|s| - 1], mask[..|s| - 1], s[|s| - 1], mask[|s| - 1]);
      assert s[..|s| - 1] + [s[|s| - 1]] == s;
      assert mask[..|s| - 1] + [mask[|s| - 1]] == mask;
    }
  }

  lemma {:induction false} SelectAll<T>(s: seq<T>, mask: seq<bool>)
    requires |s| == |mask|
    requires forall i :: 0 <= i < |mask| ==> mask[i]
    ensures Select(s, mask) == s
  {
    if |s| > 0 {
      SelectAll(s[..|s| - 1], mask[..|s| - 1]);
    }
  }

  lemma SelectAppend<T>(s: seq<T>, mask: seq<bool>, x: T, b: bool)
    requires |s| == |mask|
    ensures Select(s + [x], mask + [b]) == Select(s, mask) + (if b then [x] else [])
  {
    assert (s + [x])[..|s|] == s;
    assert (mask + [b])[..|s|] == mask;
  }

  /** Extending a prefix of both sequences by one entry. */
  lemma SelectNext<T>(s: seq<T>, mask: seq<bool>, k: int)
    requires |s| == |mask| && 0 <= k < |s|
    ensures Select(s[..k + 1], mask[..k + 1]) == Select(s[..k], mask[..k]) + (if mask[k] then [s[k]] else [])
  {
    TakeNext(s, k);
    TakeNext(mask, k);
    SelectAppend(s[..k], mask[..k], s[k], mask[k]);
  }

  /** The mask that keeps every entry of s that is not the removal marker -1. */
  function NotRemoved(s: seq<int>): (m: seq<bool>)
    ensures |m| == |s|
    ensures forall i :: 0 <= i < |s| ==> (m[i] <==> s[i] != -1)
  {
    seq(|s|, i requires 0 <= i < |s| => s[i] != -1)
  }

  /** Removing the -1 markers of an index array, keeping the order of the rest. */
  function Compact(s: seq<int>): seq<int>
  {
    Select(s, NotRemoved(s))
  }

  /** The ascending positions whose flag is set. */
  function IndicesWhere(flags: seq<bool>): (r: seq<int>)
    ensures |r| == CountTrue(flags)
  {
    Select(Range(|flags|), flags)
  }

  /** The entries of s at the listed indices, in list order (numpy's s[idx]). */
  function Pick<T>(s: seq<T>, idx: seq<int>): (r: seq<T>)
    requires AllIndices(idx, |s|)
    ensures |r| == |idx|
    ensures forall i {:trigger r[i]} :: 0 <= i < |idx| ==> r[i] == s[idx[i]]
  {
    seq(|idx|, i requires 0 <= i < |idx| => s[idx[i]])
  }

  /** 0, 1, ..., n-1 (numpy's arange). */
  function Range(n: nat): (r: seq<int>)
    ensures |r| == n
    ensures forall i :: 0 <= i < n ==> r[i] == i
  {
    seq(n, i => i)
  }

  lemma IndicesWhereSpec(flags: seq<bool>)
    ensures StrictlyIncreasing(IndicesWhere(flags))
    ensures AllIndices(IndicesWhere(flags), |flags|)
    ensures forall i :: 0 <= i < |flags| ==> (i in IndicesWhere(flags) <==> flags[i])
  {
    SelectIncreasing(Range(|flags|), flags);
    forall x
      ensures x in IndicesWhere(flags) <==> 0 <= x < |flags| && flags[x]
    {
      SelectMembership(Range(|flags|), flags, x);
    }
    var r := IndicesWhere(flags);
    forall k | 0 <= k < |r|
      ensures 0 <= r[k] < |flags|
    {
      assert r[k] in r;
    }
  }

  /**
   * Compacting an array in which the entries to drop were overwritten by -1
   * keeps exactly the entries the mask keeps, in order.
   */
  lemma {:induction false} CompactMarked(s0: seq<int>, s: seq<int>, keep: seq<bool>)
    requires |s0| == |s| == |keep|
    requires forall i :: 0 <= i < |s0| ==> s0[i] != -1
    requires forall i :: 0 <= i < |s| ==> s[i] == (if keep[i] then s0[i] else -1)
    ensures Compact(s) == Select(s0, keep)
  {
    if |s| > 0 {
      var n := |s| - 1;
      CompactMarked(s0[..n], s[..n], keep[..n]);
      assert NotRemoved(s)[..n] == NotRemoved(s[..n]);
    }
  }

  lemma {:induction false} CountEqConcat(a: seq<int>, b: seq<int>, v: int)
    ensures CountEq(a + b, v) == CountEq(a, v) + CountEq(b, v)
  {
    if |b| > 0 {
      var n := |b| - 1;
      CountEqConcat(a, b[..n], v);
      assert (a + b)[..|a + b| - 1] == a + b[..n];
    } else {
      assert a + b == a;
    }
  }

  lemma {:induction false} CountEqPresent(s: seq<int>, v: int)
    requires v in s
    ensures CountEq(s, v) > 0
  {
    var n := |s| - 1;
    if s[n] != v {
      assert v in s[..n];
      CountEqPresent(s[..n], v);
    }
  }

  lemma {:induction false} CountTrueConcat(a: seq<bool>, b: seq<bool>)
    ensures CountTrue(a + b) == CountTrue(a) + CountTrue(b)
  {
    if |b| > 0 {
      var n := |b| - 1;
      CountTrueConcat(a, b[..n]);
      assert (a + b)[..|a + b| - 1] == a + b[..n];
    } else {
      assert a + b == a;
    }
  }

  lemma {:induction false} CountTruePositive(m: seq<bool>, k: int)
    requires 0 <= k < |m| && m[k]
    ensures CountTrue(m) > 0
  {
    var n := |m| - 1;
    if k < n {
      CountTruePositive(m[..n], k);
    }
  }

  /** The -1 entries and the kept entries of an array add up to its length. */
  lemma {:induction false} NotRemovedCount(s: seq<int>)
    ensures CountTrue(NotRemoved(s)) + CountEq(s, -1) == |s|
  {
    if |s| > 0 {
      var n := |s| - 1;
      NotRemovedCount(s[..n]);
      assert NotRemoved(s)[..n] == NotRemoved(s[..n]);
    }
  }

  lemma {:induction false} CountEqZero(s: seq<int>, v: int)
    requires CountEq(s, v) == 0
    ensures forall i :: 0 <= i < |s| ==> s[i] != v
  {
    if |s| > 0 {
      CountEqZero(s[..|s| - 1], v);
      assert forall i :: 0 <= i < |s| - 1 ==> s[i] == s[..|s| - 1][i];
    }
  }

  // ---------------------------------------------------------------------
  // Histograms

  /**
   * The "count[key[i]]++" loops: every key adds one to its own bin and the
   * other bins keep their value.
   */
  method Tally(h: seq<int>, keys: seq<int>) returns (h': seq<int>)
    requires AllIndices(keys, |h|)
    ensures |h'| == |h|
    ensures forall s :: 0 <= s < |h| ==> h'[s] == h[s] + CountEq(keys, s)
  {
    h' := h;
    var i := 0;
    while i < |keys|
      invariant 0 <= i <= |keys| && |h'| == |h|
      invariant forall s :: 0 <= s < |h| ==> h'[s] == h[s] + CountEq(keys[..i], s)
    {
      assert keys[..i + 1] == keys[..i] + [keys[i]];
      forall s | 0 <= s < |h|
        ensures CountEq(keys[..i + 1], s) == CountEq(keys[..i], s) + (if keys[i] == s then 1 else 0)
      {
        CountEqAppend(keys[..i], keys[i], s);
      }
      h' := h'[keys[i] := h'[keys[i]] + 1];
      i := i + 1;
    }
    assert keys[..|keys|] == keys;
  }

  /** Adding one to a single entry adds one to the sum. */
  lemma {:induction false} SumIncrement(s: seq<int>, k: int)
    requires 0 <= k < |s|
    ensures Sum(s[k := s[k] + 1]) == Sum(s) + 1
  {
    var n := |s| - 1;
    if k < n {
      SumIncrement(s[..n], k);
      assert s[k := s[k] + 1][..n] == s[..n][k := s[..n][k] + 1];
    } else {
      assert s[k := s[k] + 1][..n] == s[..n];
    }
  }

  /**
   * A histogram holding exactly the counts of its keys totals the number of
   * keys.
   */
  lemma HistogramTotal(h: seq<int>, keys: seq<int>)
    requires AllIndices(keys, |h|)
    requires forall s :: 0 <= s < |h| ==> h[s] == CountEq(keys, s)
    ensures Sum(h) == |keys|
  {
    var zeros := seq(|h|, s => 0);
    SumZeros(|h|);
    TallySum(zeros, keys, h);
  }

  lemma {:induction false} SumZeros(n: nat)
    ensures Sum(seq(n, s => 0)) == 0
  {
    if n > 0 {
      SumZeros(n - 1);
      assert seq(n, s => 0)[..n - 1] == seq(n - 1, s => 0);
    }
  }

  /** A tally adds exactly one count per key to the histogram's total. */
  lemma {:induction false} TallySum(h: seq<int>, keys: seq<int>, h': seq<int>)
    requires AllIndices(keys, |h|) && |h'| == |h|
    requires forall s :: 0 <= s < |h| ==> h'[s] == h[s] + CountEq(keys, s)
    ensures Sum(h') == Sum(h) + |keys|
  {
    if |keys| == 0 {
      assert h' == h;
    } else {
      var n := |keys| - 1;
      var x := keys[n];
      var mid := seq(|h|, s requires 0 <= s < |h| => h[s] + CountEq(keys[..n], s));
      TallySum(h, keys[..n], mid);
      assert keys == keys[..n] + [x];
      forall s | 0 <= s < |h|
        ensures h'[s] == mid[x := mid[x] + 1][s]
      {
        CountEqAppend(keys[..n], x, s);
      }
      assert h' == mid[x := mid[x] + 1];
      SumIncrement(mid, x);
    }
  }

  // ---------------------------------------------------------------------
  // First appearance

  /** The values of an array, each once, in order of first appearance. */
  function FirstAppearance(ids: seq<int>): (r: seq<int>)
    ensures Distinct(r) && |r| <= |ids|
    ensures forall x :: x in r <==> x in ids
  {
    if |ids| == 0 then []
    else
      var n := |ids| - 1;
      var p := FirstAppearance(ids[..n]);
      assert ids == ids[..n] + [ids[n]];
      if ids[n] in p then p else p + [ids[n]]
  }

  /** The first appearances of a prefix are a prefix of the first appearances. */
  lemma {:induction false} FirstAppearancePrefix(ids: seq<int>, j: int)
    requires 0 <= j <= |ids|
    ensures FirstAppearance(ids[..j]) <= FirstAppearance(ids)
    decreases |ids|
  {
    if j < |ids| {
      var n := |ids| - 1;
      FirstAppearancePrefix(ids[..n], j);
      assert ids[..n][..j] == ids[..j];
    } else {
      assert ids[..j] == ids;
    }
  }

  /** The first appearances grow by the entry exactly when it is new. */
  lemma FirstAppearanceStep(ids: seq<int>, i: int)
    requires 0 <= i < |ids|
    ensures FirstAppearance(ids[..i + 1])
         == FirstAppearance(ids[..i]) + (if ids[i] in ids[..i] then [] else [ids[i]])
  {
    assert ids[..i + 1][..i] == ids[..i];
  }

  /** The mapper sends each value seen so far to its place in the order of first appearance. */
  ghost predicate MapsOrder(mapper: map<int, int>, order: seq<int>)
  {
    && (forall x :: x in mapper <==> x in order)
    && (forall x :: x in mapper ==> 0 <= mapper[x] < |order| && order[mapper[x]] == x)
  }

  lemma MapsOrderExtend(mapper: map<int, int>, order: seq<int>, c: int)
    requires MapsOrder(mapper, order) && c !in order
    ensures MapsOrder(mapper[c := |order|], order + [c])
  {
    var m', o' := mapper[c := |order|], order + [c];
    forall x | x in m'
      ensures 0 <= m'[x] < |o'| && o'[m'[x]] == x
    {
      if x != c {
        assert o'[mapper[x]] == order[mapper[x]];
      }
    }
  }

  // ---------------------------------------------------------------------
  // Decimal text

  /** The character of a decimal digit. */
  function Digit(d: int): (c: char)
    requires 0 <= d < 10
    ensures '0' <= c <= '9'
  {
    (48 + d) as char
  }

  /** %d of a non-negative number. */
  function Decimal(n: nat): (r: string)
    ensures |r| > 0 && forall k :: 0 <= k < |r| ==> '0' <= r[k] <= '9'
  {
    if n < 10 then [Digit(n)] else Decimal(n / 10) + [Digit(n % 10)]
  }

  /** Different numbers print differently. */
  lemma {:induction false} DecimalInjective(a: nat, b: nat)
    requires Decimal(a) == Decimal(b)
    ensures a == b
  {
    assert a >= 10 ==> |Decimal(a)| >= 2;
    assert b >= 10 ==> |Decimal(b)| >= 2;
    if a >= 10 && b >= 10 {
      var da, db := Decimal(a), Decimal(b);
      assert da[|da| - 1] == db[|db| - 1];
      assert da[..|da| - 1] == Decimal(a / 10) && db[..|db| - 1] == Decimal(b / 10);
      DecimalInjective(a / 10, b / 10);
    }
  }
}

=== FILE: defects_acna.dfy ===
/*
 * refineDefectsUsingAcna and checkVacancyACNARecursive
 * (atoman/filtering/filters/defects.c): an interstitial whose adaptive
 * common neighbour analysis (ACNA) value is the ideal structure type is in
 * fact a lattice atom that moved off its site. Each such interstitial is
 * paired with a vacancy within twice the vacancy radius, giving way to
 * vacancies it is nearer to, and both leave the defect lists.
 *
 * As for split interstitials, the neighbour lists come from the spatial
 * decomposition and qsort of the source; they are inputs here,
 * characterised by IsNeighbourList.
 */
module AcnaRefinement {
  import opened Base
  import opened Vectors
  import opened Neighbours

  /** C's (int) conversion of a double: truncation toward zero. */
  function Trunc(x: real): (r: int)
    ensures x >= 0.0 ==> r as real <= x < r as real + 1.0
    ensures x < 0.0 ==> r as real - 1.0 < x <= r as real
    ensures r == 0 <==> -1.0 < x < 1.0
  {
    if x >= 0.0 then x.Floor else -((-x).Floor)
  }

  /** Interstitials whose ACNA value, truncated, is the ideal structure type. */
  function AcnaMask(ints: seq<int>, acna: seq<real>, structureType: int): (m: seq<bool>)
    requires AllIndices(ints, |acna|)
    ensures |m| == |ints|
    ensures forall i :: 0 <= i < |ints| ==> (m[i] <==> Trunc(acna[ints[i]]) == structureType)
  {
    seq(|ints|, i requires 0 <= i < |ints| => Trunc(acna[ints[i]]) == structureType)
  }

  /**
   * The fixed inputs of the recursion: the vacancy and interstitial arrays
   * on entry, the positions in the interstitial array of the ACNA-ideal
   * ones, each vacancy's list of ACNA interstitials (indices into acnaInts)
   * and each ACNA interstitial's list of vacancies, nearest first.
   */
  datatype AcnaInput = AcnaInput(vacs0: seq<int>, ints0: seq<int>, acnaInts: seq<int>,
                                 vacNebs: seq<seq<int>>, intNebs: seq<seq<int>>)
  {
    predicate Valid()
    {
      (forall v :: 0 <= v < |vacs0| ==> vacs0[v] != -1)
      && (forall i :: 0 <= i < |ints0| ==> ints0[i] != -1)
      && AllIndices(acnaInts, |ints0|) && StrictlyIncreasing(acnaInts)
      && |vacNebs| == |vacs0| && |intNebs| == |acnaInts|
      && (forall v :: 0 <= v < |vacNebs| ==> AllIndices(vacNebs[v], |acnaInts|))
      && (forall n :: 0 <= n < |intNebs| ==> AllIndices(intNebs[n], |vacs0|))
    }
  }

  /**
   * The state the recursion threads through: both arrays with -1 marking a
   * removed entry, the checked-vacancy and taken-interstitial masks, the
   * number of pairs made, and for every vacancy the ACNA interstitial it
   * was paired with (-1 for none).
   */
  datatype AcnaState = AcnaState(vacs: seq<int>, ints: seq<int>, vacMask: seq<bool>, intMask: seq<bool>,
                                 partner: seq<int>, numChanges: int)

  /** What a pairing records for vacancy v. */
  ghost predicate PartnerOk(st: AcnaState, inp: AcnaInput, v: int)
    requires inp.Valid() && 0 <= v < |inp.vacs0|
    requires |st.vacs| == |st.vacMask| == |st.partner| == |inp.vacs0| && |st.intMask| == |inp.acnaInts|
  {
    var n := st.partner[v];
    (n == -1 ==> st.vacs[v] == inp.vacs0[v])
    && (n != -1 ==>
          st.vacs[v] == -1 && st.vacMask[v] && 0 <= n < |inp.acnaInts| && st.intMask[n]
          && n in inp.vacNebs[v] && v in inp.intNebs[n])
  }

  /** No interstitial is the partner of two vacancies. */
  predicate Injective(partner: seq<int>)
  {
    forall v1, v2 :: 0 <= v1 < |partner| && 0 <= v2 < |partner| && v1 != v2 && partner[v1] != -1 ==> partner[v1] != partner[v2]
  }

  /** The invariant of the recursion. */
  ghost predicate Consistent(st: AcnaState, inp: AcnaInput)
    requires inp.Valid()
  {
    |st.vacs| == |st.vacMask| == |st.partner| == |inp.vacs0|
    && |st.ints| == |inp.ints0| && |st.intMask| == |inp.acnaInts|
    && (forall v :: 0 <= v < |inp.vacs0| ==> PartnerOk(st, inp, v))
    && (forall n :: 0 <= n < |inp.acnaInts| ==> (st.intMask[n] <==> st.ints[inp.acnaInts[n]] == -1))
    && (forall i :: 0 <= i < |st.ints| ==> st.ints[i] == inp.ints0[i] || (st.ints[i] == -1 && i in inp.acnaInts))
    && Injective(st.partner)
    && (forall n :: 0 <= n < |st.intMask| && st.intMask[n] ==> n in st.partner)
    && st.numChanges == CountEq(st.vacs, -1) && st.numChanges == CountEq(st.ints, -1)
    && st.numChanges == CountTrue(st.intMask)
  }

  /** Masks only grow from st to st'. */
  predicate Grows(st: AcnaState, st': AcnaState)
  {
    |st'.vacMask| == |st.vacMask| && |st'.intMask| == |st.intMask|
    && (forall v :: 0 <= v < |st.vacMask| && st.vacMask[v] ==> st'.vacMask[v])
    && (forall n :: 0 <= n < |st.intMask| && st.intMask[n] ==> st'.intMask[n])
  }

  /** Vacancies already checked in st keep their entry and partner in st'. */
  predicate CheckedFrozen(st: AcnaState, st': AcnaState)
    requires |st'.vacs| == |st.vacs| == |st.vacMask| == |st.partner| == |st'.partner|
  {
    forall u :: 0 <= u < |st.vacMask| && st.vacMask[u] ==> st'.vacs[u] == st.vacs[u] && st'.partner[u] == st.partner[u]
  }

  /** Number of vacancies not yet checked. */
  function Unchecked(st: AcnaState): nat
  {
    |st.vacMask| - CountTrue(st.vacMask)
  }

  /** Every ACNA interstitial that is a mutual neighbour of vacancy v is taken. */
  ghost predicate Blocked(st: AcnaState, inp: AcnaInput, v: int)
    requires inp.Valid() && 0 <= v < |inp.vacs0| && |st.intMask| == |inp.acnaInts|
  {
    forall n :: 0 <= n < |inp.acnaInts| && n in inp.vacNebs[v] && v in inp.intNebs[n] ==> st.intMask[n]
  }

  /**
   * A finished check of vacancy v: it was paired with the first interstitial
   * of its list it could take, or every interstitial it could take is taken.
   */
  ghost predicate Done(st: AcnaState, inp: AcnaInput, v: int)
    requires inp.Valid() && Consistent(st, inp) && 0 <= v < |inp.vacs0|
  {
    if st.partner[v] != -1 then TookNearest(st, inp, v) else Blocked(st, inp, v)
  }

  /** Every vacancy checked between st and s, except v (whose check is still running), is done in s. */
  ghost predicate DoneSince(st: AcnaState, s: AcnaState, inp: AcnaInput, v: int)
    requires inp.Valid() && Consistent(st, inp) && Consistent(s, inp)
  {
    forall u :: 0 <= u < |inp.vacs0| && u != v && !st.vacMask[u] && s.vacMask[u] ==> Done(s, inp, u)
  }

  /** Every checked vacancy is done. */
  ghost predicate AllDone(st: AcnaState, inp: AcnaInput)
    requires inp.Valid() && Consistent(st, inp)
  {
    forall u :: 0 <= u < |inp.vacs0| && st.vacMask[u] ==> Done(st, inp, u)
  }

  /** A finished check stays finished while the masks grow and its partner stays. */
  lemma DoneKept(s: AcnaState, s': AcnaState, inp: AcnaInput, u: int)
    requires inp.Valid() && Consistent(s, inp) && Consistent(s', inp) && 0 <= u < |inp.vacs0|
    requires Grows(s, s') && s'.partner[u] == s.partner[u] && Done(s, inp, u)
    ensures Done(s', inp, u)
  {
    if s.partner[u] != -1 {
      var k :| 0 <= k < |inp.vacNebs[u]| && inp.vacNebs[u][k] == s.partner[u] && Tried(s, inp, u, k);
      assert Tried(s', inp, u, k);
    }
  }

  /** The vacancies finished before s and those finished by a check from s on are all finished in s'. */
  lemma DoneSinceStep(st: AcnaState, s: AcnaState, s': AcnaState, inp: AcnaInput, v: int)
    requires inp.Valid() && Consistent(st, inp) && Consistent(s, inp) && Consistent(s', inp)
    requires Grows(s, s') && CheckedFrozen(s, s')
    requires DoneSince(st, s, inp, v) && DoneSince(s, s', inp, -1)
    ensures DoneSince(st, s', inp, v)
  {
    forall u | 0 <= u < |inp.vacs0| && u != v && !st.vacMask[u] && s'.vacMask[u]
      ensures Done(s', inp, u)
    {
      if s.vacMask[u] {
        DoneKept(s, s', inp, u);
      }
    }
  }

  lemma GrowsTrans(a: AcnaState, b: AcnaState, c: AcnaState)
    requires Grows(a, b) && Grows(b, c)
    ensures Grows(a, c)
  {
  }

  lemma GrowsUnchecked(st: AcnaState, st': AcnaState)
    requires Grows(st, st')
    ensures Unchecked(st') <= Unchecked(st)
  {
    CountTrueMonotone(st.vacMask, st'.vacMask);
  }

  /** Vacancy v takes ACNA interstitial n: both are marked removed. */
  function Pair(st: AcnaState, inp: AcnaInput, v: int, n: int): (st': AcnaState)
    requires inp.Valid() && Consistent(st, inp)
    requires 0 <= v < |inp.vacs0| && 0 <= n < |inp.acnaInts|
    requires st.vacMask[v] && st.partner[v] == -1 && !st.intMask[n]
    requires n in inp.vacNebs[v] && v in inp.intNebs[n]
    ensures Consistent(st', inp) && Grows(st, st') && st'.vacMask == st.vacMask
    ensures st'.partner == st.partner[v := n] && st'.numChanges == st.numChanges + 1
  {
    var i := inp.acnaInts[n];
    assert st.vacs[v] != -1 by { assert PartnerOk(st, inp, v); }
    assert st.ints[i] != -1;
    CountEqSet(st.vacs, v, -1);
    CountEqSet(st.ints, i, -1);
    CountTrueSet(st.intMask, n);
    var st' := AcnaState(st.vacs[v := -1], st.ints[i := -1], st.vacMask, st.intMask[n := true],
                         st.partner[v := n], st.numChanges + 1);
    PairKeepsPartners(st, st', inp, v, n);
    PairKeepsInts(st, st', inp, n);
    st'
  }

  lemma PairKeepsPartners(st: AcnaState, st': AcnaState, inp: AcnaInput, v: int, n: int)
    requires inp.Valid() && Consistent(st, inp)
    requires 0 <= v < |inp.vacs0| && 0 <= n < |inp.acnaInts|
    requires st.vacMask[v] && st.partner[v] == -1 && !st.intMask[n]
    requires n in inp.vacNebs[v] && v in inp.intNebs[n]
    requires st'.vacs == st.vacs[v := -1] && st'.vacMask == st.vacMask && st'.intMask == st.intMask[n := true]
    requires st'.partner == st.partner[v := n]
    ensures forall u :: 0 <= u < |inp.vacs0| ==> PartnerOk(st', inp, u)
    ensures Injective(st'.partner)
    ensures forall k :: 0 <= k < |st'.intMask| && st'.intMask[k] ==> k in st'.partner
  {
    forall k | 0 <= k < |st'.intMask| && st'.intMask[k]
      ensures k in st'.partner
    {
      if k == n {
        assert st'.partner[v] == n;
      } else {
        var u :| 0 <= u < |st.partner| && st.partner[u] == k;
        assert st'.partner[u] == k;
      }
    }
    forall u | 0 <= u < |inp.vacs0|
      ensures PartnerOk(st', inp, u)
    {
      assert PartnerOk(st, inp, u);
    }
    forall v1, v2 | 0 <= v1 < |st'.partner| && 0 <= v2 < |st'.partner| && v1 != v2 && st'.partner[v1] != -1
      ensures st'.partner[v1] != st'.partner[v2]
    {
      assert PartnerOk(st, inp, v1);
      assert PartnerOk(st, inp, v2);
    }
  }

  lemma PairKeepsInts(st: AcnaState, st': AcnaState, inp: AcnaInput, n: int)
    requires inp.Valid() && Consistent(st, inp) && 0 <= n < |inp.acnaInts|
    requires st'.ints == st.ints[inp.acnaInts[n] := -1] && st'.intMask == st.intMask[n := true]
    ensures forall k :: 0 <= k < |inp.acnaInts| ==> (st'.intMask[k] <==> st'.ints[inp.acnaInts[k]] == -1)
    ensures forall i :: 0 <= i < |st'.ints| ==> st'.ints[i] == inp.ints0[i] || (st'.ints[i] == -1 && i in inp.acnaInts)
  {
    forall k | 0 <= k < |inp.acnaInts|
      ensures st'.intMask[k] <==> st'.ints[inp.acnaInts[k]] == -1
    {
      if k != n {
        assert inp.acnaInts[k] != inp.acnaInts[n] by {
          if k < n { assert inp.acnaInts[k] < inp.acnaInts[n]; } else { assert inp.acnaInts[n] < inp.acnaInts[k]; }
        }
      }
    }
  }

  /** Marking an unchecked vacancy as checked keeps the state consistent and leaves one fewer to check. */
  lemma MarkChecked(st: AcnaState, inp: AcnaInput, v: int)
    requires inp.Valid() && Consistent(st, inp) && 0 <= v < |inp.vacs0| && !st.vacMask[v]
    ensures var s := st.(vacMask := st.vacMask[v := true]);
            && Consistent(s, inp) && Grows(st, s) && s.partner[v] == -1
            && CheckedFrozen(st, s) && Unchecked(s) < Unchecked(st)
  {
    var s := st.(vacMask := st.vacMask[v := true]);
    assert PartnerOk(st, inp, v);
    CountTrueSet(st.vacMask, v);
    forall u | 0 <= u < |inp.vacs0|
      ensures PartnerOk(s, inp, u)
    {
      assert PartnerOk(st, inp, u);
    }
  }

  /**
   * checkVacancyACNARecursive. Vacancy v is checked once. For each ACNA
   * interstitial of its list, nearest first, that is still free, the
   * interstitial's own vacancies are walked nearest first: a vacancy other
   * than v that comes earlier is checked first (recursively), and v takes
   * the interstitial if it is reached while the interstitial is still free.
   * Only vacancies unchecked on entry change, v ends up checked, and every
   * vacancy this call checked, v included, is done: paired, or left with
   * every mutual-neighbour ACNA interstitial taken.
   */
  method CheckVacancy(v: int, st: AcnaState, inp: AcnaInput) returns (st': AcnaState)
    requires inp.Valid() && Consistent(st, inp) && 0 <= v < |inp.vacs0|
    ensures Consistent(st', inp) && Grows(st, st') && st'.vacMask[v]
    ensures CheckedFrozen(st, st')
    ensures DoneSince(st, st', inp, -1)
    ensures !st.vacMask[v] ==> Done(st', inp, v)
    ensures !st.vacMask[v] && st'.partner[v] != -1 ==> TookNearest(st', inp, v)
    decreases Unchecked(st), 1
  {
    if st.vacMask[v] {
      return st;
    }
    var s := st.(vacMask := st.vacMask[v := true]);
    MarkChecked(st, inp, v);
    var l := inp.vacNebs[v];
    var found := false;
    var nebIndex := -1;
    var at := -1;
    var i := 0;
    while !found && i < |l|
      invariant 0 <= i <= |l|
      invariant Scanning(st, s, inp, v)
      invariant found ==> 0 <= nebIndex < |inp.acnaInts| && !s.intMask[nebIndex]
      invariant found ==> nebIndex in l && v in inp.intNebs[nebIndex]
      invariant found ==> 0 <= at < |l| && l[at] == nebIndex && Tried(s, inp, v, at)
      invariant !found ==> Tried(s, inp, v, i)
    {
      assert 0 <= l[i] < |inp.acnaInts|;
      var s' := s;
      s', found := ScanInterstitial(v, l[i], st, s, inp);
      TriedGrows(s, s', inp, v, i);
      s := s';
      if found {
        nebIndex := l[i];
        at := i;
      }
      i := i + 1;
    }
    st' := CheckVacancyEnd(st, s, inp, v, found, nebIndex, at);
  }

  /** The first i interstitials of vacancy v's list are each taken or not a mutual neighbour. */
  ghost predicate Tried(s: AcnaState, inp: AcnaInput, v: int, i: int)
    requires inp.Valid() && Consistent(s, inp) && 0 <= v < |inp.vacs0| && 0 <= i <= |inp.vacNebs[v]|
  {
    forall k :: 0 <= k < i ==> s.intMask[inp.vacNebs[v][k]] || v !in inp.intNebs[inp.vacNebs[v][k]]
  }

  /** Trying the next interstitial of the list extends what has been tried; growing masks keep it. */
  lemma TriedGrows(s: AcnaState, s': AcnaState, inp: AcnaInput, v: int, i: int)
    requires inp.Valid() && Consistent(s, inp) && Consistent(s', inp) && 0 <= v < |inp.vacs0| && 0 <= i < |inp.vacNebs[v]|
    requires Grows(s, s') && Tried(s, inp, v, i)
    ensures Tried(s', inp, v, i)
    ensures s'.intMask[inp.vacNebs[v][i]] || v !in inp.intNebs[inp.vacNebs[v][i]] ==> Tried(s', inp, v, i + 1)
  {
  }

  /**
   * Vacancy v's partner is the first interstitial of its list, nearest
   * first, that it could still take: every one before it is taken or does
   * not list v.
   */
  ghost predicate TookNearest(st: AcnaState, inp: AcnaInput, v: int)
    requires inp.Valid() && Consistent(st, inp) && 0 <= v < |inp.vacs0|
  {
    exists k :: 0 <= k < |inp.vacNebs[v]| && inp.vacNebs[v][k] == st.partner[v] && Tried(st, inp, v, k)
  }

  /** The end of checkVacancy: v takes the interstitial found, if any. */
  method CheckVacancyEnd(st: AcnaState, s: AcnaState, inp: AcnaInput, v: int, found: bool, nebIndex: int, at: int)
    returns (st': AcnaState)
    requires inp.Valid() && Consistent(st, inp) && 0 <= v < |inp.vacs0| && !st.vacMask[v]
    requires Consistent(s, inp) && Grows(st, s) && s.vacMask[v] && s.partner[v] == -1
    requires CheckedFrozen(st, s) && DoneSince(st, s, inp, v)
    requires found ==> 0 <= nebIndex < |inp.acnaInts| && !s.intMask[nebIndex]
    requires found ==> nebIndex in inp.vacNebs[v] && v in inp.intNebs[nebIndex]
    requires found ==> 0 <= at < |inp.vacNebs[v]| && inp.vacNebs[v][at] == nebIndex && Tried(s, inp, v, at)
    requires !found ==> Tried(s, inp, v, |inp.vacNebs[v]|)
    ensures Consistent(st', inp) && Grows(st, st') && st'.vacMask[v]
    ensures CheckedFrozen(st, st')
    ensures DoneSince(st, st', inp, -1)
    ensures Done(st', inp, v)
    ensures st'.partner[v] != -1 ==> TookNearest(st', inp, v)
  {
    if found {
      st' := Pair(s, inp, v, nebIndex);
      assert Tried(st', inp, v, at);
      forall u | 0 <= u < |inp.vacs0| && u != v && !st.vacMask[u] && st'.vacMask[u]
        ensures Done(st', inp, u)
      {
        DoneKept(s, st', inp, u);
      }
    } else {
      st' := s;
      forall n | 0 <= n < |inp.acnaInts| && n in inp.vacNebs[v] && v in inp.intNebs[n]
        ensures s.intMask[n]
      {
        var k :| 0 <= k < |inp.vacNebs[v]| && inp.vacNebs[v][k] == n;
      }
    }
  }

  /**
   * The state while vacancy v, unchecked in st, is being checked: v is
   * marked checked and not yet paired, vacancies checked before are
   * untouched, and the vacancies checked since, other than v, are done.
   */
  ghost predicate Scanning(st: AcnaState, s: AcnaState, inp: AcnaInput, v: int)
    requires inp.Valid() && Consistent(st, inp) && 0 <= v < |inp.vacs0|
  {
    Consistent(s, inp) && Grows(st, s) && s.vacMask[v] && s.partner[v] == -1
    && CheckedFrozen(st, s) && Unchecked(s) < Unchecked(st) && DoneSince(st, s, inp, v)
  }

  /**
   * The inner loop of checkVacancy for neighbour n of vacancy v: while n is
   * still free, each other vacancy near n is checked first; n is found for v
   * when v is reached with n still free. When n is not found, it has been
   * taken or v is not among its vacancies.
   */
  method ScanInterstitial(v: int, n: int, st: AcnaState, s0: AcnaState, inp: AcnaInput) returns (s: AcnaState, found: bool)
    requires inp.Valid() && 0 <= v < |inp.vacs0| && 0 <= n < |inp.acnaInts| && Consistent(st, inp)
    requires Scanning(st, s0, inp, v)
    ensures Scanning(st, s, inp, v) && Grows(s0, s)
    ensures found ==> 0 <= n < |inp.acnaInts| && !s.intMask[n] && v in inp.intNebs[n]
    ensures !found ==> s.intMask[n] || v !in inp.intNebs[n]
    decreases Unchecked(st), 0
  {
    s := s0;
    found := false;
    var il := inp.intNebs[n];
    var j := 0;
    while !s.intMask[n] && !found && j < |il|
      invariant 0 <= j <= |il|
      invariant Scanning(st, s, inp, v) && Grows(s0, s)
      invariant found ==> !s.intMask[n] && v in il
      invariant !found ==> v !in il[..j]
    {
      var w := il[j];
      assert il[..j + 1] == il[..j] + [w];
      if w != v {
        var s' := CheckFirst(v, w, st, s, inp);
        GrowsTrans(s0, s, s');
        s := s';
      } else {
        found := true;
      }
      j := j + 1;
    }
  }

  /** A vacancy w nearer the interstitial than v is checked first, recursively. */
  method CheckFirst(v: int, w: int, st: AcnaState, s: AcnaState, inp: AcnaInput) returns (s': AcnaState)
    requires inp.Valid() && 0 <= v < |inp.vacs0| && 0 <= w < |inp.vacs0| && Consistent(st, inp)
    requires Scanning(st, s, inp, v)
    ensures Scanning(st, s', inp, v) && Grows(s, s')
    decreases Unchecked(s), 2
  {
    s' := CheckVacancy(w, s, inp);
    GrowsUnchecked(s, s');
    DoneSinceStep(st, s, s', inp, v);
  }

  /** The squared cut-off of both neighbour searches: twice the vacancy radius. */
  function AcnaSep2(vacancyRadius: real): (r: real)
    ensures r >= 0.0
  {
    var maxSep := 2.0 * vacancyRadius;
    SquareNonNegative(maxSep);
    maxSep * maxSep
  }

  /** Positions in the interstitial array of the ACNA-ideal interstitials (acnaInts). */
  function AcnaInts(ints: seq<int>, acna: seq<real>, structureType: int): (r: seq<int>)
    requires AllIndices(ints, |acna|)
    ensures StrictlyIncreasing(r) && AllIndices(r, |ints|)
    ensures forall i :: 0 <= i < |ints| ==> (i in r <==> Trunc(acna[ints[i]]) == structureType)
  {
    IndicesWhereSpec(AcnaMask(ints, acna, structureType));
    IndicesWhere(AcnaMask(ints, acna, structureType))
  }

  /**
   * The neighbour lists refineDefectsUsingAcna builds: for every vacancy,
   * the ACNA interstitials within the cut-off, and for every ACNA
   * interstitial, the vacancies within it, nearest first.
   */
  ghost predicate AcnaListsOk(vacNebs: seq<seq<int>>, intNebs: seq<seq<int>>, vacs: seq<int>, ints: seq<int>, acnaInts: seq<int>,
                              pos: seq<Vec3>, refPos: seq<Vec3>, c: Cell, vacancyRadius: real)
    requires AllIndices(vacs, |refPos|) && AllIndices(ints, |pos|) && AllIndices(acnaInts, |ints|) && WellFormed(c)
  {
    var vp := Pick(refPos, vacs);
    var ip := Pick(pos, Pick(ints, acnaInts));
    |vacNebs| == |vacs| && |intNebs| == |acnaInts|
    && (forall v :: 0 <= v < |vacs| ==> IsNeighbourList(vacNebs[v], vp[v], ip, AcnaSep2(vacancyRadius), c))
    && (forall n :: 0 <= n < |acnaInts| ==> IsNeighbourList(intNebs[n], ip[n], vp, AcnaSep2(vacancyRadius), c))
  }

  /** The lists the whole-configuration scan produces qualify. */
  lemma AcnaListsQualify(vacs: seq<int>, ints: seq<int>, acnaInts: seq<int>, pos: seq<Vec3>, refPos: seq<Vec3>, c: Cell,
                         vacancyRadius: real)
    requires AllIndices(vacs, |refPos|) && AllIndices(ints, |pos|) && AllIndices(acnaInts, |ints|) && WellFormed(c)
    ensures var vp := Pick(refPos, vacs);
      var ip := Pick(pos, Pick(ints, acnaInts));
      AcnaListsOk(NeighbourLists(vp, ip, AcnaSep2(vacancyRadius), c), NeighbourLists(ip, vp, AcnaSep2(vacancyRadius), c),
                  vacs, ints, acnaInts, pos, refPos, c, vacancyRadius)
  {
    var vp := Pick(refPos, vacs);
    var ip := Pick(pos, Pick(ints, acnaInts));
    var m := AcnaSep2(vacancyRadius);
    forall v | 0 <= v < |vacs|
      ensures IsNeighbourList(NeighbourLists(vp, ip, m, c)[v], vp[v], ip, m, c)
    {
      NeighbourListSpec(vp[v], ip, m, c);
    }
    forall n | 0 <= n < |acnaInts|
      ensures IsNeighbourList(NeighbourLists(ip, vp, m, c)[n], ip[n], vp, m, c)
    {
      NeighbourListSpec(ip[n], vp, m, c);
    }
  }

  /** Which vacancies were not paired. */
  function Unpaired(partner: seq<int>): (m: seq<bool>)
    ensures |m| == |partner|
    ensures forall v :: 0 <= v < |partner| ==> (m[v] <==> partner[v] == -1)
  {
    seq(|partner|, v requires 0 <= v < |partner| => partner[v] == -1)
  }

  datatype AcnaResult = AcnaResult(
    vacancies: seq<int>,     // vacancies left, in their original order
    interstitials: seq<int>, // interstitials left, in their original order
    partner: seq<int>,       // per input vacancy: index into acnaInts of its interstitial, or -1
    intKeep: seq<bool>,      // per input interstitial: it is still an interstitial
    numChanges: int)

  /**
   * In the result, vacancy v's partner is the first interstitial of its
   * list, nearest first, that is still there to take: every one before it
   * was taken or does not list v among its vacancies.
   */
  ghost predicate NearestFree(r: AcnaResult, ints: seq<int>, acnaInts: seq<int>, vacNebs: seq<seq<int>>, intNebs: seq<seq<int>>, v: int)
    requires AllIndices(acnaInts, |ints|) && |r.intKeep| == |ints| && 0 <= v < |r.partner| && v < |vacNebs|
  {
    exists k :: 0 <= k < |vacNebs[v]| && vacNebs[v][k] == r.partner[v]
      && forall j :: 0 <= j < k && 0 <= vacNebs[v][j] < |acnaInts| && vacNebs[v][j] < |intNebs| ==>
           !r.intKeep[acnaInts[vacNebs[v][j]]] || v !in intNebs[vacNebs[v][j]]
  }

  /** What refineDefectsUsingAcna leaves, given the ACNA interstitials and the lists. */
  ghost predicate AcnaOutcome(r: AcnaResult, vacs: seq<int>, ints: seq<int>, acnaInts: seq<int>,
                              vacNebs: seq<seq<int>>, intNebs: seq<seq<int>>)
    requires AllIndices(acnaInts, |ints|)
  {
    |r.partner| == |vacs| && |r.intKeep| == |ints| && Injective(r.partner)
    && (forall v :: 0 <= v < |vacs| && r.partner[v] != -1 ==>
          0 <= r.partner[v] < |acnaInts| && !r.intKeep[acnaInts[r.partner[v]]]
          && v < |vacNebs| && r.partner[v] in vacNebs[v]
          && r.partner[v] < |intNebs| && v in intNebs[r.partner[v]])
    && (forall i :: 0 <= i < |ints| && !r.intKeep[i] ==> i in acnaInts)
    && (forall n :: 0 <= n < |acnaInts| && !r.intKeep[acnaInts[n]] ==> n in r.partner)
    && (forall v, n ::
          0 <= v < |vacs| && v < |vacNebs| && r.partner[v] == -1 && 0 <= n < |acnaInts| && n < |intNebs|
          && n in vacNebs[v] && v in intNebs[n]
          ==> !r.intKeep[acnaInts[n]])
    && (forall v :: 0 <= v < |vacs| && v < |vacNebs| && r.partner[v] != -1 ==> NearestFree(r, ints, acnaInts, vacNebs, intNebs, v))
    && r.vacancies == Select(vacs, Unpaired(r.partner))
    && r.interstitials == Select(ints, r.intKeep)
    && r.numChanges == |vacs| - CountTrue(Unpaired(r.partner))
    && |r.vacancies| == |vacs| - r.numChanges && |r.interstitials| == |ints| - r.numChanges
  }

  /**
   * refineDefectsUsingAcna. The stage runs only when there are vacancies
   * and ACNA-ideal interstitials; every vacancy is then checked in turn.
   * Each pair removes one vacancy and one ACNA-ideal interstitial, each
   * interstitial is removed at most once, and both arrays keep the order of
   * what is left. Every removed interstitial went to a vacancy; a paired
   * vacancy took the first interstitial of its list still there to take;
   * and no unpaired vacancy has a mutual-neighbour ACNA interstitial left,
   * so the pairing cannot be extended. The source's error returns are allocation failures, which
   * the model does not have.
   */
  method RefineUsingAcna(vacs: seq<int>, ints: seq<int>, pos: seq<Vec3>, refPos: seq<Vec3>, acna: seq<real>, structureType: int,
                         c: Cell, vacancyRadius: real, vacNebs: seq<seq<int>>, intNebs: seq<seq<int>>)
    returns (r: AcnaResult)
    requires AllIndices(vacs, |refPos|) && AllIndices(ints, |pos|) && |acna| == |pos| && WellFormed(c)
    requires AcnaListsOk(vacNebs, intNebs, vacs, ints, AcnaInts(ints, acna, structureType), pos, refPos, c, vacancyRadius)
    ensures AcnaOutcome(r, vacs, ints, AcnaInts(ints, acna, structureType), vacNebs, intNebs)
    ensures |AcnaInts(ints, acna, structureType)| == 0 || |vacs| == 0 ==> r.numChanges == 0
  {
    var acnaInts := AcnaInts(ints, acna, structureType);
    if |acnaInts| > 0 && |vacs| > 0 {
      var inp := AcnaInput(vacs, ints, acnaInts, vacNebs, intNebs);
      ListsValid(vacNebs, intNebs, vacs, ints, acnaInts, pos, refPos, c, vacancyRadius);
      var st := AcnaState(vacs, ints, seq(|vacs|, v => false), seq(|acnaInts|, n => false), seq(|vacs|, v => -1), 0);
      InitialConsistent(st, inp);
      st := CheckAll(st, inp);
      r := Finish(st, inp);
    } else {
      r := Untouched(vacs, ints);
      UntouchedOutcome(vacs, ints, acnaInts, vacNebs, intNebs);
    }
  }

  /** The result of a stage that does not run: nobody paired, every interstitial kept. */
  function Untouched(vacs: seq<int>, ints: seq<int>): AcnaResult
  {
    AcnaResult(vacs, ints, seq(|vacs|, v => -1), seq(|ints|, i => true), 0)
  }

  /** Without vacancies or ACNA-ideal interstitials, leaving everything as it was is the stage's outcome. */
  lemma UntouchedOutcome(vacs: seq<int>, ints: seq<int>, acnaInts: seq<int>, vacNebs: seq<seq<int>>, intNebs: seq<seq<int>>)
    requires AllIndices(acnaInts, |ints|) && (|acnaInts| == 0 || |vacs| == 0)
    ensures AcnaOutcome(Untouched(vacs, ints), vacs, ints, acnaInts, vacNebs, intNebs)
    ensures Untouched(vacs, ints).numChanges == 0
  {
    var r := Untouched(vacs, ints);
    SelectAll(ints, r.intKeep);
    SelectAll(vacs, Unpaired(r.partner));
    CountTrueAll(Unpaired(r.partner));
  }

  /** The loop of refineDefectsUsingAcna: every vacancy is checked in turn, and each check finishes. */
  method CheckAll(st0: AcnaState, inp: AcnaInput) returns (st: AcnaState)
    requires inp.Valid() && Consistent(st0, inp) && AllDone(st0, inp)
    ensures Consistent(st, inp) && AllDone(st, inp)
    ensures forall u :: 0 <= u < |inp.vacs0| ==> st.vacMask[u]
  {
    st := st0;
    var i := 0;
    while i < |inp.vacs0|
      invariant 0 <= i <= |inp.vacs0| && Consistent(st, inp) && AllDone(st, inp)
      invariant forall u :: 0 <= u < i ==> st.vacMask[u]
    {
      var st' := CheckVacancy(i, st, inp);
      forall u | 0 <= u < |inp.vacs0| && st'.vacMask[u]
        ensures Done(st', inp, u)
      {
        if st.vacMask[u] {
          DoneKept(st, st', inp, u);
        }
      }
      st := st';
      i := i + 1;
    }
  }

  lemma ListsValid(vacNebs: seq<seq<int>>, intNebs: seq<seq<int>>, vacs: seq<int>, ints: seq<int>, acnaInts: seq<int>,
                   pos: seq<Vec3>, refPos: seq<Vec3>, c: Cell, vacancyRadius: real)
    requires AllIndices(vacs, |refPos|) && AllIndices(ints, |pos|) && AllIndices(acnaInts, |ints|) && WellFormed(c)
    requires StrictlyIncreasing(acnaInts)
    requires AcnaListsOk(vacNebs, intNebs, vacs, ints, acnaInts, pos, refPos, c, vacancyRadius)
    ensures AcnaInput(vacs, ints, acnaInts, vacNebs, intNebs).Valid()
  {
    var vp := Pick(refPos, vacs);
    var ip := Pick(pos, Pick(ints, acnaInts));
    forall v | 0 <= v < |vacs|
      ensures AllIndices(vacNebs[v], |acnaInts|)
    {
      assert IsNeighbourList(vacNebs[v], vp[v], ip, AcnaSep2(vacancyRadius), c);
    }
    forall n | 0 <= n < |acnaInts|
      ensures AllIndices(intNebs[n], |vacs|)
    {
      assert IsNeighbourList(intNebs[n], ip[n], vp, AcnaSep2(vacancyRadius), c);
    }
  }

  lemma InitialConsistent(st: AcnaState, inp: AcnaInput)
    requires inp.Valid()
    requires st == AcnaState(inp.vacs0, inp.ints0, seq(|inp.vacs0|, v => false), seq(|inp.acnaInts|, n => false),
                             seq(|inp.vacs0|, v => -1), 0)
    ensures Consistent(st, inp)
  {
    CountTrueNone(st.intMask);
    NotRemovedCount(st.vacs);
    NotRemovedCount(st.ints);
    CountTrueAll(NotRemoved(st.vacs));
    CountTrueAll(NotRemoved(st.ints));
  }

  /** The compaction at the end of refineDefectsUsingAcna (skipped by the source when nothing changed). */
  method Finish(st: AcnaState, inp: AcnaInput) returns (r: AcnaResult)
    requires inp.Valid() && Consistent(st, inp) && AllDone(st, inp)
    requires forall u :: 0 <= u < |inp.vacs0| ==> st.vacMask[u]
    ensures AcnaOutcome(r, inp.vacs0, inp.ints0, inp.acnaInts, inp.vacNebs, inp.intNebs)
    ensures r.numChanges == st.numChanges
  {
    var keepVacs := Unpaired(st.partner);
    var keepInts := NotRemoved(st.ints);
    var vacancies := if st.numChanges > 0 then Compact(st.vacs) else inp.vacs0;
    var interstitials := if st.numChanges > 0 then Compact(st.ints) else inp.ints0;
    FinishVacancies(st, inp);
    FinishInterstitials(st, inp);
    FinishPartners(st, inp);
    FinishMaximal(st, inp);
    r := AcnaResult(vacancies, interstitials, st.partner, keepInts, st.numChanges);
    FinishNearest(st, inp, r);
  }

  /** The vacancies left are the unpaired ones, in order, one fewer per pair. */
  lemma FinishVacancies(st: AcnaState, inp: AcnaInput)
    requires inp.Valid() && Consistent(st, inp)
    ensures var keep := Unpaired(st.partner);
            var vacancies := if st.numChanges > 0 then Compact(st.vacs) else inp.vacs0;
            && vacancies == Select(inp.vacs0, keep)
            && st.numChanges == |inp.vacs0| - CountTrue(keep)
            && |vacancies| == |inp.vacs0| - st.numChanges
  {
    var keep := Unpaired(st.partner);
    forall v | 0 <= v < |st.vacs|
      ensures st.vacs[v] == (if keep[v] then inp.vacs0[v] else -1)
    {
      assert PartnerOk(st, inp, v);
    }
    assert NotRemoved(st.vacs) == keep;
    CompactMarked(inp.vacs0, st.vacs, keep);
    NotRemovedCount(st.vacs);
    if st.numChanges == 0 {
      CountEqZero(st.vacs, -1);
      CountTrueAll(keep);
      SelectAll(inp.vacs0, keep);
    }
  }

  /** The interstitials left are the ones not taken, in order, one fewer per pair; only ACNA ones are taken. */
  lemma FinishInterstitials(st: AcnaState, inp: AcnaInput)
    requires inp.Valid() && Consistent(st, inp)
    ensures var keep := NotRemoved(st.ints);
            var interstitials := if st.numChanges > 0 then Compact(st.ints) else inp.ints0;
            && |keep| == |inp.ints0|
            && interstitials == Select(inp.ints0, keep)
            && |interstitials| == |inp.ints0| - st.numChanges
            && (forall i :: 0 <= i < |inp.ints0| && !keep[i] ==> i in inp.acnaInts)
  {
    var keep := NotRemoved(st.ints);
    CompactMarked(inp.ints0, st.ints, keep);
    NotRemovedCount(st.ints);
    if st.numChanges == 0 {
      CountEqZero(st.ints, -1);
      CountTrueAll(keep);
      SelectAll(inp.ints0, keep);
    }
  }

  /** Every pair recorded in the state is a mutual neighbour pair whose interstitial is taken. */
  lemma FinishPartners(st: AcnaState, inp: AcnaInput)
    requires inp.Valid() && Consistent(st, inp)
    ensures Injective(st.partner)
    ensures forall v :: 0 <= v < |inp.vacs0| && st.partner[v] != -1 ==>
              0 <= st.partner[v] < |inp.acnaInts| && !NotRemoved(st.ints)[inp.acnaInts[st.partner[v]]]
              && v < |inp.vacNebs| && st.partner[v] in inp.vacNebs[v]
              && st.partner[v] < |inp.intNebs| && v in inp.intNebs[st.partner[v]]
  {
    forall v | 0 <= v < |inp.vacs0| && st.partner[v] != -1
      ensures 0 <= st.partner[v] < |inp.acnaInts| && !NotRemoved(st.ints)[inp.acnaInts[st.partner[v]]]
      ensures v < |inp.vacNebs| && st.partner[v] in inp.vacNebs[v]
      ensures st.partner[v] < |inp.intNebs| && v in inp.intNebs[st.partner[v]]
    {
      assert PartnerOk(st, inp, v);
    }
  }

  /**
   * When every vacancy is checked and done, each taken interstitial is some
   * vacancy's partner, and no unpaired vacancy has a free mutual-neighbour
   * ACNA interstitial left: the pairing cannot be extended.
   */
  lemma FinishMaximal(st: AcnaState, inp: AcnaInput)
    requires inp.Valid() && Consistent(st, inp) && AllDone(st, inp)
    requires forall u :: 0 <= u < |inp.vacs0| ==> st.vacMask[u]
    ensures forall n :: 0 <= n < |inp.acnaInts| && !NotRemoved(st.ints)[inp.acnaInts[n]] ==> n in st.partner
    ensures forall v, n :: 0 <= v < |inp.vacs0| && v < |inp.vacNebs| && st.partner[v] == -1 && 0 <= n < |inp.acnaInts|
                           && n < |inp.intNebs| && n in inp.vacNebs[v] && v in inp.intNebs[n]
                           ==> !NotRemoved(st.ints)[inp.acnaInts[n]]
  {
    forall v, n | 0 <= v < |inp.vacs0| && v < |inp.vacNebs| && st.partner[v] == -1 && 0 <= n < |inp.acnaInts|
                  && n < |inp.intNebs| && n in inp.vacNebs[v] && v in inp.intNebs[n]
      ensures !NotRemoved(st.ints)[inp.acnaInts[n]]
    {
      assert Done(st, inp, v);
    }
  }

  /** Each paired vacancy took the first interstitial of its list still there to take. */
  lemma FinishNearest(st: AcnaState, inp: AcnaInput, r: AcnaResult)
    requires inp.Valid() && Consistent(st, inp) && AllDone(st, inp)
    requires forall u :: 0 <= u < |inp.vacs0| ==> st.vacMask[u]
    requires r.partner == st.partner && r.intKeep == NotRemoved(st.ints)
    ensures forall v :: 0 <= v < |inp.vacs0| && v < |inp.vacNebs| && r.partner[v] != -1 ==>
              NearestFree(r, inp.ints0, inp.acnaInts, inp.vacNebs, inp.intNebs, v)
  {
    forall v | 0 <= v < |inp.vacs0| && v < |inp.vacNebs| && r.partner[v] != -1
      ensures NearestFree(r, inp.ints0, inp.acnaInts, inp.vacNebs, inp.intNebs, v)
    {
      assert Done(st, inp, v);
      var k :| 0 <= k < |inp.vacNebs[v]| && inp.vacNebs[v][k] == st.partner[v] && Tried(st, inp, v, k);
      forall j | 0 <= j < k
        ensures !r.intKeep[inp.acnaInts[inp.vacNebs[v][j]]] || v !in inp.intNebs[inp.vacNebs[v][j]]
      {
        assert st.intMask[inp.vacNebs[v][j]] || v !in inp.intNebs[inp.vacNebs[v][j]];
      }
    }
  }

  /**
   * What a pair means geometrically: the interstitial a vacancy took is
   * ACNA-ideal and lies strictly within twice the vacancy radius of the
   * vacancy's site.
   */
  lemma AcnaPairGeometry(r: AcnaResult, vacs: seq<int>, ints: seq<int>, pos: seq<Vec3>, refPos: seq<Vec3>, acna: seq<real>,
                         structureType: int, c: Cell, vacancyRadius: real, vacNebs: seq<seq<int>>, intNebs: seq<seq<int>>, v: int)
    requires AllIndices(vacs, |refPos|) && AllIndices(ints, |pos|) && |acna| == |pos| && WellFormed(c)
    requires AcnaListsOk(vacNebs, intNebs, vacs, ints, AcnaInts(ints, acna, structureType), pos, refPos, c, vacancyRadius)
    requires AcnaOutcome(r, vacs, ints, AcnaInts(ints, acna, structureType), vacNebs, intNebs)
    requires 0 <= v < |vacs| && r.partner[v] != -1
    ensures var i := AcnaInts(ints, acna, structureType)[r.partner[v]];
      Trunc(acna[ints[i]]) == structureType && Sep2(refPos[vacs[v]], pos[ints[i]], c) < AcnaSep2(vacancyRadius)
  {
    var acnaInts := AcnaInts(ints, acna, structureType);
    var n := r.partner[v];
    var i := acnaInts[n];
    assert i in acnaInts;
    var vp := Pick(refPos, vacs);
    var ip := Pick(pos, Pick(ints, acnaInts));
    assert IsNeighbourList(vacNebs[v], vp[v], ip, AcnaSep2(vacancyRadius), c);
  }
}

=== FILE: defects_basic.dfy ===
/*
 * basicDefectClassification (atoman/filtering/filters/defects.c): every
 * reference site is filled by the nearest input atom within the vacancy
 * radius that no earlier site has taken. Unfilled sites are vacancies,
 * untaken input atoms are interstitials, and a site filled by an atom of a
 * different species is an antisite.
 */
module BasicDefects {
  import opened Base
  import opened Vectors
  import opened Neighbours

  /** The starting "nearest separation" of the search: larger separations are never taken. */
  const NearestSentinel: real := 9999.0

  /** The two-character symbol slot the C compares. */
  function Prefix2(s: Symbol): (r: Symbol)
    ensures |r| <= 2
  {
    if |s| <= 2 then s else s[..2]
  }

  /** An untaken input atom close enough to fill a site. */
  predicate Candidate(d: seq<real>, claimed: seq<bool>, vacRad2: real, j: int)
    requires |d| == |claimed| && 0 <= j < |d|
  {
    !claimed[j] && d[j] < vacRad2 && d[j] < NearestSentinel
  }

  /**
   * The inner search of basicDefectClassification for one site, given the
   * squared separation d[j] to every input atom: the nearest untaken atom
   * within the radius; among equally near atoms the first; -1 if none.
   */
  method NearestUnclaimed(d: seq<real>, claimed: seq<bool>, vacRad2: real) returns (nearest: int)
    requires |d| == |claimed|
    ensures -1 <= nearest < |d|
    ensures nearest != -1 ==> Candidate(d, claimed, vacRad2, nearest)
    ensures nearest == -1 ==> forall j :: 0 <= j < |d| ==> !Candidate(d, claimed, vacRad2, j)
    ensures nearest != -1 ==> forall j :: 0 <= j < |d| && Candidate(d, claimed, vacRad2, j) ==> d[nearest] <= d[j]
    ensures nearest != -1 ==> forall j :: 0 <= j < nearest && Candidate(d, claimed, vacRad2, j) ==> d[nearest] < d[j]
  {
    var nearestSep2 := NearestSentinel;
    nearest := -1;
    var j := 0;
    while j < |d|
      invariant 0 <= j <= |d|
      invariant -1 <= nearest < j
      invariant nearest == -1 ==> nearestSep2 == NearestSentinel
      invariant nearest == -1 ==> forall k :: 0 <= k < j ==> !Candidate(d, claimed, vacRad2, k)
      invariant nearest != -1 ==> Candidate(d, claimed, vacRad2, nearest) && nearestSep2 == d[nearest]
      invariant nearest != -1 ==> forall k :: 0 <= k < j && Candidate(d, claimed, vacRad2, k) ==> d[nearest] <= d[k]
      invariant nearest != -1 ==> forall k :: 0 <= k < nearest && Candidate(d, claimed, vacRad2, k) ==> d[nearest] < d[k]
    {
      if d[j] < vacRad2 && d[j] < nearestSep2 && !claimed[j] {
        nearestSep2 := d[j];
        nearest := j;
      }
      j := j + 1;
    }
  }

  /** Occupants are -1 or input-atom indices. */
  predicate OccupantsOk(occ: seq<int>, nAtoms: int)
  {
    forall s :: 0 <= s < |occ| ==> -1 <= occ[s] < nAtoms
  }

  /**
   * The rule that decided site s, stated against the atoms taken by the
   * sites before it (occ[..s]).
   */
  ghost predicate SiteDecided(occ: seq<int>, s: int, refPos: seq<Vec3>, inpPos: seq<Vec3>, c: Cell, vacRad2: real)
    requires 0 <= s < |occ| <= |refPos| && OccupantsOk(occ, |inpPos|) && WellFormed(c)
  {
    var o := occ[s];
    (o == -1 ==>
       forall j :: 0 <= j < |inpPos| && Sep2(refPos[s], inpPos[j], c) < vacRad2 && Sep2(refPos[s], inpPos[j], c) < NearestSentinel
         ==> j in occ[..s])
    && (o != -1 ==>
       o !in occ[..s]
       && Sep2(refPos[s], inpPos[o], c) < vacRad2 && Sep2(refPos[s], inpPos[o], c) < NearestSentinel
       && (forall j :: 0 <= j < |inpPos| && j !in occ[..s] && Sep2(refPos[s], inpPos[j], c) < vacRad2
             ==> Sep2(refPos[s], inpPos[o], c) <= Sep2(refPos[s], inpPos[j], c))
       && (forall j :: 0 <= j < o && j !in occ[..s] && Sep2(refPos[s], inpPos[j], c) < vacRad2
             ==> Sep2(refPos[s], inpPos[o], c) < Sep2(refPos[s], inpPos[j], c)))
  }

  ghost predicate AllDecided(occ: seq<int>, refPos: seq<Vec3>, inpPos: seq<Vec3>, c: Cell, vacRad2: real)
    requires |occ| <= |refPos| && OccupantsOk(occ, |inpPos|) && WellFormed(c)
  {
    forall s :: 0 <= s < |occ| ==> SiteDecided(occ, s, refPos, inpPos, c, vacRad2)
  }

  lemma AllDecidedAppend(occ: seq<int>, x: int, refPos: seq<Vec3>, inpPos: seq<Vec3>, c: Cell, vacRad2: real)
    requires |occ| < |refPos| && OccupantsOk(occ, |inpPos|) && -1 <= x < |inpPos| && WellFormed(c)
    requires AllDecided(occ, refPos, inpPos, c, vacRad2)
    requires SiteDecided(occ + [x], |occ|, refPos, inpPos, c, vacRad2)
    ensures AllDecided(occ + [x], refPos, inpPos, c, vacRad2)
  {
    var occ' := occ + [x];
    forall s | 0 <= s < |occ|
      ensures SiteDecided(occ', s, refPos, inpPos, c, vacRad2)
    {
      assert occ'[..s] == occ[..s];
      assert occ'[s] == occ[s];
      assert SiteDecided(occ, s, refPos, inpPos, c, vacRad2);
    }
  }

  /** Sites filled by an atom whose symbol differs from the site's. */
  function AntisiteMask(occ: seq<int>, inp: Lattice, ref: Lattice): (m: seq<bool>)
    requires inp.Valid() && ref.Valid() && |occ| == ref.NAtoms() && OccupantsOk(occ, inp.NAtoms())
    ensures |m| == |occ|
  {
    seq(|occ|, s requires 0 <= s < |occ| =>
      occ[s] != -1 && Prefix2(inp.specieList[inp.specie[occ[s]]]) != Prefix2(ref.specieList[ref.specie[s]]))
  }

  /** Input atoms taken by no site. */
  function Untaken(occ: seq<int>, nAtoms: nat): (m: seq<bool>)
    ensures |m| == nAtoms
    ensures forall j :: 0 <= j < nAtoms ==> (m[j] <==> j !in occ)
  {
    seq(nAtoms, j requires 0 <= j < nAtoms => j !in occ)
  }

  datatype Classification = Classification(
    vacancies: seq<int>,      // reference sites left empty, ascending
    interstitials: seq<int>,  // input atoms on no site, ascending
    antisites: seq<int>,      // reference sites filled by another species, ascending
    onAntisites: seq<int>,    // the input atom on each antisite
    occupant: seq<int>)       // per reference site: the input atom filling it, or -1

  /**
   * basicDefectClassification. The occupant of every site obeys the nearest
   * untaken rule; vacancies, interstitials and antisites are read off the
   * occupants in ascending index order, and every filled site uses up
   * exactly one input atom, so the two lattices lose the same count.
   */
  method BasicClassification(vacancyRadius: real, inp: Lattice, ref: Lattice, c: Cell) returns (r: Classification)
    requires inp.Valid() && ref.Valid() && WellFormed(c)
    ensures |r.occupant| == ref.NAtoms() && OccupantsOk(r.occupant, inp.NAtoms())
    ensures AllDecided(r.occupant, ref.pos, inp.pos, c, vacancyRadius * vacancyRadius)
    ensures r.vacancies == IndicesWhere(Negate(NotRemoved(r.occupant)))
    ensures r.interstitials == IndicesWhere(Untaken(r.occupant, inp.NAtoms()))
    ensures r.antisites == Select(Range(ref.NAtoms()), AntisiteMask(r.occupant, inp, ref))
    ensures r.onAntisites == Select(r.occupant, AntisiteMask(r.occupant, inp, ref))
    ensures ref.NAtoms() - |r.vacancies| == inp.NAtoms() - |r.interstitials|
  {
    var vacRad2 := vacancyRadius * vacancyRadius;
    var claimed := seq(inp.NAtoms(), j => false);
    var occ: seq<int> := [];
    CountTrueNone(claimed);
    var i := 0;
    while i < ref.NAtoms()
      invariant 0 <= i <= ref.NAtoms()
      invariant Claiming(occ, claimed, i, inp.pos, ref.pos, c, vacRad2)
    {
      occ, claimed := ClaimSite(occ, claimed, i, inp.pos, ref.pos, c, vacRad2);
      i := i + 1;
    }
    var mask := AntisiteMask(occ, inp, ref);
    r := Classification(
      IndicesWhere(Negate(NotRemoved(occ))),
      IndicesWhere(Untaken(occ, inp.NAtoms())),
      Select(Range(ref.NAtoms()), mask),
      Select(occ, mask),
      occ);
    assert Untaken(occ, inp.NAtoms()) == Negate(claimed);
    CountTrueComplement(claimed);
    CountTrueComplement(NotRemoved(occ));
  }

  /** The state of the site loop after the first i reference sites. */
  ghost predicate Claiming(occ: seq<int>, claimed: seq<bool>, i: int, inpPos: seq<Vec3>, refPos: seq<Vec3>, c: Cell, vacRad2: real)
    requires WellFormed(c)
  {
    && 0 <= i <= |refPos| && |occ| == i
    && |claimed| == |inpPos|
    && OccupantsOk(occ, |inpPos|)
    && (forall j :: 0 <= j < |inpPos| ==> (claimed[j] <==> j in occ))
    && CountTrue(claimed) == CountTrue(NotRemoved(occ))
    && AllDecided(occ, refPos, inpPos, c, vacRad2)
  }

  /** One reference site: the nearest unclaimed input atom within the radius fills it, or it is a vacancy. */
  method ClaimSite(occ: seq<int>, claimed: seq<bool>, i: int, inpPos: seq<Vec3>, refPos: seq<Vec3>, c: Cell, vacRad2: real)
    returns (occ': seq<int>, claimed': seq<bool>)
    requires WellFormed(c) && 0 <= i < |refPos|
    requires Claiming(occ, claimed, i, inpPos, refPos, c, vacRad2)
    ensures Claiming(occ', claimed', i + 1, inpPos, refPos, c, vacRad2)
  {
    var d := Distances(refPos[i], inpPos, c);
    var nearest := NearestUnclaimed(d, claimed, vacRad2);
    assert NotRemoved(occ + [nearest]) == NotRemoved(occ) + [nearest != -1];
    CountTrueAppend(NotRemoved(occ), nearest != -1);
    assert (occ + [nearest])[..i] == occ;
    if nearest == -1 {
      forall j | 0 <= j < |inpPos| && Sep2(refPos[i], inpPos[j], c) < vacRad2 && Sep2(refPos[i], inpPos[j], c) < NearestSentinel
        ensures j in occ
      {
        assert !Candidate(d, claimed, vacRad2, j);
      }
    }
    AllDecidedAppend(occ, nearest, refPos, inpPos, c, vacRad2);
    claimed' := claimed;
    if nearest != -1 {
      CountTrueSet(claimed, nearest);
      claimed' := claimed[nearest := true];
    }
    occ' := occ + [nearest];
  }
}

=== FILE: defects_clusters.dfy ===
/*
 * findDefectClusters and findDefectNeighbours
 * (atoman/filtering/filters/defects.c): defects closer than the cluster
 * radius are linked, and a cluster is a connected component of that
 * relation. Components are numbered in order of their lowest-index member.
 *
 * The source only visits the atoms of the 27 boxes around a defect; boxes
 * are at least the cluster radius wide, so no linked defect is missed, and
 * the model scans every defect in ascending index order instead.
 */
module DefectClusters {
  import opened Base
  import opened Vectors

  /** Defects i and j are linked: strictly closer than the cluster radius. */
  predicate Close(pos: seq<Vec3>, c: Cell, maxSep2: real, i: int, j: int)
    requires WellFormed(c) && 0 <= i < |pos| && 0 <= j < |pos|
  {
    Sep2(pos[i], pos[j], c) < maxSep2
  }

  lemma CloseSymmetric(pos: seq<Vec3>, c: Cell, maxSep2: real, i: int, j: int)
    requires WellFormed(c) && 0 <= i < |pos| && 0 <= j < |pos|
    ensures Close(pos, c, maxSep2, i, j) <==> Close(pos, c, maxSep2, j, i)
  {
    Sep2Symmetric(pos[i], pos[j], c);
  }

  /** p is a chain of links from a to b: consecutive defects of p are linked. */
  ghost predicate Chain(pos: seq<Vec3>, c: Cell, maxSep2: real, p: seq<int>, a: int, b: int)
    requires WellFormed(c)
  {
    |p| > 0 && p[0] == a && p[|p| - 1] == b
    && (forall t :: 0 <= t < |p| ==> 0 <= p[t] < |pos|)
    && (forall t :: 0 <= t < |p| - 1 ==> Close(pos, c, maxSep2, p[t], p[t + 1]))
  }

  /** Defect b can be reached from defect a through links: they lie in one connected component. */
  ghost predicate Reach(pos: seq<Vec3>, c: Cell, maxSep2: real, a: int, b: int)
    requires WellFormed(c)
  {
    exists p :: Chain(pos, c, maxSep2, p, a, b)
  }

  lemma ReachSelf(pos: seq<Vec3>, c: Cell, maxSep2: real, a: int)
    requires WellFormed(c) && 0 <= a < |pos|
    ensures Reach(pos, c, maxSep2, a, a)
  {
    assert Chain(pos, c, maxSep2, [a], a, a);
  }

  lemma ReachLink(pos: seq<Vec3>, c: Cell, maxSep2: real, a: int, b: int)
    requires WellFormed(c) && 0 <= a < |pos| && 0 <= b < |pos| && Close(pos, c, maxSep2, a, b)
    ensures Reach(pos, c, maxSep2, a, b)
  {
    assert Chain(pos, c, maxSep2, [a, b], a, b);
  }

  /** Two chains joined end to start make a chain. */
  lemma ReachTrans(pos: seq<Vec3>, c: Cell, maxSep2: real, a: int, b: int, d: int)
    requires WellFormed(c) && Reach(pos, c, maxSep2, a, b) && Reach(pos, c, maxSep2, b, d)
    ensures Reach(pos, c, maxSep2, a, d)
  {
    var p :| Chain(pos, c, maxSep2, p, a, b);
    var q :| Chain(pos, c, maxSep2, q, b, d);
    var pq := p + q[1..];
    forall t | 0 <= t < |pq| - 1
      ensures Close(pos, c, maxSep2, pq[t], pq[t + 1])
    {
      if t < |p| - 1 {
        assert pq[t] == p[t] && pq[t + 1] == p[t + 1];
      } else {
        assert pq[t] == q[t - |p| + 1] && pq[t + 1] == q[t - |p| + 2];
      }
    }
    assert Chain(pos, c, maxSep2, pq, a, d);
  }

  /** A chain read backwards is a chain, links being symmetric. */
  lemma ReachSymmetric(pos: seq<Vec3>, c: Cell, maxSep2: real, a: int, b: int)
    requires WellFormed(c) && Reach(pos, c, maxSep2, a, b)
    ensures Reach(pos, c, maxSep2, b, a)
  {
    var p :| Chain(pos, c, maxSep2, p, a, b);
    var n := |p|;
    var q := seq(n, t requires 0 <= t < n => p[n - 1 - t]);
    forall t | 0 <= t < n - 1
      ensures Close(pos, c, maxSep2, q[t], q[t + 1])
    {
      assert Close(pos, c, maxSep2, p[n - 2 - t], p[n - 1 - t]);
      CloseSymmetric(pos, c, maxSep2, p[n - 2 - t], p[n - 1 - t]);
    }
    assert Chain(pos, c, maxSep2, q, b, a);
  }

  /** Every defect linked to k already has a cluster. */
  ghost predicate Explored(cl: seq<int>, pos: seq<Vec3>, c: Cell, maxSep2: real, k: int)
    requires WellFormed(c) && |cl| == |pos| && 0 <= k < |pos|
  {
    forall m :: 0 <= m < |pos| && Close(pos, c, maxSep2, k, m) ==> cl[m] != -1
  }

  /** From cl to cl', only unassigned entries change, and they get id. */
  predicate AssignsOnly(cl: seq<int>, cl': seq<int>, id: int)
  {
    |cl'| == |cl|
    && forall k :: 0 <= k < |cl| ==> cl'[k] == cl[k] || (cl[k] == -1 && cl'[k] == id)
  }

  lemma AssignsOnlyTrans(a: seq<int>, b: seq<int>, d: seq<int>, id: int)
    requires AssignsOnly(a, b, id) && AssignsOnly(b, d, id)
    ensures AssignsOnly(a, d, id)
  {
  }

  /**
   * Moving entries from -1 to id moves exactly that many counts, and leaves
   * the count of every other value alone.
   */
  lemma {:induction false} AssignCounts(cl: seq<int>, cl': seq<int>, id: int, u: int)
    requires AssignsOnly(cl, cl', id) && id != -1
    ensures CountEq(cl', id) - CountEq(cl, id) == CountEq(cl, -1) - CountEq(cl', -1)
    ensures u != id && u != -1 ==> CountEq(cl', u) == CountEq(cl, u)
  {
    if |cl| > 0 {
      var n := |cl| - 1;
      AssignCounts(cl[..n], cl'[..n], id, u);
    }
  }

  /**
   * findDefectNeighbours. Defect index already carries id; every
   * unassigned defect linked to it gets id and is searched in turn. On
   * return, index and every defect assigned here are explored, and the
   * number of assignments made is returned alongside.
   */
  method FindNeighbours(index: int, id: int, cluster: seq<int>, pos: seq<Vec3>, c: Cell, maxSep2: real)
    returns (cl: seq<int>, added: nat)
    requires WellFormed(c) && |cluster| == |pos| && 0 <= index < |pos| && id >= 0 && cluster[index] == id
    ensures AssignsOnly(cluster, cl, id)
    ensures CountEq(cl, -1) + added == CountEq(cluster, -1)
    ensures Explored(cl, pos, c, maxSep2, index)
    ensures forall k :: 0 <= k < |pos| && cluster[k] == -1 && cl[k] != -1 ==> Explored(cl, pos, c, maxSep2, k)
    ensures forall k :: 0 <= k < |pos| && cluster[k] == -1 && cl[k] != -1 ==> Reach(pos, c, maxSep2, index, k)
    decreases CountEq(cluster, -1)
  {
    cl, added := cluster, 0;
    var j := 0;
    while j < |pos|
      invariant 0 <= j <= |pos|
      invariant AssignsOnly(cluster, cl, id)
      invariant CountEq(cl, -1) + added == CountEq(cluster, -1)
      invariant forall m :: 0 <= m < j && Close(pos, c, maxSep2, index, m) ==> cl[m] != -1
      invariant forall k :: 0 <= k < |pos| && cluster[k] == -1 && cl[k] != -1 ==> Explored(cl, pos, c, maxSep2, k)
      invariant forall k :: 0 <= k < |pos| && cluster[k] == -1 && cl[k] != -1 ==> Reach(pos, c, maxSep2, index, k)
    {
      if j != index && cl[j] == -1 && Sep2(pos[index], pos[j], c) < maxSep2 {
        CountEqSet(cl, j, id);
        var marked := cl[j := id];
        AssignCounts(cl, marked, id, id);
        var more: nat;
        var cl' := marked;
        cl', more := FindNeighbours(j, id, marked, pos, c, maxSep2);
        AssignsOnlyTrans(cluster, marked, cl', id);
        ReachThrough(cluster, cl, marked, cl', pos, c, maxSep2, index, j);
        cl := cl';
        added := added + 1 + more;
      }
      j := j + 1;
    }
  }

  /**
   * After the search from j, linked to index, every defect assigned since
   * the start of findDefectNeighbours(index) is reachable from index.
   */
  lemma ReachThrough(cluster: seq<int>, cl: seq<int>, marked: seq<int>, cl': seq<int>, pos: seq<Vec3>, c: Cell, maxSep2: real,
                     index: int, j: int)
    requires WellFormed(c) && |cluster| == |cl| == |pos| && 0 <= index < |pos| && 0 <= j < |pos|
    requires Close(pos, c, maxSep2, index, j) && cl[j] == -1 && |marked| == |pos| && marked == cl[j := marked[j]] && marked[j] != -1
    requires forall k :: 0 <= k < |pos| ==> cl[k] == cluster[k] || cluster[k] == -1
    requires |cl'| == |pos| && forall k :: 0 <= k < |pos| ==> cl'[k] == marked[k] || marked[k] == -1
    requires forall k :: 0 <= k < |pos| && cluster[k] == -1 && cl[k] != -1 ==> Reach(pos, c, maxSep2, index, k)
    requires forall k :: 0 <= k < |pos| && marked[k] == -1 && cl'[k] != -1 ==> Reach(pos, c, maxSep2, j, k)
    ensures forall k :: 0 <= k < |pos| && cluster[k] == -1 && cl'[k] != -1 ==> Reach(pos, c, maxSep2, index, k)
  {
    ReachLink(pos, c, maxSep2, index, j);
    forall k | 0 <= k < |pos| && cluster[k] == -1 && cl'[k] != -1
      ensures Reach(pos, c, maxSep2, index, k)
    {
      if k != j && cl[k] == -1 {
        ReachTrans(pos, c, maxSep2, index, j, k);
      }
    }
  }

  /** Linked defects that both have a cluster have the same one. */
  ghost predicate Complete(cl: seq<int>, pos: seq<Vec3>, c: Cell, maxSep2: real)
    requires WellFormed(c) && |cl| == |pos|
  {
    forall k, m :: 0 <= k < |pos| && 0 <= m < |pos| && cl[k] != -1 && Close(pos, c, maxSep2, k, m) ==> cl[m] == cl[k]
  }

  /** Cluster ids are below n, and no defect has an id above its own index. */
  predicate IdsOk(cl: seq<int>, n: int)
  {
    forall k :: 0 <= k < |cl| ==> -1 <= cl[k] < n && cl[k] <= k
  }

  /**
   * One round of the outer loop keeps the clusters complete: everything the
   * new cluster took is explored, and a defect linked to an older cluster
   * would have been taken by it.
   */
  lemma RoundComplete(cl: seq<int>, cl': seq<int>, pos: seq<Vec3>, c: Cell, maxSep2: real, i: int, id: int)
    requires WellFormed(c) && |cl| == |pos| && 0 <= i < |pos| && id >= 0
    requires Complete(cl, pos, c, maxSep2) && cl[i] == -1
    requires forall k :: 0 <= k < |cl| ==> cl[k] < id
    requires AssignsOnly(cl[i := id], cl', id)
    requires Explored(cl', pos, c, maxSep2, i)
    requires forall k :: 0 <= k < |pos| && cl[i := id][k] == -1 && cl'[k] != -1 ==> Explored(cl', pos, c, maxSep2, k)
    ensures Complete(cl', pos, c, maxSep2)
  {
    forall k, m | 0 <= k < |pos| && 0 <= m < |pos| && cl'[k] != -1 && Close(pos, c, maxSep2, k, m)
      ensures cl'[m] == cl'[k]
    {
      CloseSymmetric(pos, c, maxSep2, k, m);
      if cl[k] != -1 {
        assert cl'[k] == cl[k] && cl[m] == cl[k];
      } else {
        assert cl'[k] == id;
        assert cl'[m] != -1;
      }
    }
  }

  datatype Clusters = Clusters(cluster: seq<int>, sizes: seq<int>)
  {
    function Count(): nat { |sizes| }
  }

  /**
   * findDefectClusters. Every defect ends in exactly one cluster; two
   * defects share a cluster exactly when a chain of links joins them, so
   * the clusters are the connected components; ids count up from 0 in order
   * of first appearance, that is of each cluster's lowest-index member; and
   * sizes[id] counts the members of cluster id.
   */
  method FindClusters(pos: seq<Vec3>, c: Cell, maxSep: real) returns (r: Clusters)
    requires WellFormed(c)
    ensures |r.cluster| == |pos|
    ensures forall k :: 0 <= k < |pos| ==> 0 <= r.cluster[k] < r.Count() && r.cluster[k] <= k
    ensures Complete(r.cluster, pos, c, maxSep * maxSep)
    ensures forall id :: 0 <= id < r.Count() ==> r.sizes[id] == CountEq(r.cluster, id) && r.sizes[id] >= 1
    ensures forall id :: 0 <= id < r.Count() ==> id in r.cluster
    ensures FirstAppearanceOrder(r.cluster)
    ensures forall k, m :: 0 <= k < |pos| && 0 <= m < |pos| ==>
              (r.cluster[k] == r.cluster[m] <==> Reach(pos, c, maxSep * maxSep, k, m))
  {
    var maxSep2 := maxSep * maxSep;
    var cl := seq(|pos|, k => -1);
    var sizes: seq<int> := [];
    var i := 0;
    while i < |pos|
      invariant 0 <= i <= |pos|
      invariant Grouped(cl, sizes, i, pos, c, maxSep2)
    {
      cl, sizes := VisitAtom(cl, sizes, i, pos, c, maxSep2);
      i := i + 1;
    }
    r := Clusters(cl, sizes);
    forall id | 0 <= id < |sizes|
      ensures id in cl
    {
      CountEqPositive(cl, id);
    }
    forall k, m | 0 <= k < |pos| && 0 <= m < |pos| && Reach(pos, c, maxSep2, k, m)
      ensures cl[k] == cl[m]
    {
      ReachSameCluster(cl, pos, c, maxSep2, k, m);
    }
  }

  /** The state of findDefectClusters after the first i atoms have been visited. */
  ghost predicate Grouped(cl: seq<int>, sizes: seq<int>, i: int, pos: seq<Vec3>, c: Cell, maxSep2: real)
    requires WellFormed(c)
  {
    && 0 <= i <= |pos| && |cl| == |pos|
    && IdsOk(cl, |sizes|)
    && (forall k :: 0 <= k < i ==> cl[k] != -1)
    && Complete(cl, pos, c, maxSep2)
    && (forall id :: 0 <= id < |sizes| ==> sizes[id] == CountEq(cl, id) && sizes[id] >= 1)
    && |sizes| <= i
    && IdsSeen(cl, |sizes|, i)
    && FirstAppearanceOrder(cl)
    && Connected(cl, pos, c, maxSep2)
  }

  /** Ids are numbered in order of first appearance: id u > 0 appears only after id u - 1 has. */
  predicate FirstAppearanceOrder(cl: seq<int>)
  {
    forall k :: 0 <= k < |cl| && cl[k] > 0 ==> cl[k] - 1 in cl[..k]
  }

  /** Defects with the same cluster are joined by a chain of links. */
  ghost predicate Connected(cl: seq<int>, pos: seq<Vec3>, c: Cell, maxSep2: real)
    requires WellFormed(c) && |cl| == |pos|
  {
    forall k, m :: 0 <= k < |pos| && 0 <= m < |pos| && cl[k] != -1 && cl[k] == cl[m] ==> Reach(pos, c, maxSep2, k, m)
  }

  /** Ids 0 to n - 1 all appear among the first i entries. */
  predicate IdsSeen(cl: seq<int>, n: int, i: int)
    requires 0 <= i <= |cl|
  {
    forall u :: 0 <= u < n ==> u in cl[..i]
  }

  /** The round that starts cluster id at atom i leaves every id up to id seen by atom i. */
  lemma RoundSeen(cl: seq<int>, grown: seq<int>, i: int, id: int)
    requires 0 <= i < |cl| && id >= 0 && IdsSeen(cl, id, i)
    requires AssignsOnly(cl, grown, id) && grown[i] == id
    ensures IdsSeen(grown, id + 1, i + 1)
  {
    var i1 := i + 1;
    forall u | 0 <= u < id + 1
      ensures u in grown[..i1]
    {
      if u < id {
        assert u in cl[..i];
        var j :| 0 <= j < i && cl[..i][j] == u;
        assert grown[..i1][j] == u;
      } else {
        assert grown[..i1][i] == id;
      }
    }
  }

  /** The round that starts cluster id at atom i keeps the ids in order of first appearance. */
  lemma RoundOrdered(cl: seq<int>, grown: seq<int>, i: int, id: int)
    requires 0 <= i < |cl| && (forall k :: 0 <= k < i ==> cl[k] != -1)
    requires id >= 0 && IdsSeen(cl, id, i) && FirstAppearanceOrder(cl)
    requires AssignsOnly(cl, grown, id)
    ensures FirstAppearanceOrder(grown)
  {
    forall k | 0 <= k < |grown| && grown[k] > 0
      ensures grown[k] - 1 in grown[..k]
    {
      if cl[k] != -1 {
        var j :| 0 <= j < k && cl[..k][j] == cl[k] - 1;
        assert grown[..k][j] == grown[k] - 1;
      } else {
        assert grown[k] == id && k >= i;
        assert id - 1 in cl[..i];
        var j :| 0 <= j < i && cl[..i][j] == id - 1;
        assert grown[..k][j] == id - 1;
      }
    }
  }

  /** The round that starts cluster id at atom i keeps every cluster connected. */
  lemma RoundConnected(cl: seq<int>, grown: seq<int>, pos: seq<Vec3>, c: Cell, maxSep2: real, i: int, id: int)
    requires WellFormed(c) && |cl| == |pos| && 0 <= i < |pos| && cl[i] == -1 && id >= 0
    requires IdsOk(cl, id) && Connected(cl, pos, c, maxSep2)
    requires AssignsOnly(cl, grown, id) && grown[i] == id
    requires forall k :: 0 <= k < |pos| && cl[i := id][k] == -1 && grown[k] != -1 ==> Reach(pos, c, maxSep2, i, k)
    ensures Connected(grown, pos, c, maxSep2)
  {
    ReachSelf(pos, c, maxSep2, i);
    forall k, m | 0 <= k < |pos| && 0 <= m < |pos| && grown[k] != -1 && grown[k] == grown[m]
      ensures Reach(pos, c, maxSep2, k, m)
    {
      if cl[k] != -1 {
        assert cl[m] == cl[k];
      } else {
        assert cl[m] == -1;
        assert Reach(pos, c, maxSep2, i, k) && Reach(pos, c, maxSep2, i, m);
        ReachSymmetric(pos, c, maxSep2, i, k);
        ReachTrans(pos, c, maxSep2, k, i, m);
      }
    }
  }

  /** Along a chain of links, a complete assignment keeps one cluster: reachable defects share their cluster. */
  lemma ReachSameCluster(cl: seq<int>, pos: seq<Vec3>, c: Cell, maxSep2: real, a: int, b: int)
    requires WellFormed(c) && |cl| == |pos| && Complete(cl, pos, c, maxSep2)
    requires 0 <= a < |pos| && cl[a] != -1 && Reach(pos, c, maxSep2, a, b)
    ensures 0 <= b < |pos| && cl[b] == cl[a]
  {
    var p :| Chain(pos, c, maxSep2, p, a, b);
    var t := 0;
    while t < |p| - 1
      invariant 0 <= t < |p| && cl[p[t]] == cl[a]
    {
      assert Close(pos, c, maxSep2, p[t], p[t + 1]);
      t := t + 1;
    }
  }

  /** One turn of the outer loop: an atom not yet in a cluster starts a new one and gathers its neighbours. */
  method VisitAtom(cl: seq<int>, sizes: seq<int>, i: int, pos: seq<Vec3>, c: Cell, maxSep2: real)
    returns (cl': seq<int>, sizes': seq<int>)
    requires WellFormed(c) && 0 <= i < |pos|
    requires Grouped(cl, sizes, i, pos, c, maxSep2)
    ensures Grouped(cl', sizes', i + 1, pos, c, maxSep2)
  {
    if cl[i] == -1 {
      cl', sizes' := StartCluster(cl, sizes, i, pos, c, maxSep2);
    } else {
      cl', sizes' := cl, sizes;
      GroupedSkip(cl, sizes, i, pos, c, maxSep2);
    }
  }

  /** An atom already in a cluster changes nothing. */
  lemma GroupedSkip(cl: seq<int>, sizes: seq<int>, i: int, pos: seq<Vec3>, c: Cell, maxSep2: real)
    requires WellFormed(c) && 0 <= i < |pos| && Grouped(cl, sizes, i, pos, c, maxSep2) && cl[i] != -1
    ensures Grouped(cl, sizes, i + 1, pos, c, maxSep2)
  {
    assert cl[..i + 1] == cl[..i] + [cl[i]];
  }

  /** An atom not yet in a cluster starts cluster |sizes| and gathers its neighbours into it. */
  method StartCluster(cl: seq<int>, sizes: seq<int>, i: int, pos: seq<Vec3>, c: Cell, maxSep2: real)
    returns (cl': seq<int>, sizes': seq<int>)
    requires WellFormed(c) && 0 <= i < |pos|
    requires Grouped(cl, sizes, i, pos, c, maxSep2) && cl[i] == -1
    ensures Grouped(cl', sizes', i + 1, pos, c, maxSep2)
    ensures |sizes'| == |sizes| + 1 && cl'[i] == |sizes|
  {
    var start := cl[i := |sizes|];
    var grown, added := FindNeighbours(i, |sizes|, start, pos, c, maxSep2);
    NewCluster(cl, sizes, start, grown, added, i, pos, c, maxSep2);
    cl', sizes' := grown, sizes + [1 + added];
    GroupedIntro(cl', sizes', i + 1, pos, c, maxSep2);
  }

  /** Starting cluster |sizes| at atom i and gathering its neighbours gives the facts of the state after atom i. */
  lemma NewCluster(cl: seq<int>, sizes: seq<int>, start: seq<int>, grown: seq<int>, added: nat, i: int,
                   pos: seq<Vec3>, c: Cell, maxSep2: real)
    requires WellFormed(c) && 0 <= i < |pos|
    requires Grouped(cl, sizes, i, pos, c, maxSep2) && cl[i] == -1 && start == cl[i := |sizes|]
    requires AssignsOnly(start, grown, |sizes|)
    requires CountEq(grown, -1) + added == CountEq(start, -1)
    requires Explored(grown, pos, c, maxSep2, i)
    requires forall k :: 0 <= k < |pos| && start[k] == -1 && grown[k] != -1 ==> Explored(grown, pos, c, maxSep2, k)
    requires forall k :: 0 <= k < |pos| && start[k] == -1 && grown[k] != -1 ==> Reach(pos, c, maxSep2, i, k)
    ensures |grown| == |pos| && IdsOk(grown, |sizes| + 1) && (forall k :: 0 <= k < i + 1 ==> grown[k] != -1)
    ensures Complete(grown, pos, c, maxSep2)
    ensures var sizes' := sizes + [1 + added];
            forall u :: 0 <= u < |sizes'| ==> sizes'[u] == CountEq(grown, u) && sizes'[u] >= 1
    ensures IdsSeen(grown, |sizes| + 1, i + 1) && FirstAppearanceOrder(grown) && Connected(grown, pos, c, maxSep2)
  {
    RoundSizes(cl, sizes, start, grown, added, i);
    RoundAssigned(cl, start, grown, i, |sizes|);
    RoundComplete(cl, grown, pos, c, maxSep2, i, |sizes|);
    RoundShape(cl, sizes, grown, i, pos, c, maxSep2);
  }

  /** The order of first appearance and the connectedness of clusters survive the round of atom i. */
  lemma RoundShape(cl: seq<int>, sizes: seq<int>, grown: seq<int>, i: int, pos: seq<Vec3>, c: Cell, maxSep2: real)
    requires WellFormed(c) && 0 <= i < |pos|
    requires Grouped(cl, sizes, i, pos, c, maxSep2) && cl[i] == -1
    requires AssignsOnly(cl, grown, |sizes|) && grown[i] == |sizes|
    requires forall k :: 0 <= k < |pos| && cl[i := |sizes|][k] == -1 && grown[k] != -1 ==> Reach(pos, c, maxSep2, i, k)
    ensures IdsSeen(grown, |sizes| + 1, i + 1) && FirstAppearanceOrder(grown) && Connected(grown, pos, c, maxSep2)
  {
    RoundSeen(cl, grown, i, |sizes|);
    RoundOrdered(cl, grown, i, |sizes|);
    RoundConnected(cl, grown, pos, c, maxSep2, i, |sizes|);
  }

  /** The first i + 1 atoms all have a cluster once atom i has started one. */
  lemma RoundAssigned(cl: seq<int>, start: seq<int>, grown: seq<int>, i: int, id: int)
    requires 0 <= i < |cl| && (forall k :: 0 <= k < i ==> cl[k] != -1) && id != -1
    requires start == cl[i := id] && AssignsOnly(start, grown, id)
    ensures forall k :: 0 <= k < i + 1 ==> grown[k] != -1
  {
  }

  /** The new cluster's size is the atom that started it plus those gathered; older sizes still count their members. */
  lemma RoundSizes(cl: seq<int>, sizes: seq<int>, start: seq<int>, grown: seq<int>, added: nat, i: int)
    requires 0 <= i < |cl| && cl[i] == -1 && IdsOk(cl, |sizes|)
    requires forall u :: 0 <= u < |sizes| ==> sizes[u] == CountEq(cl, u) && sizes[u] >= 1
    requires start == cl[i := |sizes|] && AssignsOnly(start, grown, |sizes|)
    requires CountEq(grown, -1) + added == CountEq(start, -1)
    ensures AssignsOnly(cl, grown, |sizes|)
    ensures var sizes' := sizes + [1 + added];
            forall u :: 0 <= u < |sizes'| ==> sizes'[u] == CountEq(grown, u) && sizes'[u] >= 1
  {
    var id := |sizes|;
    CountEqSet(cl, i, id);
    AssignCounts(cl, start, id, id);
    AssignsOnlyTrans(cl, start, grown, id);
    NewClusterCounts(cl, grown, id, |sizes|);
    assert CountEq(cl, id) == 0 by {
      CountEqAbsent(cl, id);
    }
    AssignCounts(cl, grown, id, id);
  }

  lemma GroupedIntro(cl: seq<int>, sizes: seq<int>, i: int, pos: seq<Vec3>, c: Cell, maxSep2: real)
    requires WellFormed(c) && 0 <= i <= |pos| && |cl| == |pos| && |sizes| <= i
    requires IdsOk(cl, |sizes|) && (forall k :: 0 <= k < i ==> cl[k] != -1)
    requires Complete(cl, pos, c, maxSep2)
    requires forall u :: 0 <= u < |sizes| ==> sizes[u] == CountEq(cl, u) && sizes[u] >= 1
    requires IdsSeen(cl, |sizes|, i) && FirstAppearanceOrder(cl) && Connected(cl, pos, c, maxSep2)
    ensures Grouped(cl, sizes, i, pos, c, maxSep2)
  {
  }

  lemma {:induction false} CountEqPositive(s: seq<int>, v: int)
    requires CountEq(s, v) > 0
    ensures v in s
  {
    if s[|s| - 1] != v {
      CountEqPositive(s[..|s| - 1], v);
    }
  }

  lemma {:induction false} CountEqAbsent(s: seq<int>, v: int)
    requires forall k :: 0 <= k < |s| ==> s[k] != v
    ensures CountEq(s, v) == 0
  {
    if |s| > 0 {
      CountEqAbsent(s[..|s| - 1], v);
    }
  }

  /** Assigning a fresh id leaves the counts of the older ids alone. */
  lemma NewClusterCounts(cl: seq<int>, cl': seq<int>, id: int, n: int)
    requires AssignsOnly(cl, cl', id) && id >= n >= 0
    ensures forall u :: 0 <= u < n ==> CountEq(cl', u) == CountEq(cl, u)
  {
    forall u | 0 <= u < n
      ensures CountEq(cl', u) == CountEq(cl, u)
    {
      AssignCounts(cl, cl', id, u);
    }
  }

  /** The cluster sizes add up to the number of defects: every defect is in exactly one cluster. */
  lemma SizesTotal(r: Clusters, n: int)
    requires |r.cluster| == n
    requires forall k :: 0 <= k < n ==> 0 <= r.cluster[k] < r.Count()
    requires forall id :: 0 <= id < r.Count() ==> r.sizes[id] == CountEq(r.cluster, id)
    ensures Sum(r.sizes) == n
  {
    HistogramTotal(r.sizes, r.cluster);
  }
}

=== FILE: defects_find.dfy ===
/*
 * findDefects (atoman/filtering/filters/defects.c) end to end: drift
 * compensation of the reference, the basic classification, the ACNA
 * refinement when an ACNA array is given, split-interstitial
 * identification when asked for and possible, then the post-processing.
 * The neighbour lists the two refinement stages search are the
 * whole-configuration lists of the Neighbours module.
 */
module FindDefects {
  import opened Base
  import opened Vectors
  import opened Neighbours
  import opened BasicDefects
  import opened AcnaRefinement
  import opened SplitInterstitials
  import opened DefectClusters
  import opened DefectsPost

  /**
   * The classification settings of findDefects. The refineAcnaOld and
   * identifySplitsOld flags are taken as 0, so the newer routines run.
   */
  datatype StageSettings = StageSettings(
    vacancyRadius: real,
    acna: seq<real>,          // per input atom, or empty for no ACNA refinement
    structureType: int,
    identifySplits: bool,
    driftCompensation: bool,
    drift: Vec3)

  /** The reference positions the classification compares against. */
  function Drifted(refPos: seq<Vec3>, drift: Vec3, on: bool): (r: seq<Vec3>)
    ensures |r| == |refPos|
    ensures !on ==> r == refPos
    ensures on ==> forall i :: 0 <= i < |refPos| ==> r[i].Minus(refPos[i]) == drift
  {
    if on then seq(|refPos|, i requires 0 <= i < |refPos| => refPos[i].Plus(drift)) else refPos
  }

  /** The ACNA stage over the lists the whole-configuration scan builds. */
  method AcnaStage(vacs: seq<int>, ints: seq<int>, pos: seq<Vec3>, refPos: seq<Vec3>, acna: seq<real>, structureType: int,
                   c: Cell, vacancyRadius: real)
    returns (r: AcnaResult)
    requires AllIndices(vacs, |refPos|) && AllIndices(ints, |pos|) && |acna| == |pos| && WellFormed(c)
    ensures |r.partner| == |vacs| && |r.intKeep| == |ints|
    ensures r.vacancies == Select(vacs, Unpaired(r.partner)) && r.interstitials == Select(ints, r.intKeep)
    ensures 0 <= r.numChanges && |r.vacancies| == |vacs| - r.numChanges && |r.interstitials| == |ints| - r.numChanges
    ensures forall i :: 0 <= i < |ints| && !r.intKeep[i] ==> Trunc(acna[ints[i]]) == structureType
  {
    var acnaInts := AcnaInts(ints, acna, structureType);
    var vp := Pick(refPos, vacs);
    var ip := Pick(pos, Pick(ints, acnaInts));
    var m := AcnaSep2(vacancyRadius);
    AcnaListsQualify(vacs, ints, acnaInts, pos, refPos, c, vacancyRadius);
    var vacNebs, intNebs := NeighbourLists(vp, ip, m, c), NeighbourLists(ip, vp, m, c);
    r := RefineUsingAcna(vacs, ints, pos, refPos, acna, structureType, c, vacancyRadius, vacNebs, intNebs);
  }

  /** The split stage over the lists the whole-configuration scan builds. */
  method SplitStage(vacs: seq<int>, ints: seq<int>, pos: seq<Vec3>, refPos: seq<Vec3>, c: Cell, vacancyRadius: real)
    returns (s: SplitDefects)
    requires AllIndices(vacs, |refPos|) && AllIndices(ints, |pos|) && WellFormed(c)
    ensures |s.marks.vacSplit| == |vacs| && |s.marks.intSplit| == |ints|
    ensures s.vacancies == Select(vacs, Negate(s.marks.vacSplit)) && s.interstitials == Select(ints, Negate(s.marks.intSplit))
    ensures |s.vacancies| + |s.splits| == |vacs| && |s.interstitials| + 2 * |s.splits| == |ints|
    ensures forall t :: 0 <= t < |s.splits| ==> s.splits[t].vacancy in vacs && s.splits[t].int1 in ints && s.splits[t].int2 in ints
  {
    var vp := Pick(refPos, vacs);
    var ip := Pick(pos, ints);
    var m := SplitSep2(vacancyRadius);
    NeighbourListsQualify(vacs, ints, pos, refPos, c, vacancyRadius);
    var vacNebs, intNebs := NeighbourLists(vp, ip, m, c), NeighbourLists(ip, vp, m, c);
    var res := IdentifySplitInterstitials(vacs, ints, pos, refPos, c, vacancyRadius, vacNebs, intNebs);
    s := res.value;
    SplitMembers(s, vacs, ints, vacNebs, Heads(intNebs));
  }

  /** The basic classification, with what the later stages need of it. */
  method BasicStage(inp: Lattice, ref: Lattice, c: Cell, vacancyRadius: real) returns (b: Classification)
    requires inp.Valid() && ref.Valid() && WellFormed(c)
    ensures StrictlyIncreasing(b.vacancies) && AllIndices(b.vacancies, ref.NAtoms())
    ensures StrictlyIncreasing(b.interstitials) && AllIndices(b.interstitials, inp.NAtoms())
    ensures AllIndices(b.antisites, ref.NAtoms()) && AllIndices(b.onAntisites, inp.NAtoms()) && |b.onAntisites| == |b.antisites|
    ensures ref.NAtoms() - |b.vacancies| == inp.NAtoms() - |b.interstitials|
  {
    b := BasicClassification(vacancyRadius, inp, ref, c);
    IndicesWhereSpec(Negate(NotRemoved(b.occupant)));
    IndicesWhereSpec(Untaken(b.occupant, inp.NAtoms()));
    AntisitesInRange(b, inp, ref);
  }

  /** The defects the classification stages leave, with what each stage did. */
  datatype Staged = Staged(
    basic: Classification,
    acnaChanges: int,         // Frenkel pairs cancelled by the ACNA stage
    defects: Defects)

  /**
   * The classification stages of findDefects in their order. ACNA runs when
   * the ACNA array is non-empty; split identification runs when asked for,
   * with at least one vacancy and two interstitials left. Antisites are the
   * basic classification's. An ACNA pair removes one vacancy and one
   * interstitial; a split removes one vacancy and two interstitials but
   * stands for a site holding two atoms. So the atom balance of the basic
   * classification still holds: reference sites minus vacancies plus
   * splits equals input atoms minus interstitials.
   */
  method ClassifyStages(inp: Lattice, ref: Lattice, c: Cell, st: StageSettings) returns (r: Staged)
    requires inp.Valid() && ref.Valid() && WellFormed(c)
    requires |st.acna| > 0 ==> |st.acna| == inp.NAtoms()
    ensures r.defects.IndicesIn(inp.NAtoms(), ref.NAtoms())
    ensures StrictlyIncreasing(r.defects.vacancies) && StrictlyIncreasing(r.defects.interstitials)
    ensures r.defects.antisites == r.basic.antisites && r.defects.onAntisites == r.basic.onAntisites
    ensures |r.defects.vacancies| + r.acnaChanges + |r.defects.splits| == |r.basic.vacancies|
    ensures |r.defects.interstitials| + r.acnaChanges + 2 * |r.defects.splits| == |r.basic.interstitials|
    ensures ref.NAtoms() - |r.defects.vacancies| + |r.defects.splits| == inp.NAtoms() - |r.defects.interstitials|
    ensures r.acnaChanges >= 0 && (|st.acna| == 0 ==> r.acnaChanges == 0)
    ensures |r.defects.splits| > 0 ==> st.identifySplits
  {
    var refPos := Drifted(ref.pos, st.drift, st.driftCompensation);
    var ref' := Lattice(ref.specieList, ref.specie, refPos);
    var b := BasicStage(inp, ref', c, st.vacancyRadius);
    var vacs, ints, changes := AcnaPass(b.vacancies, b.interstitials, inp.pos, refPos, st, c);
    var vacs', ints', splits := SplitPass(vacs, ints, inp.pos, refPos, st, c);
    r := Staged(b, changes, Defects(vacs', ints', b.antisites, b.onAntisites, splits));
  }

  /** The ACNA stage of findDefects, run only when an ACNA array is given. */
  method AcnaPass(vacs0: seq<int>, ints0: seq<int>, pos: seq<Vec3>, refPos: seq<Vec3>, st: StageSettings, c: Cell)
    returns (vacs: seq<int>, ints: seq<int>, changes: int)
    requires AllIndices(vacs0, |refPos|) && AllIndices(ints0, |pos|) && WellFormed(c)
    requires StrictlyIncreasing(vacs0) && StrictlyIncreasing(ints0)
    requires |st.acna| > 0 ==> |st.acna| == |pos|
    ensures AllIndices(vacs, |refPos|) && AllIndices(ints, |pos|)
    ensures StrictlyIncreasing(vacs) && StrictlyIncreasing(ints)
    ensures changes >= 0 && |vacs| + changes == |vacs0| && |ints| + changes == |ints0|
    ensures |st.acna| == 0 ==> changes == 0 && vacs == vacs0 && ints == ints0
  {
    vacs, ints, changes := vacs0, ints0, 0;
    if |st.acna| > 0 {
      var a := AcnaStage(vacs0, ints0, pos, refPos, st.acna, st.structureType, c, st.vacancyRadius);
      SelectIncreasing(vacs0, Unpaired(a.partner));
      SelectIncreasing(ints0, a.intKeep);
      SelectInRange(vacs0, Unpaired(a.partner), |refPos|);
      SelectInRange(ints0, a.intKeep, |pos|);
      vacs, ints, changes := a.vacancies, a.interstitials, a.numChanges;
    }
  }

  /** The split-interstitial stage of findDefects, run when asked for and there is something to pair. */
  method SplitPass(vacs0: seq<int>, ints0: seq<int>, pos: seq<Vec3>, refPos: seq<Vec3>, st: StageSettings, c: Cell)
    returns (vacs: seq<int>, ints: seq<int>, splits: seq<Split>)
    requires AllIndices(vacs0, |refPos|) && AllIndices(ints0, |pos|) && WellFormed(c)
    requires StrictlyIncreasing(vacs0) && StrictlyIncreasing(ints0)
    ensures AllIndices(vacs, |refPos|) && AllIndices(ints, |pos|)
    ensures StrictlyIncreasing(vacs) && StrictlyIncreasing(ints)
    ensures |vacs| + |splits| == |vacs0| && |ints| + 2 * |splits| == |ints0|
    ensures forall t :: 0 <= t < |splits| ==>
              0 <= splits[t].vacancy < |refPos| && 0 <= splits[t].int1 < |pos| && 0 <= splits[t].int2 < |pos|
    ensures |splits| > 0 ==> st.identifySplits
    ensures !(st.identifySplits && |vacs0| > 0 && |ints0| > 1) ==> vacs == vacs0 && ints == ints0 && splits == []
  {
    vacs, ints, splits := vacs0, ints0, [];
    if st.identifySplits && |vacs0| > 0 && |ints0| > 1 {
      var s := SplitStage(vacs0, ints0, pos, refPos, c, st.vacancyRadius);
      SelectIncreasing(vacs0, Negate(s.marks.vacSplit));
      SelectIncreasing(ints0, Negate(s.marks.intSplit));
      SelectInRange(vacs0, Negate(s.marks.vacSplit), |refPos|);
      SelectInRange(ints0, Negate(s.marks.intSplit), |pos|);
      vacs, ints, splits := s.vacancies, s.interstitials, s.splits;
    }
  }

  lemma AntisitesInRange(b: Classification, inp: Lattice, ref: Lattice)
    requires inp.Valid() && ref.Valid()
    requires |b.occupant| == ref.NAtoms() && OccupantsOk(b.occupant, inp.NAtoms())
    requires b.antisites == Select(Range(ref.NAtoms()), AntisiteMask(b.occupant, inp, ref))
    requires b.onAntisites == Select(b.occupant, AntisiteMask(b.occupant, inp, ref))
    ensures AllIndices(b.antisites, ref.NAtoms()) && AllIndices(b.onAntisites, inp.NAtoms())
    ensures |b.onAntisites| == |b.antisites|
  {
    var mask := AntisiteMask(b.occupant, inp, ref);
    SelectInRange(Range(ref.NAtoms()), mask, ref.NAtoms());
    forall k | 0 <= k < |b.onAntisites|
      ensures 0 <= b.onAntisites[k] < inp.NAtoms()
    {
      SelectMembership(b.occupant, mask, b.onAntisites[k]);
    }
  }

  /**
   * findDefects: the classification stages, then the exclusion, the
   * clustering and size filter when asked for, and the counters. The
   * cluster search sees the drift-compensated reference positions.
   */
  method RunFindDefects(inp: Lattice, ref: Lattice, c: Cell, st: StageSettings, x: Exclusion, cs: ClusterSettings,
                        cnt: Counters)
    returns (staged: Staged, post: PostResult)
    requires inp.Valid() && ref.Valid() && WellFormed(c)
    requires |st.acna| > 0 ==> |st.acna| == inp.NAtoms()
    requires cnt.Shaped() && SpeciesFit(inp.specie, cnt.NSpecies()) && SpeciesFit(ref.specie, cnt.NSpecies())
    ensures staged.defects.IndicesIn(inp.NAtoms(), ref.NAtoms())
    ensures ref.NAtoms() - |staged.defects.vacancies| + |staged.defects.splits| == inp.NAtoms() - |staged.defects.interstitials|
    ensures ExclusionOutcome(post.excluded, staged.defects, x, inp.specie, ref.specie)
    ensures post.excluded.IndicesIn(inp.NAtoms(), ref.NAtoms())
    ensures post.clustered.Some? <==> cs.findClusters
    ensures cs.findClusters ==>
              ClusterOutcome(post.excluded, post.found, post.clustered.value, inp.pos,
                             Drifted(ref.pos, st.drift, st.driftCompensation), c, cs)
    ensures post.Final().IndicesIn(inp.NAtoms(), ref.NAtoms())
    ensures post.counters.Shaped() && post.counters.NSpecies() == cnt.NSpecies()
    ensures post.counters.byType[0] == post.Final().Total()
    ensures post.counters.byType[1] == |post.Final().vacancies| && post.counters.byType[2] == |post.Final().interstitials|
    ensures post.counters.byType[3] == |post.Final().antisites| && post.counters.byType[5] == |post.Final().splits|
    ensures post.counters.byType[4] == (if cs.findClusters then post.clustered.value.nClusters else cnt.byType[4])
    ensures Tallied(post.counters.vacSpec, cnt.vacSpec, VacKeys(post.Final(), ref.specie))
    ensures Tallied(post.counters.intSpec, cnt.intSpec, IntKeys(post.Final(), inp.specie))
    ensures Tallied(post.counters.antSpec, cnt.antSpec, AntKeys(post.Final(), ref.specie))
    ensures Tallied(post.counters.onAntSpec, cnt.onAntSpec, OnAntKeys(post.Final(), inp.specie, ref.specie, cnt.NSpecies()))
    ensures Tallied(post.counters.splitIntSpec, cnt.splitIntSpec, SplitKeys(post.Final(), inp.specie, cnt.NSpecies()))
  {
    staged := ClassifyStages(inp, ref, c, st);
    var refPos := Drifted(ref.pos, st.drift, st.driftCompensation);
    post := PostProcess(staged.defects, x, cs, inp.specie, ref.specie, inp.pos, refPos, c, cnt);
  }
}

=== FILE: defects_post.dfy ===
/*
 * The bookkeeping findDefects (atoman/filtering/filters/defects.c) does
 * after the classification stages: dropping defects by type and by
 * species, laying the defects out for the cluster search, correcting the
 * cluster sizes for split interstitials, the cluster-size filter, and the
 * per-type and per-species counters.
 */
module DefectsPost {
  import opened Base
  import opened Vectors
  import opened SplitInterstitials
  import opened DefectClusters

  /** The defect arrays findDefects hands back, each ascending where the stages left it so. */
  datatype Defects = Defects(
    vacancies: seq<int>,      // reference-site indices
    interstitials: seq<int>,  // input-atom indices
    antisites: seq<int>,      // reference-site indices
    onAntisites: seq<int>,    // the input atom on each antisite
    splits: seq<Split>)       // vacancy (reference) and two interstitials (input)
  {
    /** NDefectsType[0]: a split interstitial counts once. */
    function Total(): nat { |vacancies| + |interstitials| + |antisites| + |splits| }

    /** The entries before the split triples in the cluster search. */
    function Singles(): nat { |vacancies| + |interstitials| + |antisites| }

    /** The entries handed to the cluster search: a split contributes three. */
    function Entries(): nat { Singles() + 3 * |splits| }

    /** Every index addresses the lattice it belongs to. */
    predicate IndicesIn(nAtoms: int, refNAtoms: int)
    {
      AllIndices(vacancies, refNAtoms) && AllIndices(interstitials, nAtoms) && AllIndices(antisites, refNAtoms)
      && |onAntisites| == |antisites| && AllIndices(onAntisites, nAtoms)
      && forall t :: 0 <= t < |splits| ==>
           0 <= splits[t].vacancy < refNAtoms && 0 <= splits[t].int1 < nAtoms && 0 <= splits[t].int2 < nAtoms
    }
  }

  // ---------------------------------------------------------------------
  // Exclusion by type and species

  /** The type flags and excluded-species arrays of findDefects. */
  datatype Exclusion = Exclusion(includeVacs: bool, includeInts: bool, includeAnts: bool, filterSpecies: bool,
                                 exclSpecInput: seq<int>, exclSpecRef: seq<int>)

  /** The inner loop of every species test: is s one of the excluded species? */
  method IsExcluded(s: int, excl: seq<int>) returns (skip: bool)
    ensures skip <==> s in excl
  {
    skip := false;
    var j := 0;
    while j < |excl| && !skip
      invariant 0 <= j <= |excl|
      invariant skip <==> s in excl[..j]
    {
      assert excl[..j + 1] == excl[..j] + [excl[j]];
      if s == excl[j] {
        skip := true;
      }
      j := j + 1;
    }
    assert skip ==> s in excl by {
      if skip {
        assert forall k :: 0 <= k < j ==> excl[..j][k] == excl[k];
      }
    }
    assert !skip ==> excl[..j] == excl;
  }

  /** Which keys are outside the excluded species. */
  function Kept(keys: seq<int>, excl: seq<int>): (m: seq<bool>)
    ensures |m| == |keys|
    ensures forall i :: 0 <= i < |keys| ==> (m[i] <==> keys[i] !in excl)
  {
    seq(|keys|, i requires 0 <= i < |keys| => keys[i] !in excl)
  }

  /** The species of the atoms a list of indices names. */
  function SpeciesOf(idx: seq<int>, specie: seq<int>): (r: seq<int>)
    requires AllIndices(idx, |specie|)
    ensures |r| == |idx|
    ensures forall i :: 0 <= i < |idx| ==> r[i] == specie[idx[i]]
  {
    Pick(specie, idx)
  }

  /** Which splits have neither interstitial of an excluded species. */
  function SplitsKept(splits: seq<Split>, specie: seq<int>, excl: seq<int>): (m: seq<bool>)
    requires forall t :: 0 <= t < |splits| ==> 0 <= splits[t].int1 < |specie| && 0 <= splits[t].int2 < |specie|
    ensures |m| == |splits|
    ensures forall t :: 0 <= t < |splits| ==>
              (m[t] <==> specie[splits[t].int1] !in excl && specie[splits[t].int2] !in excl)
  {
    seq(|splits|, t requires 0 <= t < |splits| => specie[splits[t].int1] !in excl && specie[splits[t].int2] !in excl)
  }

  /**
   * One compaction loop of the species exclusion: the entries of idx whose
   * key is not excluded move down to the next free slot, in order.
   */
  method DropExcluded<T>(idx: seq<T>, keys: seq<int>, excl: seq<int>) returns (kept: seq<T>)
    requires |keys| == |idx|
    ensures kept == Select(idx, Kept(keys, excl))
  {
    kept := [];
    var i := 0;
    while i < |idx|
      invariant 0 <= i <= |idx|
      invariant kept == Select(idx[..i], Kept(keys, excl)[..i])
    {
      var skip := IsExcluded(keys[i], excl);
      SelectNext(idx, Kept(keys, excl), i);
      if !skip {
        kept := kept + [idx[i]];
      }
      i := i + 1;
    }
    TakeAll(idx);
    TakeAll(Kept(keys, excl));
  }

  /** The split loop of the species exclusion: a split goes if either interstitial's species is excluded. */
  method DropExcludedSplits(splits: seq<Split>, specie: seq<int>, excl: seq<int>) returns (kept: seq<Split>)
    requires forall t :: 0 <= t < |splits| ==> 0 <= splits[t].int1 < |specie| && 0 <= splits[t].int2 < |specie|
    ensures kept == Select(splits, SplitsKept(splits, specie, excl))
  {
    kept := [];
    var i := 0;
    while i < |splits|
      invariant 0 <= i <= |splits|
      invariant kept == Select(splits[..i], SplitsKept(splits, specie, excl)[..i])
    {
      var skipA := IsExcluded(specie[splits[i].int1], excl);
      var skipB := IsExcluded(specie[splits[i].int2], excl);
      var skip := skipA || skipB;
      SelectNext(splits, SplitsKept(splits, specie, excl), i);
      if !skip {
        kept := kept + [splits[i]];
      }
      i := i + 1;
    }
    TakeAll(splits);
    TakeAll(SplitsKept(splits, specie, excl));
  }

  /**
   * What the exclusion leaves of each category: nothing when its type flag
   * is off (splits go with the interstitials), the entries of a species
   * outside the excluded ones under species filtering, and everything
   * otherwise. Interstitials and antisites are judged by the input atom's
   * species, vacancies by the reference site's.
   */
  ghost predicate ExclusionOutcome(r: Defects, d: Defects, x: Exclusion, specie: seq<int>, specieRef: seq<int>)
    requires d.IndicesIn(|specie|, |specieRef|)
  {
    r.interstitials == (if !x.includeInts then []
                        else if x.filterSpecies then Select(d.interstitials, Kept(SpeciesOf(d.interstitials, specie), x.exclSpecInput))
                        else d.interstitials)
    && r.splits == (if !x.includeInts then []
                    else if x.filterSpecies then Select(d.splits, SplitsKept(d.splits, specie, x.exclSpecInput))
                    else d.splits)
    && r.vacancies == (if !x.includeVacs then []
                       else if x.filterSpecies then Select(d.vacancies, Kept(SpeciesOf(d.vacancies, specieRef), x.exclSpecRef))
                       else d.vacancies)
    && var antKeep := Kept(SpeciesOf(d.onAntisites, specie), x.exclSpecInput);
    r.antisites == (if !x.includeAnts then [] else if x.filterSpecies then Select(d.antisites, antKeep) else d.antisites)
    && r.onAntisites == (if !x.includeAnts then [] else if x.filterSpecies then Select(d.onAntisites, antKeep) else d.onAntisites)
  }

  /** The "exclude defect types and species" block of findDefects. */
  method Exclude(d: Defects, x: Exclusion, specie: seq<int>, specieRef: seq<int>) returns (r: Defects)
    requires d.IndicesIn(|specie|, |specieRef|)
    ensures ExclusionOutcome(r, d, x, specie, specieRef)
    ensures r.IndicesIn(|specie|, |specieRef|)
  {
    var ints, splits := ExcludeInterstitials(d, x, specie, specieRef);
    var vacs := ExcludeVacancies(d, x, specie, specieRef);
    var ants, onAnts := ExcludeAntisites(d, x, specie, specieRef);
    r := Defects(vacs, ints, ants, onAnts, splits);
  }

  /** The interstitial part of the exclusion; the splits go with the interstitials. */
  method ExcludeInterstitials(d: Defects, x: Exclusion, specie: seq<int>, specieRef: seq<int>)
    returns (ints: seq<int>, splits: seq<Split>)
    requires d.IndicesIn(|specie|, |specieRef|)
    ensures ints == (if !x.includeInts then []
                     else if x.filterSpecies then Select(d.interstitials, Kept(SpeciesOf(d.interstitials, specie), x.exclSpecInput))
                     else d.interstitials)
    ensures splits == (if !x.includeInts then []
                       else if x.filterSpecies then Select(d.splits, SplitsKept(d.splits, specie, x.exclSpecInput))
                       else d.splits)
    ensures AllIndices(ints, |specie|)
    ensures forall t :: 0 <= t < |splits| ==>
              0 <= splits[t].vacancy < |specieRef| && 0 <= splits[t].int1 < |specie| && 0 <= splits[t].int2 < |specie|
  {
    ints, splits := d.interstitials, d.splits;
    if !x.includeInts {
      ints, splits := [], [];
    } else if x.filterSpecies {
      ints := DropExcluded(d.interstitials, SpeciesOf(d.interstitials, specie), x.exclSpecInput);
      splits := DropExcludedSplits(d.splits, specie, x.exclSpecInput);
      SelectInRange(d.interstitials, Kept(SpeciesOf(d.interstitials, specie), x.exclSpecInput), |specie|);
      SelectSplitsInRange(d.splits, SplitsKept(d.splits, specie, x.exclSpecInput), |specie|, |specieRef|);
    }
  }

  /** The vacancy part of the exclusion, judged by the reference site's species. */
  method ExcludeVacancies(d: Defects, x: Exclusion, specie: seq<int>, specieRef: seq<int>) returns (vacs: seq<int>)
    requires d.IndicesIn(|specie|, |specieRef|)
    ensures vacs == (if !x.includeVacs then []
                     else if x.filterSpecies then Select(d.vacancies, Kept(SpeciesOf(d.vacancies, specieRef), x.exclSpecRef))
                     else d.vacancies)
    ensures AllIndices(vacs, |specieRef|)
  {
    vacs := d.vacancies;
    if !x.includeVacs {
      vacs := [];
    } else if x.filterSpecies {
      vacs := DropExcluded(d.vacancies, SpeciesOf(d.vacancies, specieRef), x.exclSpecRef);
      SelectInRange(d.vacancies, Kept(SpeciesOf(d.vacancies, specieRef), x.exclSpecRef), |specieRef|);
    }
  }

  /** The antisite part of the exclusion, judged by the species of the atom on the site. */
  method ExcludeAntisites(d: Defects, x: Exclusion, specie: seq<int>, specieRef: seq<int>)
    returns (ants: seq<int>, onAnts: seq<int>)
    requires d.IndicesIn(|specie|, |specieRef|)
    ensures var antKeep := Kept(SpeciesOf(d.onAntisites, specie), x.exclSpecInput);
            && ants == (if !x.includeAnts then [] else if x.filterSpecies then Select(d.antisites, antKeep) else d.antisites)
            && onAnts == (if !x.includeAnts then [] else if x.filterSpecies then Select(d.onAntisites, antKeep) else d.onAntisites)
    ensures AllIndices(ants, |specieRef|) && AllIndices(onAnts, |specie|) && |onAnts| == |ants|
  {
    ants, onAnts := d.antisites, d.onAntisites;
    if !x.includeAnts {
      ants, onAnts := [], [];
    } else if x.filterSpecies {
      var keys := SpeciesOf(d.onAntisites, specie);
      ants := DropExcluded(d.antisites, keys, x.exclSpecInput);
      onAnts := DropExcluded(d.onAntisites, keys, x.exclSpecInput);
      SelectInRange(d.antisites, Kept(keys, x.exclSpecInput), |specieRef|);
      SelectInRange(d.onAntisites, Kept(keys, x.exclSpecInput), |specie|);
    }
  }

  lemma SelectInRange(s: seq<int>, mask: seq<bool>, n: int)
    requires |s| == |mask| && AllIndices(s, n)
    ensures AllIndices(Select(s, mask), n)
  {
    var r := Select(s, mask);
    forall k | 0 <= k < |r|
      ensures 0 <= r[k] < n
    {
      SelectMembership(s, mask, r[k]);
    }
  }

  lemma SelectSplitsInRange(s: seq<Split>, mask: seq<bool>, nAtoms: int, refNAtoms: int)
    requires |s| == |mask|
    requires forall t :: 0 <= t < |s| ==> 0 <= s[t].vacancy < refNAtoms && 0 <= s[t].int1 < nAtoms && 0 <= s[t].int2 < nAtoms
    ensures forall t :: 0 <= t < |Select(s, mask)| ==>
              var p := Select(s, mask)[t];
              0 <= p.vacancy < refNAtoms && 0 <= p.int1 < nAtoms && 0 <= p.int2 < nAtoms
  {
    var r := Select(s, mask);
    forall t | 0 <= t < |r|
      ensures 0 <= r[t].vacancy < refNAtoms && 0 <= r[t].int1 < nAtoms && 0 <= r[t].int2 < nAtoms
    {
      SelectMembership(s, mask, r[t]);
    }
  }

  /**
   * Membership after the exclusion: a defect survives exactly when its type
   * is included and, under species filtering, its species is not excluded.
   */
  lemma ExclusionMembership(r: Defects, d: Defects, x: Exclusion, specie: seq<int>, specieRef: seq<int>, a: int)
    requires d.IndicesIn(|specie|, |specieRef|)
    requires ExclusionOutcome(r, d, x, specie, specieRef)
    ensures a in r.interstitials <==>
              a in d.interstitials && x.includeInts && !(x.filterSpecies && specie[a] in x.exclSpecInput)
    ensures a in r.vacancies <==>
              a in d.vacancies && x.includeVacs && !(x.filterSpecies && specieRef[a] in x.exclSpecRef)
    ensures a in r.onAntisites <==>
              a in d.onAntisites && x.includeAnts && !(x.filterSpecies && specie[a] in x.exclSpecInput)
    ensures !x.includeInts ==> |r.splits| == 0
  {
    if x.includeInts && x.filterSpecies {
      SelectMembership(d.interstitials, Kept(SpeciesOf(d.interstitials, specie), x.exclSpecInput), a);
    }
    if x.includeVacs && x.filterSpecies {
      SelectMembership(d.vacancies, Kept(SpeciesOf(d.vacancies, specieRef), x.exclSpecRef), a);
    }
    if x.includeAnts && x.filterSpecies {
      SelectMembership(d.onAntisites, Kept(SpeciesOf(d.onAntisites, specie), x.exclSpecInput), a);
    }
  }

  /** A split survives exactly when interstitials are included and, under species filtering, neither of its interstitials is excluded. */
  lemma ExclusionSplits(r: Defects, d: Defects, x: Exclusion, specie: seq<int>, specieRef: seq<int>, p: Split)
    requires d.IndicesIn(|specie|, |specieRef|)
    requires ExclusionOutcome(r, d, x, specie, specieRef)
    ensures p in r.splits <==>
              p in d.splits && x.includeInts
              && !(x.filterSpecies && (specie[p.int1] in x.exclSpecInput || specie[p.int2] in x.exclSpecInput))
  {
    if x.includeInts && x.filterSpecies {
      SelectMembership(d.splits, SplitsKept(d.splits, specie, x.exclSpecInput), p);
    }
  }

  /** The exclusion keeps the ascending order of the index arrays. */
  lemma ExclusionKeepsOrder(r: Defects, d: Defects, x: Exclusion, specie: seq<int>, specieRef: seq<int>)
    requires d.IndicesIn(|specie|, |specieRef|)
    requires ExclusionOutcome(r, d, x, specie, specieRef)
    requires StrictlyIncreasing(d.vacancies) && StrictlyIncreasing(d.interstitials) && StrictlyIncreasing(d.antisites)
    ensures StrictlyIncreasing(r.vacancies) && StrictlyIncreasing(r.interstitials) && StrictlyIncreasing(r.antisites)
  {
    SelectIncreasing(d.vacancies, Kept(SpeciesOf(d.vacancies, specieRef), x.exclSpecRef));
    SelectIncreasing(d.interstitials, Kept(SpeciesOf(d.interstitials, specie), x.exclSpecInput));
    SelectIncreasing(d.antisites, Kept(SpeciesOf(d.onAntisites, specie), x.exclSpecInput));
  }

  // ---------------------------------------------------------------------
  // Cluster search input and the split correction

  /** The position of one entry of a split's triple: its vacancy site, then its two interstitials. */
  function SplitEntry(p: Split, part: int, pos: seq<Vec3>, refPos: seq<Vec3>): Vec3
    requires 0 <= p.vacancy < |refPos| && 0 <= p.int1 < |pos| && 0 <= p.int2 < |pos|
  {
    if part == 0 then refPos[p.vacancy] else if part == 1 then pos[p.int1] else pos[p.int2]
  }

  /** The split triples of the defect-position array, three entries per split. */
  function SplitPositions(splits: seq<Split>, pos: seq<Vec3>, refPos: seq<Vec3>): (r: seq<Vec3>)
    requires forall t :: 0 <= t < |splits| ==>
               0 <= splits[t].vacancy < |refPos| && 0 <= splits[t].int1 < |pos| && 0 <= splits[t].int2 < |pos|
    ensures |r| == 3 * |splits|
    ensures forall k :: 0 <= k < |r| ==> r[k] == SplitEntry(splits[k / 3], k % 3, pos, refPos)
  {
    if |splits| == 0 then []
    else
      var n := |splits| - 1;
      var p := splits[n];
      SplitPositions(splits[..n], pos, refPos) + [refPos[p.vacancy], pos[p.int1], pos[p.int2]]
  }

  /**
   * The defect-position array of findDefects: vacancies at their reference
   * sites, interstitials at their input positions, antisites at their
   * reference sites, then each split's vacancy site and two interstitials.
   */
  function DefectPositions(d: Defects, pos: seq<Vec3>, refPos: seq<Vec3>): (r: seq<Vec3>)
    requires d.IndicesIn(|pos|, |refPos|)
    ensures |r| == d.Entries()
    ensures forall k :: 0 <= k < |d.vacancies| ==> r[k] == refPos[d.vacancies[k]]
    ensures forall k :: 0 <= k < |d.interstitials| ==> r[|d.vacancies| + k] == pos[d.interstitials[k]]
    ensures forall k :: 0 <= k < |d.antisites| ==> r[|d.vacancies| + |d.interstitials| + k] == refPos[d.antisites[k]]
    ensures forall k :: 0 <= k < 3 * |d.splits| ==> r[d.Singles() + k] == SplitEntry(d.splits[k / 3], k % 3, pos, refPos)
  {
    Pick(refPos, d.vacancies) + Pick(pos, d.interstitials) + Pick(refPos, d.antisites) + SplitPositions(d.splits, pos, refPos)
  }

  /** The cluster of each split's first entry (its vacancy), which the size filter reads as the split's cluster. */
  function SplitHeads(cl: seq<int>, base: nat, n: nat): (r: seq<int>)
    requires base + 3 * n <= |cl|
    ensures |r| == n
    ensures forall t :: 0 <= t < n ==> r[t] == cl[base + 3 * t]
  {
    if n == 0 then [] else SplitHeads(cl, base, n - 1) + [cl[base + 3 * (n - 1)]]
  }

  /** The clusters of each split's second and third entries, whose count the source takes back. */
  function SplitTails(cl: seq<int>, base: nat, n: nat): (r: seq<int>)
    requires base + 3 * n <= |cl|
    ensures |r| == 2 * n
  {
    if n == 0 then [] else SplitTails(cl, base, n - 1) + [cl[base + 3 * (n - 1) + 1], cl[base + 3 * (n - 1) + 2]]
  }

  /**
   * One cluster entry per defect as the size filter reads them: the single
   * defects' own entries, then each split's first entry.
   */
  function Representatives(cl: seq<int>, d: Defects): (r: seq<int>)
    requires |cl| == d.Entries()
    ensures |r| == d.Total()
  {
    cl[..d.Singles()] + SplitHeads(cl, d.Singles(), |d.splits|)
  }

  /**
   * Every entry of the search array is a single defect, a split's first
   * entry, or one of a split's two other entries.
   */
  lemma {:induction false} EntriesSplitUp(cl: seq<int>, base: nat, n: nat, v: int)
    requires base + 3 * n <= |cl|
    ensures CountEq(cl[..base + 3 * n], v)
            == CountEq(cl[..base], v) + CountEq(SplitHeads(cl, base, n), v) + CountEq(SplitTails(cl, base, n), v)
  {
    if n > 0 {
      EntriesSplitUp(cl, base, n - 1, v);
      EntriesStep(cl, base, n, v);
    }
  }

  /** The entries of split n-1 add one to the heads' count or to the tails' count for each match. */
  lemma EntriesStep(cl: seq<int>, base: nat, n: nat, v: int)
    requires 0 < n && base + 3 * n <= |cl|
    requires CountEq(cl[..base + 3 * (n - 1)], v)
             == CountEq(cl[..base], v) + CountEq(SplitHeads(cl, base, n - 1), v) + CountEq(SplitTails(cl, base, n - 1), v)
    ensures CountEq(cl[..base + 3 * n], v)
            == CountEq(cl[..base], v) + CountEq(SplitHeads(cl, base, n), v) + CountEq(SplitTails(cl, base, n), v)
  {
    var m := base + 3 * (n - 1);
    CountEqNext(cl, m, v);
    CountEqNext(cl, m + 1, v);
    CountEqNext(cl, m + 2, v);
    CountEqAppend(SplitHeads(cl, base, n - 1), cl[m], v);
    TailsStep(cl, base, n, v);
  }

  /** Split n-1's second and third entries join the tails. */
  lemma TailsStep(cl: seq<int>, base: nat, n: nat, v: int)
    requires 0 < n && base + 3 * n <= |cl|
    ensures var m := base + 3 * (n - 1);
            CountEq(SplitTails(cl, base, n), v)
            == CountEq(SplitTails(cl, base, n - 1), v) + (if cl[m + 1] == v then 1 else 0) + (if cl[m + 2] == v then 1 else 0)
  {
    var m := base + 3 * (n - 1);
    var tails := SplitTails(cl, base, n - 1);
    assert SplitTails(cl, base, n) == tails + [cl[m + 1]] + [cl[m + 2]];
    CountEqAppend(tails, cl[m + 1], v);
    CountEqAppend(tails + [cl[m + 1]], cl[m + 2], v);
  }

  /**
   * The correction loop after findDefectClusters: for every split, one is
   * taken off the size of the cluster of its second entry and of its third.
   */
  method AdjustSplitSizes(sizes: seq<int>, cl: seq<int>, base: nat, n: nat) returns (adj: seq<int>)
    requires base + 3 * n <= |cl| && AllIndices(cl, |sizes|)
    ensures |adj| == |sizes|
    ensures forall id :: 0 <= id < |sizes| ==> adj[id] == sizes[id] - CountEq(SplitTails(cl, base, n), id)
  {
    adj := sizes;
    var i := 0;
    while i < n
      invariant 0 <= i <= n && |adj| == |sizes|
      invariant forall id :: 0 <= id < |sizes| ==> adj[id] == sizes[id] - CountEq(SplitTails(cl, base, i), id)
    {
      adj := TakeBackSplit(sizes, cl, base, i, adj);
      i := i + 1;
    }
  }

  /** One split of the correction loop: its second and third entries' clusters lose one each. */
  method TakeBackSplit(sizes: seq<int>, cl: seq<int>, base: nat, i: nat, adj: seq<int>) returns (adj': seq<int>)
    requires base + 3 * (i + 1) <= |cl| && AllIndices(cl, |sizes|) && |adj| == |sizes|
    requires forall id :: 0 <= id < |sizes| ==> adj[id] == sizes[id] - CountEq(SplitTails(cl, base, i), id)
    ensures |adj'| == |sizes|
    ensures forall id :: 0 <= id < |sizes| ==> adj'[id] == sizes[id] - CountEq(SplitTails(cl, base, i + 1), id)
  {
    var a := cl[base + 3 * i + 1];
    var b := cl[base + 3 * i + 2];
    forall id | 0 <= id < |sizes|
      ensures CountEq(SplitTails(cl, base, i + 1), id)
              == CountEq(SplitTails(cl, base, i), id) + (if a == id then 1 else 0) + (if b == id then 1 else 0)
    {
      TailsStep(cl, base, i + 1, id);
    }
    adj' := adj[a := adj[a] - 1];
    adj' := adj'[b := adj'[b] - 1];
  }

  /**
   * With the sizes findDefectClusters returns, the corrected size of a
   * cluster counts each of its defects once: a split by its first entry.
   */
  lemma AdjustedSizesCountDefects(sizes: seq<int>, adj: seq<int>, cl: seq<int>, d: Defects, id: int)
    requires |cl| == d.Entries() && |adj| == |sizes| && 0 <= id < |sizes|
    requires sizes[id] == CountEq(cl, id)
    requires adj[id] == sizes[id] - CountEq(SplitTails(cl, d.Singles(), |d.splits|), id)
    ensures adj[id] == CountEq(Representatives(cl, d), id)
  {
    EntriesSplitUp(cl, d.Singles(), |d.splits|, id);
    TakeAll(cl);
    CountEqConcat(cl[..d.Singles()], SplitHeads(cl, d.Singles(), |d.splits|), id);
  }

  // ---------------------------------------------------------------------
  // Size filter

  /**
   * The size test: at least the minimum, and at most the maximum unless the
   * maximum is below the minimum, which means "no upper bound".
   */
  predicate SizeOk(n: int, minSize: int, maxSize: int)
  {
    n >= minSize && (maxSize < minSize || n <= maxSize)
  }

  /** Which defects the size filter keeps, judged by the corrected size of their cluster. */
  function SizeKept(reps: seq<int>, adj: seq<int>, minSize: int, maxSize: int): (m: seq<bool>)
    requires AllIndices(reps, |adj|)
    ensures |m| == |reps|
    ensures forall k :: 0 <= k < |reps| ==> (m[k] <==> SizeOk(adj[reps[k]], minSize, maxSize))
  {
    seq(|reps|, k requires 0 <= k < |reps| => SizeOk(adj[reps[k]], minSize, maxSize))
  }

  /** Which cluster ids still have a member. */
  function Present(cl: seq<int>, nClusters: nat): (m: seq<bool>)
    ensures |m| == nClusters
    ensures forall id :: 0 <= id < nClusters ==> (m[id] <==> id in cl)
  {
    seq(nClusters, id requires 0 <= id < nClusters => id in cl)
  }

  /** The cluster-side outputs of findDefects after the size filter. */
  datatype Clustered = Clustered(
    defects: Defects,        // what passed the filter
    cluster: seq<int>,       // per kept defect, in output order: its cluster id
    sizes: seq<int>,         // per cluster id: kept defects in it
    nClusters: nat)          // clusters with at least one kept defect

  /** The four-category layout of a mask over the representatives. */
  function SelectDefects(d: Defects, keep: seq<bool>): (r: Defects)
    requires |keep| == d.Total() && |d.onAntisites| == |d.antisites|
    ensures r.Total() == CountTrue(keep)
  {
    var nv, ni, s := |d.vacancies|, |d.interstitials|, d.Singles();
    CountTrueSlices(keep, nv, nv + ni, s);
    Defects(Select(d.vacancies, keep[..nv]), Select(d.interstitials, keep[nv..nv + ni]),
            Select(d.antisites, keep[nv + ni..s]), Select(d.onAntisites, keep[nv + ni..s]), Select(d.splits, keep[s..]))
  }

  lemma CountTrueSlices(m: seq<bool>, a: int, b: int, c: int)
    requires 0 <= a <= b <= c <= |m|
    ensures CountTrue(m) == CountTrue(m[..a]) + CountTrue(m[a..b]) + CountTrue(m[b..c]) + CountTrue(m[c..])
  {
    var p, q, r := m[..a], m[a..b], m[b..c];
    assert m[..b] == p + q;
    assert m[..c] == m[..b] + r;
    assert m == m[..c] + m[c..];
    CountTrueConcat(p, q);
    CountTrueConcat(m[..b], r);
    CountTrueConcat(m[..c], m[c..]);
  }

  /**
   * The size filter of findDefects: every defect whose cluster passes the
   * size test is kept, in order within its category, together with its
   * cluster id; the kept defects are counted per cluster, and the clusters
   * left with a member are counted.
   */
  method FilterBySize(d: Defects, reps: seq<int>, adj: seq<int>, minSize: int, maxSize: int) returns (r: Clustered)
    requires |reps| == d.Total() && AllIndices(reps, |adj|) && |d.onAntisites| == |d.antisites|
    ensures r.defects == SelectDefects(d, SizeKept(reps, adj, minSize, maxSize))
    ensures r.cluster == Select(reps, SizeKept(reps, adj, minSize, maxSize)) && |r.cluster| == r.defects.Total()
    ensures |r.sizes| == |adj| && forall id :: 0 <= id < |adj| ==> r.sizes[id] == CountEq(r.cluster, id)
    ensures r.nClusters == CountTrue(Present(r.cluster, |adj|))
  {
    var keep := SizeMask(reps, adj, minSize, maxSize);
    var kept := SelectDefects(d, keep);
    var cl := Select(reps, keep);
    SelectInRange(reps, keep, |adj|);
    var sizes := Tally(seq(|adj|, id => 0), cl);
    var count := CountNonEmpty(cl, sizes);
    r := Clustered(kept, cl, sizes, count);
  }

  /** The size test of findDefects, defect by defect. */
  method SizeMask(reps: seq<int>, adj: seq<int>, minSize: int, maxSize: int) returns (keep: seq<bool>)
    requires AllIndices(reps, |adj|)
    ensures keep == SizeKept(reps, adj, minSize, maxSize)
  {
    keep := [];
    var k := 0;
    while k < |reps|
      invariant 0 <= k <= |reps| && |keep| == k
      invariant forall j :: 0 <= j < k ==> (keep[j] <==> SizeOk(adj[reps[j]], minSize, maxSize))
    {
      var numInCluster := adj[reps[k]];
      var ok := true;
      if numInCluster < minSize {
        ok := false;
      } else if maxSize >= minSize && numInCluster > maxSize {
        ok := false;
      }
      keep := keep + [ok];
      k := k + 1;
    }
  }

  /** The clusters left with a member: those whose count of kept defects is positive. */
  method CountNonEmpty(cl: seq<int>, sizes: seq<int>) returns (count: int)
    requires forall id :: 0 <= id < |sizes| ==> sizes[id] == CountEq(cl, id)
    ensures count == CountTrue(Present(cl, |sizes|))
  {
    var present := Present(cl, |sizes|);
    count := 0;
    var id := 0;
    while id < |sizes|
      invariant 0 <= id <= |sizes|
      invariant count == CountTrue(present[..id])
    {
      CountTrueNext(present, id);
      if id in cl {
        CountEqPresent(cl, id);
      } else {
        CountEqAbsent(cl, id);
      }
      if sizes[id] > 0 {
        count := count + 1;
      }
      id := id + 1;
    }
    TakeAll(present);
  }

  /** The corrected cluster sizes add up to the number of defects, a split counted once. */
  lemma CorrectedSizesTotal(e: Defects, found: Clusters, out: Clustered, cs: ClusterSettings)
    requires FilterOutcome(e, found, out, cs)
    ensures var reps := Representatives(found.cluster, e);
      Sum(seq(found.Count(), id requires 0 <= id < found.Count() => CountEq(reps, id))) == e.Total()
  {
    var reps := Representatives(found.cluster, e);
    HistogramTotal(seq(found.Count(), id requires 0 <= id < found.Count() => CountEq(reps, id)), reps);
  }

  /** The kept defects' counts per cluster add up to the number of defects kept. */
  lemma KeptSizesTotal(e: Defects, found: Clusters, out: Clustered, cs: ClusterSettings)
    requires FilterOutcome(e, found, out, cs)
    ensures Sum(out.sizes) == out.defects.Total()
  {
    var reps := Representatives(found.cluster, e);
    var adj := seq(found.Count(), id requires 0 <= id < found.Count() => CountEq(reps, id));
    SelectInRange(reps, SizeKept(reps, adj, cs.minSize, cs.maxSize), |adj|);
    HistogramTotal(out.sizes, out.cluster);
  }

  /** The number of clusters left is at most the number found, and zero exactly when nothing passed. */
  lemma ClustersLeft(r: Clustered, nFound: nat)
    requires AllIndices(r.cluster, nFound) && r.nClusters == CountTrue(Present(r.cluster, nFound))
    ensures r.nClusters <= nFound
    ensures r.nClusters == 0 <==> |r.cluster| == 0
  {
    if |r.cluster| > 0 {
      var p := Present(r.cluster, nFound);
      assert p[r.cluster[0]];
      CountTruePositive(p, r.cluster[0]);
    } else {
      CountTrueNone(Present(r.cluster, nFound));
    }
  }

  // ---------------------------------------------------------------------
  // Counters

  /** The flat index of the species pair (a, b) in a table n species wide. */
  function PairIndex(a: int, b: int, n: int): int
  {
    a * n + b
  }

  /** Division by the width recovers the pair, so distinct pairs never share a counter. */
  lemma PairIndexDecode(a: int, b: int, n: int)
    requires 0 <= b < n
    ensures PairIndex(a, b, n) / n == a && PairIndex(a, b, n) % n == b
  {
    var k := a * n + b;
    var q, r := k / n, k % n;
    assert k == q * n + r && 0 <= r < n;
    assert (q - a) * n == b - r;
    if q > a {
      MulAtLeast(q - a, n);
    } else if q < a {
      MulAtLeast(a - q, n);
    }
  }

  lemma MulAtLeast(x: int, n: int)
    requires x >= 1 && n > 0
    ensures x * n >= n
  {
    assert x * n - n == (x - 1) * n;
  }

  /** Pairs of valid species land inside the n-by-n table. */
  lemma PairIndexInTable(a: int, b: int, n: int)
    requires 0 <= a < n && 0 <= b < n
    ensures 0 <= PairIndex(a, b, n) < n * n
  {
    assert a * n <= (n - 1) * n;
  }

  /** The flat counter index of every (rows[i], cols[i]) pair. */
  function PairKeys(rows: seq<int>, cols: seq<int>, n: int): (r: seq<int>)
    requires |rows| == |cols|
    ensures |r| == |rows|
    ensures forall i :: 0 <= i < |rows| ==> r[i] == PairIndex(rows[i], cols[i], n)
  {
    seq(|rows|, i requires 0 <= i < |rows| => PairIndex(rows[i], cols[i], n))
  }

  /** Which positions hold the pair (a, b). */
  function PairMatches(rows: seq<int>, cols: seq<int>, a: int, b: int): (m: seq<bool>)
    requires |rows| == |cols|
    ensures |m| == |rows|
    ensures forall i :: 0 <= i < |rows| ==> (m[i] <==> rows[i] == a && cols[i] == b)
  {
    seq(|rows|, i requires 0 <= i < |rows| => rows[i] == a && cols[i] == b)
  }

  /** The counter at PairIndex(a, b, n) counts exactly the positions holding the pair (a, b). */
  lemma {:induction false} PairKeysCount(rows: seq<int>, cols: seq<int>, n: int, a: int, b: int)
    requires |rows| == |cols| && 0 <= b < n && forall i :: 0 <= i < |cols| ==> 0 <= cols[i] < n
    ensures CountEq(PairKeys(rows, cols, n), PairIndex(a, b, n)) == CountTrue(PairMatches(rows, cols, a, b))
  {
    if |rows| > 0 {
      var k := |rows| - 1;
      PairKeysCount(rows[..k], cols[..k], n, a, b);
      assert PairKeys(rows, cols, n)[..k] == PairKeys(rows[..k], cols[..k], n);
      assert PairMatches(rows, cols, a, b)[..k] == PairMatches(rows[..k], cols[..k], a, b);
      PairIndexDecode(rows[k], cols[k], n);
      PairIndexDecode(a, b, n);
    }
  }

  /** The six NDefectsType entries and the five per-species tables of findDefects. */
  datatype Counters = Counters(byType: seq<int>, vacSpec: seq<int>, intSpec: seq<int>, antSpec: seq<int>,
                               onAntSpec: seq<int>, splitIntSpec: seq<int>)
  {
    /** NSpecies: the length of the vacancy table, the stride of the two pair tables. */
    function NSpecies(): nat { |vacSpec| }

    /** The table shapes the caller allocates. */
    predicate Shaped()
    {
      |byType| == 6 && |intSpec| == NSpecies() && |antSpec| == NSpecies()
      && |onAntSpec| == NSpecies() * NSpecies() && |splitIntSpec| == NSpecies() * NSpecies()
    }
  }

  /** h' is h with one count added per key. */
  predicate Tallied(h': seq<int>, h: seq<int>, keys: seq<int>)
  {
    |h'| == |h| && forall s :: 0 <= s < |h| ==> h'[s] == h[s] + CountEq(keys, s)
  }

  /** The species keys the five tables are bumped with. */
  function VacKeys(d: Defects, specieRef: seq<int>): seq<int>
    requires AllIndices(d.vacancies, |specieRef|)
  {
    SpeciesOf(d.vacancies, specieRef)
  }

  function IntKeys(d: Defects, specie: seq<int>): seq<int>
    requires AllIndices(d.interstitials, |specie|)
  {
    SpeciesOf(d.interstitials, specie)
  }

  function AntKeys(d: Defects, specieRef: seq<int>): seq<int>
    requires AllIndices(d.antisites, |specieRef|)
  {
    SpeciesOf(d.antisites, specieRef)
  }

  /** Row: the reference species of the site; column: the species of the atom on it. */
  function OnAntKeys(d: Defects, specie: seq<int>, specieRef: seq<int>, n: int): seq<int>
    requires AllIndices(d.antisites, |specieRef|) && |d.onAntisites| == |d.antisites| && AllIndices(d.onAntisites, |specie|)
  {
    PairKeys(SpeciesOf(d.antisites, specieRef), SpeciesOf(d.onAntisites, specie), n)
  }

  /** Row: the species of the first interstitial; column: that of the second. */
  function SplitKeys(d: Defects, specie: seq<int>, n: int): seq<int>
    requires forall t :: 0 <= t < |d.splits| ==> 0 <= d.splits[t].int1 < |specie| && 0 <= d.splits[t].int2 < |specie|
  {
    PairKeys(seq(|d.splits|, t requires 0 <= t < |d.splits| => specie[d.splits[t].int1]),
             seq(|d.splits|, t requires 0 <= t < |d.splits| => specie[d.splits[t].int2]), n)
  }

  /** Every species index is a row of the tables. */
  predicate SpeciesFit(specie: seq<int>, n: int)
  {
    forall i :: 0 <= i < |specie| ==> 0 <= specie[i] < n
  }

  lemma KeysFit(d: Defects, specie: seq<int>, specieRef: seq<int>, n: int)
    requires d.IndicesIn(|specie|, |specieRef|) && SpeciesFit(specie, n) && SpeciesFit(specieRef, n)
    ensures AllIndices(VacKeys(d, specieRef), n) && AllIndices(IntKeys(d, specie), n) && AllIndices(AntKeys(d, specieRef), n)
    ensures AllIndices(OnAntKeys(d, specie, specieRef, n), n * n) && AllIndices(SplitKeys(d, specie, n), n * n)
  {
    var ok := OnAntKeys(d, specie, specieRef, n);
    forall i | 0 <= i < |ok|
      ensures 0 <= ok[i] < n * n
    {
      PairIndexInTable(specieRef[d.antisites[i]], specie[d.onAntisites[i]], n);
    }
    var sk := SplitKeys(d, specie, n);
    forall t | 0 <= t < |sk|
      ensures 0 <= sk[t] < n * n
    {
      PairIndexInTable(specie[d.splits[t].int1], specie[d.splits[t].int2], n);
    }
  }

  /**
   * The counters block of findDefects: NDefectsType[0] is the sum of the four
   * categories (a split once), entries 1, 2, 3 and 5 the category sizes,
   * entry 4 the cluster count when clusters were searched (otherwise it is
   * left rows passed in), and every per-species table gains one count per
   * defect at that defect's species or species pair.
   */
  method CountDefects(d: Defects, nClusters: Option<nat>, cnt: Counters, specie: seq<int>, specieRef: seq<int>)
    returns (out: Counters)
    requires d.IndicesIn(|specie|, |specieRef|) && cnt.Shaped()
    requires SpeciesFit(specie, cnt.NSpecies()) && SpeciesFit(specieRef, cnt.NSpecies())
    ensures out.Shaped() && out.NSpecies() == cnt.NSpecies()
    ensures out.byType[0] == out.byType[1] + out.byType[2] + out.byType[3] + out.byType[5] == d.Total()
    ensures out.byType[1] == |d.vacancies| && out.byType[2] == |d.interstitials|
    ensures out.byType[3] == |d.antisites| && out.byType[5] == |d.splits|
    ensures out.byType[4] == (if nClusters.Some? then nClusters.value else cnt.byType[4])
    ensures Tallied(out.vacSpec, cnt.vacSpec, VacKeys(d, specieRef))
    ensures Tallied(out.intSpec, cnt.intSpec, IntKeys(d, specie))
    ensures Tallied(out.antSpec, cnt.antSpec, AntKeys(d, specieRef))
    ensures Tallied(out.onAntSpec, cnt.onAntSpec, OnAntKeys(d, specie, specieRef, cnt.NSpecies()))
    ensures Tallied(out.splitIntSpec, cnt.splitIntSpec, SplitKeys(d, specie, cnt.NSpecies()))
  {
    var n := cnt.NSpecies();
    KeysFit(d, specie, specieRef, n);
    var byType := cnt.byType[0 := d.Total()][1 := |d.vacancies|][2 := |d.interstitials|][3 := |d.antisites|][5 := |d.splits|];
    if nClusters.Some? {
      byType := byType[4 := nClusters.value];
    }
    var vacSpec := Tally(cnt.vacSpec, VacKeys(d, specieRef));
    var intSpec := Tally(cnt.intSpec, IntKeys(d, specie));
    var antSpec := Tally(cnt.antSpec, AntKeys(d, specieRef));
    var onAntSpec := Tally(cnt.onAntSpec, OnAntKeys(d, specie, specieRef, n));
    var splitIntSpec := Tally(cnt.splitIntSpec, SplitKeys(d, specie, n));
    out := Counters(byType, vacSpec, intSpec, antSpec, onAntSpec, splitIntSpec);
  }

  /** Reading the vacancy table back: it gains exactly one count per vacancy in total. */
  lemma VacancyTableTotal(out: Counters, cnt: Counters, d: Defects, specieRef: seq<int>)
    requires AllIndices(d.vacancies, |specieRef|) && SpeciesFit(specieRef, cnt.NSpecies())
    requires Tallied(out.vacSpec, cnt.vacSpec, VacKeys(d, specieRef))
    ensures Sum(out.vacSpec) == Sum(cnt.vacSpec) + |d.vacancies|
  {
    TallySum(cnt.vacSpec, VacKeys(d, specieRef), out.vacSpec);
  }

  /**
   * Reading the antisite pair table back: cell (a, b) lies in the table and
   * gains the number of antisites of reference species a occupied by an
   * atom of species b.
   */
  lemma AntisitePairCell(out: Counters, cnt: Counters, d: Defects, specie: seq<int>, specieRef: seq<int>, a: int, b: int)
    requires d.IndicesIn(|specie|, |specieRef|) && cnt.Shaped()
    requires SpeciesFit(specie, cnt.NSpecies()) && SpeciesFit(specieRef, cnt.NSpecies())
    requires Tallied(out.onAntSpec, cnt.onAntSpec, OnAntKeys(d, specie, specieRef, cnt.NSpecies()))
    requires 0 <= a < cnt.NSpecies() && 0 <= b < cnt.NSpecies()
    ensures 0 <= PairIndex(a, b, cnt.NSpecies()) < |out.onAntSpec|
    ensures out.onAntSpec[PairIndex(a, b, cnt.NSpecies())]
            == cnt.onAntSpec[PairIndex(a, b, cnt.NSpecies())]
               + CountTrue(PairMatches(SpeciesOf(d.antisites, specieRef), SpeciesOf(d.onAntisites, specie), a, b))
  {
    var n := cnt.NSpecies();
    PairIndexInTable(a, b, n);
    PairKeysCount(SpeciesOf(d.antisites, specieRef), SpeciesOf(d.onAntisites, specie), n, a, b);
  }


  // ---------------------------------------------------------------------
  // The post-processing of findDefects

  /** The cluster settings of findDefects. */
  datatype ClusterSettings = ClusterSettings(findClusters: bool, clusterRadius: real, minSize: int, maxSize: int)

  /** What findDefects produces after the classification stages. */
  datatype PostResult = PostResult(
    excluded: Defects,          // after the type and species exclusion
    found: Clusters,            // the cluster search over the defect-position array (empty when not searched)
    clustered: Option<Clustered>,
    counters: Counters)
  {
    /** The defects handed back to the caller. */
    function Final(): Defects
    {
      if clustered.Some? then clustered.value.defects else excluded
    }
  }

  /**
   * The clustering part of findDefects: the cluster search over the
   * defect-position array of the excluded defects, each cluster's size
   * taken as its number of defects (a split once), and the size filter
   * applied with those sizes.
   */
  ghost predicate ClusterOutcome(e: Defects, found: Clusters, out: Clustered, pos: seq<Vec3>, refPos: seq<Vec3>, c: Cell,
                                 cs: ClusterSettings)
    requires e.IndicesIn(|pos|, |refPos|) && WellFormed(c)
  {
    SearchOutcome(e, found, pos, refPos, c, cs.clusterRadius) && FilterOutcome(e, found, out, cs)
  }

  /** The cluster search ran over the defect-position array of e. */
  ghost predicate SearchOutcome(e: Defects, found: Clusters, pos: seq<Vec3>, refPos: seq<Vec3>, c: Cell, radius: real)
    requires e.IndicesIn(|pos|, |refPos|) && WellFormed(c)
  {
    var cl := found.cluster;
    |cl| == e.Entries()
    && (forall k :: 0 <= k < |cl| ==> 0 <= cl[k] < found.Count() && cl[k] <= k)
    && Complete(cl, DefectPositions(e, pos, refPos), c, radius * radius)
  }

  /** The size filter ran with each cluster's number of defects as its size. */
  ghost predicate FilterOutcome(e: Defects, found: Clusters, out: Clustered, cs: ClusterSettings)
  {
    var cl := found.cluster;
    |cl| == e.Entries()
    && var reps := Representatives(cl, e);
    var adj := seq(found.Count(), id requires 0 <= id < found.Count() => CountEq(reps, id));
    AllIndices(reps, |adj|)
    && |e.onAntisites| == |e.antisites|
    && out.defects == SelectDefects(e, SizeKept(reps, adj, cs.minSize, cs.maxSize))
    && out.cluster == Select(reps, SizeKept(reps, adj, cs.minSize, cs.maxSize))
    && |out.sizes| == |adj|
    && (forall id :: 0 <= id < |adj| ==> out.sizes[id] == CountEq(out.cluster, id))
    && out.nClusters == CountTrue(Present(out.cluster, |adj|))
  }


  /** findDefectClusters over the defect positions, the split correction and the size filter. */
  method ClusterAndFilter(e: Defects, cs: ClusterSettings, pos: seq<Vec3>, refPos: seq<Vec3>, c: Cell)
    returns (found: Clusters, out: Clustered)
    requires e.IndicesIn(|pos|, |refPos|) && WellFormed(c)
    ensures ClusterOutcome(e, found, out, pos, refPos, c, cs)
    ensures out.defects.IndicesIn(|pos|, |refPos|)
  {
    found := SearchClusters(e, pos, refPos, c, cs.clusterRadius);
    out := CorrectAndFilter(e, found, cs, |pos|, |refPos|);
  }

  /** findDefectClusters over the defect-position array. */
  method SearchClusters(e: Defects, pos: seq<Vec3>, refPos: seq<Vec3>, c: Cell, radius: real) returns (found: Clusters)
    requires e.IndicesIn(|pos|, |refPos|) && WellFormed(c)
    ensures SearchOutcome(e, found, pos, refPos, c, radius)
    ensures AllIndices(found.cluster, found.Count())
    ensures forall id :: 0 <= id < found.Count() ==> found.sizes[id] == CountEq(found.cluster, id)
  {
    var defectPos := DefectPositions(e, pos, refPos);
    found := FindClusters(defectPos, c, radius);
  }


  /** The split correction of the cluster sizes followed by the size filter. */
  method CorrectAndFilter(e: Defects, found: Clusters, cs: ClusterSettings, nAtoms: int, refNAtoms: int) returns (out: Clustered)
    requires |found.cluster| == e.Entries() && AllIndices(found.cluster, found.Count()) && e.IndicesIn(nAtoms, refNAtoms)
    requires forall id :: 0 <= id < found.Count() ==> found.sizes[id] == CountEq(found.cluster, id)
    ensures FilterOutcome(e, found, out, cs)
    ensures out.defects.IndicesIn(nAtoms, refNAtoms)
  {
    var cl := found.cluster;
    var adj := AdjustSplitSizes(found.sizes, cl, e.Singles(), |e.splits|);
    var reps := Representatives(cl, e);
    forall id | 0 <= id < found.Count()
      ensures adj[id] == CountEq(reps, id)
    {
      AdjustedSizesCountDefects(found.sizes, adj, cl, e, id);
    }
    assert adj == seq(found.Count(), id requires 0 <= id < found.Count() => CountEq(reps, id));
    RepresentativesInRange(cl, e, found.Count());
    out := FilterBySize(e, reps, adj, cs.minSize, cs.maxSize);
    SelectDefectsInRange(e, SizeKept(reps, adj, cs.minSize, cs.maxSize), nAtoms, refNAtoms);
  }



  /**
   * Everything findDefects does after the classification stages: the
   * exclusion, the clustering and size filter when asked for, and the
   * counters over what is left.
   */
  method PostProcess(d: Defects, x: Exclusion, cs: ClusterSettings, specie: seq<int>, specieRef: seq<int>,
                     pos: seq<Vec3>, refPos: seq<Vec3>, c: Cell, cnt: Counters)
    returns (r: PostResult)
    requires |specie| == |pos| && |specieRef| == |refPos| && d.IndicesIn(|pos|, |refPos|) && WellFormed(c)
    requires cnt.Shaped() && SpeciesFit(specie, cnt.NSpecies()) && SpeciesFit(specieRef, cnt.NSpecies())
    ensures ExclusionOutcome(r.excluded, d, x, specie, specieRef) && r.excluded.IndicesIn(|pos|, |refPos|)
    ensures r.clustered.Some? <==> cs.findClusters
    ensures cs.findClusters ==> ClusterOutcome(r.excluded, r.found, r.clustered.value, pos, refPos, c, cs)
    ensures r.Final().IndicesIn(|pos|, |refPos|)
    ensures r.counters.Shaped() && r.counters.NSpecies() == cnt.NSpecies()
    ensures r.counters.byType[0] == r.Final().Total()
    ensures r.counters.byType[1] == |r.Final().vacancies| && r.counters.byType[2] == |r.Final().interstitials|
    ensures r.counters.byType[3] == |r.Final().antisites| && r.counters.byType[5] == |r.Final().splits|
    ensures r.counters.byType[4] == (if cs.findClusters then r.clustered.value.nClusters else cnt.byType[4])
    ensures Tallied(r.counters.vacSpec, cnt.vacSpec, VacKeys(r.Final(), specieRef))
    ensures Tallied(r.counters.intSpec, cnt.intSpec, IntKeys(r.Final(), specie))
    ensures Tallied(r.counters.antSpec, cnt.antSpec, AntKeys(r.Final(), specieRef))
    ensures Tallied(r.counters.onAntSpec, cnt.onAntSpec, OnAntKeys(r.Final(), specie, specieRef, cnt.NSpecies()))
    ensures Tallied(r.counters.splitIntSpec, cnt.splitIntSpec, SplitKeys(r.Final(), specie, cnt.NSpecies()))
  {
    var e := Exclude(d, x, specie, specieRef);
    if cs.findClusters {
      r := PostClustered(e, cs, specie, specieRef, pos, refPos, c, cnt);
    } else {
      var counters := CountDefects(e, None, cnt, specie, specieRef);
      r := PostResult(e, Clusters([], []), None, counters);
      assert r.Final() == e;
    }
  }

  /** What the counters hold after the pass over the defects handed back. */
  ghost predicate CountersOver(r: PostResult, nClusters: int, cnt: Counters, specie: seq<int>, specieRef: seq<int>)
    requires r.Final().IndicesIn(|specie|, |specieRef|)
  {
    var f := r.Final();
    && r.counters.Shaped() && r.counters.NSpecies() == cnt.NSpecies()
    && r.counters.byType[0] == f.Total()
    && r.counters.byType[1] == |f.vacancies| && r.counters.byType[2] == |f.interstitials|
    && r.counters.byType[3] == |f.antisites| && r.counters.byType[5] == |f.splits|
    && r.counters.byType[4] == nClusters
    && Tallied(r.counters.vacSpec, cnt.vacSpec, VacKeys(f, specieRef))
    && Tallied(r.counters.intSpec, cnt.intSpec, IntKeys(f, specie))
    && Tallied(r.counters.antSpec, cnt.antSpec, AntKeys(f, specieRef))
    && Tallied(r.counters.onAntSpec, cnt.onAntSpec, OnAntKeys(f, specie, specieRef, cnt.NSpecies()))
    && Tallied(r.counters.splitIntSpec, cnt.splitIntSpec, SplitKeys(f, specie, cnt.NSpecies()))
  }

  /** The clustering branch of findDefects: search, correction, size filter, then the counters. */
  method PostClustered(e: Defects, cs: ClusterSettings, specie: seq<int>, specieRef: seq<int>,
                       pos: seq<Vec3>, refPos: seq<Vec3>, c: Cell, cnt: Counters)
    returns (r: PostResult)
    requires |specie| == |pos| && |specieRef| == |refPos| && e.IndicesIn(|pos|, |refPos|) && WellFormed(c)
    requires cnt.Shaped() && SpeciesFit(specie, cnt.NSpecies()) && SpeciesFit(specieRef, cnt.NSpecies())
    ensures r.excluded == e && r.clustered.Some?
    ensures ClusterOutcome(e, r.found, r.clustered.value, pos, refPos, c, cs)
    ensures r.Final().IndicesIn(|pos|, |refPos|)
    ensures CountersOver(r, r.clustered.value.nClusters, cnt, specie, specieRef)
  {
    var found, clustered := ClusterAndFilter(e, cs, pos, refPos, c);
    var counters := CountDefects(clustered.defects, Some(clustered.nClusters), cnt, specie, specieRef);
    r := PostResult(e, found, Some(clustered), counters);
    assert r.Final() == clustered.defects;
  }

  lemma RepresentativesInRange(cl: seq<int>, d: Defects, n: int)
    requires |cl| == d.Entries() && AllIndices(cl, n)
    ensures AllIndices(Representatives(cl, d), n)
  {
    var reps := Representatives(cl, d);
    forall k | 0 <= k < |reps|
      ensures 0 <= reps[k] < n
    {
      if k >= d.Singles() {
        assert reps[k] == SplitHeads(cl, d.Singles(), |d.splits|)[k - d.Singles()];
      }
    }
  }

  lemma SelectDefectsInRange(d: Defects, keep: seq<bool>, nAtoms: int, refNAtoms: int)
    requires |keep| == d.Total() && d.IndicesIn(nAtoms, refNAtoms)
    ensures SelectDefects(d, keep).IndicesIn(nAtoms, refNAtoms)
    ensures |SelectDefects(d, keep).onAntisites| == |SelectDefects(d, keep).antisites|
  {
    var nv, ni, s := |d.vacancies|, |d.interstitials|, d.Singles();
    SelectInRange(d.vacancies, keep[..nv], refNAtoms);
    SelectInRange(d.interstitials, keep[nv..nv + ni], nAtoms);
    SelectInRange(d.antisites, keep[nv + ni..s], refNAtoms);
    SelectInRange(d.onAntisites, keep[nv + ni..s], nAtoms);
    SelectSplitsInRange(d.splits, keep[s..], nAtoms, refNAtoms);
  }
}

=== FILE: defects_split.dfy ===
/*
 * identifySplitInterstitials (atoman/filtering/filters/defects.c): a vacancy
 * that is the nearest vacancy of two interstitials lying within twice the
 * vacancy radius of it is re-labelled, together with those two
 * interstitials, as one split (dumbbell) interstitial.
 *
 * The source builds its neighbour lists with the spatial-decomposition
 * library and sorts them with qsort; here they are inputs characterised by
 * IsNeighbourList (every target within the cut-off once, nearest first),
 * which leaves the order of equally distant entries open as qsort does.
 */
module SplitInterstitials {
  import opened Base
  import opened Vectors
  import opened Neighbours


  /** How many interstitials of the list l have vacancy v as their nearest. */
  function CountNearestTo(l: seq<int>, nearest: seq<int>, v: int): (n: nat)
    requires AllIndices(l, |nearest|)
    ensures n <= |l|
  {
    if |l| == 0 then 0
    else CountNearestTo(l[..|l| - 1], nearest, v) + (if nearest[l[|l| - 1]] == v then 1 else 0)
  }

  lemma {:induction false} CountNearestToPrefix(l: seq<int>, nearest: seq<int>, v: int, j: int)
    requires AllIndices(l, |nearest|) && 0 <= j <= |l|
    ensures CountNearestTo(l[..j], nearest, v) <= CountNearestTo(l, nearest, v)
  {
    if j < |l| {
      assert l[..|l| - 1][..j] == l[..j];
      CountNearestToPrefix(l[..|l| - 1], nearest, v, j);
    } else {
      assert l[..j] == l;
    }
  }

  /**
   * The scan of one vacancy's neighbour list: walk it nearest first until two
   * interstitials whose nearest vacancy is v have been seen. a is the first
   * such entry of the list and b the first after it.
   */
  method FindPair(l: seq<int>, nearest: seq<int>, v: int) returns (count: nat, a: int, b: int)
    requires AllIndices(l, |nearest|) && Distinct(l)
    ensures count == (if CountNearestTo(l, nearest, v) >= 2 then 2 else CountNearestTo(l, nearest, v))
    ensures count >= 1 ==> a in l && nearest[a] == v
    ensures count == 2 ==> b in l && nearest[b] == v && a != b
    ensures count >= 1 ==> forall t :: 0 <= t < |l| && nearest[l[t]] == v ==> a in l[..t + 1]
    ensures count == 2 ==> forall t :: 0 <= t < |l| && nearest[l[t]] == v && l[t] != a ==> b in l[..t + 1]
  {
    count, a, b := 0, -1, -1;
    var ja, jb := -1, -1;
    var j := 0;
    while j < |l| && count != 2
      invariant 0 <= j <= |l|
      invariant Scanned(l, nearest, v, j, count, a, b, ja, jb)
    {
      count, a, b, ja, jb := ScanEntry(l, nearest, v, j, count, a, b, ja, jb);
      j := j + 1;
    }
    ScanDone(l, nearest, v, j, count, a, b, ja, jb);
  }

  /** A scan that reached the end of the list or found two entries has found the first two. */
  lemma ScanDone(l: seq<int>, nearest: seq<int>, v: int, j: int, count: int, a: int, b: int, ja: int, jb: int)
    requires AllIndices(l, |nearest|) && Distinct(l) && 0 <= j <= |l|
    requires Scanned(l, nearest, v, j, count, a, b, ja, jb) && (j == |l| || count == 2)
    ensures count == (if CountNearestTo(l, nearest, v) >= 2 then 2 else CountNearestTo(l, nearest, v))
    ensures count >= 1 ==> a in l && nearest[a] == v
    ensures count == 2 ==> b in l && nearest[b] == v && a != b
    ensures count >= 1 ==> forall t :: 0 <= t < |l| && nearest[l[t]] == v ==> a in l[..t + 1]
    ensures count == 2 ==> forall t :: 0 <= t < |l| && nearest[l[t]] == v && l[t] != a ==> b in l[..t + 1]
  {
    CountNearestToPrefix(l, nearest, v, j);
    if j == |l| {
      assert l[..j] == l;
    }
    FirstTwo(l, nearest, v, count, ja, jb);
  }

  /**
   * What the scan knows after the first j entries: how many qualified, where
   * the first (a, at ja) and second (b, at jb) of them sit, and that no entry
   * before or between them qualified.
   */
  ghost predicate Scanned(l: seq<int>, nearest: seq<int>, v: int, j: int, count: int, a: int, b: int, ja: int, jb: int)
    requires AllIndices(l, |nearest|) && 0 <= j <= |l|
  {
    && count == CountNearestTo(l[..j], nearest, v) && count <= 2
    && (count == 0 ==> forall t :: 0 <= t < j ==> nearest[l[t]] != v)
    && (count >= 1 ==> 0 <= ja < j && l[ja] == a && nearest[a] == v)
    && (count >= 1 ==> forall t :: 0 <= t < ja ==> nearest[l[t]] != v)
    && (count == 1 ==> forall t :: ja < t < j ==> nearest[l[t]] != v)
    && (count == 2 ==> ja < jb < j && l[jb] == b && nearest[b] == v && b != a)
    && (count == 2 ==> forall t :: ja < t < jb ==> nearest[l[t]] != v)
  }

  /** One step of the scan: entry j is taken as a or b when its nearest vacancy is v. */
  method ScanEntry(l: seq<int>, nearest: seq<int>, v: int, j: int, count0: nat, a0: int, b0: int, ja0: int, jb0: int)
    returns (count: nat, a: int, b: int, ja: int, jb: int)
    requires AllIndices(l, |nearest|) && Distinct(l) && 0 <= j < |l| && count0 != 2
    requires Scanned(l, nearest, v, j, count0, a0, b0, ja0, jb0)
    ensures Scanned(l, nearest, v, j + 1, count, a, b, ja, jb)
  {
    count, a, b, ja, jb := count0, a0, b0, ja0, jb0;
    assert l[..j + 1][..j] == l[..j];
    if nearest[l[j]] == v {
      if count == 0 {
        a, ja := l[j], j;
      } else {
        b, jb := l[j], j;
        assert b != a by { assert l[ja] == a && ja < j; }
      }
      count := count + 1;
    }
  }

  /** The positions the scan stopped at make a and b the first two qualifying entries. */
  lemma FirstTwo(l: seq<int>, nearest: seq<int>, v: int, count: int, ja: int, jb: int)
    requires AllIndices(l, |nearest|) && Distinct(l)
    requires count >= 1 ==> 0 <= ja < |l| && forall t :: 0 <= t < ja ==> nearest[l[t]] != v
    requires count == 2 ==> ja < jb < |l| && forall t :: ja < t < jb ==> nearest[l[t]] != v
    ensures count >= 1 ==> forall t :: 0 <= t < |l| && nearest[l[t]] == v ==> l[ja] in l[..t + 1]
    ensures count == 2 ==> forall t :: 0 <= t < |l| && nearest[l[t]] == v && l[t] != l[ja] ==> l[jb] in l[..t + 1]
  {
    forall t | count >= 1 && 0 <= t < |l| && nearest[l[t]] == v
      ensures l[ja] in l[..t + 1]
    {
      assert l[..t + 1][ja] == l[ja];
    }
    forall t | count == 2 && 0 <= t < |l| && nearest[l[t]] == v && l[t] != l[ja]
      ensures l[jb] in l[..t + 1]
    {
      assert t != ja;
      assert l[..t + 1][jb] == l[jb];
    }
  }

  /** Positions (not atom indices) of one split: a vacancy and two interstitials. */
  datatype SplitPos = SplitPos(v: int, a: int, b: int)

  /** A split interstitial as the C stores it: the vacancy's site and the two atoms. */
  datatype Split = Split(vacancy: int, int1: int, int2: int)

  datatype SplitDefects = SplitDefects(
    vacancies: seq<int>,     // vacancies left, in their original order
    interstitials: seq<int>, // interstitials left, in their original order
    splits: seq<Split>,
    marks: Marking)          // which input entries became splits, and where each split came from

  /** One split is made of a vacancy and two distinct interstitials that both have it as nearest vacancy. */
  predicate PickedOk(p: SplitPos, nearest: seq<int>, vacNebs: seq<seq<int>>, nVac: int, nInt: int)
    requires |nearest| == nInt && |vacNebs| == nVac
  {
    0 <= p.v < nVac && 0 <= p.a < nInt && 0 <= p.b < nInt && p.a != p.b
    && nearest[p.a] == p.v && nearest[p.b] == p.v
    && p.a in vacNebs[p.v] && p.b in vacNebs[p.v]
  }

  /** Every vacancy's neighbour list holds distinct interstitial positions. */
  predicate ListsOk(vacNebs: seq<seq<int>>, nInt: int)
  {
    forall i {:trigger vacNebs[i]} :: 0 <= i < |vacNebs| ==> AllIndices(vacNebs[i], nInt) && Distinct(vacNebs[i])
  }

  /**
   * The flags and split positions the main loop of identifySplitInterstitials
   * produces: per input vacancy, whether it became a split; per input
   * interstitial, whether it joined one; the positions making up each split.
   */
  datatype Marking = Marking(vacSplit: seq<bool>, intSplit: seq<bool>, picked: seq<SplitPos>)

  /** Vacancy v is marked exactly when it lies below bound i and two interstitials of its list have it as nearest. */
  ghost predicate VacMarks(vacSplit: seq<bool>, vacNebs: seq<seq<int>>, nearest: seq<int>, i: int)
    requires ListsOk(vacNebs, |nearest|) && |vacSplit| == |vacNebs|
  {
    forall v {:trigger vacSplit[v]} :: 0 <= v < |vacNebs| ==> (vacSplit[v] <==> v < i && CountNearestTo(vacNebs[v], nearest, v) >= 2)
  }

  /** A marked interstitial belongs to the split of its nearest vacancy. */
  ghost predicate IntMarks(vacSplit: seq<bool>, intSplit: seq<bool>, nearest: seq<int>, i: int)
    requires |intSplit| == |nearest|
  {
    forall k {:trigger intSplit[k]} :: 0 <= k < |nearest| && intSplit[k] ==> 0 <= nearest[k] < |vacSplit| && nearest[k] < i && vacSplit[nearest[k]]
  }

  /** Each split is well formed and its three members are marked. */
  ghost predicate PickedMarks(m: Marking, vacNebs: seq<seq<int>>, nearest: seq<int>)
    requires |m.vacSplit| == |vacNebs| && |m.intSplit| == |nearest|
  {
    forall t :: 0 <= t < |m.picked| ==>
      (PickedOk(m.picked[t], nearest, vacNebs, |vacNebs|, |nearest|)
       && m.vacSplit[m.picked[t].v] && m.intSplit[m.picked[t].a] && m.intSplit[m.picked[t].b])
  }

  /** Splits are recorded in increasing vacancy order, all below bound i. */
  predicate PickedOrdered(picked: seq<SplitPos>, i: int)
  {
    (forall t :: 0 <= t < |picked| ==> picked[t].v < i)
    && (forall t1, t2 :: 0 <= t1 < t2 < |picked| ==> picked[t1].v < picked[t2].v)
  }

  /** What the main loop establishes about its marks, relative to vacancy bound i. */
  ghost predicate MarkedUpTo(m: Marking, vacNebs: seq<seq<int>>, nearest: seq<int>, i: int)
    requires ListsOk(vacNebs, |nearest|)
  {
    |m.vacSplit| == |vacNebs| && |m.intSplit| == |nearest|
    && VacMarks(m.vacSplit, vacNebs, nearest, i)
    && IntMarks(m.vacSplit, m.intSplit, nearest, i)
    && PickedMarks(m, vacNebs, nearest)
    && PickedOrdered(m.picked, i)
    && CountTrue(m.vacSplit) == |m.picked| && CountTrue(m.intSplit) == 2 * |m.picked|
  }

  /**
   * The main loop of identifySplitInterstitials, over the vacancies' neighbour
   * lists and each interstitial's nearest vacancy (-1 for none). Vacancy i
   * becomes a split exactly when at least two interstitials of its list have
   * it as nearest; the two it takes are marked, and no interstitial is ever
   * taken twice.
   */
  method MarkSplits(vacNebs: seq<seq<int>>, nearest: seq<int>) returns (m: Marking)
    requires ListsOk(vacNebs, |nearest|)
    ensures MarkedUpTo(m, vacNebs, nearest, |vacNebs|)
  {
    m := Marking(seq(|vacNebs|, i => false), seq(|nearest|, k => false), []);
    CountTrueNone(m.vacSplit);
    CountTrueNone(m.intSplit);
    var i := 0;
    while i < |vacNebs|
      invariant 0 <= i <= |vacNebs|
      invariant MarkedUpTo(m, vacNebs, nearest, i)
    {
      var l := vacNebs[i];
      var count := 0;
      var a, b := -1, -1;
      if |l| > 1 {
        count, a, b := FindPair(l, nearest, i);
      }
      if count == 2 {
        m := MarkStep(m, vacNebs, nearest, i, a, b);
      } else {
        NoSplitStep(m, vacNebs, nearest, i);
      }
      i := i + 1;
    }
  }

  /** Vacancy i takes interstitials a and b: the marks now hold up to i + 1. */
  function MarkStep(m: Marking, vacNebs: seq<seq<int>>, nearest: seq<int>, i: int, a: int, b: int): (m': Marking)
    requires ListsOk(vacNebs, |nearest|) && 0 <= i < |vacNebs|
    requires MarkedUpTo(m, vacNebs, nearest, i)
    requires CountNearestTo(vacNebs[i], nearest, i) >= 2
    requires a in vacNebs[i] && b in vacNebs[i] && a != b && nearest[a] == i && nearest[b] == i
    ensures MarkedUpTo(m', vacNebs, nearest, i + 1)
    ensures m'.picked == m.picked + [SplitPos(i, a, b)]
  {
    assert 0 <= a < |nearest| && 0 <= b < |nearest| by {
      assert AllIndices(vacNebs[i], |nearest|);
    }
    CountTrueSet(m.vacSplit, i);
    CountTrueSet(m.intSplit, a);
    CountTrueSet(m.intSplit[a := true], b);
    var m' := Marking(m.vacSplit[i := true], m.intSplit[a := true][b := true], m.picked + [SplitPos(i, a, b)]);
    VacMarksStep(m.vacSplit, vacNebs, nearest, i);
    IntMarksStep(m.vacSplit, m.intSplit, nearest, i, a, b);
    PickedMarksStep(m, m', vacNebs, nearest, i, a, b);
    m'
  }

  lemma VacMarksStep(vacSplit: seq<bool>, vacNebs: seq<seq<int>>, nearest: seq<int>, i: int)
    requires ListsOk(vacNebs, |nearest|) && |vacSplit| == |vacNebs| && 0 <= i < |vacNebs|
    requires VacMarks(vacSplit, vacNebs, nearest, i)
    requires CountNearestTo(vacNebs[i], nearest, i) >= 2
    ensures VacMarks(vacSplit[i := true], vacNebs, nearest, i + 1)
  {
  }

  lemma IntMarksStep(vacSplit: seq<bool>, intSplit: seq<bool>, nearest: seq<int>, i: int, a: int, b: int)
    requires |intSplit| == |nearest| && 0 <= i < |vacSplit| && 0 <= a < |nearest| && 0 <= b < |nearest|
    requires IntMarks(vacSplit, intSplit, nearest, i)
    requires nearest[a] == i && nearest[b] == i
    ensures IntMarks(vacSplit[i := true], intSplit[a := true][b := true], nearest, i + 1)
  {
    var v' := vacSplit[i := true];
    var s' := intSplit[a := true][b := true];
    forall k | 0 <= k < |nearest| && s'[k]
      ensures 0 <= nearest[k] < |v'| && nearest[k] < i + 1 && v'[nearest[k]]
    {
      if k != a && k != b {
        assert intSplit[k];
      }
    }
  }

  lemma PickedMarksStep(m: Marking, m': Marking, vacNebs: seq<seq<int>>, nearest: seq<int>, i: int, a: int, b: int)
    requires |m.vacSplit| == |vacNebs| && |m.intSplit| == |nearest| && 0 <= i < |vacNebs|
    requires 0 <= a < |nearest| && 0 <= b < |nearest| && a != b
    requires a in vacNebs[i] && b in vacNebs[i] && nearest[a] == i && nearest[b] == i
    requires PickedMarks(m, vacNebs, nearest)
    requires m' == Marking(m.vacSplit[i := true], m.intSplit[a := true][b := true], m.picked + [SplitPos(i, a, b)])
    ensures PickedMarks(m', vacNebs, nearest)
  {
    forall t | 0 <= t < |m'.picked|
      ensures PickedOk(m'.picked[t], nearest, vacNebs, |vacNebs|, |nearest|)
      ensures m'.vacSplit[m'.picked[t].v] && m'.intSplit[m'.picked[t].a] && m'.intSplit[m'.picked[t].b]
    {
      if t < |m.picked| {
        assert m'.picked[t] == m.picked[t];
      }
    }
  }

  /** Vacancy i takes nobody: the marks hold up to i + 1 unchanged. */
  lemma NoSplitStep(m: Marking, vacNebs: seq<seq<int>>, nearest: seq<int>, i: int)
    requires ListsOk(vacNebs, |nearest|) && 0 <= i < |vacNebs|
    requires MarkedUpTo(m, vacNebs, nearest, i)
    requires CountNearestTo(vacNebs[i], nearest, i) < 2
    ensures MarkedUpTo(m, vacNebs, nearest, i + 1)
  {
  }

  /** The splits as stored: vacancy site and the two interstitial atoms. */
  function SplitsOf(picked: seq<SplitPos>, vacs: seq<int>, ints: seq<int>): (r: seq<Split>)
    requires forall t :: 0 <= t < |picked| ==> 0 <= picked[t].v < |vacs| && 0 <= picked[t].a < |ints| && 0 <= picked[t].b < |ints|
    ensures |r| == |picked|
    ensures forall t :: 0 <= t < |picked| ==> r[t] == Split(vacs[picked[t].v], ints[picked[t].a], ints[picked[t].b])
  {
    seq(|picked|, t requires 0 <= t < |picked| => Split(vacs[picked[t].v], ints[picked[t].a], ints[picked[t].b]))
  }

  /** What identifySplitInterstitials returns, given the lists it matched through. */
  ghost predicate SplitOutcome(s: SplitDefects, vacs: seq<int>, ints: seq<int>, vacNebs: seq<seq<int>>, nearest: seq<int>)
    requires ListsOk(vacNebs, |nearest|) && |vacNebs| == |vacs| && |nearest| == |ints|
  {
    MarkedUpTo(s.marks, vacNebs, nearest, |vacs|)
    && s.splits == SplitsOf(s.marks.picked, vacs, ints)
    && s.vacancies == Select(vacs, Negate(s.marks.vacSplit))
    && s.interstitials == Select(ints, Negate(s.marks.intSplit))
    && |s.vacancies| + |s.splits| == |vacs|
    && |s.interstitials| + 2 * |s.splits| == |ints|
  }

  /**
   * The body of identifySplitInterstitials once the neighbour lists exist:
   * mark the splits, store them, compact both arrays and run the count
   * check, which always passes.
   */
  method SplitWithLists(vacs: seq<int>, ints: seq<int>, vacNebs: seq<seq<int>>, nearest: seq<int>) returns (r: Result<SplitDefects>)
    requires ListsOk(vacNebs, |nearest|) && |vacNebs| == |vacs| && |nearest| == |ints|
    ensures r.Ok? && SplitOutcome(r.value, vacs, ints, vacNebs, nearest)
  {
    var m := MarkSplits(vacNebs, nearest);
    assert forall t :: 0 <= t < |m.picked| ==> PickedOk(m.picked[t], nearest, vacNebs, |vacNebs|, |nearest|);
    var splits := SplitsOf(m.picked, vacs, ints);
    var newVacs := Select(vacs, Negate(m.vacSplit));
    var newInts := Select(ints, Negate(m.intSplit));
    CountTrueComplement(m.vacSplit);
    CountTrueComplement(m.intSplit);
    if |ints| != |newInts| + 2 * |splits| {
      return Err(7);
    }
    r := Ok(SplitDefects(newVacs, newInts, splits, m));
  }

  /** The squared cut-off of both neighbour searches: twice the vacancy radius. */
  function SplitSep2(vacancyRadius: real): (r: real)
    ensures r >= 0.0
  {
    var maxSep := 2.0 * vacancyRadius;
    SquareNonNegative(maxSep);
    maxSep * maxSep
  }

  /** The head of each list, or -1 for an empty one: each interstitial's nearest vacancy. */
  function Heads(lists: seq<seq<int>>): (r: seq<int>)
    ensures |r| == |lists|
    ensures forall k :: 0 <= k < |lists| ==> r[k] == (if |lists[k]| > 0 then lists[k][0] else -1)
  {
    seq(|lists|, k requires 0 <= k < |lists| => if |lists[k]| > 0 then lists[k][0] else -1)
  }

  /**
   * The neighbour lists identifySplitInterstitials builds with the spatial
   * decomposition: for every vacancy, the interstitials within the cut-off,
   * nearest first; for every interstitial, the vacancies within it.
   */
  ghost predicate SplitListsOk(vacNebs: seq<seq<int>>, intNebs: seq<seq<int>>, vacs: seq<int>, ints: seq<int>,
                               pos: seq<Vec3>, refPos: seq<Vec3>, c: Cell, vacancyRadius: real)
    requires AllIndices(vacs, |refPos|) && AllIndices(ints, |pos|) && WellFormed(c)
  {
    var vp := Pick(refPos, vacs);
    var ip := Pick(pos, ints);
    |vacNebs| == |vacs| && |intNebs| == |ints|
    && (forall i :: 0 <= i < |vacs| ==> IsNeighbourList(vacNebs[i], vp[i], ip, SplitSep2(vacancyRadius), c))
    && (forall k :: 0 <= k < |ints| ==> IsNeighbourList(intNebs[k], ip[k], vp, SplitSep2(vacancyRadius), c))
  }

  /** The lists the whole-configuration scan produces qualify. */
  lemma NeighbourListsQualify(vacs: seq<int>, ints: seq<int>, pos: seq<Vec3>, refPos: seq<Vec3>, c: Cell, vacancyRadius: real)
    requires AllIndices(vacs, |refPos|) && AllIndices(ints, |pos|) && WellFormed(c)
    ensures var vp := Pick(refPos, vacs);
      var ip := Pick(pos, ints);
      SplitListsOk(NeighbourLists(vp, ip, SplitSep2(vacancyRadius), c), NeighbourLists(ip, vp, SplitSep2(vacancyRadius), c),
                   vacs, ints, pos, refPos, c, vacancyRadius)
  {
    var vp := Pick(refPos, vacs);
    var ip := Pick(pos, ints);
    var m := SplitSep2(vacancyRadius);
    forall i | 0 <= i < |vacs|
      ensures IsNeighbourList(NeighbourLists(vp, ip, m, c)[i], vp[i], ip, m, c)
    {
      NeighbourListSpec(vp[i], ip, m, c);
    }
    forall k | 0 <= k < |ints|
      ensures IsNeighbourList(NeighbourLists(ip, vp, m, c)[k], ip[k], vp, m, c)
    {
      NeighbourListSpec(ip[k], vp, m, c);
    }
  }

  /**
   * identifySplitInterstitials, given its two families of neighbour lists:
   * a vacancy becomes a split when two interstitials of its list have it
   * as the head of theirs.
   */
  method IdentifySplitInterstitials(vacs: seq<int>, ints: seq<int>, pos: seq<Vec3>, refPos: seq<Vec3>, c: Cell, vacancyRadius: real,
                                    vacNebs: seq<seq<int>>, intNebs: seq<seq<int>>)
    returns (r: Result<SplitDefects>)
    requires AllIndices(vacs, |refPos|) && AllIndices(ints, |pos|) && WellFormed(c)
    requires SplitListsOk(vacNebs, intNebs, vacs, ints, pos, refPos, c, vacancyRadius)
    ensures r.Ok? && ListsOk(vacNebs, |ints|)
    ensures SplitOutcome(r.value, vacs, ints, vacNebs, Heads(intNebs))
  {
    var nearest := Heads(intNebs);
    assert ListsOk(vacNebs, |nearest|);
    r := SplitWithLists(vacs, ints, vacNebs, nearest);
  }

  /** A split is made of one of the given vacancies and two of the given interstitials. */
  lemma SplitMembers(s: SplitDefects, vacs: seq<int>, ints: seq<int>, vacNebs: seq<seq<int>>, nearest: seq<int>)
    requires ListsOk(vacNebs, |nearest|) && |vacNebs| == |vacs| && |nearest| == |ints|
    requires SplitOutcome(s, vacs, ints, vacNebs, nearest)
    ensures |s.marks.vacSplit| == |vacs| && |s.marks.intSplit| == |ints|
    ensures forall t :: 0 <= t < |s.splits| ==> s.splits[t].vacancy in vacs && s.splits[t].int1 in ints && s.splits[t].int2 in ints
  {
    forall t | 0 <= t < |s.splits|
      ensures s.splits[t].vacancy in vacs && s.splits[t].int1 in ints && s.splits[t].int2 in ints
    {
      assert PickedOk(s.marks.picked[t], nearest, vacNebs, |vacs|, |ints|);
    }
  }

  /** Two splits share no vacancy and no interstitial. */
  predicate Disjoint(p: SplitPos, q: SplitPos)
  {
    p.v != q.v && p.a != q.a && p.a != q.b && p.b != q.a && p.b != q.b
  }

  /** No input entry ends up in two splits. */
  lemma SplitsDisjoint(s: SplitDefects, vacs: seq<int>, ints: seq<int>, vacNebs: seq<seq<int>>, nearest: seq<int>)
    requires ListsOk(vacNebs, |nearest|) && |vacNebs| == |vacs| && |nearest| == |ints|
    requires SplitOutcome(s, vacs, ints, vacNebs, nearest)
    ensures forall t1, t2 :: 0 <= t1 < t2 < |s.marks.picked| ==> Disjoint(s.marks.picked[t1], s.marks.picked[t2])
  {
    var pk := s.marks.picked;
    forall t1, t2 | 0 <= t1 < t2 < |pk|
      ensures Disjoint(pk[t1], pk[t2])
    {
      assert PickedOk(pk[t1], nearest, vacNebs, |vacNebs|, |nearest|);
      assert PickedOk(pk[t2], nearest, vacNebs, |vacNebs|, |nearest|);
      assert pk[t1].v < pk[t2].v;
    }
  }

  /**
   * Geometry of a split: both interstitials lie strictly within twice the
   * vacancy radius of the vacancy's site, and that vacancy is as near to
   * each of them as any vacancy within the cut-off.
   */
  lemma SplitGeometry(s: SplitDefects, vacs: seq<int>, ints: seq<int>, pos: seq<Vec3>, refPos: seq<Vec3>, c: Cell, vacancyRadius: real,
                      vacNebs: seq<seq<int>>, intNebs: seq<seq<int>>, t: int, w: int)
    requires AllIndices(vacs, |refPos|) && AllIndices(ints, |pos|) && WellFormed(c)
    requires SplitListsOk(vacNebs, intNebs, vacs, ints, pos, refPos, c, vacancyRadius)
    requires ListsOk(vacNebs, |ints|)
    requires SplitOutcome(s, vacs, ints, vacNebs, Heads(intNebs))
    requires 0 <= t < |s.marks.picked| && 0 <= w < |vacs|
    ensures var p := s.marks.picked[t];
      Sep2(refPos[vacs[p.v]], pos[ints[p.a]], c) < SplitSep2(vacancyRadius)
      && Sep2(refPos[vacs[p.v]], pos[ints[p.b]], c) < SplitSep2(vacancyRadius)
    ensures var p := s.marks.picked[t];
      (Sep2(pos[ints[p.a]], refPos[vacs[w]], c) < SplitSep2(vacancyRadius) ==>
         Sep2(pos[ints[p.a]], refPos[vacs[p.v]], c) <= Sep2(pos[ints[p.a]], refPos[vacs[w]], c))
    ensures var p := s.marks.picked[t];
      (Sep2(pos[ints[p.b]], refPos[vacs[w]], c) < SplitSep2(vacancyRadius) ==>
         Sep2(pos[ints[p.b]], refPos[vacs[p.v]], c) <= Sep2(pos[ints[p.b]], refPos[vacs[w]], c))
  {
    var p := s.marks.picked[t];
    var vp := Pick(refPos, vacs);
    var ip := Pick(pos, ints);
    var nearest := Heads(intNebs);
    assert PickedOk(p, nearest, vacNebs, |vacNebs|, |nearest|);
    assert IsNeighbourList(vacNebs[p.v], vp[p.v], ip, SplitSep2(vacancyRadius), c);
    assert IsNeighbourList(intNebs[p.a], ip[p.a], vp, SplitSep2(vacancyRadius), c);
    if Sep2(pos[ints[p.a]], refPos[vacs[w]], c) < SplitSep2(vacancyRadius) {
      HeadIsNearest(intNebs[p.a], ip[p.a], vp, SplitSep2(vacancyRadius), c, w);
    }
    assert IsNeighbourList(intNebs[p.b], ip[p.b], vp, SplitSep2(vacancyRadius), c);
    if Sep2(pos[ints[p.b]], refPos[vacs[w]], c) < SplitSep2(vacancyRadius) {
      HeadIsNearest(intNebs[p.b], ip[p.b], vp, SplitSep2(vacancyRadius), c, w);
    }
  }
}

=== FILE: filter_driver.dfy ===
/*
 * The Python filter driver (src/filtering.py): the visible-atom list a
 * filter list starts from and threads through its filters in list order,
 * the species index arrays handed to the native filters, the
 * first-appearance mapping from native cluster ids to cluster lists, and
 * the periodic-image bookkeeping of the convex-hull drawing.
 *
 * The native filters (crop, energies, charge, displacement, clustering) are
 * not part of this model; each is represented by its per-atom verdict, and
 * the model keeps the visible atoms the verdict accepts, in order, which is
 * what every native filter does to the visible array it is handed.
 */
module FilterDriver {
  import opened Base

  // ---------------------------------------------------------------------
  // Species index arrays

  /** The species part of a Specie or Point defects filter's settings. */
  datatype SpeciesSelection = SpeciesSelection(allSpeciesSelected: bool, visibleSpecieList: seq<Symbol>)

  /** Species s of the list is shown under the selection. */
  predicate Shown(specieList: seq<Symbol>, sel: SpeciesSelection, s: int)
    requires 0 <= s < |specieList|
  {
    sel.allSpeciesSelected || specieList[s] in sel.visibleSpecieList
  }

  function ShownMask(specieList: seq<Symbol>, sel: SpeciesSelection): (m: seq<bool>)
    ensures |m| == |specieList|
    ensures forall s :: 0 <= s < |specieList| ==> (m[s] <==> Shown(specieList, sel, s))
  {
    seq(|specieList|, s requires 0 <= s < |specieList| => Shown(specieList, sel, s))
  }

  /**
   * filterSpecie's visSpecArray: every species index when all species are
   * selected, otherwise the ascending indices whose symbol is in the
   * visible list.
   */
  function VisibleSpecies(specieList: seq<Symbol>, sel: SpeciesSelection): (r: seq<int>)
    ensures StrictlyIncreasing(r) && AllIndices(r, |specieList|)
    ensures forall s :: 0 <= s < |specieList| ==> (s in r <==> Shown(specieList, sel, s))
    ensures sel.allSpeciesSelected ==> |r| == |specieList|
  {
    if sel.allSpeciesSelected then
      var r := Range(|specieList|);
      assert forall s :: 0 <= s < |specieList| ==> s in r by {
        forall s | 0 <= s < |specieList|
          ensures s in r
        {
          assert r[s] == s;
        }
      }
      r
    else
      IndicesWhereSpec(ShownMask(specieList, sel));
      IndicesWhere(ShownMask(specieList, sel))
  }

  /**
   * pointDefectFilter's excluded-species array for one lattice: empty when
   * all species are selected, otherwise the ascending indices whose symbol
   * is not in the visible list.
   */
  function ExcludedSpecies(specieList: seq<Symbol>, sel: SpeciesSelection): (r: seq<int>)
    ensures StrictlyIncreasing(r) && AllIndices(r, |specieList|)
    ensures forall s :: 0 <= s < |specieList| ==> (s in r <==> !Shown(specieList, sel, s))
  {
    if sel.allSpeciesSelected then
      []
    else
      IndicesWhereSpec(Negate(ShownMask(specieList, sel)));
      IndicesWhere(Negate(ShownMask(specieList, sel)))
  }

  /**
   * The visible and excluded arrays split the species of a lattice between
   * them: every species index is in exactly one, so their lengths add up.
   */
  lemma SpeciesPartition(specieList: seq<Symbol>, sel: SpeciesSelection)
    ensures |VisibleSpecies(specieList, sel)| + |ExcludedSpecies(specieList, sel)| == |specieList|
    ensures forall s :: 0 <= s < |specieList| ==>
              (s in VisibleSpecies(specieList, sel) <==> s !in ExcludedSpecies(specieList, sel))
  {
    if !sel.allSpeciesSelected {
      CountTrueComplement(ShownMask(specieList, sel));
    }
  }

  // ---------------------------------------------------------------------
  // runFilters

  /** One entry of a filter list: its name and the settings the driver reads. */
  datatype Filter = Filter(
    name: string,
    sel: SpeciesSelection,    // Specie
    accept: seq<bool>)        // per input atom: the native filter's verdict

  /** The filters whose native routine compacts the visible array by a per-atom test. */
  const NativeTests: set<string> := {"Crop", "Kinetic energy", "Potential energy", "Charge", "Cluster"}

  /** What the driver reads of the loaded lattices. */
  datatype Inputs = Inputs(input: Lattice, refNAtoms: nat)
  {
    predicate Valid() { input.Valid() }
    function NAtoms(): nat { input.NAtoms() }
  }

  /** A filter that consults a native verdict carries one per input atom. */
  predicate Shaped(f: Filter, n: nat)
  {
    (f.name in NativeTests || f.name == "Displacement") ==> |f.accept| == n
  }

  /** The visible atoms whose atom passes, in visible-array order. */
  function KeepWhere(visible: seq<int>, pass: seq<bool>): (r: seq<int>)
    requires AllIndices(visible, |pass|)
    ensures |r| <= |visible| && AllIndices(r, |pass|)
    ensures forall a :: a in r <==> a in visible && 0 <= a < |pass| && pass[a]
    ensures StrictlyIncreasing(visible) ==> StrictlyIncreasing(r)
  {
    var mask := seq(|visible|, k requires 0 <= k < |visible| => pass[visible[k]]);
    var r := Select(visible, mask);
    assert forall a :: a in r <==> a in visible && 0 <= a < |pass| && pass[a] by {
      forall a
        ensures a in r <==> a in visible && 0 <= a < |pass| && pass[a]
      {
        SelectMembership(visible, mask, a);
      }
    }
    assert AllIndices(r, |pass|) by {
      forall k | 0 <= k < |r|
        ensures 0 <= r[k] < |pass|
      {
        assert r[k] in r;
      }
    }
    if StrictlyIncreasing(visible) then SelectIncreasing(visible, mask); r else r
  }

  /** The atoms of the input lattice whose species is shown. */
  function SpeciesPass(inp: Inputs, sel: SpeciesSelection): (pass: seq<bool>)
    requires inp.Valid()
    ensures |pass| == inp.NAtoms()
    ensures forall a :: 0 <= a < inp.NAtoms() ==> (pass[a] <==> Shown(inp.input.specieList, sel, inp.input.specie[a]))
  {
    var vis := VisibleSpecies(inp.input.specieList, sel);
    seq(inp.NAtoms(), a requires 0 <= a < inp.NAtoms() => inp.input.specie[a] in vis)
  }

  /**
   * Whether input atom a gets past filter f: its species is shown for
   * Specie; the counts agree and the verdict accepts it for Displacement;
   * the verdict accepts it for a native test; any other filter lets it by.
   */
  predicate Keeps(inp: Inputs, f: Filter, a: int)
    requires inp.Valid() && Shaped(f, inp.NAtoms()) && 0 <= a < inp.NAtoms()
  {
    if f.name == "Specie" then Shown(inp.input.specieList, f.sel, inp.input.specie[a])
    else if f.name == "Displacement" then inp.NAtoms() == inp.refNAtoms && f.accept[a]
    else if f.name in NativeTests then f.accept[a]
    else true
  }

  /** Atom a gets past every filter of the list. */
  predicate KeptByAll(inp: Inputs, filters: seq<Filter>, a: int)
    requires inp.Valid() && AllShaped(filters, inp.NAtoms()) && 0 <= a < inp.NAtoms()
  {
    forall k :: 0 <= k < |filters| ==> Keeps(inp, filters[k], a)
  }

  /**
   * One filter of runFilters' dispatch. Specie keeps the visible atoms of a
   * shown species; Displacement empties the visible list when the input and
   * reference atom counts differ; the native tests keep the atoms they
   * accept; Point defects and any name the dispatch does not know leave the
   * visible list alone.
   */
  function ApplyFilter(inp: Inputs, f: Filter, visible: seq<int>): (r: seq<int>)
    requires inp.Valid() && Shaped(f, inp.NAtoms()) && AllIndices(visible, inp.NAtoms())
    ensures |r| <= |visible| && AllIndices(r, inp.NAtoms())
    ensures forall a :: a in r ==> a in visible
    ensures StrictlyIncreasing(visible) ==> StrictlyIncreasing(r)
    ensures f.name == "Specie" ==>
              forall a :: a in r <==> a in visible && Shown(inp.input.specieList, f.sel, inp.input.specie[a])
    ensures f.name == "Displacement" && inp.NAtoms() != inp.refNAtoms ==> r == []
    ensures (f.name in NativeTests || (f.name == "Displacement" && inp.NAtoms() == inp.refNAtoms)) ==>
              forall a :: a in r <==> a in visible && f.accept[a]
    ensures f.name != "Specie" && f.name != "Displacement" && f.name !in NativeTests ==> r == visible
    ensures forall a :: a in r <==> a in visible && 0 <= a < inp.NAtoms() && Keeps(inp, f, a)
  {
    if f.name == "Specie" then
      KeepWhere(visible, SpeciesPass(inp, f.sel))
    else if f.name == "Displacement" then
      if inp.NAtoms() != inp.refNAtoms then [] else KeepWhere(visible, f.accept)
    else if f.name in NativeTests then
      KeepWhere(visible, f.accept)
    else
      visible
  }

  predicate AllShaped(filters: seq<Filter>, n: nat)
  {
    forall k :: 0 <= k < |filters| ==> Shaped(filters[k], n)
  }

  /** The filters applied in list order to a visible list. */
  function RunFrom(inp: Inputs, visible: seq<int>, filters: seq<Filter>): (r: seq<int>)
    requires inp.Valid() && AllShaped(filters, inp.NAtoms()) && AllIndices(visible, inp.NAtoms())
    ensures |r| <= |visible| && AllIndices(r, inp.NAtoms())
    ensures forall a :: a in r ==> a in visible
    ensures StrictlyIncreasing(visible) ==> StrictlyIncreasing(r)
    ensures forall a :: a in r <==> a in visible && 0 <= a < inp.NAtoms() && KeptByAll(inp, filters, a)
    decreases |filters|
  {
    if |filters| == 0 then visible
    else
      AllShapedTail(filters, inp.NAtoms());
      KeptByAllStep(inp, filters);
      RunFrom(inp, ApplyFilter(inp, filters[0], visible), filters[1..])
  }

  lemma AllShapedTail(filters: seq<Filter>, n: nat)
    requires |filters| > 0 && AllShaped(filters, n)
    ensures Shaped(filters[0], n) && AllShaped(filters[1..], n)
  {
    assert forall k :: 0 <= k < |filters[1..]| ==> filters[1..][k] == filters[k + 1];
  }

  /** Getting past a list is getting past its first filter and then the rest. */
  lemma KeptByAllStep(inp: Inputs, filters: seq<Filter>)
    requires inp.Valid() && |filters| > 0 && AllShaped(filters, inp.NAtoms())
    ensures AllShaped(filters[1..], inp.NAtoms())
    ensures forall a :: 0 <= a < inp.NAtoms() ==>
              (KeptByAll(inp, filters, a) <==> Keeps(inp, filters[0], a) && KeptByAll(inp, filters[1..], a))
  {
    AllShapedTail(filters, inp.NAtoms());
    forall a | 0 <= a < inp.NAtoms()
      ensures KeptByAll(inp, filters, a) <==> Keeps(inp, filters[0], a) && KeptByAll(inp, filters[1..], a)
    {
      if Keeps(inp, filters[0], a) && KeptByAll(inp, filters[1..], a) {
        forall k | 0 <= k < |filters|
          ensures Keeps(inp, filters[k], a)
        {
          if k > 0 {
            assert filters[1..][k - 1] == filters[k];
          }
        }
      }
      if KeptByAll(inp, filters, a) {
        forall k | 0 <= k < |filters[1..]|
          ensures Keeps(inp, filters[1..][k], a)
        {
          assert filters[1..][k] == filters[k + 1];
        }
      }
    }
  }

  /**
   * runFilters: without a point-defect filter the visible list starts as
   * every input atom; a defect filter list keeps the list it has. Either
   * way the filters run in list order, and the result only ever loses
   * atoms: from a fresh start it is an ascending list of input atoms.
   */
  function RunFilters(inp: Inputs, defectFilterSelected: bool, prior: seq<int>, filters: seq<Filter>): (r: seq<int>)
    requires inp.Valid() && AllShaped(filters, inp.NAtoms())
    requires defectFilterSelected ==> AllIndices(prior, inp.NAtoms())
    ensures AllIndices(r, inp.NAtoms())
    ensures !defectFilterSelected ==> StrictlyIncreasing(r) && |r| <= inp.NAtoms()
    ensures defectFilterSelected ==> forall a :: a in r ==> a in prior
    ensures forall a :: a in r <==>
              0 <= a < inp.NAtoms() && (defectFilterSelected ==> a in prior) && KeptByAll(inp, filters, a)
  {
    var start := if defectFilterSelected then prior else Range(inp.NAtoms());
    assert !defectFilterSelected ==> forall a :: 0 <= a < inp.NAtoms() ==> a in start by {
      if !defectFilterSelected {
        forall a | 0 <= a < inp.NAtoms()
          ensures a in start
        {
          assert start[a] == a;
        }
      }
    }
    RunFrom(inp, start, filters)
  }

  /** Running a list is running its first part, then its second on the result. */
  lemma {:induction false} RunFromAppend(inp: Inputs, visible: seq<int>, a: seq<Filter>, b: seq<Filter>)
    requires inp.Valid() && AllShaped(a, inp.NAtoms()) && AllShaped(b, inp.NAtoms())
    requires AllIndices(visible, inp.NAtoms())
    ensures AllShaped(a + b, inp.NAtoms())
    ensures RunFrom(inp, visible, a + b) == RunFrom(inp, RunFrom(inp, visible, a), b)
    decreases |a|
  {
    assert AllShaped(a + b, inp.NAtoms()) by {
      forall k | 0 <= k < |a + b|
        ensures Shaped((a + b)[k], inp.NAtoms())
      {
        if k < |a| {
          assert (a + b)[k] == a[k];
        } else {
          assert (a + b)[k] == b[k - |a|];
        }
      }
    }
    if |a| > 0 {
      assert (a + b)[1..] == a[1..] + b;
      assert AllShaped(a[1..], inp.NAtoms()) by {
        forall k | 0 <= k < |a[1..]|
          ensures Shaped(a[1..][k], inp.NAtoms())
        {
          assert a[1..][k] == a[k + 1];
        }
      }
      RunFromAppend(inp, ApplyFilter(inp, a[0], visible), a[1..], b);
    } else {
      assert a + b == b;
    }
  }

  /**
   * With differing input and reference atom counts, a filter list holding
   * a displacement filter shows nothing.
   */
  lemma DisplacementMismatch(inp: Inputs, visible: seq<int>, a: seq<Filter>, d: Filter, b: seq<Filter>)
    requires inp.Valid() && AllShaped(a, inp.NAtoms()) && AllShaped(b, inp.NAtoms()) && Shaped(d, inp.NAtoms())
    requires AllIndices(visible, inp.NAtoms())
    requires d.name == "Displacement" && inp.NAtoms() != inp.refNAtoms
    ensures AllShaped(a + [d] + b, inp.NAtoms())
    ensures RunFrom(inp, visible, a + [d] + b) == []
  {
    assert AllShaped([d] + b, inp.NAtoms()) by {
      forall k | 0 <= k < |[d] + b|
        ensures Shaped(([d] + b)[k], inp.NAtoms())
      {
        if k > 0 {
          assert ([d] + b)[k] == b[k - 1];
        }
      }
    }
    RunFromAppend(inp, visible, a, [d] + b);
    assert a + [d] + b == a + ([d] + b);
    assert ([d] + b)[1..] == b;
  }

  // ---------------------------------------------------------------------
  // Cluster lists

  /** The entries that carry id v. */
  function Carrying(ids: seq<int>, v: int): (m: seq<bool>)
    ensures |m| == |ids|
    ensures forall i :: 0 <= i < |ids| ==> (m[i] <==> ids[i] == v)
  {
    seq(|ids|, i requires 0 <= i < |ids| => ids[i] == v)
  }

  function SumLengths(lists: seq<seq<int>>): nat
  {
    if |lists| == 0 then 0 else SumLengths(lists[..|lists| - 1]) + |lists[|lists| - 1]|
  }

  /** Appending one atom to one list adds one to the total. */
  lemma {:induction false} SumLengthsAppend(lists: seq<seq<int>>, k: int, a: int)
    requires 0 <= k < |lists|
    ensures SumLengths(lists[k := lists[k] + [a]]) == SumLengths(lists) + 1
  {
    var n := |lists| - 1;
    if k < n {
      SumLengthsAppend(lists[..n], k, a);
      assert lists[k := lists[k] + [a]][..n] == lists[..n][k := lists[..n][k] + [a]];
    } else {
      assert lists[k := lists[k] + [a]][..n] == lists[..n];
    }
  }

  function EmptyLists(n: nat): (r: seq<seq<int>>)
    ensures |r| == n && forall k :: 0 <= k < n ==> r[k] == []
  {
    seq(n, k => [])
  }

  lemma {:induction false} SumLengthsEmpty(n: nat)
    ensures SumLengths(EmptyLists(n)) == 0
  {
    if n > 0 {
      SumLengthsEmpty(n - 1);
      assert EmptyLists(n)[..n - 1] == EmptyLists(n - 1);
    }
  }

  /** One more entry extends the selection of exactly the list its id maps to. */
  lemma CarryingStep(atoms: seq<int>, ids: seq<int>, i: int, v: int)
    requires |atoms| == |ids| && 0 <= i < |ids|
    ensures Select(atoms[..i + 1], Carrying(ids[..i + 1], v))
         == Select(atoms[..i], Carrying(ids[..i], v)) + (if ids[i] == v then [atoms[i]] else [])
  {
    assert atoms[..i + 1] == atoms[..i] + [atoms[i]];
    assert Carrying(ids[..i + 1], v) == Carrying(ids[..i], v) + [ids[i] == v];
    SelectAppend(atoms[..i], Carrying(ids[..i], v), atoms[i], ids[i] == v);
  }

  /**
   * After the first i entries, list k holds the atoms carrying the k-th id
   * to appear, and the lists no id has reached yet are empty.
   */
  ghost predicate Collected(atoms: seq<int>, ids: seq<int>, i: int, lists: seq<seq<int>>)
    requires |atoms| == |ids| && 0 <= i <= |ids|
  {
    var order := FirstAppearance(ids[..i]);
    && |order| <= |lists|
    && (forall k :: 0 <= k < |order| ==> lists[k] == Select(atoms[..i], Carrying(ids[..i], order[k])))
    && (forall k :: |order| <= k < |lists| ==> lists[k] == [])
  }

  /** Appending entry i to the list of its id keeps the lists collected. */
  lemma CollectStep(atoms: seq<int>, ids: seq<int>, i: int, lists: seq<seq<int>>, slot: int)
    requires |atoms| == |ids| && 0 <= i < |ids| && Collected(atoms, ids, i, lists)
    requires 0 <= slot < |FirstAppearance(ids[..i + 1])| <= |lists|
    requires FirstAppearance(ids[..i + 1])[slot] == ids[i]
    ensures Collected(atoms, ids, i + 1, lists[slot := lists[slot] + [atoms[i]]])
  {
    var order, order' := FirstAppearance(ids[..i]), FirstAppearance(ids[..i + 1]);
    FirstAppearanceStep(ids, i);
    var lists' := lists[slot := lists[slot] + [atoms[i]]];
    forall k | 0 <= k < |order'|
      ensures lists'[k] == Select(atoms[..i + 1], Carrying(ids[..i + 1], order'[k]))
    {
      CarryingStep(atoms, ids, i, order'[k]);
      if k == |order| {
        assert order'[k] == ids[i] && ids[i] !in ids[..i];
        CountTrueNone(Carrying(ids[..i], ids[i]));
      }
    }
  }

  /**
   * The cluster-list building of clusterFilter: the k-th list collects, in
   * visible order, the atoms whose native cluster id is the k-th to appear.
   * There are nClusters lists; an id appearing when all of them are taken
   * fails the list lookup (an IndexError), which is None here.
   */
  method ClusterLists(atoms: seq<int>, ids: seq<int>, nClusters: nat) returns (r: Option<seq<seq<int>>>)
    requires |atoms| == |ids|
    ensures r.None? <==> |FirstAppearance(ids)| > nClusters
    ensures r.Some? ==> |r.value| == nClusters && SumLengths(r.value) == |atoms|
    ensures r.Some? ==> forall k :: 0 <= k < |FirstAppearance(ids)| ==>
              r.value[k] == Select(atoms, Carrying(ids, FirstAppearance(ids)[k]))
    ensures r.Some? ==> forall k :: |FirstAppearance(ids)| <= k < nClusters ==> r.value[k] == []
  {
    var lists := EmptyLists(nClusters);
    var mapper: map<int, int> := map[];
    var count := 0;
    var i := 0;
    ListingStart(atoms, ids, nClusters);
    while i < |atoms|
      invariant Listing(atoms, ids, nClusters, i, lists, mapper, count)
    {
      var ok;
      ok, lists, mapper, count := CollectOne(atoms, ids, nClusters, i, lists, mapper, count);
      if !ok {
        return None;
      }
      i := i + 1;
    }
    ListingDone(atoms, ids, nClusters, lists, mapper, count);
    r := Some(lists);
  }

  /** The state of the loop of clusterFilter after i atoms. */
  ghost predicate Listing(atoms: seq<int>, ids: seq<int>, nClusters: nat, i: int, lists: seq<seq<int>>,
                          mapper: map<int, int>, count: int)
  {
    && |atoms| == |ids| && 0 <= i <= |atoms| && |lists| == nClusters
    && count == |FirstAppearance(ids[..i])| <= nClusters
    && MapsOrder(mapper, FirstAppearance(ids[..i]))
    && Collected(atoms, ids, i, lists)
    && SumLengths(lists) == i
  }

  /** One atom of the loop: map its id to a list, a fresh one when the id is new, and append the atom. */
  method CollectOne(atoms: seq<int>, ids: seq<int>, nClusters: nat, i: int, lists: seq<seq<int>>,
                    mapper: map<int, int>, count: int)
    returns (ok: bool, lists': seq<seq<int>>, mapper': map<int, int>, count': int)
    requires Listing(atoms, ids, nClusters, i, lists, mapper, count) && i < |atoms|
    ensures ok ==> Listing(atoms, ids, nClusters, i + 1, lists', mapper', count')
    ensures !ok ==> |FirstAppearance(ids)| > nClusters
  {
    var c := ids[i];
    ghost var order, order' := FirstAppearance(ids[..i]), FirstAppearance(ids[..i + 1]);
    FirstAppearanceStep(ids, i);
    mapper', count' := mapper, count;
    if c !in mapper {
      assert c !in ids[..i] && order' == order + [c];
      if count == nClusters {
        FirstAppearancePrefix(ids, i + 1);
        return false, lists, mapper, count;
      }
      MapsOrderExtend(mapper, order, c);
      mapper' := mapper[c := count];
      count' := count + 1;
    } else {
      assert c in ids[..i] && order' == order;
    }
    assert MapsOrder(mapper', order') && count' == |order'|;
    var slot := mapper'[c];
    SumLengthsAppend(lists, slot, atoms[i]);
    CollectStep(atoms, ids, i, lists, slot);
    lists' := lists[slot := lists[slot] + [atoms[i]]];
    ok := true;
    ListingNext(atoms, ids, nClusters, i, lists', mapper', count');
  }

  /** The step's facts, gathered into the loop's state after atom i. */
  lemma ListingNext(atoms: seq<int>, ids: seq<int>, nClusters: nat, i: int, lists: seq<seq<int>>,
                    mapper: map<int, int>, count: int)
    requires |atoms| == |ids| && 0 <= i < |atoms| && |lists| == nClusters
    requires count == |FirstAppearance(ids[..i + 1])| <= nClusters
    requires MapsOrder(mapper, FirstAppearance(ids[..i + 1]))
    requires Collected(atoms, ids, i + 1, lists)
    requires SumLengths(lists) == i + 1
    ensures Listing(atoms, ids, nClusters, i + 1, lists, mapper, count)
  {
  }

  lemma ListingStart(atoms: seq<int>, ids: seq<int>, nClusters: nat)
    requires |atoms| == |ids|
    ensures Listing(atoms, ids, nClusters, 0, EmptyLists(nClusters), map[], 0)
  {
    SumLengthsEmpty(nClusters);
    assert ids[..0] == [] && atoms[..0] == [];
  }

  /** After the last atom the lists are the collected ones over all of them. */
  lemma ListingDone(atoms: seq<int>, ids: seq<int>, nClusters: nat, lists: seq<seq<int>>, mapper: map<int, int>, count: int)
    requires Listing(atoms, ids, nClusters, |atoms|, lists, mapper, count)
    ensures |FirstAppearance(ids)| <= nClusters && |lists| == nClusters && SumLengths(lists) == |atoms|
    ensures forall k :: 0 <= k < |FirstAppearance(ids)| ==> lists[k] == Select(atoms, Carrying(ids, FirstAppearance(ids)[k]))
    ensures forall k :: |FirstAppearance(ids)| <= k < nClusters ==> lists[k] == []
  {
    TakeAll(ids);
    TakeAll(atoms);
  }

  /** The cluster lists pointDefectFilter returns, with the defect-type letters filed under each cluster id. */
  datatype DefectListing = DefectListing(clusters: seq<seq<int>>, defectType: seq<seq<string>>)

  /** Every id is a valid Python index of a list of n entries, negative ones counting from the end. */
  predicate IdsIndexable(ids: seq<int>, n: int)
  {
    forall i :: 0 <= i < |ids| ==> -n <= ids[i] < n
  }

  /** The entry a valid Python index picks out of a list of n entries. */
  function PyIndex(id: int, n: int): (k: int)
    requires -n <= id < n
    ensures 0 <= k < n && (k == id || k == id + n)
  {
    if id < 0 then id + n else id
  }

  function PyIndices(ids: seq<int>, n: int): (r: seq<int>)
    requires IdsIndexable(ids, n)
    ensures |r| == |ids| && forall i :: 0 <= i < |ids| ==> r[i] == PyIndex(ids[i], n)
  {
    seq(|ids|, i requires 0 <= i < |ids| => PyIndex(ids[i], n))
  }

  /** The letter of each defect in list order: "R" for vacancies and antisites, "I" for interstitials. */
  function TypeLetters(nVac: nat, nInt: nat, nAnt: nat): (r: seq<string>)
    ensures |r| == nVac + nInt + nAnt
    ensures forall i :: 0 <= i < |r| ==> r[i] == (if nVac <= i < nVac + nInt then "I" else "R")
  {
    seq(nVac + nInt + nAnt, i => if nVac <= i < nVac + nInt then "I" else "R")
  }

  /** defectType: list k holds, in defect order, the letters of the defects whose id indexes entry k. */
  function DefectTypes(letters: seq<string>, ids: seq<int>, n: nat): (r: seq<seq<string>>)
    requires |letters| == |ids| && IdsIndexable(ids, n)
    ensures |r| == n && forall k :: 0 <= k < n ==> r[k] == Select(letters, Carrying(PyIndices(ids, n), k))
  {
    seq(n, k requires 0 <= k < n => Select(letters, Carrying(PyIndices(ids, n), k)))
  }

  /**
   * pointDefectFilter's cluster lists: one shared mapping over the
   * vacancies, then the interstitials, then the antisites, each defect
   * reading its id at its place in that order. Beside its cluster list each
   * defect's letter is appended to defectType[id], indexed by the raw id:
   * an id that is no valid index of the nClusters entries raises an
   * IndexError, as does an id appearing when all lists are taken; both are
   * None here.
   */
  method DefectClusterLists(vacancies: seq<int>, interstitials: seq<int>, antisites: seq<int>,
                            defectCluster: seq<int>, nClusters: nat)
    returns (r: Option<DefectListing>)
    requires |vacancies| + |interstitials| + |antisites| <= |defectCluster|
    ensures var atoms := vacancies + interstitials + antisites;
            var ids := defectCluster[..|atoms|];
            && (r.None? <==> |FirstAppearance(ids)| > nClusters || !IdsIndexable(ids, nClusters))
            && (r.Some? ==> |r.value.clusters| == nClusters && SumLengths(r.value.clusters) == |atoms|)
            && (r.Some? ==> forall k :: 0 <= k < |FirstAppearance(ids)| ==>
                  r.value.clusters[k] == Select(atoms, Carrying(ids, FirstAppearance(ids)[k])))
            && (r.Some? ==> |r.value.defectType| == nClusters)
            && (r.Some? ==> forall k :: 0 <= k < nClusters ==>
                  r.value.defectType[k]
                  == Select(TypeLetters(|vacancies|, |interstitials|, |antisites|), Carrying(PyIndices(ids, nClusters), k)))
  {
    var atoms := vacancies + interstitials + antisites;
    var ids := defectCluster[..|atoms|];
    var lists := ClusterLists(atoms, ids, nClusters);
    if lists.None? || !IdsIndexable(ids, nClusters) {
      r := None;
    } else {
      r := Some(DefectListing(lists.value, DefectTypes(TypeLetters(|vacancies|, |interstitials|, |antisites|), ids, nClusters)));
    }
  }

  // ---------------------------------------------------------------------
  // Periodic images of a cluster (convex-hull drawing)

  /** The axes of appliedPBCs flag i: 0 x, 1 y, 2 z, 3 xy, 4 xz, 5 yz, 6 xyz. */
  function FlagAxes(i: int): (r: seq<bool>)
    requires 0 <= i < 7
    ensures |r| == 3 && (r[0] || r[1] || r[2])
  {
    [i == 0 || i == 3 || i == 4 || i == 6,
     i == 1 || i == 3 || i == 5 || i == 6,
     i == 2 || i == 4 || i == 5 || i == 6]
  }

  /** The smallest coordinate of a non-empty cluster along axis a. */
  function MinCoord(pos: seq<Vec3>, a: int): (m: real)
    requires |pos| > 0 && 0 <= a < 3
    ensures forall k :: 0 <= k < |pos| ==> m <= pos[k].Get(a)
    ensures exists k :: 0 <= k < |pos| && m == pos[k].Get(a)
  {
    if |pos| == 1 then pos[0].Get(a)
    else
      var n := |pos| - 1;
      var m := MinCoord(pos[..n], a);
      assert forall k :: 0 <= k < n ==> pos[..n][k] == pos[k];
      if pos[n].Get(a) < m then pos[n].Get(a) else m
  }

  /** Two clusters that agree along axis a have the same minimum there. */
  lemma MinCoordSame(p: seq<Vec3>, q: seq<Vec3>, a: int)
    requires |p| == |q| > 0 && 0 <= a < 3
    requires forall k :: 0 <= k < |p| ==> p[k].Get(a) == q[k].Get(a)
    ensures MinCoord(p, a) == MinCoord(q, a)
  {
    var i :| 0 <= i < |p| && MinCoord(p, a) == p[i].Get(a);
    var j :| 0 <= j < |q| && MinCoord(q, a) == q[j].Get(a);
  }

  /** The shift applyPBCsToCluster gives axis a: up a cell if anything is below 0, else down. */
  function AxisShift(pos: seq<Vec3>, a: int, dims: Vec3): real
    requires |pos| > 0 && 0 <= a < 3
  {
    if MinCoord(pos, a) < 0.0 then dims.Get(a) else -dims.Get(a)
  }

  /**
   * The whole-cell move of a cluster along the given axes: each axis moves
   * by its own shift, computed from the cluster's minimum on that axis.
   */
  function ShiftFor(pos: seq<Vec3>, axes: seq<bool>, dims: Vec3): (d: Vec3)
    requires |pos| > 0 && |axes| == 3
  {
    Vec3(if axes[0] then AxisShift(pos, 0, dims) else 0.0,
         if axes[1] then AxisShift(pos, 1, dims) else 0.0,
         if axes[2] then AxisShift(pos, 2, dims) else 0.0)
  }

  /** A move of d along axis a alone. */
  function Along(a: int, d: real): (v: Vec3)
    requires 0 <= a < 3
  {
    if a == 0 then Vec3(d, 0.0, 0.0) else if a == 1 then Vec3(0.0, d, 0.0) else Vec3(0.0, 0.0, d)
  }

  /** One axis of applyPBCsToCluster, when the flag covers it, applied to every atom. */
  function WrapAxis(pos: seq<Vec3>, a: int, on: bool, dims: Vec3): (r: seq<Vec3>)
    requires |pos| > 0 && 0 <= a < 3
    ensures |r| == |pos|
    ensures forall k :: 0 <= k < |pos| ==> r[k] == pos[k].Plus(Along(a, if on then AxisShift(pos, a, dims) else 0.0))
  {
    var d := Along(a, if on then AxisShift(pos, a, dims) else 0.0);
    seq(|pos|, k requires 0 <= k < |pos| => pos[k].Plus(d))
  }

  /** Moving one axis leaves the minima of the other two alone. */
  lemma WrapAxisKeepsOthers(pos: seq<Vec3>, a: int, on: bool, dims: Vec3, b: int)
    requires |pos| > 0 && 0 <= a < 3 && 0 <= b < 3 && a != b
    ensures AxisShift(WrapAxis(pos, a, on, dims), b, dims) == AxisShift(pos, b, dims)
  {
    MinCoordSame(WrapAxis(pos, a, on, dims), pos, b);
  }

  /**
   * The axes of a flag wrapped one after another in the order x, y, z, each
   * by the minimum the cluster has on that axis when its turn comes; moving
   * one axis leaves the others' minima alone, so the result is one rigid
   * move by the shifts of the original cluster.
   */
  function WrapAxes(pos: seq<Vec3>, axes: seq<bool>, dims: Vec3): (r: seq<Vec3>)
    requires |pos| > 0 && |axes| == 3
    ensures |r| == |pos|
    ensures forall k :: 0 <= k < |pos| ==> r[k] == pos[k].Plus(ShiftFor(pos, axes, dims))
  {
    WrapAxesShift(pos, axes, dims);
    WrapAxis(WrapAxis(WrapAxis(pos, 0, axes[0], dims), 1, axes[1], dims), 2, axes[2], dims)
  }

  /** Three single-axis moves add up to one move by their components. */
  lemma PlusAlongs(p: Vec3, s0: real, s1: real, s2: real)
    ensures p.Plus(Along(0, s0)).Plus(Along(1, s1)).Plus(Along(2, s2)) == p.Plus(Vec3(s0, s1, s2))
  {
  }

  /** The x, y, z passes of WrapAxes together move every atom by ShiftFor of the original cluster. */
  lemma WrapAxesShift(pos: seq<Vec3>, axes: seq<bool>, dims: Vec3)
    requires |pos| > 0 && |axes| == 3
    ensures var pz := WrapAxis(WrapAxis(WrapAxis(pos, 0, axes[0], dims), 1, axes[1], dims), 2, axes[2], dims);
            forall k :: 0 <= k < |pos| ==> pz[k] == pos[k].Plus(ShiftFor(pos, axes, dims))
  {
    var px := WrapAxis(pos, 0, axes[0], dims);
    var py := WrapAxis(px, 1, axes[1], dims);
    var pz := WrapAxis(py, 2, axes[2], dims);
    WrapAxisKeepsOthers(pos, 0, axes[0], dims, 1);
    WrapAxisKeepsOthers(pos, 0, axes[0], dims, 2);
    WrapAxisKeepsOthers(px, 1, axes[1], dims, 2);
    var s0 := if axes[0] then AxisShift(pos, 0, dims) else 0.0;
    var s1 := if axes[1] then AxisShift(px, 1, dims) else 0.0;
    var s2 := if axes[2] then AxisShift(py, 2, dims) else 0.0;
    assert ShiftFor(pos, axes, dims) == Vec3(s0, s1, s2);
    forall k | 0 <= k < |pos|
      ensures pz[k] == pos[k].Plus(ShiftFor(pos, axes, dims))
    {
      assert px[k] == pos[k].Plus(Along(0, s0));
      assert py[k] == px[k].Plus(Along(1, s1));
      assert pz[k] == py[k].Plus(Along(2, s2));
      PlusAlongs(pos[k], s0, s1, s2);
    }
  }

  /** The first flag that is set, or the number of flags when none is. */
  function LowestFlag(flags: seq<int>): (i: int)
    ensures 0 <= i <= |flags|
    ensures forall j :: 0 <= j < i ==> flags[j] == 0
    ensures i < |flags| ==> flags[i] != 0
    decreases |flags|
  {
    if |flags| == 0 then 0
    else if flags[0] != 0 then 0
    else 1 + LowestFlag(flags[1..])
  }

  datatype Applied = Applied(pos: seq<Vec3>, flags: seq<int>)

  /**
   * applyPBCsToCluster: only the lowest set flag is handled and cleared;
   * every atom moves by a whole cell along that flag's axes and nowhere
   * else, and the other flags are left for later rounds.
   */
  function ApplyPbcsToCluster(pos: seq<Vec3>, dims: Vec3, flags: seq<int>): (r: Applied)
    requires |pos| > 0 && |flags| == 7
    ensures LowestFlag(flags) == 7 ==> r == Applied(pos, flags)
    ensures LowestFlag(flags) < 7 ==> r.flags == flags[LowestFlag(flags) := 0]
    ensures |r.pos| == |pos|
    ensures LowestFlag(flags) < 7 ==>
              forall k :: 0 <= k < |pos| ==> r.pos[k] == pos[k].Plus(ShiftFor(pos, FlagAxes(LowestFlag(flags)), dims))
  {
    var i := LowestFlag(flags);
    if i == 7 then Applied(pos, flags)
    else Applied(WrapAxes(pos, FlagAxes(i), dims), flags[i := 0])
  }

  /** Handling a flag moves the cluster rigidly: every separation inside it is kept. */
  lemma ApplyKeepsShape(pos: seq<Vec3>, dims: Vec3, flags: seq<int>, k: int, m: int)
    requires |pos| > 0 && |flags| == 7 && 0 <= k < |pos| && 0 <= m < |pos|
    ensures var r := ApplyPbcsToCluster(pos, dims, flags).pos;
            r[k].Minus(r[m]) == pos[k].Minus(pos[m])
  {
  }

  /** The set flags from index j on, in ascending order. */
  function SetFlagsFrom(flags: seq<int>, j: int): (r: seq<int>)
    requires 0 <= j <= |flags|
    ensures |r| <= |flags| - j
    ensures forall t :: 0 <= t < |r| ==> j <= r[t] < |flags| && flags[r[t]] != 0
    decreases |flags| - j
  {
    if j == |flags| then []
    else (if flags[j] != 0 then [j] else []) + SetFlagsFrom(flags, j + 1)
  }

  /** Skipping clear flags: the set flags from j start at the first set one. */
  lemma {:induction false} SetFlagsSkip(flags: seq<int>, j: int, i: int)
    requires 0 <= j <= i < |flags| && flags[i] != 0
    requires forall t :: j <= t < i ==> flags[t] == 0
    ensures SetFlagsFrom(flags, j) == [i] + SetFlagsFrom(flags, i + 1)
    decreases i - j
  {
    if j < i {
      SetFlagsSkip(flags, j + 1, i);
    }
  }

  /** No set flag from j on. */
  lemma {:induction false} SetFlagsNone(flags: seq<int>, j: int)
    requires 0 <= j <= |flags|
    requires forall t :: j <= t < |flags| ==> flags[t] == 0
    ensures SetFlagsFrom(flags, j) == []
    decreases |flags| - j
  {
    if j < |flags| {
      SetFlagsNone(flags, j + 1);
    }
  }

  predicate AnyPositive(flags: seq<int>)
  {
    exists j :: 0 <= j < |flags| && flags[j] > 0
  }

  /** Round t is the cluster moved along the axes of flag done[t]. */
  ghost predicate RoundsMatch(pos: seq<Vec3>, dims: Vec3, rounds: seq<seq<Vec3>>, done: seq<int>)
  {
    && |pos| > 0 && |rounds| == |done|
    && (forall t :: 0 <= t < |done| ==> 0 <= done[t] < 7)
    && (forall t :: 0 <= t < |rounds| ==> rounds[t] == WrapAxes(pos, FlagAxes(done[t]), dims))
  }

  /** The flags below b are cleared, the rest are as given. */
  predicate ClearedBelow(fl: seq<int>, flags: seq<int>, b: int)
  {
    && |fl| == |flags| && 0 <= b <= |flags|
    && (forall j :: 0 <= j < b ==> fl[j] == 0)
    && (forall j :: b <= j < |flags| ==> fl[j] == flags[j])
  }

  /** One round handles the first set flag at or after b and clears it. */
  lemma FlagStep(flags: seq<int>, fl: seq<int>, b: int, done: seq<int>)
    requires |flags| == 7 && ClearedBelow(fl, flags, b) && AnyPositive(fl)
    requires SetFlagsFrom(flags, 0) == done + SetFlagsFrom(flags, b)
    ensures var i := LowestFlag(fl);
            && b <= i < 7
            && ClearedBelow(fl[i := 0], flags, i + 1)
            && SetFlagsFrom(flags, 0) == (done + [i]) + SetFlagsFrom(flags, i + 1)
  {
    var i := LowestFlag(fl);
    var j :| 0 <= j < |fl| && fl[j] > 0;
    assert i <= j;
    assert fl[i] != 0;
    assert b <= i;
    forall t | b <= t < i
      ensures flags[t] == 0
    {
      assert fl[t] == 0;
    }
    SetFlagsSkip(flags, b, i);
    ClearedNext(fl, flags, b, i);
    AppendAssoc(done, [i], SetFlagsFrom(flags, i + 1));
  }

  /** Clearing the lowest set flag at or after b leaves everything up to it cleared. */
  lemma ClearedNext(fl: seq<int>, flags: seq<int>, b: int, i: int)
    requires ClearedBelow(fl, flags, b) && b <= i < |fl|
    requires forall t :: 0 <= t < i ==> fl[t] == 0
    ensures ClearedBelow(fl[i := 0], flags, i + 1)
  {
  }

  lemma RoundsAppend(pos: seq<Vec3>, dims: Vec3, rounds: seq<seq<Vec3>>, done: seq<int>, i: int, p: seq<Vec3>)
    requires RoundsMatch(pos, dims, rounds, done) && 0 <= i < 7
    requires p == WrapAxes(pos, FlagAxes(i), dims)
    ensures RoundsMatch(pos, dims, rounds + [p], done + [i])
  {
    var rounds', done' := rounds + [p], done + [i];
    forall t | 0 <= t < |rounds'|
      ensures 0 <= done'[t] < 7 && rounds'[t] == WrapAxes(pos, FlagAxes(done'[t]), dims)
    {
      if t < |rounds| {
        assert rounds'[t] == rounds[t] && done'[t] == done[t];
      }
    }
  }

  /**
   * The periodic rounds of clusterFilterDrawHullsWithPBCs for one cluster
   * of more than one atom: while some flag is positive, a fresh copy of the
   * cluster is moved by the lowest set flag, which is then cleared. Round t
   * is the cluster moved along the axes of the t-th set flag alone, so
   * there are at most seven rounds, one per set flag when no flag is
   * negative.
   */
  method UnwrapRounds(pos: seq<Vec3>, dims: Vec3, flags: seq<int>) returns (rounds: seq<seq<Vec3>>)
    requires |flags| == 7
    ensures |pos| <= 1 ==> rounds == []
    ensures |rounds| <= |SetFlagsFrom(flags, 0)| <= 7
    ensures |pos| > 1 && (forall j :: 0 <= j < 7 ==> flags[j] >= 0) ==> |rounds| == |SetFlagsFrom(flags, 0)|
    ensures forall t :: 0 <= t < |rounds| ==>
              |pos| > 0 && rounds[t] == WrapAxes(pos, FlagAxes(SetFlagsFrom(flags, 0)[t]), dims)
  {
    rounds := [];
    if |pos| <= 1 {
      return;
    }
    var fl := flags;
    ghost var b := 0;
    ghost var done: seq<int> := [];
    while AnyPositive(fl)
      invariant ClearedBelow(fl, flags, b)
      invariant SetFlagsFrom(flags, 0) == done + SetFlagsFrom(flags, b)
      invariant RoundsMatch(pos, dims, rounds, done)
      decreases 7 - b
    {
      FlagStep(flags, fl, b, done);
      var i := LowestFlag(fl);
      var tmp := pos;
      var applied := ApplyPbcsToCluster(tmp, dims, fl);
      assert applied == Applied(WrapAxes(pos, FlagAxes(i), dims), fl[i := 0]);
      RoundsAppend(pos, dims, rounds, done, i, applied.pos);
      rounds := rounds + [applied.pos];
      fl := applied.flags;
      done := done + [i];
      b := i + 1;
    }
    if forall j :: 0 <= j < 7 ==> flags[j] >= 0 {
      SetFlagsNone(flags, b);
    }
  }

  // ---------------------------------------------------------------------
  // Facets

  /** A hull facet: the three cluster-atom indices of a triangle (qconvex output). */
  type Facet = seq<int>

  predicate FacetIndexed(f: Facet, n: int)
  {
    |f| >= 3 && 0 <= f[0] < n && 0 <= f[1] < n && 0 <= f[2] < n
  }

  /**
   * A facet near the cell: on every periodic axis, each of its vertices
   * lies within r of the cell, ends included.
   */
  predicate FacetInside(f: Facet, pos: seq<Vec3>, r: real, pbc: seq<int>, dims: Vec3)
    requires FacetIndexed(f, |pos|) && |pbc| == 3
  {
    forall v, j :: 0 <= v < 3 && 0 <= j < 3 && pbc[j] != 0 ==>
      -r <= pos[f[v]].Get(j) <= dims.Get(j) + r
  }

  function InsideMask(facets: seq<Facet>, pos: seq<Vec3>, r: real, pbc: seq<int>, dims: Vec3): (m: seq<bool>)
    requires |pbc| == 3 && forall k :: 0 <= k < |facets| ==> FacetIndexed(facets[k], |pos|)
    ensures |m| == |facets|
    ensures forall k :: 0 <= k < |facets| ==> (m[k] <==> FacetInside(facets[k], pos, r, pbc, dims))
  {
    seq(|facets|, k requires 0 <= k < |facets| => FacetInside(facets[k], pos, r, pbc, dims))
  }

  /** The inner loops of checkFacetsPBCs for one facet, stopping at the first vertex out of range. */
  method FacetNearCell(facet: Facet, pos: seq<Vec3>, excludeRadius: real, pbc: seq<int>, dims: Vec3)
    returns (keep: bool)
    requires |pbc| == 3 && FacetIndexed(facet, |pos|)
    ensures keep <==> FacetInside(facet, pos, excludeRadius, pbc, dims)
  {
    keep := true;
    var i := 0;
    while i < 3 && keep
      invariant 0 <= i <= 3
      invariant keep ==> forall v, j :: 0 <= v < i && 0 <= j < 3 && pbc[j] != 0 ==>
                  -excludeRadius <= pos[facet[v]].Get(j) <= dims.Get(j) + excludeRadius
      invariant !keep ==> !FacetInside(facet, pos, excludeRadius, pbc, dims)
    {
      var index := facet[i];
      var j := 0;
      while j < 3 && keep
        invariant 0 <= j <= 3
        invariant keep ==> forall j' :: 0 <= j' < j && pbc[j'] != 0 ==>
                    -excludeRadius <= pos[index].Get(j') <= dims.Get(j') + excludeRadius
        invariant !keep ==> !FacetInside(facet, pos, excludeRadius, pbc, dims)
      {
        if pbc[j] != 0 {
          var x := pos[index].Get(j);
          if x > dims.Get(j) + excludeRadius || x < 0.0 - excludeRadius {
            keep := false;
          }
        }
        j := j + 1;
      }
      i := i + 1;
    }
  }

  /**
   * checkFacetsPBCs: the facets near the cell, in their original order; a
   * vertex coordinate beyond the cell by more than the radius on a
   * periodic axis drops the facet.
   */
  method CheckFacetsPbcs(facetsIn: seq<Facet>, pos: seq<Vec3>, excludeRadius: real, pbc: seq<int>, dims: Vec3)
    returns (facets: seq<Facet>)
    requires |pbc| == 3 && forall k :: 0 <= k < |facetsIn| ==> FacetIndexed(facetsIn[k], |pos|)
    ensures facets == Select(facetsIn, InsideMask(facetsIn, pos, excludeRadius, pbc, dims))
    ensures forall k :: 0 <= k < |facetsIn| ==>
              (facetsIn[k] in facets <==> FacetInside(facetsIn[k], pos, excludeRadius, pbc, dims))
  {
    var mask := InsideMask(facetsIn, pos, excludeRadius, pbc, dims);
    facets := [];
    for k := 0 to |facetsIn|
      invariant facets == Select(facetsIn[..k], mask[..k])
    {
      facets := CheckFacet(facetsIn, pos, excludeRadius, pbc, dims, k, facets);
    }
    TakeAll(facetsIn);
    TakeAll(mask);
    KeptFacets(facetsIn, pos, excludeRadius, pbc, dims);
  }

  /** One turn of the loop of checkFacetsPBCs: facet k is appended when it lies near the cell. */
  method CheckFacet(facetsIn: seq<Facet>, pos: seq<Vec3>, excludeRadius: real, pbc: seq<int>, dims: Vec3,
                    k: int, facets: seq<Facet>)
    returns (facets': seq<Facet>)
    requires |pbc| == 3 && forall k :: 0 <= k < |facetsIn| ==> FacetIndexed(facetsIn[k], |pos|)
    requires 0 <= k < |facetsIn|
    requires facets == Select(facetsIn[..k], InsideMask(facetsIn, pos, excludeRadius, pbc, dims)[..k])
    ensures facets' == Select(facetsIn[..k + 1], InsideMask(facetsIn, pos, excludeRadius, pbc, dims)[..k + 1])
  {
    var facet := facetsIn[k];
    var keep := FacetNearCell(facet, pos, excludeRadius, pbc, dims);
    SelectNext(facetsIn, InsideMask(facetsIn, pos, excludeRadius, pbc, dims), k);
    facets' := if keep then facets + [facet] else facets;
  }

  /** A facet survives the periodic check exactly when it lies near the cell, copies included. */
  lemma KeptFacets(facetsIn: seq<Facet>, pos: seq<Vec3>, excludeRadius: real, pbc: seq<int>, dims: Vec3)
    requires |pbc| == 3 && forall k :: 0 <= k < |facetsIn| ==> FacetIndexed(facetsIn[k], |pos|)
    ensures var facets := Select(facetsIn, InsideMask(facetsIn, pos, excludeRadius, pbc, dims));
            forall k :: 0 <= k < |facetsIn| ==>
              (facetsIn[k] in facets <==> FacetInside(facetsIn[k], pos, excludeRadius, pbc, dims))
  {
    var mask := InsideMask(facetsIn, pos, excludeRadius, pbc, dims);
    var facets := Select(facetsIn, mask);
    forall k | 0 <= k < |facetsIn|
      ensures facetsIn[k] in facets <==> mask[k]
    {
      SelectMembership(facetsIn, mask, facetsIn[k]);
      if facetsIn[k] in facets {
        var i :| 0 <= i < |facetsIn| && mask[i] && facetsIn[i] == facetsIn[k];
      }
    }
  }

  /**
   * The facets a cluster is drawn with before the periodic check: a
   * triangle for three atoms, nothing for two or fewer, the hull for more.
   */
  function ClusterFacets(n: nat, hull: seq<Facet>): (r: Option<seq<Facet>>)
    requires n > 3 ==> forall k :: 0 <= k < |hull| ==> FacetIndexed(hull[k], n)
    ensures r.Some? <==> n >= 3
    ensures r.Some? ==> forall k :: 0 <= k < |r.value| ==> FacetIndexed(r.value[k], n)
    ensures n == 3 ==> r == Some([[0, 1, 2]])
  {
    if n > 3 then Some(hull)
    else if n == 3 then Some([[0, 1, 2]])
    else None
  }
}

=== FILE: filter_form.dfy ===
/*
 * The container of filter lists (CDJSVis/gui/filterForm.py): one tab per
 * list, adding and removing lists, running every list that is not frozen,
 * and gathering the atoms any list shows.
 */
module FilterForm {
  import opened Base
  import FilterList

  /** A list with the atoms its filterer last left visible. */
  datatype Tab = Tab(list: FilterList.State, visible: seq<int>)

  datatype Form = Form(
    filterLists: seq<Tab>,
    visAtomsList: seq<seq<int>>,
    filterListCount: int,
    tabLabels: seq<int>,      // the text of each tab, as a number
    currentIndex: int)        // the selected tab

  /** The bookkeeping the form keeps: the arrays in step with the count, and tab i labelled i. */
  predicate Consistent(f: Form)
  {
    && |f.filterLists| == f.filterListCount && |f.visAtomsList| == f.filterListCount && |f.tabLabels| == f.filterListCount
    && (forall i :: 0 <= i < |f.tabLabels| ==> f.tabLabels[i] == i)
  }

  function Empty(): (f: Form)
    ensures Consistent(f)
  {
    Form([], [], 0, [], -1)
  }

  /**
   * addFilterList: a new empty list is appended, with an empty visible
   * array, a tab labelled with the old count, which becomes the selected tab.
   */
  function AddFilterList(f: Form): (r: Form)
    ensures r.filterListCount == f.filterListCount + 1 && r.currentIndex == f.filterListCount
    ensures r.filterLists == f.filterLists + [Tab(FilterList.Initial(), [])]
    ensures r.visAtomsList == f.visAtomsList + [[]]
    ensures Consistent(f) ==> Consistent(r)
  {
    Form(f.filterLists + [Tab(FilterList.Initial(), [])], f.visAtomsList + [[]], f.filterListCount + 1,
         f.tabLabels + [f.filterListCount], f.filterListCount)
  }

  function RemoveAt<T>(s: seq<T>, k: int): (r: seq<T>)
    requires 0 <= k < |s|
    ensures |r| == |s| - 1
    ensures forall i :: 0 <= i < |r| ==> r[i] == if i < k then s[i] else s[i + 1]
  {
    s[..k] + s[k + 1..]
  }

  /**
   * The form once removeFilterList has got past clearList: the selected
   * list, its visible array and its tab go, and the tabs after it are
   * relabelled one lower. The tab bar then selects the tab that moved into
   * the removed one's place, or the last tab when the removed one was last
   * (the tab bar's default on removal).
   */
  function Removed(f: Form): (r: Form)
    requires Consistent(f) && 1 < f.filterListCount && 0 <= f.currentIndex < f.filterListCount
    ensures r.filterListCount == f.filterListCount - 1
    ensures r.filterLists == RemoveAt(f.filterLists, f.currentIndex)
    ensures r.visAtomsList == RemoveAt(f.visAtomsList, f.currentIndex)
    ensures r.currentIndex == (if f.currentIndex < r.filterListCount then f.currentIndex else r.filterListCount - 1)
    ensures Consistent(r)
  {
    var k := f.currentIndex;
    var relabelled := seq(f.filterListCount, i requires 0 <= i < f.filterListCount =>
                            if i > k then i - 1 else f.tabLabels[i]);
    Form(RemoveAt(f.filterLists, k), RemoveAt(f.visAtomsList, k), f.filterListCount - 1,
         RemoveAt(relabelled, k), if k < f.filterListCount - 1 then k else f.filterListCount - 2)
  }

  /**
   * removeFilterList: never below one list (Ignored); otherwise the selected
   * list is cleared first, and when that raises (an item without a settings
   * form, NoForm) nothing is removed; else the selected list goes as in
   * Removed.
   */
  function RemoveFilterList(f: Form): (r: (Form, FilterList.Outcome))
    requires Consistent(f)
    requires f.filterListCount > 1 ==> 0 <= f.currentIndex < f.filterListCount
    ensures r.1 == FilterList.Ignored <==> f.filterListCount <= 1
    ensures r.1 == FilterList.NoForm <==>
              f.filterListCount > 1 && !FilterList.AllFormed(f.filterLists[f.currentIndex].list.items)
    ensures r.1 == FilterList.Done <==>
              f.filterListCount > 1 && FilterList.AllFormed(f.filterLists[f.currentIndex].list.items)
    ensures r.1 != FilterList.Done ==> r.0 == f
    ensures r.1 == FilterList.Done ==>
              && r.0.filterListCount == f.filterListCount - 1
              && r.0.filterLists == RemoveAt(f.filterLists, f.currentIndex)
              && r.0.visAtomsList == RemoveAt(f.visAtomsList, f.currentIndex)
              && r.0.currentIndex == (if f.currentIndex < r.0.filterListCount then f.currentIndex else r.0.filterListCount - 1)
    ensures Consistent(r.0)
    ensures r.0.filterListCount >= 1 || r.0.filterListCount == f.filterListCount
    ensures r.0.filterListCount > 1 ==> 0 <= r.0.currentIndex < r.0.filterListCount
  {
    if f.filterListCount <= 1 then (f, FilterList.Ignored)
    else if FilterList.ClearList(f.filterLists[f.currentIndex].list).1 == FilterList.NoForm then (f, FilterList.NoForm)
    else (Removed(f), FilterList.Done)
  }

  /** The list at position i of the form after its clearList (unchanged when that raises). */
  function ClearTab(f: Form, i: int): (r: Form)
    requires 0 <= i < |f.filterLists|
    ensures |r.filterLists| == |f.filterLists| && r.filterLists[i].list == FilterList.ClearList(f.filterLists[i].list).0
    ensures forall j :: 0 <= j < |f.filterLists| && j != i ==> r.filterLists[j] == f.filterLists[j]
    ensures r.visAtomsList == f.visAtomsList && r.filterListCount == f.filterListCount
    ensures r.tabLabels == f.tabLabels && r.currentIndex == f.currentIndex
  {
    var t := f.filterLists[i];
    f.(filterLists := f.filterLists[i := t.(list := FilterList.ClearList(t.list).0)])
  }

  /**
   * clearAllFilterLists, as written: the for loop walks the lists by
   * position while removeFilterList shortens them under it, so it stops
   * once its position reaches the shrinking length. Step i clears the list
   * now at position i and removes the selected one. From n > 1 lists, n / 2
   * are left, and not every one of them need be cleared. A clearList that
   * raises (an item without a settings form), whether the loop's own or the
   * one removeFilterList makes on the selected list, ends the call there.
   */
  function ClearAllFilterLists(f: Form): (r: Form)
    requires Consistent(f)
    requires f.filterListCount > 1 ==> 0 <= f.currentIndex < f.filterListCount
    ensures Consistent(r)
    ensures AllTabsFormed(f.filterLists) ==>
              r.filterListCount == if f.filterListCount <= 1 then f.filterListCount else f.filterListCount / 2
    ensures f.filterListCount >= 1 && !FilterList.AllFormed(f.filterLists[0].list.items) ==> r == f
    ensures f.filterListCount > 1 && FilterList.AllFormed(f.filterLists[0].list.items)
            && f.currentIndex != 0 && !FilterList.AllFormed(f.filterLists[f.currentIndex].list.items)
            ==> r == ClearTab(f, 0)
    ensures f.filterListCount == 1 ==> r.filterLists == [f.filterLists[0].(list := FilterList.ClearList(f.filterLists[0].list).0)]
  {
    ClearFrom(f, 0)
  }

  /** Every item of every list carries a settings form. */
  predicate AllTabsFormed(tabs: seq<Tab>)
  {
    forall j :: 0 <= j < |tabs| ==> FilterList.AllFormed(tabs[j].list.items)
  }

  /** The loop of clearAllFilterLists from position i on, over c lists: each step removes one while more than one is left. */
  function ClearFrom(f: Form, i: nat): (r: Form)
    requires Consistent(f)
    requires f.filterListCount > 1 ==> 0 <= f.currentIndex < f.filterListCount
    ensures Consistent(r)
    ensures var c := f.filterListCount;
            AllTabsFormed(f.filterLists) ==>
              r.filterListCount == if c <= 1 || i >= c then c else c - (c - i + 1) / 2
    ensures i < |f.filterLists| && !FilterList.AllFormed(f.filterLists[i].list.items) ==> r == f
    ensures i < |f.filterLists| && FilterList.AllFormed(f.filterLists[i].list.items)
            && f.filterListCount > 1 && f.currentIndex != i && !FilterList.AllFormed(f.filterLists[f.currentIndex].list.items)
            ==> r == ClearTab(f, i)
    ensures f.filterListCount == 1 && i == 0 ==> r.filterLists == [f.filterLists[0].(list := FilterList.ClearList(f.filterLists[0].list).0)]
    decreases |f.filterLists| - i
  {
    if i >= |f.filterLists| then f
    else if FilterList.ClearList(f.filterLists[i].list).1 == FilterList.NoForm then f
    else
      var t := ClearTab(f, i);
      var step := RemoveFilterList(t);
      if step.1 == FilterList.NoForm then t
      else
        ClearFormedStep(f, i);
        ClearFrom(step.0, i + 1)
  }

  /** A step that clears list i keeps every list fully formed, so its removeFilterList does not raise. */
  lemma ClearFormedStep(f: Form, i: nat)
    requires Consistent(f) && i < |f.filterLists|
    requires f.filterListCount > 1 ==> 0 <= f.currentIndex < f.filterListCount
    requires FilterList.AllFormed(f.filterLists[i].list.items)
    ensures AllTabsFormed(f.filterLists) ==>
              && RemoveFilterList(ClearTab(f, i)).1 != FilterList.NoForm
              && AllTabsFormed(RemoveFilterList(ClearTab(f, i)).0.filterLists)
  {
    var t := ClearTab(f, i);
    assert AllTabsFormed(f.filterLists) ==> AllTabsFormed(t.filterLists);
  }

  /**
   * The loop leaves a list with filters: four lists, the first tab
   * selected, and filters only in the last list. Step 0 clears and removes
   * the first list; step 1 clears the third and removes the second; the
   * loop then stops with the third and the fourth, the fourth untouched.
   */
  lemma ClearAllLeavesFilters()
    ensures var empty := Tab(FilterList.Initial(), []);
            var full := Tab(FilterList.Initial().(items := [FilterList.Item("Specie", true)]), []);
            var f := Form([empty, empty, empty, full], [[], [], [], []], 4, [0, 1, 2, 3], 0);
            Consistent(f) && ClearAllFilterLists(f).filterListCount == 2
            && ClearAllFilterLists(f).filterLists[1] == full
  {
    var empty := Tab(FilterList.Initial(), []);
    var full := Tab(FilterList.Initial().(items := [FilterList.Item("Specie", true)]), []);
    var f := Form([empty, empty, empty, full], [[], [], [], []], 4, [0, 1, 2, 3], 0);
    var g1 := RemoveFilterList(ClearTab(f, 0)).0;
    assert g1.filterLists == [empty, empty, full] && g1.currentIndex == 0;
    var g2 := RemoveFilterList(ClearTab(g1, 1)).0;
    assert g2.filterLists == [ClearTab(g1, 1).filterLists[1], full];
    assert ClearFrom(g2, 2) == g2;
    assert ClearFrom(g1, 1) == g2;
    assert ClearFrom(f, 0) == ClearFrom(g1, 1);
  }

  /** Removing the selected list until one is left. */
  function RemoveDownToOne(f: Form): (r: Form)
    requires Consistent(f)
    requires f.filterListCount > 1 ==> 0 <= f.currentIndex < f.filterListCount
    ensures Consistent(r)
    ensures r.filterListCount == if f.filterListCount <= 1 then f.filterListCount else 1
    decreases f.filterListCount
  {
    if f.filterListCount <= 1 then f else RemoveDownToOne(Removed(f))
  }

  /**
   * clearAllFilterLists as its name and docstring promise: the lists go
   * until one is left, and every list left is cleared, items without a
   * settings form included.
   */
  function ClearAllFilterListsIntended(f: Form): (r: Form)
    requires Consistent(f)
    requires f.filterListCount > 1 ==> 0 <= f.currentIndex < f.filterListCount
    ensures Consistent(r)
    ensures r.filterListCount == if f.filterListCount == 0 then 0 else 1
    ensures forall i :: 0 <= i < |r.filterLists| ==>
              |r.filterLists[i].list.items| == 0 && !r.filterLists[i].list.frozen && !r.filterLists[i].list.defectFilterSelected
  {
    var g := RemoveDownToOne(f);
    g.(filterLists := seq(|g.filterLists|, i requires 0 <= i < |g.filterLists| =>
                          g.filterLists[i].(list := FilterList.Cleared(g.filterLists[i].list))))
  }

  /** The lists runAllFilterLists runs: every one not frozen, in order. */
  function ListsToRun(tabs: seq<Tab>): (r: seq<int>)
    ensures StrictlyIncreasing(r) && AllIndices(r, |tabs|)
    ensures forall i :: 0 <= i < |tabs| ==> (i in r <==> !tabs[i].list.frozen)
  {
    var mask := seq(|tabs|, i requires 0 <= i < |tabs| => !tabs[i].list.frozen);
    IndicesWhereSpec(mask);
    IndicesWhere(mask)
  }

  /**
   * runAllFilterLists, with what each list's filters would leave visible
   * given as results: a frozen list keeps what it shows, every other list
   * takes its new result.
   */
  function RunAllFilterLists(f: Form, results: seq<seq<int>>): (r: Form)
    requires |results| == |f.filterLists|
    ensures |r.filterLists| == |f.filterLists|
    ensures forall i :: 0 <= i < |f.filterLists| ==>
              r.filterLists[i].list == f.filterLists[i].list
              && r.filterLists[i].visible == if f.filterLists[i].list.frozen then f.filterLists[i].visible else results[i]
    ensures r.visAtomsList == f.visAtomsList && r.filterListCount == f.filterListCount && r.tabLabels == f.tabLabels
  {
    f.(filterLists := seq(|f.filterLists|, i requires 0 <= i < |f.filterLists| =>
         var t := f.filterLists[i];
         if t.list.frozen then t else t.(visible := results[i])))
  }

  // ---------------------------------------------------------------------
  // gatherVisibleAtoms

  /** Adding x to a strictly increasing sequence, keeping it so (numpy's unique, one value at a time). */
  function Insert(s: seq<int>, x: int): (r: seq<int>)
    requires StrictlyIncreasing(s)
    ensures StrictlyIncreasing(r)
    ensures forall y :: y in r <==> y in s || y == x
    decreases |s|
  {
    if |s| == 0 then [x]
    else if x < s[0] then [x] + s
    else if x == s[0] then s
    else
      var t := Insert(s[1..], x);
      assert forall y :: y in s[1..] ==> s[0] < y;
      assert s == [s[0]] + s[1..];
      ConsIncreasing(s[0], t);
      [s[0]] + t
  }

  /** A value below every element of a strictly increasing sequence can head it. */
  lemma ConsIncreasing(a: int, t: seq<int>)
    requires StrictlyIncreasing(t) && forall y :: y in t ==> a < y
    ensures StrictlyIncreasing([a] + t)
  {
    var r := [a] + t;
    forall i, j | 0 <= i < j < |r|
      ensures r[i] < r[j]
    {
      assert r[j] == t[j - 1] && r[j] in t;
      if i > 0 {
        assert r[i] == t[i - 1];
      }
    }
  }

  /** The values of a sequence sorted, without repeats. */
  function Unique(s: seq<int>): (r: seq<int>)
    ensures StrictlyIncreasing(r)
    ensures forall y :: y in r <==> y in s
  {
    if |s| == 0 then []
    else
      var n := |s| - 1;
      assert s == s[..n] + [s[n]];
      Insert(Unique(s[..n]), s[n])
  }

  function Concat(ss: seq<seq<int>>): (r: seq<int>)
    ensures forall y :: y in r <==> exists k :: 0 <= k < |ss| && y in ss[k]
  {
    if |ss| == 0 then []
    else
      var n := |ss| - 1;
      assert forall k :: 0 <= k < n ==> ss[..n][k] == ss[k];
      Concat(ss[..n]) + ss[n]
  }

  /**
   * gatherVisibleAtoms: the atoms some list shows, ascending and each once.
   * The form always holds a list; with none numpy would be handed None.
   */
  function GatherVisibleAtoms(f: Form): (r: seq<int>)
    requires |f.filterLists| > 0
    ensures StrictlyIncreasing(r) && Distinct(r)
    ensures forall a :: a in r <==> exists k :: 0 <= k < |f.filterLists| && a in f.filterLists[k].visible
  {
    var all := seq(|f.filterLists|, k requires 0 <= k < |f.filterLists| => f.filterLists[k].visible);
    var r := Unique(Concat(all));
    assert forall k :: 0 <= k < |all| ==> all[k] == f.filterLists[k].visible;
    StrictlyIncreasingDistinct(r);
    r
  }

  lemma StrictlyIncreasingDistinct(s: seq<int>)
    requires StrictlyIncreasing(s)
    ensures Distinct(s)
  {
  }

  /**
   * Starting from a single list, the form's bookkeeping stays consistent
   * and it never has fewer than one list, whatever adds and removals follow.
   */
  lemma AddRemoveKeepOne(f: Form, removeSelected: bool)
    requires Consistent(f) && f.filterListCount >= 1 && 0 <= f.currentIndex < f.filterListCount
    ensures var r := if removeSelected then RemoveFilterList(f).0 else AddFilterList(f);
            Consistent(r) && r.filterListCount >= 1 && 0 <= r.currentIndex < r.filterListCount
  {
  }

  /**
   * Removing the list just added, which is the selected one, gives back the
   * form's lists, arrays and tabs.
   */
  lemma AddThenRemove(f: Form)
    requires Consistent(f) && f.filterListCount >= 1
    ensures var (r, o) := RemoveFilterList(AddFilterList(f));
            o == FilterList.Done
            && r.filterLists == f.filterLists && r.visAtomsList == f.visAtomsList
            && r.filterListCount == f.filterListCount && r.tabLabels == f.tabLabels
  {
    var g := AddFilterList(f);
    var r := RemoveFilterList(g).0;
    assert r.filterLists == g.filterLists[..f.filterListCount];
    assert r.visAtomsList == g.visAtomsList[..f.filterListCount];
  }

  /** Two ascending sequences with the same members are equal: gatherVisibleAtoms has one answer. */
  lemma {:induction false} AscendingDetermined(a: seq<int>, b: seq<int>)
    requires StrictlyIncreasing(a) && StrictlyIncreasing(b)
    requires forall y :: y in a <==> y in b
    ensures a == b
    decreases |a|
  {
    assert |a| > 0 ==> a[0] in a;
    assert |b| > 0 ==> b[0] in b;
    if |a| > 0 && |b| > 0 {
      assert a[0] in b && b[0] in a;
      assert a[0] == b[0];
      forall y | y in a[1..]
        ensures y in b[1..]
      {
        assert y in b && y != b[0];
      }
      forall y | y in b[1..]
        ensures y in a[1..]
      {
        assert y in a && y != a[0];
      }
      AscendingDetermined(a[1..], b[1..]);
      assert a == [a[0]] + a[1..] && b == [b[0]] + b[1..];
    }
  }

  /** An ascending array is its own unique set of values. */
  lemma UniqueOfAscending(s: seq<int>)
    requires StrictlyIncreasing(s)
    ensures Unique(s) == s
  {
    AscendingDetermined(Unique(s), s);
  }
}

=== FILE: filter_list.dfy ===
/*
 * The list-and-flags logic of FilterList (CDJSVis/gui/filterList.py): the
 * ordered filter items, the point-defects flag that makes that filter
 * exclusive, the frozen ("static") and persistent buttons, the counter that
 * numbers new items, and the drift-compensation toggle. Widgets, dialogs and
 * actors are not part of this model.
 */
module FilterList {
  import opened Base

  /** The filters the quick-add box offers before any scalar filters are added. */
  const DefaultFilters: set<string> := {
    "Specie", "Point defects", "Crop box", "Cluster", "Displacement", "Charge", "Crop sphere", "Slice",
    "Coordination number", "Voronoi neighbours", "Voronoi volume", "Bond order", "Atom index", "ACNA"}

  /** An item of the list: its label and whether it carries a settings form. */
  datatype Item = Item(filterName: string, hasForm: bool)

  datatype State = State(
    items: seq<Item>,
    defectFilterSelected: bool,
    filterCounter: nat,
    frozen: bool,          // the freeze ("static list") button
    persistent: bool,      // the persistent button
    driftCompensation: bool)

  /** Every item carries a settings form. */
  predicate AllFormed(items: seq<Item>)
  {
    forall i :: 0 <= i < |items| ==> items[i].hasForm
  }

  /** A new filter list. */
  function Initial(): (s: State)
    ensures |s.items| == 0 && !s.defectFilterSelected && !s.frozen && s.filterCounter == 0
  {
    State([], false, 0, false, false, false)
  }

  /** What the context a list lives in supplies: its filters, its dialogs and the two atom counts. */
  datatype Context = Context(allFilters: set<string>, withDialog: set<string>, inputNAtoms: int, refNAtoms: int)

  /** How a request ended. */
  datatype Outcome =
    | Done
    | Frozen                 // "Cannot modify a frozen filter list"
    | Ignored                // no name, a name not on offer, an empty list or no row
    | DefectConflict         // the point-defects filter cannot share a list
    | DisplacementMismatch   // the input and reference atom counts differ
    | NoForm                 // an item without a settings form is touched: AttributeError on None

  // ---------------------------------------------------------------------
  // Labels

  /** "%s [%d]": the label of a new item. */
  function Label(filterName: string, counter: nat): (r: string)
    ensures StartsWith(r, filterName)
  {
    filterName + " [" + Decimal(counter) + "]"
  }

  function StartsWith(s: string, prefix: string): bool
  {
    |prefix| <= |s| && s[..|prefix|] == prefix
  }

  /** createSettingsForm: scalar filters always get a form, the others when a dialog of that name exists. */
  predicate FormFor(ctx: Context, filterName: string)
  {
    StartsWith(filterName, "Scalar: ") || filterName in ctx.withDialog
  }

  /** The counter after createSettingsForm: one up when a form is made. */
  function CounterAfterForm(ctx: Context, filterName: string, counter: nat): (c: nat)
    ensures c == counter || c == counter + 1
    ensures c == counter + 1 <==> FormFor(ctx, filterName)
  {
    if FormFor(ctx, filterName) then counter + 1 else counter
  }

  // ---------------------------------------------------------------------
  // The operations

  /**
   * addFilter: refused on a frozen list; ignored without a name on offer;
   * refused when the point-defects filter is in the list, when it is asked
   * for in a non-empty list, or when the displacement filter is asked for
   * with differing atom counts; otherwise the item "<name> [counter]" is
   * appended. Showing the form fails when none was made, after the item is
   * in the list and before the point-defects flag is set.
   */
  function AddFilter(s: State, ctx: Context, filterName: Option<string>): (r: (State, Outcome))
    ensures r.1 != Done && r.1 != NoForm ==> r.0 == s
    ensures s.frozen ==> r.1 == Frozen
    ensures r.1 == Done || r.1 == NoForm ==>
              && !s.frozen && filterName.Some? && filterName.value in ctx.allFilters && !s.defectFilterSelected
              && r.0.items == s.items + [Item(Label(filterName.value, s.filterCounter), r.1 == Done)]
              && r.0.filterCounter == CounterAfterForm(ctx, filterName.value, s.filterCounter)
              && r.0.defectFilterSelected == (r.1 == Done && filterName.value == "Point defects")
              && r.0.frozen == s.frozen && r.0.persistent == s.persistent && r.0.driftCompensation == s.driftCompensation
    ensures r.1 == Ignored <==> !s.frozen && (filterName.None? || filterName.value !in ctx.allFilters)
    ensures r.1 == DefectConflict <==>
              !s.frozen && filterName.Some? && filterName.value in ctx.allFilters
              && (s.defectFilterSelected || (|s.items| > 0 && filterName.value == "Point defects"))
    ensures r.1 == DisplacementMismatch <==>
              !s.frozen && filterName.Some? && filterName.value in ctx.allFilters && !DefectRefused(s, filterName.value)
              && filterName.value == "Displacement" && ctx.inputNAtoms != ctx.refNAtoms
    ensures r.1 == Done <==>
              !s.frozen && filterName.Some? && filterName.value in ctx.allFilters && !DefectRefused(s, filterName.value)
              && !(filterName.value == "Displacement" && ctx.inputNAtoms != ctx.refNAtoms) && FormFor(ctx, filterName.value)
    ensures r.1 == NoForm <==>
              !s.frozen && filterName.Some? && filterName.value in ctx.allFilters && !DefectRefused(s, filterName.value)
              && !(filterName.value == "Displacement" && ctx.inputNAtoms != ctx.refNAtoms) && !FormFor(ctx, filterName.value)
  {
    if s.frozen then (s, Frozen)
    else if filterName.None? || filterName.value !in ctx.allFilters then (s, Ignored)
    else
      var name := filterName.value;
      if s.defectFilterSelected then (s, DefectConflict)
      else if |s.items| > 0 && name == "Point defects" then (s, DefectConflict)
      else if name == "Displacement" && ctx.inputNAtoms != ctx.refNAtoms then (s, DisplacementMismatch)
      else
        var form := FormFor(ctx, name);
        var s' := s.(items := s.items + [Item(Label(name, s.filterCounter), form)],
                     filterCounter := CounterAfterForm(ctx, name, s.filterCounter));
        if !form then (s', NoForm)
        else (s'.(defectFilterSelected := s.defectFilterSelected || name == "Point defects"), Done)
  }

  /** The point-defects filter is in the list, or is asked for in a non-empty one. */
  predicate DefectRefused(s: State, filterName: string)
  {
    s.defectFilterSelected || (|s.items| > 0 && filterName == "Point defects")
  }

  /** quickAddComboAction: only a name on offer reaches addFilter. */
  function QuickAdd(s: State, ctx: Context, text: string): (r: (State, Outcome))
    ensures text !in ctx.allFilters ==> r == (s, Ignored)
    ensures text in ctx.allFilters ==> r == AddFilter(s, ctx, Some(text))
  {
    if text in ctx.allFilters then AddFilter(s, ctx, Some(text)) else (s, Ignored)
  }

  /**
   * removeFilter: refused on a frozen list, ignored on an empty list or a
   * negative row; otherwise the item at the row is taken out of the list,
   * and the point-defects flag is cleared when its label starts with
   * "Point defects". Closing the settings form of an item that has none
   * raises after the item is taken and before the flag is looked at.
   */
  function RemoveFilter(s: State, row: int): (r: (State, Outcome))
    requires |s.items| == 0 || row < |s.items|
    ensures r.1 != Done && r.1 != NoForm ==> r.0 == s
    ensures r.1 == Done <==> !s.frozen && |s.items| > 0 && row >= 0 && s.items[row].hasForm
    ensures r.1 == NoForm <==> !s.frozen && |s.items| > 0 && row >= 0 && !s.items[row].hasForm
    ensures r.1 == Done || r.1 == NoForm ==>
              && r.0.items == s.items[..row] + s.items[row + 1..]
              && r.0.filterCounter == s.filterCounter && r.0.frozen == s.frozen
    ensures r.1 == Done ==>
              r.0.defectFilterSelected == (s.defectFilterSelected && !StartsWith(s.items[row].filterName, "Point defects"))
    ensures r.1 == NoForm ==> r.0.defectFilterSelected == s.defectFilterSelected
  {
    if s.frozen then (s, Frozen)
    else if |s.items| == 0 || row < 0 then (s, Ignored)
    else
      var taken := s.(items := s.items[..row] + s.items[row + 1..]);
      if !s.items[row].hasForm then (taken, NoForm)
      else
        var clear := StartsWith(s.items[row].filterName, "Point defects");
        (taken.(defectFilterSelected := if clear then false else s.defectFilterSelected), Done)
  }

  /** Exchanging two neighbouring items. */
  function SwapNext(items: seq<Item>, row: int): (r: seq<Item>)
    requires 0 <= row && row + 1 < |items|
    ensures |r| == |items| && multiset(r) == multiset(items)
    ensures r[row] == items[row + 1] && r[row + 1] == items[row]
    ensures forall t :: 0 <= t < |items| && t != row && t != row + 1 ==> r[t] == items[t]
  {
    items[row := items[row + 1]][row + 1 := items[row]]
  }

  /** moveFilterDownInList: the item at the row and the next one change places; nothing at the last row. */
  function MoveDown(s: State, row: int): (r: (State, Outcome))
    ensures r.1 != Done ==> r.0 == s
    ensures r.1 == Done <==> !s.frozen && 0 <= row && row + 1 < |s.items|
    ensures r.1 == Done ==> r.0 == s.(items := SwapNext(s.items, row))
  {
    if s.frozen then (s, Frozen)
    else if |s.items| == 0 || row < 0 || row + 1 >= |s.items| then (s, Ignored)
    else (s.(items := SwapNext(s.items, row)), Done)
  }

  /** moveFilterUpInList: the item at the row and the previous one change places; nothing at row 0. */
  function MoveUp(s: State, row: int): (r: (State, Outcome))
    requires |s.items| == 0 || row < |s.items|
    ensures r.1 != Done ==> r.0 == s
    ensures r.1 == Done <==> !s.frozen && 0 < row < |s.items|
    ensures r.1 == Done ==> r.0 == s.(items := SwapNext(s.items, row - 1))
  {
    if s.frozen then (s, Frozen)
    else if |s.items| == 0 || row < 0 || row - 1 < 0 then (s, Ignored)
    else (s.(items := SwapNext(s.items, row - 1)), Done)
  }

  /** A list after clearList has run to the end: no items, no point-defects flag, neither freeze nor persistence. */
  function Cleared(s: State): (r: State)
    ensures |r.items| == 0 && !r.defectFilterSelected && !r.frozen && !r.persistent
    ensures r.filterCounter == s.filterCounter && r.driftCompensation == s.driftCompensation
  {
    s.(items := [], defectFilterSelected := false, frozen := false, persistent := false)
  }

  /**
   * clearList: the settings form of every item is accepted, last first,
   * before the items, the buttons and the point-defects flag are reset.
   * An item without a form makes that accept raise, and the list is left
   * as it was.
   */
  function ClearList(s: State): (r: (State, Outcome))
    ensures r.1 == Done || r.1 == NoForm
    ensures r.1 == Done <==> AllFormed(s.items)
    ensures r.1 == NoForm ==> r.0 == s
    ensures r.1 == Done ==>
              && |r.0.items| == 0 && !r.0.defectFilterSelected && !r.0.frozen && !r.0.persistent
              && r.0.filterCounter == s.filterCounter && r.0.driftCompensation == s.driftCompensation
  {
    if AllFormed(s.items) then (Cleared(s), Done) else (s, NoForm)
  }

  /**
   * driftCompClicked, with the button's state after the click: unchecking
   * turns compensation off; checking turns it on when the atom counts
   * agree, and otherwise unchecks the button again and leaves the flag
   * alone.
   */
  function DriftCompClicked(s: State, ctx: Context, checked: bool): (r: (State, bool))
    ensures r.1 <==> checked && ctx.inputNAtoms == ctx.refNAtoms
    ensures !checked ==> !r.0.driftCompensation
    ensures r.1 ==> r.0.driftCompensation
    ensures checked && ctx.inputNAtoms != ctx.refNAtoms ==> r.0 == s
    ensures r.0 == s.(driftCompensation := r.0.driftCompensation)
  {
    if !checked then (s.(driftCompensation := false), false)
    else if ctx.inputNAtoms != ctx.refNAtoms then (s, false)
    else (s.(driftCompensation := true), true)
  }

  /**
   * A click toggles the button. When the flag agrees with the button before
   * the click, it agrees with the button after it, so the flag is on
   * exactly when the button is checked and the counts agreed when it was.
   */
  lemma DriftFlagFollowsButton(s: State, ctx: Context, wasChecked: bool)
    requires s.driftCompensation == wasChecked
    ensures var r := DriftCompClicked(s, ctx, !wasChecked);
            r.0.driftCompensation == r.1
  {
  }

  // ---------------------------------------------------------------------
  // The point-defects filter is alone in its list

  /** While the flag is set the list holds just the point-defects item, with its form. */
  ghost predicate DefectAlone(s: State)
  {
    s.defectFilterSelected ==> |s.items| == 1 && StartsWith(s.items[0].filterName, "Point defects") && s.items[0].hasForm
  }

  lemma AddKeepsDefectAlone(s: State, ctx: Context, filterName: Option<string>)
    requires DefectAlone(s)
    ensures DefectAlone(AddFilter(s, ctx, filterName).0)
  {
    var (s', o) := AddFilter(s, ctx, filterName);
    if o == Done && s'.defectFilterSelected {
      var lab := Label(filterName.value, s.filterCounter);
      assert lab[..|"Point defects"|] == "Point defects";
    }
  }

  lemma RemoveKeepsDefectAlone(s: State, row: int)
    requires DefectAlone(s) && (|s.items| == 0 || row < |s.items|)
    ensures DefectAlone(RemoveFilter(s, row).0)
  {
  }

  lemma MovesKeepDefectAlone(s: State, row: int)
    requires DefectAlone(s)
    requires |s.items| == 0 || row < |s.items|
    ensures DefectAlone(MoveDown(s, row).0) && DefectAlone(MoveUp(s, row).0)
  {
  }

  /** Moving an item down and then back up restores the list. */
  lemma MoveDownUp(s: State, row: int)
    requires !s.frozen && 0 <= row && row + 1 < |s.items|
    ensures MoveUp(MoveDown(s, row).0, row + 1) == (s, Done)
  {
    SwapNextTwice(s.items, row);
  }

  /** Two swaps at the same row cancel. */
  lemma SwapNextTwice(items: seq<Item>, row: int)
    requires 0 <= row && row + 1 < |items|
    ensures SwapNext(SwapNext(items, row), row) == items
  {
    var once := SwapNext(items, row);
    var twice := SwapNext(once, row);
    assert |twice| == |once| == |items|;
    forall t | 0 <= t < |items|
      ensures twice[t] == items[t]
    {
      if t == row {
        assert twice[t] == once[row + 1];
      } else if t == row + 1 {
        assert twice[t] == once[row];
      } else {
        assert twice[t] == once[t];
      }
    }
  }
}

=== FILE: fluorite.dfy ===
/*
 * FluoriteLatticeGenerator.generateLattice
 * (atoman/lattice_gen/lattice_gen_fluorite.py): twelve atoms per unit cell,
 * four of the first species and eight of the second, repeated over the
 * cells; a non-periodic axis gets one extra layer of cells and atoms beyond
 * the cell edge are skipped, so that the free surface is closed.
 */
module Fluorite {
  import opened Base

  /** The generator's arguments. */
  datatype Args = Args(
    sym1: Symbol, sym2: Symbol,
    charge1: real, charge2: real,
    nx: int, ny: int, nz: int,
    a0: real,
    pbcx: bool, pbcy: bool, pbcz: bool)

  /** An atom as the generator adds it to the lattice. */
  datatype GenAtom = GenAtom(sym: Symbol, pos: Vec3, charge: real)

  /** The skip tolerance beyond the cell edge. */
  const Tolerance: real := 0.0001

  /**
   * The unit cell, each coordinate written as which of 0, a2, a1, a3 it is
   * (0, 1, 2 or 3 quarters of a0): the four cations on the face-centred
   * sites, then the eight anions.
   */
  const UnitQuarters: seq<(int, int, int)> := [
    (0, 0, 0), (0, 2, 2), (2, 0, 2), (2, 2, 0),
    (1, 1, 1), (1, 1, 3), (1, 3, 1), (3, 1, 1),
    (3, 3, 3), (3, 3, 1), (3, 1, 3), (1, 3, 3)]

  /** 0, a2 = a0/4, a1 = a0/2 or a3 = 3*a2. */
  function Coord(q: int, a0: real): real
  {
    var a1, a2 := a0 / 2.0, a0 / 4.0;
    var a3 := 3.0 * a2;
    if q == 0 then 0.0 else if q == 1 then a2 else if q == 2 then a1 else a3
  }

  /** Atom l of the unit cell, relative to the cell's corner. */
  function UnitPos(l: int, a0: real): Vec3
    requires 0 <= l < 12
  {
    var q := UnitQuarters[l];
    Vec3(Coord(q.0, a0), Coord(q.1, a0), Coord(q.2, a0))
  }

  /** Atom l of cell (i, j, k), before the skip test. */
  function UnitAtom(args: Args, l: int, i: int, j: int, k: int): GenAtom
    requires 0 <= l < 12
  {
    GenAtom(if l < 4 then args.sym1 else args.sym2,
            Place(UnitPos(l, args.a0), i, j, k, args.a0),
            if l < 4 then args.charge1 else args.charge2)
  }

  /** A unit-cell position moved to cell (i, j, k). */
  function Place(p: Vec3, i: int, j: int, k: int, a0: real): Vec3
  {
    Vec3(p.x + i as real * a0, p.y + j as real * a0, p.z + k as real * a0)
  }

  /** The number of cells looped over on an axis: one more when the axis is not periodic. */
  function Stop(n: int, periodic: bool): int
  {
    if periodic then n else n + 1
  }

  /** The twelve atoms of cell (i, j, k), in unit-cell order. */
  function CellAtoms(args: Args, i: int, j: int, k: int): (r: seq<GenAtom>)
    ensures |r| == 12 && forall l :: 0 <= l < 12 ==> r[l] == UnitAtom(args, l, i, j, k)
  {
    seq(12, l requires 0 <= l < 12 => UnitAtom(args, l, i, j, k))
  }

  /** The innermost loop, over k < kStop. */
  function Column(args: Args, i: int, j: int, kStop: int): (r: seq<GenAtom>)
    decreases kStop
  {
    if kStop <= 0 then [] else Column(args, i, j, kStop - 1) + CellAtoms(args, i, j, kStop - 1)
  }

  /** The middle loop, over j < jStop. */
  function Plane(args: Args, i: int, jStop: int, kStop: int): (r: seq<GenAtom>)
    decreases jStop
  {
    if jStop <= 0 then [] else Plane(args, i, jStop - 1, kStop) + Column(args, i, jStop - 1, kStop)
  }

  /** The outer loop, over i < iStop: every candidate atom in loop order. */
  function Block(args: Args, iStop: int, jStop: int, kStop: int): (r: seq<GenAtom>)
    decreases iStop
  {
    if iStop <= 0 then [] else Block(args, iStop - 1, jStop, kStop) + Plane(args, iStop - 1, jStop, kStop)
  }

  /** The cell dimensions: a0 times the number of cells on each axis. */
  function Dims(args: Args): Vec3
  {
    Vec3(args.a0 * args.nx as real, args.a0 * args.ny as real, args.a0 * args.nz as real)
  }

  /** The skip test passes: no coordinate beyond its dimension plus the tolerance. */
  predicate Inside(p: Vec3, dims: Vec3)
  {
    !(p.x > dims.x + Tolerance || p.y > dims.y + Tolerance || p.z > dims.z + Tolerance)
  }

  function InsideMask(atoms: seq<GenAtom>, dims: Vec3): (m: seq<bool>)
    ensures |m| == |atoms| && forall t :: 0 <= t < |atoms| ==> (m[t] <==> Inside(atoms[t].pos, dims))
  {
    seq(|atoms|, t requires 0 <= t < |atoms| => Inside(atoms[t].pos, dims))
  }

  /** The candidates of the four nested loops. */
  function Candidates(args: Args): seq<GenAtom>
  {
    Block(args, Stop(args.nx, args.pbcx), Stop(args.ny, args.pbcy), Stop(args.nz, args.pbcz))
  }

  function SumCharge(atoms: seq<GenAtom>): real
  {
    if |atoms| == 0 then 0.0 else SumCharge(atoms[..|atoms| - 1]) + atoms[|atoms| - 1].charge
  }

  function CountSym(atoms: seq<GenAtom>, sym: Symbol): nat
  {
    if |atoms| == 0 then 0 else CountSym(atoms[..|atoms| - 1], sym) + (if atoms[|atoms| - 1].sym == sym then 1 else 0)
  }

  /** What generateLattice returns, with the lattice's fields it sets. */
  datatype Generated = Generated(status: int, atoms: seq<GenAtom>, dims: Vec3, pbc: seq<int>, totalQ: real, chargesFixed: bool)

  /**
   * generateLattice: the candidates in loop order less those beyond the
   * cell edge; the PBC flags copied; the total charge of the atoms added,
   * unless every axis is free and some charge is non-zero, when the charges
   * are fixed on the boundaries and the total is the one that step reports
   * (fixedQ; fixChargesOnFixedBoundaries is not part of this model). The
   * status is always 0.
   */
  function GenerateLattice(args: Args, fixedQ: real): (r: Generated)
    ensures r.status == 0
    ensures r.dims == Dims(args)
    ensures r.pbc == [if args.pbcx then 1 else 0, if args.pbcy then 1 else 0, if args.pbcz then 1 else 0]
    ensures r.atoms == Select(Candidates(args), InsideMask(Candidates(args), Dims(args)))
    ensures forall t :: 0 <= t < |r.atoms| ==> Inside(r.atoms[t].pos, r.dims)
    ensures r.chargesFixed <==> !args.pbcx && !args.pbcy && !args.pbcz && (args.charge1 != 0.0 || args.charge2 != 0.0)
    ensures r.totalQ == if r.chargesFixed then fixedQ else SumCharge(r.atoms)
  {
    var cands := Candidates(args);
    var mask := InsideMask(cands, Dims(args));
    var atoms := Select(cands, mask);
    forall t | 0 <= t < |atoms|
      ensures Inside(atoms[t].pos, Dims(args))
    {
      SelectMembership(cands, mask, atoms[t]);
    }
    var fix := !args.pbcx && !args.pbcy && !args.pbcz && (args.charge1 != 0.0 || args.charge2 != 0.0);
    Generated(0, atoms, Dims(args),
              [if args.pbcx then 1 else 0, if args.pbcy then 1 else 0, if args.pbcz then 1 else 0],
              if fix then fixedQ else SumCharge(atoms), fix)
  }

  // ---------------------------------------------------------------------
  // What the loops enumerate

  lemma CellMembership(args: Args, i: int, j: int, k: int, x: GenAtom)
    ensures x in CellAtoms(args, i, j, k) <==> exists l :: 0 <= l < 12 && x == UnitAtom(args, l, i, j, k)
  {
    var c := CellAtoms(args, i, j, k);
    if x in c {
      var l :| 0 <= l < 12 && c[l] == x;
    }
  }

  lemma {:induction false} ColumnMembership(args: Args, i: int, j: int, kStop: int, x: GenAtom)
    ensures x in Column(args, i, j, kStop) <==> exists k, l :: 0 <= k < kStop && 0 <= l < 12 && x == UnitAtom(args, l, i, j, k)
    decreases kStop
  {
    if kStop > 0 {
      ColumnMembership(args, i, j, kStop - 1, x);
      CellMembership(args, i, j, kStop - 1, x);
    }
  }

  lemma PlaneMembership(args: Args, i: int, jStop: int, kStop: int, x: GenAtom)
    ensures x in Plane(args, i, jStop, kStop) <==>
              exists j, k, l :: 0 <= j < jStop && 0 <= k < kStop && 0 <= l < 12 && x == UnitAtom(args, l, i, j, k)
  {
    if x in Plane(args, i, jStop, kStop) {
      var j := PlaneColumn(args, i, jStop, kStop, x);
      ColumnMembership(args, i, j, kStop, x);
      var k, l :| 0 <= k < kStop && 0 <= l < 12 && x == UnitAtom(args, l, i, j, k);
    }
    if exists j, k, l :: 0 <= j < jStop && 0 <= k < kStop && 0 <= l < 12 && x == UnitAtom(args, l, i, j, k) {
      var j, k, l :| 0 <= j < jStop && 0 <= k < kStop && 0 <= l < 12 && x == UnitAtom(args, l, i, j, k);
      ColumnMembership(args, i, j, kStop, x);
      ColumnInPlane(args, i, j, jStop, kStop, x);
    }
  }

  /** An atom of a plane comes from one of its columns. */
  lemma {:induction false} PlaneColumn(args: Args, i: int, jStop: int, kStop: int, x: GenAtom) returns (j: int)
    requires x in Plane(args, i, jStop, kStop)
    ensures 0 <= j < jStop && x in Column(args, i, j, kStop)
    decreases jStop
  {
    assert Plane(args, i, jStop, kStop) == Plane(args, i, jStop - 1, kStop) + Column(args, i, jStop - 1, kStop);
    if x in Plane(args, i, jStop - 1, kStop) {
      j := PlaneColumn(args, i, jStop - 1, kStop, x);
    } else {
      j := jStop - 1;
    }
  }

  /** Every atom of a column below the stop is in the plane. */
  lemma {:induction false} ColumnInPlane(args: Args, i: int, j: int, jStop: int, kStop: int, x: GenAtom)
    requires 0 <= j < jStop && x in Column(args, i, j, kStop)
    ensures x in Plane(args, i, jStop, kStop)
    decreases jStop
  {
    assert Plane(args, i, jStop, kStop) == Plane(args, i, jStop - 1, kStop) + Column(args, i, jStop - 1, kStop);
    if j < jStop - 1 {
      ColumnInPlane(args, i, j, jStop - 1, kStop, x);
    }
  }

  /**
   * The candidates are exactly the twelve unit-cell atoms of every cell
   * (i, j, k) below the stops.
   */
  lemma BlockMembership(args: Args, iStop: int, jStop: int, kStop: int, x: GenAtom)
    ensures x in Block(args, iStop, jStop, kStop) <==>
              exists i, j, k, l :: 0 <= i < iStop && 0 <= j < jStop && 0 <= k < kStop && 0 <= l < 12
                                   && x == UnitAtom(args, l, i, j, k)
  {
    if x in Block(args, iStop, jStop, kStop) {
      var i := BlockPlane(args, iStop, jStop, kStop, x);
      PlaneMembership(args, i, jStop, kStop, x);
      var j, k, l :| 0 <= j < jStop && 0 <= k < kStop && 0 <= l < 12 && x == UnitAtom(args, l, i, j, k);
    }
    if exists i, j, k, l :: 0 <= i < iStop && 0 <= j < jStop && 0 <= k < kStop && 0 <= l < 12
                            && x == UnitAtom(args, l, i, j, k) {
      var i, j, k, l :| 0 <= i < iStop && 0 <= j < jStop && 0 <= k < kStop && 0 <= l < 12
                        && x == UnitAtom(args, l, i, j, k);
      PlaneMembership(args, i, jStop, kStop, x);
      PlaneInBlock(args, i, iStop, jStop, kStop, x);
    }
  }

  /** An atom of the block comes from one of its planes. */
  lemma {:induction false} BlockPlane(args: Args, iStop: int, jStop: int, kStop: int, x: GenAtom) returns (i: int)
    requires x in Block(args, iStop, jStop, kStop)
    ensures 0 <= i < iStop && x in Plane(args, i, jStop, kStop)
    decreases iStop
  {
    assert Block(args, iStop, jStop, kStop) == Block(args, iStop - 1, jStop, kStop) + Plane(args, iStop - 1, jStop, kStop);
    if x in Block(args, iStop - 1, jStop, kStop) {
      i := BlockPlane(args, iStop - 1, jStop, kStop, x);
    } else {
      i := iStop - 1;
    }
  }

  /** Every atom of a plane below the stop is in the block. */
  lemma {:induction false} PlaneInBlock(args: Args, i: int, iStop: int, jStop: int, kStop: int, x: GenAtom)
    requires 0 <= i < iStop && x in Plane(args, i, jStop, kStop)
    ensures x in Block(args, iStop, jStop, kStop)
    decreases iStop
  {
    assert Block(args, iStop, jStop, kStop) == Block(args, iStop - 1, jStop, kStop) + Plane(args, iStop - 1, jStop, kStop);
    if i < iStop - 1 {
      PlaneInBlock(args, i, iStop - 1, jStop, kStop, x);
    }
  }

  /**
   * An atom is generated exactly when it is atom l of a cell within the
   * loop bounds (NCells per periodic axis, NCells+1 per free one) and it is
   * not beyond the cell edge.
   */
  lemma Generates(args: Args, fixedQ: real, x: GenAtom)
    ensures x in GenerateLattice(args, fixedQ).atoms <==>
              Inside(x.pos, Dims(args))
              && exists i, j, k, l :: 0 <= i < Stop(args.nx, args.pbcx) && 0 <= j < Stop(args.ny, args.pbcy)
                                      && 0 <= k < Stop(args.nz, args.pbcz) && 0 <= l < 12
                                      && x == UnitAtom(args, l, i, j, k)
  {
    var cands := Candidates(args);
    SelectMembership(cands, InsideMask(cands, Dims(args)), x);
    BlockMembership(args, Stop(args.nx, args.pbcx), Stop(args.ny, args.pbcy), Stop(args.nz, args.pbcz), x);
  }

  // ---------------------------------------------------------------------
  // A fully periodic lattice

  /** With a0 > 0, no unit-cell coordinate exceeds 3a0/4. */
  lemma UnitPosBounds(l: int, a0: real)
    requires 0 <= l < 12 && a0 > 0.0
    ensures var p := UnitPos(l, a0); p.x <= 3.0 * (a0 / 4.0) && p.y <= 3.0 * (a0 / 4.0) && p.z <= 3.0 * (a0 / 4.0)
  {
  }

  /** In a periodic direction a coordinate of cell i < n stays within the edge. */
  lemma ShiftInside(c: real, a0: real, i: int, n: int)
    requires a0 > 0.0 && c <= 3.0 * (a0 / 4.0) && 0 <= i < n
    ensures c + i as real * a0 <= a0 * n as real + Tolerance
  {
    var gap := n as real - 1.0 - i as real;
    assert gap >= 0.0;
    assert gap * a0 >= 0.0;
    assert a0 * n as real == (i as real + 1.0 + gap) * a0;
  }

  /** A unit-cell position moved to a cell below (nx, ny, nz) passes the skip test, when a0 > 0. */
  lemma PlaceInside(p: Vec3, args: Args, i: int, j: int, k: int)
    requires args.a0 > 0.0 && p.x <= 3.0 * (args.a0 / 4.0) && p.y <= 3.0 * (args.a0 / 4.0) && p.z <= 3.0 * (args.a0 / 4.0)
    requires 0 <= i < args.nx && 0 <= j < args.ny && 0 <= k < args.nz
    ensures Inside(Place(p, i, j, k, args.a0), Dims(args))
  {
    ShiftInside(p.x, args.a0, i, args.nx);
    ShiftInside(p.y, args.a0, j, args.ny);
    ShiftInside(p.z, args.a0, k, args.nz);
  }

  /** Every atom of a cell below (nx, ny, nz) passes the skip test, when a0 > 0. */
  lemma AtomInside(args: Args, l: int, i: int, j: int, k: int)
    requires args.a0 > 0.0 && 0 <= l < 12
    requires 0 <= i < args.nx && 0 <= j < args.ny && 0 <= k < args.nz
    ensures Inside(UnitAtom(args, l, i, j, k).pos, Dims(args))
  {
    UnitPosBounds(l, args.a0);
    PlaceInside(UnitPos(l, args.a0), args, i, j, k);
  }

  lemma BlockInside(args: Args, iStop: int, jStop: int, kStop: int)
    requires args.a0 > 0.0 && iStop <= args.nx && jStop <= args.ny && kStop <= args.nz
    ensures forall t :: 0 <= t < |Block(args, iStop, jStop, kStop)| ==> Inside(Block(args, iStop, jStop, kStop)[t].pos, Dims(args))
  {
    var b := Block(args, iStop, jStop, kStop);
    forall t | 0 <= t < |b|
      ensures Inside(b[t].pos, Dims(args))
    {
      BlockMembership(args, iStop, jStop, kStop, b[t]);
      var i, j, k, l :| 0 <= i < iStop && 0 <= j < jStop && 0 <= k < kStop && 0 <= l < 12 && b[t] == UnitAtom(args, l, i, j, k);
      AtomInside(args, l, i, j, k);
    }
  }

  lemma {:induction false} CountSymConcat(a: seq<GenAtom>, b: seq<GenAtom>, sym: Symbol)
    ensures CountSym(a + b, sym) == CountSym(a, sym) + CountSym(b, sym)
    decreases |b|
  {
    if |b| > 0 {
      var n := |b| - 1;
      CountSymConcat(a, b[..n], sym);
      assert (a + b)[..|a + b| - 1] == a + b[..n];
    } else {
      assert a + b == a;
    }
  }

  lemma {:induction false} SumChargeConcat(a: seq<GenAtom>, b: seq<GenAtom>)
    ensures SumCharge(a + b) == SumCharge(a) + SumCharge(b)
    decreases |b|
  {
    if |b| > 0 {
      var n := |b| - 1;
      SumChargeConcat(a, b[..n]);
      assert (a + b)[..|a + b| - 1] == a + b[..n];
    } else {
      assert a + b == a;
    }
  }

  lemma {:induction false} CountSymAll(s: seq<GenAtom>, sym: Symbol)
    requires forall t :: 0 <= t < |s| ==> s[t].sym == sym
    ensures CountSym(s, sym) == |s|
  {
    if |s| > 0 {
      CountSymAll(s[..|s| - 1], sym);
    }
  }

  lemma {:induction false} CountSymNone(s: seq<GenAtom>, sym: Symbol)
    requires forall t :: 0 <= t < |s| ==> s[t].sym != sym
    ensures CountSym(s, sym) == 0
  {
    if |s| > 0 {
      CountSymNone(s[..|s| - 1], sym);
    }
  }

  lemma {:induction false} SumChargeConst(s: seq<GenAtom>, q: real)
    requires forall t :: 0 <= t < |s| ==> s[t].charge == q
    ensures SumCharge(s) == |s| as real * q
  {
    if |s| > 0 {
      SumChargeConst(s[..|s| - 1], q);
    }
  }

  /** Per-cell tallies: twelve atoms, four of sym1, eight of sym2, charge 4q1 + 8q2. */
  lemma CellTallies(args: Args, i: int, j: int, k: int)
    ensures args.sym1 != args.sym2 ==> CountSym(CellAtoms(args, i, j, k), args.sym1) == 4
    ensures args.sym1 != args.sym2 ==> CountSym(CellAtoms(args, i, j, k), args.sym2) == 8
    ensures SumCharge(CellAtoms(args, i, j, k)) == 4.0 * args.charge1 + 8.0 * args.charge2
  {
    var c := CellAtoms(args, i, j, k);
    var c1, c2 := c[..4], c[4..];
    assert c == c1 + c2;
    CountSymConcat(c1, c2, args.sym1);
    CountSymConcat(c1, c2, args.sym2);
    SumChargeConcat(c1, c2);
    SumChargeConst(c1, args.charge1);
    SumChargeConst(c2, args.charge2);
    if args.sym1 != args.sym2 {
      CountSymAll(c1, args.sym1);
      CountSymNone(c2, args.sym1);
      CountSymNone(c1, args.sym2);
      CountSymAll(c2, args.sym2);
    }
  }

  /** The tallies of Column, Plane and Block: one cell's tallies per cell. */
  predicate Tallies(args: Args, s: seq<GenAtom>, cells: nat)
  {
    && |s| == 12 * cells
    && (args.sym1 != args.sym2 ==> CountSym(s, args.sym1) == 4 * cells && CountSym(s, args.sym2) == 8 * cells)
    && SumCharge(s) == CellsCharge(args, cells)
  }

  /** The charge of the given number of whole unit cells. */
  function CellsCharge(args: Args, cells: nat): real
  {
    cells as real * (4.0 * args.charge1 + 8.0 * args.charge2)
  }

  lemma TalliesConcat(args: Args, a: seq<GenAtom>, b: seq<GenAtom>, m: nat, n: nat)
    requires Tallies(args, a, m) && Tallies(args, b, n)
    ensures Tallies(args, a + b, m + n)
  {
    CountSymConcat(a, b, args.sym1);
    CountSymConcat(a, b, args.sym2);
    SumChargeConcat(a, b);
  }

  lemma {:induction false} ColumnTallies(args: Args, i: int, j: int, kStop: nat)
    ensures Tallies(args, Column(args, i, j, kStop), kStop)
  {
    if kStop > 0 {
      ColumnTallies(args, i, j, kStop - 1);
      CellTallies(args, i, j, kStop - 1);
      TalliesConcat(args, Column(args, i, j, kStop - 1), CellAtoms(args, i, j, kStop - 1), kStop - 1, 1);
    }
  }

  lemma {:induction false} PlaneTallies(args: Args, i: int, jStop: nat, kStop: nat)
    ensures Tallies(args, Plane(args, i, jStop, kStop), jStop * kStop)
  {
    if jStop > 0 {
      var prev, col := Plane(args, i, jStop - 1, kStop), Column(args, i, jStop - 1, kStop);
      var m := (jStop - 1) * kStop;
      PlaneTallies(args, i, jStop - 1, kStop);
      ColumnTallies(args, i, jStop - 1, kStop);
      TalliesConcat(args, prev, col, m, kStop);
      MulStep(jStop, kStop);
      assert Plane(args, i, jStop, kStop) == prev + col;
    }
  }

  lemma MulStep(a: int, b: int)
    ensures (a - 1) * b + b == a * b
  {
  }

  lemma {:induction false} BlockTallies(args: Args, iStop: nat, jStop: nat, kStop: nat)
    ensures Tallies(args, Block(args, iStop, jStop, kStop), iStop * (jStop * kStop))
  {
    if iStop > 0 {
      var prev, plane := Block(args, iStop - 1, jStop, kStop), Plane(args, iStop - 1, jStop, kStop);
      var n := jStop * kStop;
      BlockTallies(args, iStop - 1, jStop, kStop);
      PlaneTallies(args, iStop - 1, jStop, kStop);
      TalliesConcat(args, prev, plane, (iStop - 1) * n, n);
      MulStep(iStop, n);
      assert Block(args, iStop, jStop, kStop) == prev + plane;
    }
  }

  /** Periodic on every axis with a0 > 0, the skip test never fires. */
  lemma PeriodicKeepsAll(args: Args, fixedQ: real)
    requires args.pbcx && args.pbcy && args.pbcz && args.a0 > 0.0
    ensures GenerateLattice(args, fixedQ).atoms == Candidates(args)
  {
    var cands := Candidates(args);
    BlockInside(args, args.nx, args.ny, args.nz);
    SelectAll(cands, InsideMask(cands, Dims(args)));
  }

  /**
   * Periodic on every axis with a0 > 0, nothing is skipped: 12 Nx Ny Nz
   * atoms, a third of them sym1 and two thirds sym2 when the symbols
   * differ, and the total charge is that of Nx Ny Nz unit cells.
   */
  lemma FullyPeriodic(args: Args, fixedQ: real)
    requires args.pbcx && args.pbcy && args.pbcz && args.a0 > 0.0
    requires args.nx >= 0 && args.ny >= 0 && args.nz >= 0
    ensures var r, cells := GenerateLattice(args, fixedQ), args.nx * (args.ny * args.nz);
            && |r.atoms| == 12 * cells
            && (args.sym1 != args.sym2 ==> CountSym(r.atoms, args.sym1) == 4 * cells && CountSym(r.atoms, args.sym2) == 8 * cells)
            && r.totalQ == CellsCharge(args, cells)
  {
    var r, cells := GenerateLattice(args, fixedQ), args.nx * (args.ny * args.nz);
    assert r.atoms == Block(args, args.nx, args.ny, args.nz) && r.totalQ == SumCharge(r.atoms) by {
      PeriodicKeepsAll(args, fixedQ);
    }
    BlockTallies(args, args.nx, args.ny, args.nz);
  }
}

=== FILE: neighbours.dfy ===
/*
 * Neighbour lists as the defect routines of atoman/filtering/filters/defects.c
 * use them: for a point, the targets within a cut-off, ordered by increasing
 * separation. The spatial-decomposition library that builds them in the
 * source is not part of this model; here the query runs over every target,
 * and the separation sort is a stable insertion sort, so targets at equal
 * separation come in ascending index order.
 */
module Neighbours {
  import opened Base
  import opened Vectors

  /** Squared separation from p to every target. */
  function Distances(p: Vec3, targets: seq<Vec3>, c: Cell): (d: seq<real>)
    requires WellFormed(c)
    ensures |d| == |targets|
    ensures forall k :: 0 <= k < |targets| ==> d[k] == Sep2(p, targets[k], c)
  {
    seq(|targets|, k requires 0 <= k < |targets| => Sep2(p, targets[k], c))
  }

  /** Which entries of a distance list lie strictly inside the cut-off. */
  function InRange(d: seq<real>, maxSep2: real): (m: seq<bool>)
    ensures |m| == |d|
    ensures forall k :: 0 <= k < |d| ==> (m[k] <==> d[k] < maxSep2)
  {
    seq(|d|, k requires 0 <= k < |d| => d[k] < maxSep2)
  }

  predicate SortedBy(s: seq<int>, key: seq<real>)
    requires AllIndices(s, |key|)
  {
    forall i, j :: 0 <= i < j < |s| ==> key[s[i]] <= key[s[j]]
  }

  /** Insert x after every entry whose key is not larger: keeps equal keys in arrival order. */
  function Insert(x: int, s: seq<int>, key: seq<real>): (r: seq<int>)
    requires 0 <= x < |key| && AllIndices(s, |key|)
    ensures |r| == |s| + 1
    ensures multiset(r) == multiset(s) + multiset{x}
    ensures AllIndices(r, |key|)
  {
    if |s| == 0 then [x]
    else if key[x] < key[s[0]] then [x] + s
    else
      var t := Insert(x, s[1..], key);
      assert s == [s[0]] + s[1..];
      [s[0]] + t
  }

  lemma {:induction false} InsertSorted(x: int, s: seq<int>, key: seq<real>)
    requires 0 <= x < |key| && AllIndices(s, |key|) && SortedBy(s, key)
    ensures SortedBy(Insert(x, s, key), key)
  {
    if |s| > 0 && key[x] >= key[s[0]] {
      InsertSorted(x, s[1..], key);
      var t := Insert(x, s[1..], key);
      forall k | 0 <= k < |t|
        ensures key[s[0]] <= key[t[k]]
      {
        assert t[k] in multiset(t);
        assert t[k] in multiset(s[1..]) + multiset{x};
        if t[k] != x {
          assert t[k] in s[1..];
        }
      }
    }
  }

  lemma InsertMembership(x: int, s: seq<int>, key: seq<real>, y: int)
    requires 0 <= x < |key| && AllIndices(s, |key|)
    ensures y in Insert(x, s, key) <==> y == x || y in s
  {
    var r := Insert(x, s, key);
    assert y in r <==> y in multiset(r);
    assert y in s <==> y in multiset(s);
  }

  lemma {:induction false} InsertDistinct(x: int, s: seq<int>, key: seq<real>)
    requires 0 <= x < |key| && AllIndices(s, |key|) && Distinct(s) && x !in s
    ensures Distinct(Insert(x, s, key))
  {
    if |s| > 0 && key[x] >= key[s[0]] {
      assert s[0] !in s[1..];
      InsertDistinct(x, s[1..], key);
      InsertMembership(x, s[1..], key, s[0]);
    }
  }

  /** Sort a list of target indices by increasing key. */
  function SortBy(s: seq<int>, key: seq<real>): (r: seq<int>)
    requires AllIndices(s, |key|)
    ensures |r| == |s|
    ensures multiset(r) == multiset(s)
    ensures AllIndices(r, |key|)
  {
    if |s| == 0 then []
    else
      assert s == s[..|s| - 1] + [s[|s| - 1]];
      Insert(s[|s| - 1], SortBy(s[..|s| - 1], key), key)
  }

  lemma SortByMembership(s: seq<int>, key: seq<real>, y: int)
    requires AllIndices(s, |key|)
    ensures y in SortBy(s, key) <==> y in s
  {
    assert y in SortBy(s, key) <==> y in multiset(SortBy(s, key));
    assert y in s <==> y in multiset(s);
  }

  lemma {:induction false} SortBySpec(s: seq<int>, key: seq<real>)
    requires AllIndices(s, |key|) && Distinct(s)
    ensures SortedBy(SortBy(s, key), key)
    ensures Distinct(SortBy(s, key))
  {
    if |s| > 0 {
      var p := s[..|s| - 1];
      var x := s[|s| - 1];
      SortBySpec(p, key);
      InsertSorted(x, SortBy(p, key), key);
      assert x !in p;
      SortByMembership(p, key, x);
      InsertDistinct(x, SortBy(p, key), key);
    }
  }

  /**
   * The neighbour list of a point: the targets strictly within the cut-off,
   * nearest first.
   */
  function NeighbourList(p: Vec3, targets: seq<Vec3>, maxSep2: real, c: Cell): (r: seq<int>)
    requires WellFormed(c)
    ensures AllIndices(r, |targets|)
  {
    var d := Distances(p, targets, c);
    var m := InRange(d, maxSep2);
    IndicesWhereSpec(m);
    SortBy(IndicesWhere(m), d)
  }

  /** What a neighbour list holds: each target within the cut-off exactly once, nearest first. */
  ghost predicate IsNeighbourList(r: seq<int>, p: Vec3, targets: seq<Vec3>, maxSep2: real, c: Cell)
    requires WellFormed(c)
  {
    AllIndices(r, |targets|)
    && Distinct(r)
    && (forall k :: 0 <= k < |targets| ==> (k in r <==> Sep2(p, targets[k], c) < maxSep2))
    && (forall i, j :: 0 <= i < j < |r| ==> Sep2(p, targets[r[i]], c) <= Sep2(p, targets[r[j]], c))
  }

  lemma NeighbourListSpec(p: Vec3, targets: seq<Vec3>, maxSep2: real, c: Cell)
    requires WellFormed(c)
    ensures IsNeighbourList(NeighbourList(p, targets, maxSep2, c), p, targets, maxSep2, c)
  {
    var d := Distances(p, targets, c);
    var m := InRange(d, maxSep2);
    IndicesWhereSpec(m);
    var w := IndicesWhere(m);
    assert Distinct(w);
    SortBySpec(w, d);
    forall k | 0 <= k < |targets|
      ensures k in SortBy(w, d) <==> Sep2(p, targets[k], c) < maxSep2
    {
      SortByMembership(w, d, k);
    }
  }

  /** The head of any neighbour list is a nearest target within the cut-off. */
  lemma HeadIsNearest(r: seq<int>, p: Vec3, targets: seq<Vec3>, maxSep2: real, c: Cell, k: int)
    requires WellFormed(c) && IsNeighbourList(r, p, targets, maxSep2, c)
    requires 0 <= k < |targets| && Sep2(p, targets[k], c) < maxSep2
    ensures |r| > 0
    ensures Sep2(p, targets[r[0]], c) <= Sep2(p, targets[k], c)
  {
    assert k in r;
    var t :| 0 <= t < |r| && r[t] == k;
    if t > 0 {
      assert Sep2(p, targets[r[0]], c) <= Sep2(p, targets[r[t]], c);
    }
  }

  /** The first entry of the computed neighbour list is a nearest target within the cut-off. */
  lemma FirstIsNearest(p: Vec3, targets: seq<Vec3>, maxSep2: real, c: Cell, k: int)
    requires WellFormed(c)
    requires 0 <= k < |targets| && Sep2(p, targets[k], c) < maxSep2
    ensures |NeighbourList(p, targets, maxSep2, c)| > 0
    ensures Sep2(p, targets[NeighbourList(p, targets, maxSep2, c)[0]], c) <= Sep2(p, targets[k], c)
  {
    NeighbourListSpec(p, targets, maxSep2, c);
    HeadIsNearest(NeighbourList(p, targets, maxSep2, c), p, targets, maxSep2, c, k);
  }

  /** For each point of from, its neighbour list among to. */
  function NeighbourLists(from: seq<Vec3>, to: seq<Vec3>, maxSep2: real, c: Cell): (r: seq<seq<int>>)
    requires WellFormed(c)
    ensures |r| == |from|
    ensures forall i {:trigger r[i]} :: 0 <= i < |from| ==> r[i] == NeighbourList(from[i], to, maxSep2, c)
  {
    seq(|from|, i requires 0 <= i < |from| => NeighbourList(from[i], to, maxSep2, c))
  }
}

=== FILE: reader.dfy ===
/*
 * The lattice readers of CDJSVis/visclibs/input.c, over records the scanner
 * has already parsed: species interning with specieIndex, the per-species
 * counter, the packed species list handed back to Python, the min/max
 * position sweep from the ±1e6 sentinels, where each record is stored, and
 * the -3 status of a short header or record read.
 */
module Reader {
  import opened Base

  // ---------------------------------------------------------------------
  // Species interning

  /**
   * specieIndex: the first position of sym in the list, or the list's
   * length when it is not there.
   */
  function SpecieIndex(sym: Symbol, list: seq<Symbol>): (r: nat)
    ensures r <= |list|
    ensures forall j :: 0 <= j < r ==> list[j] != sym
    ensures r < |list| ==> list[r] == sym
    ensures r == |list| <==> sym !in list
    decreases |list|
  {
    if |list| == 0 then 0
    else if list[0] == sym then 0
    else
      var r := 1 + SpecieIndex(sym, list[1..]);
      assert forall j :: 1 <= j < |list| ==> list[1..][j - 1] == list[j];
      assert list == [list[0]] + list[1..];
      r
  }

  /** A symbol found in a list is found at the same place in any extension of it. */
  lemma SpecieIndexStable(sym: Symbol, p: seq<Symbol>, q: seq<Symbol>)
    requires p <= q && sym in p
    ensures SpecieIndex(sym, p) == SpecieIndex(sym, q)
  {
    var i, j := SpecieIndex(sym, p), SpecieIndex(sym, q);
    assert forall k :: 0 <= k < |p| ==> q[k] == p[k];
  }

  /** The distinct symbols in order of first appearance: the species list the readers build. */
  function Interned(syms: seq<Symbol>): (r: seq<Symbol>)
    ensures Distinct(r) && |r| <= |syms|
    ensures forall s :: s in r <==> s in syms
  {
    if |syms| == 0 then []
    else
      var n := |syms| - 1;
      var p := Interned(syms[..n]);
      assert syms == syms[..n] + [syms[n]];
      if syms[n] in p then p else p + [syms[n]]
  }

  lemma {:induction false} InternedPrefix(syms: seq<Symbol>, j: int)
    requires 0 <= j <= |syms|
    ensures Interned(syms[..j]) <= Interned(syms)
    decreases |syms|
  {
    if j < |syms| {
      var n := |syms| - 1;
      InternedPrefix(syms[..n], j);
      TakeTake(syms, j, n);
      InternedLast(syms);
    } else {
      TakeAll(syms);
    }
  }

  /** Reading one more record only ever appends to the species list. */
  lemma InternedLast(syms: seq<Symbol>)
    requires |syms| > 0
    ensures Interned(syms[..|syms| - 1]) <= Interned(syms)
  {
  }

  /** Each record's species index into the final species list. */
  function SpeciesIndices(syms: seq<Symbol>): (r: seq<int>)
    ensures |r| == |syms|
    ensures forall i :: 0 <= i < |syms| ==> 0 <= r[i] < |Interned(syms)| && Interned(syms)[r[i]] == syms[i]
  {
    var list := Interned(syms);
    seq(|syms|, i requires 0 <= i < |syms| => SpecieIndex(syms[i], list))
  }

  /** One record of the loop: where its symbol is found (or appended) and what the list becomes. */
  lemma InternStep(syms: seq<Symbol>, i: int)
    requires 0 <= i < |syms|
    ensures var list, k := Interned(syms[..i]), SpecieIndex(syms[i], Interned(syms[..i]));
            && k == SpeciesIndices(syms)[i]
            && k < |Interned(syms)|
            && Interned(syms[..i + 1]) == (if k == |list| then list + [syms[i]] else list)
  {
    IndexAfterSnoc(syms, i);
    IndexInFinal(syms, i);
    InternedSnocAt(syms, i);
  }

  /** The record's symbol stands at the same place in the list before and after it is read. */
  lemma IndexAfterSnoc(syms: seq<Symbol>, i: int)
    requires 0 <= i < |syms|
    ensures SpecieIndex(syms[i], Interned(syms[..i])) == SpecieIndex(syms[i], Interned(syms[..i + 1]))
  {
    InternedSnoc(syms, i);
    if syms[i] in Interned(syms[..i]) {
      SpecieIndexStable(syms[i], Interned(syms[..i]), Interned(syms[..i + 1]));
    } else {
      SpecieIndexAppended(syms[i], Interned(syms[..i]));
    }
  }

  /** ... and at the same place in the final list, which is its species index. */
  lemma IndexInFinal(syms: seq<Symbol>, i: int)
    requires 0 <= i < |syms|
    ensures SpecieIndex(syms[i], Interned(syms[..i + 1])) == SpeciesIndices(syms)[i] < |Interned(syms)|
  {
    var list' := Interned(syms[..i + 1]);
    assert syms[..i + 1][i] == syms[i];
    assert syms[i] in list';
    InternedPrefix(syms, i + 1);
    SpecieIndexStable(syms[i], list', Interned(syms));
    IndexOfRecord(syms, i);
  }

  /** The list after the record, told by where the symbol was looked up. */
  lemma InternedSnocAt(syms: seq<Symbol>, i: int)
    requires 0 <= i < |syms|
    ensures var list, k := Interned(syms[..i]), SpecieIndex(syms[i], Interned(syms[..i]));
            Interned(syms[..i + 1]) == (if k == |list| then list + [syms[i]] else list)
  {
    InternedSnoc(syms, i);
  }

  /** The species list after one more record: that record's symbol is appended when new. */
  lemma InternedSnoc(syms: seq<Symbol>, i: int)
    requires 0 <= i < |syms|
    ensures Interned(syms[..i + 1]) == if syms[i] in Interned(syms[..i]) then Interned(syms[..i]) else Interned(syms[..i]) + [syms[i]]
  {
    assert syms[..i + 1][..i] == syms[..i] && syms[..i + 1][i] == syms[i];
  }

  /** Record i's species index is where its symbol stands in the final list. */
  lemma IndexOfRecord(syms: seq<Symbol>, i: int)
    requires 0 <= i < |syms|
    ensures SpeciesIndices(syms)[i] == SpecieIndex(syms[i], Interned(syms))
  {
  }

  /** A symbol appended to a list that lacks it is found at the end. */
  lemma SpecieIndexAppended(sym: Symbol, list: seq<Symbol>)
    requires sym !in list
    ensures SpecieIndex(sym, list + [sym]) == |list|
  {
    var r := SpecieIndex(sym, list + [sym]);
    assert (list + [sym])[|list|] == sym;
    assert forall j :: 0 <= j < |list| ==> (list + [sym])[j] == list[j];
  }

  /** The loop's state after i records: the list so far and the indices so far. */
  ghost predicate Interning(syms: seq<Symbol>, i: int, list: seq<Symbol>, specie: seq<int>)
  {
    && 0 <= i <= |syms|
    && list == Interned(syms[..i])
    && specie == SpeciesIndices(syms)[..i]
  }

  lemma InternAdvance(syms: seq<Symbol>, i: int, list: seq<Symbol>, specie: seq<int>)
    requires Interning(syms, i, list, specie) && i < |syms|
    ensures var k := SpecieIndex(syms[i], list);
            && k < |Interned(syms)|
            && Interning(syms, i + 1, if k == |list| then list + [syms[i]] else list, specie + [k])
  {
    InternStep(syms, i);
    TakeNext(SpeciesIndices(syms), i);
  }

  lemma InterningStart(syms: seq<Symbol>)
    ensures Interning(syms, 0, [], [])
  {
    assert syms[..0] == [];
  }

  lemma InterningDone(syms: seq<Symbol>, list: seq<Symbol>, specie: seq<int>)
    requires Interning(syms, |syms|, list, specie)
    ensures list == Interned(syms) && specie == SpeciesIndices(syms)
  {
    TakeAll(syms);
    TakeAll(SpeciesIndices(syms));
  }

  /**
   * The species part of the read loop of readRef and readLatticeLBOMD:
   * look each symbol up, append it when new, count it. The list ends up
   * duplicate-free in order of first appearance, every record's index names
   * its own symbol, and each counter grows by the number of its records.
   */
  method InternSpecies(syms: seq<Symbol>, count0: seq<int>) returns (list: seq<Symbol>, specie: seq<int>, count: seq<int>)
    requires |Interned(syms)| <= |count0|
    ensures list == Interned(syms) && specie == SpeciesIndices(syms)
    ensures |count| == |count0|
    ensures forall s :: 0 <= s < |count0| ==> count[s] == count0[s] + CountEq(specie, s)
  {
    list, specie, count := [], [], count0;
    var i := 0;
    InterningStart(syms);
    while i < |syms|
      invariant Interning(syms, i, list, specie) && |count| == |count0|
      invariant forall s :: 0 <= s < |count0| ==> count[s] == count0[s] + CountEq(specie, s)
    {
      list, specie, count := InternRecord(syms, i, list, specie, count, count0);
      i := i + 1;
    }
    InterningDone(syms, list, specie);
  }

  /** One pass of the read loop: look the record's symbol up, append it when new, count it. */
  method InternRecord(syms: seq<Symbol>, i: int, list: seq<Symbol>, specie: seq<int>, count: seq<int>, count0: seq<int>)
    returns (list': seq<Symbol>, specie': seq<int>, count': seq<int>)
    requires Interning(syms, i, list, specie) && i < |syms|
    requires |Interned(syms)| <= |count0| == |count|
    requires forall s :: 0 <= s < |count0| ==> count[s] == count0[s] + CountEq(specie, s)
    ensures Interning(syms, i + 1, list', specie') && |count'| == |count0|
    ensures forall s :: 0 <= s < |count0| ==> count'[s] == count0[s] + CountEq(specie', s)
  {
    var specInd := SpecieIndex(syms[i], list);
    InternAdvance(syms, i, list, specie);
    list' := if specInd == |list| then list + [syms[i]] else list;
    count' := CountOne(count, specie, count0, specInd);
    specie' := specie + [specInd];
  }

  /** Bumping counter k keeps the counters equal to their start plus the indices counted. */
  function CountOne(count: seq<int>, specie: seq<int>, count0: seq<int>, k: int): (r: seq<int>)
    requires |count| == |count0| && 0 <= k < |count|
    requires forall s :: 0 <= s < |count0| ==> count[s] == count0[s] + CountEq(specie, s)
    ensures |r| == |count0|
    ensures forall s :: 0 <= s < |count0| ==> r[s] == count0[s] + CountEq(specie + [k], s)
  {
    forall s | 0 <= s < |count0|
      ensures CountEq(specie + [k], s) == CountEq(specie, s) + (if k == s then 1 else 0)
    {
      CountEqAppend(specie, k, s);
    }
    count[k := count[k] + 1]
  }

  // ---------------------------------------------------------------------
  // The species list handed back

  /** A symbol as the scanner stores it: one or two characters before the terminator. */
  predicate ScannedSymbol(s: Symbol)
  {
    1 <= |s| <= 2
  }

  /** The two characters a species takes in the output list; a one-letter symbol keeps its terminator. */
  function Chars2(s: Symbol): (r: seq<char>)
    requires ScannedSymbol(s)
    ensures |r| == 2 && r[0] == s[0]
  {
    if |s| == 2 then s else [s[0], 0 as char]
  }

  function PackBody(list: seq<Symbol>): (r: seq<char>)
    requires forall k :: 0 <= k < |list| ==> ScannedSymbol(list[k])
    ensures |r| == 2 * |list|
  {
    if |list| == 0 then [] else Chars2(list[0]) + PackBody(list[1..])
  }

  /** specieList_c: two characters per species, then the terminating "XX". */
  function Packed(list: seq<Symbol>): (r: seq<char>)
    requires forall k :: 0 <= k < |list| ==> ScannedSymbol(list[k])
    ensures |r| == 2 * |list| + 2 && r[2 * |list|] == 'X' && r[2 * |list| + 1] == 'X'
  {
    PackBody(list) + "XX"
  }

  /** Reading the list back: pairs up to the "XX" marker, a trailing terminator dropped. */
  function Unpack(c: seq<char>): (r: seq<Symbol>)
    decreases |c|
  {
    if |c| < 2 || c[..2] == "XX" then []
    else [if c[1] == 0 as char then c[..1] else c[..2]] + Unpack(c[2..])
  }

  /** A symbol the packed list can carry: no terminator inside it, and not the marker itself. */
  predicate Packable(s: Symbol)
  {
    ScannedSymbol(s) && s != "XX" && 0 as char !in s
  }

  /** The packed species list reads back as the species list. */
  lemma {:induction false} UnpackPacked(list: seq<Symbol>)
    requires forall k :: 0 <= k < |list| ==> ScannedSymbol(list[k]) && Packable(list[k])
    ensures Unpack(Packed(list)) == list
  {
    if |list| == 0 {
      assert Packed(list) == "XX";
    } else {
      var c := Packed(list);
      assert c == Chars2(list[0]) + Packed(list[1..]);
      assert c[..2] == Chars2(list[0]) && c[2..] == Packed(list[1..]);
      var head := if c[1] == 0 as char then c[..1] else c[..2];
      if |list[0]| == 2 {
        assert c[..2] == list[0] && c[1] != 0 as char by {
          assert list[0][1] in list[0];
        }
        assert head == list[0];
      } else {
        assert c[..2] == [list[0][0], 0 as char];
        assert head == [list[0][0]] == list[0];
      }
      assert c[..2] != "XX";
      assert Unpack(c) == [head] + Unpack(c[2..]);
      UnpackPacked(list[1..]);
      assert list == [list[0]] + list[1..];
    }
  }

  // ---------------------------------------------------------------------
  // Extents

  /** The readers' starting values: minPos 1e6 and maxPos -1e6 on every axis. */
  const Sentinel: real := 1000000.0

  /** minPos on axis a after the records, lowered only by a strictly smaller coordinate. */
  function Lowest(pos: seq<Vec3>, a: int): (m: real)
    requires 0 <= a < 3
    ensures m <= Sentinel
    ensures forall k :: 0 <= k < |pos| ==> m <= pos[k].Get(a)
    ensures m == Sentinel || exists k :: 0 <= k < |pos| && m == pos[k].Get(a)
  {
    if |pos| == 0 then Sentinel
    else
      var n := |pos| - 1;
      var m := Lowest(pos[..n], a);
      assert forall k :: 0 <= k < n ==> pos[..n][k] == pos[k];
      if pos[n].Get(a) < m then pos[n].Get(a) else m
  }

  /** maxPos on axis a after the records, raised only by a strictly larger coordinate. */
  function Highest(pos: seq<Vec3>, a: int): (m: real)
    requires 0 <= a < 3
    ensures m >= -Sentinel
    ensures forall k :: 0 <= k < |pos| ==> pos[k].Get(a) <= m
    ensures m == -Sentinel || exists k :: 0 <= k < |pos| && m == pos[k].Get(a)
  {
    if |pos| == 0 then -Sentinel
    else
      var n := |pos| - 1;
      var m := Highest(pos[..n], a);
      assert forall k :: 0 <= k < n ==> pos[..n][k] == pos[k];
      if pos[n].Get(a) > m then pos[n].Get(a) else m
  }

  function LowCorner(pos: seq<Vec3>): Vec3 { Vec3(Lowest(pos, 0), Lowest(pos, 1), Lowest(pos, 2)) }
  function HighCorner(pos: seq<Vec3>): Vec3 { Vec3(Highest(pos, 0), Highest(pos, 1), Highest(pos, 2)) }

  /**
   * The min/max part of the read loop: six strict comparisons per record.
   * Every position read lies between the two corners.
   */
  method Extents(pos: seq<Vec3>) returns (minPos: Vec3, maxPos: Vec3)
    ensures minPos == LowCorner(pos) && maxPos == HighCorner(pos)
    ensures forall k, a :: 0 <= k < |pos| && 0 <= a < 3 ==> minPos.Get(a) <= pos[k].Get(a) <= maxPos.Get(a)
  {
    minPos := Vec3(Sentinel, Sentinel, Sentinel);
    maxPos := Vec3(-Sentinel, -Sentinel, -Sentinel);
    var i := 0;
    while i < |pos|
      invariant 0 <= i <= |pos|
      invariant minPos == LowCorner(pos[..i]) && maxPos == HighCorner(pos[..i])
    {
      var p := pos[i];
      assert pos[..i + 1][..i] == pos[..i] && pos[..i + 1][i] == p;
      if p.x > maxPos.x { maxPos := maxPos.(x := p.x); }
      if p.y > maxPos.y { maxPos := maxPos.(y := p.y); }
      if p.z > maxPos.z { maxPos := maxPos.(z := p.z); }
      if p.x < minPos.x { minPos := minPos.(x := p.x); }
      if p.y < minPos.y { minPos := minPos.(y := p.y); }
      if p.z < minPos.z { minPos := minPos.(z := p.z); }
      i := i + 1;
    }
    assert pos[..i] == pos;
  }

  // ---------------------------------------------------------------------
  // Files and records

  /**
   * A file as the scanner sees it: the header fields that scanned, and the
   * records that scanned before the first one that did not (or the end).
   */
  datatype Scanned<R> = Scanned(nAtoms: Option<int>, dims: Option<Vec3>, records: seq<R>)
  {
    /** Every fscanf the reader issues succeeds. */
    predicate Complete()
    {
      nAtoms.Some? && dims.Some? && |records| >= nAtoms.value
    }

    /** The number of records the loop reads (none for a negative count). */
    function Count(): nat
      requires Complete()
    {
      if nAtoms.value < 0 then 0 else nAtoms.value
    }

    function Read(): (r: seq<R>)
      requires Complete()
      ensures |r| == Count()
    {
      records[..Count()]
    }
  }

  /** A record of an LBOMD lattice file: symbol, position, charge. */
  datatype LatticeRecord = LatticeRecord(sym: Symbol, pos: Vec3, charge: real)

  /** A record of an animation-reference file. */
  datatype RefRecord = RefRecord(id: int, sym: Symbol, pos: Vec3, ke: real, pe: real, charge: real)

  /** What a reader fills in. */
  datatype Loaded = Loaded(
    atomID: seq<int>,
    specie: seq<int>,
    pos: seq<Vec3>,
    charge: seq<real>,
    ke: seq<real>,
    pe: seq<real>,
    specieList: seq<Symbol>,   // also handed back packed, as Packed(specieList)
    specieCount: seq<int>,
    minPos: Vec3,
    maxPos: Vec3)

  function LatticeSyms(recs: seq<LatticeRecord>): (r: seq<Symbol>)
    ensures |r| == |recs| && forall i :: 0 <= i < |recs| ==> r[i] == recs[i].sym
  {
    seq(|recs|, i requires 0 <= i < |recs| => recs[i].sym)
  }

  function RefSyms(recs: seq<RefRecord>): (r: seq<Symbol>)
    ensures |r| == |recs| && forall i :: 0 <= i < |recs| ==> r[i] == recs[i].sym
  {
    seq(|recs|, i requires 0 <= i < |recs| => recs[i].sym)
  }

  /** Each counter plus the number of the given indices equal to it. */
  function Counted(count0: seq<int>, specie: seq<int>): (r: seq<int>)
    ensures |r| == |count0| && forall s :: 0 <= s < |count0| ==> r[s] == count0[s] + CountEq(specie, s)
  {
    seq(|count0|, s requires 0 <= s < |count0| => count0[s] + CountEq(specie, s))
  }

  /** The symbols fit the scanner's buffer and the counter array holds every species. */
  predicate SpeciesFit(syms: seq<Symbol>, count0: seq<int>)
  {
    (forall i :: 0 <= i < |syms| ==> ScannedSymbol(syms[i])) && |Interned(syms)| <= |count0|
  }

  /**
   * readLatticeLBOMD: -3 unless the header and every record scan; record i
   * becomes atom i with id i+1, its position and charge, and the species of
   * its symbol; the species list, counters and extents are as above.
   */
  function ReadLatticeLBOMD(f: Scanned<LatticeRecord>, count0: seq<int>): (r: Result<Loaded>)
    requires f.Complete() ==> SpeciesFit(LatticeSyms(f.Read()), count0)
    ensures r.Err? <==> !f.Complete()
    ensures r.Err? ==> r.code == -3
    ensures r.Ok? ==>
              var recs, d := f.Read(), r.value;
              && |d.atomID| == |d.specie| == |d.pos| == |d.charge| == |recs|
              && (forall i :: 0 <= i < |recs| ==>
                    d.atomID[i] == i + 1 && d.pos[i] == recs[i].pos && d.charge[i] == recs[i].charge
                    && 0 <= d.specie[i] < |d.specieList| && d.specieList[d.specie[i]] == recs[i].sym)
              && Distinct(d.specieList)
              && (forall s :: s in d.specieList <==> s in LatticeSyms(recs))
              && |d.specieCount| == |count0|
              && (forall s :: 0 <= s < |count0| ==> d.specieCount[s] == count0[s] + CountEq(d.specie, s))
              && d.minPos == LowCorner(d.pos) && d.maxPos == HighCorner(d.pos)
  {
    if !f.Complete() then Err(-3)
    else
      var recs := f.Read();
      var n := |recs|;
      var syms := LatticeSyms(recs);
      var specie := SpeciesIndices(syms);
      var pos := seq(n, i requires 0 <= i < n => recs[i].pos);
      Ok(Loaded(
        seq(n, i => i + 1),
        specie,
        pos,
        seq(n, i requires 0 <= i < n => recs[i].charge),
        [], [],
        Interned(syms),
        Counted(count0, specie),
        LowCorner(pos), HighCorner(pos)))
  }

  /** Entry i is the last to write its slot. */
  predicate LastWriter(slots: seq<int>, i: int)
    requires 0 <= i < |slots|
  {
    forall j :: i < j < |slots| ==> slots[j] != slots[i]
  }

  /** Writing vals[i] to slot slots[i] in turn: later writes win, untouched slots keep their value. */
  function Scatter<T>(arr: seq<T>, slots: seq<int>, vals: seq<T>): (r: seq<T>)
    requires |slots| == |vals| && AllIndices(slots, |arr|)
    ensures |r| == |arr|
    ensures forall i :: 0 <= i < |slots| && LastWriter(slots, i) ==> r[slots[i]] == vals[i]
    ensures forall s :: 0 <= s < |arr| && s !in slots ==> r[s] == arr[s]
  {
    if |slots| == 0 then arr
    else
      var n := |slots| - 1;
      var p := Scatter(arr, slots[..n], vals[..n]);
      ScatterStep(arr, slots, vals, p);
      p[slots[n] := vals[n]]
  }

  /** The last write on top of the earlier ones keeps both promises of Scatter. */
  lemma ScatterStep<T>(arr: seq<T>, slots: seq<int>, vals: seq<T>, p: seq<T>)
    requires |slots| == |vals| > 0 && AllIndices(slots, |arr|) && |p| == |arr|
    requires var n := |slots| - 1;
             forall i :: 0 <= i < |slots[..n]| && LastWriter(slots[..n], i) ==> p[slots[..n][i]] == vals[..n][i]
    requires var n := |slots| - 1;
             forall s :: 0 <= s < |arr| && s !in slots[..n] ==> p[s] == arr[s]
    ensures var r := p[slots[|slots| - 1] := vals[|slots| - 1]];
            && (forall i :: 0 <= i < |slots| && LastWriter(slots, i) ==> r[slots[i]] == vals[i])
            && (forall s :: 0 <= s < |arr| && s !in slots ==> r[s] == arr[s])
  {
    var n := |slots| - 1;
    var r := p[slots[n] := vals[n]];
    forall i | 0 <= i < |slots| && LastWriter(slots, i)
      ensures r[slots[i]] == vals[i]
    {
      if i < n {
        assert slots[i] != slots[n];
        assert slots[..n][i] == slots[i] && vals[..n][i] == vals[i];
        assert LastWriter(slots[..n], i);
      }
    }
    forall s | 0 <= s < |arr| && s !in slots
      ensures r[s] == arr[s]
    {
      assert s !in slots[..n] && s != slots[n];
    }
  }

  /** The storage slot of each reference record: its id minus one. */
  function Slots(recs: seq<RefRecord>): (r: seq<int>)
    ensures |r| == |recs| && forall i :: 0 <= i < |recs| ==> r[i] == recs[i].id - 1
  {
    seq(|recs|, i requires 0 <= i < |recs| => recs[i].id - 1)
  }

  /** Every id names a slot of the arrays, which the stores at id-1 need. */
  predicate IdsInRange(recs: seq<RefRecord>)
  {
    forall i :: 0 <= i < |recs| ==> 1 <= recs[i].id <= |recs|
  }

  /** The positions of the reference records, in file order. */
  function FilePositions(recs: seq<RefRecord>): (r: seq<Vec3>)
    ensures |r| == |recs| && forall i :: 0 <= i < |recs| ==> r[i] == recs[i].pos
  {
    seq(|recs|, i requires 0 <= i < |recs| => recs[i].pos)
  }

  /**
   * Every per-atom field of the reference reader except the species, stored
   * at id-1; the counters grow by the species of each record as it is read,
   * and the extents run over the positions in file order.
   */
  function RefFields(recs: seq<RefRecord>, specie: seq<int>, list: seq<Symbol>, count0: seq<int>): (d: Loaded)
    requires IdsInRange(recs)
    ensures |d.atomID| == |d.pos| == |d.charge| == |d.ke| == |d.pe| == |recs|
    ensures d.specie == specie && d.specieList == list
    ensures |d.specieCount| == |count0|
    ensures forall s :: 0 <= s < |count0| ==> d.specieCount[s] == count0[s] + CountEq(SpeciesIndices(RefSyms(recs)), s)
    ensures d.minPos == LowCorner(FilePositions(recs)) && d.maxPos == HighCorner(FilePositions(recs))
  {
    var n, slots := |recs|, Slots(recs);
    var pos := FilePositions(recs);
    Loaded(
      Scatter(seq(n, i => 0), slots, seq(n, i requires 0 <= i < n => recs[i].id)),
      specie,
      Scatter(seq(n, i => Vec3(0.0, 0.0, 0.0)), slots, pos),
      Scatter(seq(n, i => 0.0), slots, seq(n, i requires 0 <= i < n => recs[i].charge)),
      Scatter(seq(n, i => 0.0), slots, seq(n, i requires 0 <= i < n => recs[i].ke)),
      Scatter(seq(n, i => 0.0), slots, seq(n, i requires 0 <= i < n => recs[i].pe)),
      list,
      Counted(count0, SpeciesIndices(RefSyms(recs))),
      LowCorner(pos), HighCorner(pos))
  }

  /**
   * readRef as written: id, position, energies and charge go to slot id-1,
   * but the species index goes to slot i, the record's place in the file.
   */
  function ReadRefAsWritten(f: Scanned<RefRecord>, count0: seq<int>): (r: Result<Loaded>)
    requires f.Complete() ==> IdsInRange(f.Read()) && SpeciesFit(RefSyms(f.Read()), count0)
    ensures r.Err? <==> !f.Complete()
    ensures r.Err? ==> r.code == -3
    ensures r.Ok? ==>
              var recs, d := f.Read(), r.value;
              && |d.atomID| == |d.specie| == |d.pos| == |d.charge| == |d.ke| == |d.pe| == |recs|
              && (forall i :: 0 <= i < |recs| && LastWriter(Slots(recs), i) ==>
                    var s := recs[i].id - 1;
                    && d.atomID[s] == recs[i].id && d.pos[s] == recs[i].pos
                    && d.ke[s] == recs[i].ke && d.pe[s] == recs[i].pe && d.charge[s] == recs[i].charge)
              && (forall i :: 0 <= i < |recs| ==>
                    0 <= d.specie[i] < |d.specieList| && d.specieList[d.specie[i]] == recs[i].sym)
              && Distinct(d.specieList)
              && (forall s :: s in d.specieList <==> s in RefSyms(recs))
              && |d.specieCount| == |count0|
              && (forall s :: 0 <= s < |count0| ==> d.specieCount[s] == count0[s] + CountEq(SpeciesIndices(RefSyms(recs)), s))
              && d.minPos == LowCorner(FilePositions(recs)) && d.maxPos == HighCorner(FilePositions(recs))
  {
    if !f.Complete() then Err(-3)
    else
      var recs := f.Read();
      var syms := RefSyms(recs);
      RefFieldsStored(recs, SpeciesIndices(syms), Interned(syms), count0);
      Ok(RefFields(recs, SpeciesIndices(syms), Interned(syms), count0))
  }

  /** Whatever species array it is given, RefFields puts every other field of a record at slot id-1. */
  lemma RefFieldsStored(recs: seq<RefRecord>, specie: seq<int>, list: seq<Symbol>, count0: seq<int>)
    requires IdsInRange(recs)
    ensures var d := RefFields(recs, specie, list, count0);
            forall i :: 0 <= i < |recs| && LastWriter(Slots(recs), i) ==>
              var s := recs[i].id - 1;
              && d.atomID[s] == recs[i].id && d.pos[s] == recs[i].pos
              && d.ke[s] == recs[i].ke && d.pe[s] == recs[i].pe && d.charge[s] == recs[i].charge
  {
    forall i | 0 <= i < |recs| && LastWriter(Slots(recs), i)
      ensures var d, s := RefFields(recs, specie, list, count0), recs[i].id - 1;
              && d.atomID[s] == recs[i].id && d.pos[s] == recs[i].pos
              && d.ke[s] == recs[i].ke && d.pe[s] == recs[i].pe && d.charge[s] == recs[i].charge
    {
      assert Slots(recs)[i] == recs[i].id - 1;
    }
  }

  /**
   * readRef with the species stored beside the other fields, at id-1: the
   * slot a record's id names holds that record's id, position, energies,
   * charge and species (the last record with that id, should ids repeat).
   */
  function ReadRef(f: Scanned<RefRecord>, count0: seq<int>): (r: Result<Loaded>)
    requires f.Complete() ==> IdsInRange(f.Read()) && SpeciesFit(RefSyms(f.Read()), count0)
    ensures r.Err? <==> !f.Complete()
    ensures r.Err? ==> r.code == -3
    ensures r.Ok? ==>
              var recs, d := f.Read(), r.value;
              && |d.atomID| == |d.specie| == |d.pos| == |d.charge| == |d.ke| == |d.pe| == |recs|
              && (forall i :: 0 <= i < |recs| && LastWriter(Slots(recs), i) ==>
                    var s := recs[i].id - 1;
                    && d.atomID[s] == recs[i].id && d.pos[s] == recs[i].pos
                    && d.ke[s] == recs[i].ke && d.pe[s] == recs[i].pe && d.charge[s] == recs[i].charge
                    && 0 <= d.specie[s] < |d.specieList| && d.specieList[d.specie[s]] == recs[i].sym)
              && Distinct(d.specieList)
              && (forall s :: s in d.specieList <==> s in RefSyms(recs))
              && |d.specieCount| == |count0|
              && (forall s :: 0 <= s < |count0| ==> d.specieCount[s] == count0[s] + CountEq(SpeciesIndices(RefSyms(recs)), s))
              && d.minPos == LowCorner(FilePositions(recs)) && d.maxPos == HighCorner(FilePositions(recs))
  {
    if !f.Complete() then Err(-3)
    else
      var recs := f.Read();
      RefStored(recs, count0);
      Ok(RefFields(recs, RefSpecie(recs), Interned(RefSyms(recs)), count0))
  }

  /** The species indices readRef stores, each at the slot its record's id names. */
  function RefSpecie(recs: seq<RefRecord>): (r: seq<int>)
    requires IdsInRange(recs)
    ensures |r| == |recs|
    ensures forall i :: 0 <= i < |recs| && LastWriter(Slots(recs), i) ==>
              r[recs[i].id - 1] == SpeciesIndices(RefSyms(recs))[i]
  {
    Scatter(seq(|recs|, i => 0), Slots(recs), SpeciesIndices(RefSyms(recs)))
  }

  /** What one record leaves in the slot its id names, when no later record names that slot. */
  lemma RefStoredAt(recs: seq<RefRecord>, count0: seq<int>, i: int)
    requires IdsInRange(recs) && 0 <= i < |recs| && LastWriter(Slots(recs), i)
    ensures var d, s := RefFields(recs, RefSpecie(recs), Interned(RefSyms(recs)), count0), recs[i].id - 1;
            && d.atomID[s] == recs[i].id && d.pos[s] == recs[i].pos
            && d.ke[s] == recs[i].ke && d.pe[s] == recs[i].pe && d.charge[s] == recs[i].charge
            && 0 <= d.specie[s] < |d.specieList| && d.specieList[d.specie[s]] == recs[i].sym
  {
    var n, slots := |recs|, Slots(recs);
    assert slots[i] == recs[i].id - 1;
    assert RefSyms(recs)[i] == recs[i].sym;
  }

  lemma RefStored(recs: seq<RefRecord>, count0: seq<int>)
    requires IdsInRange(recs)
    ensures var d := RefFields(recs, RefSpecie(recs), Interned(RefSyms(recs)), count0);
            forall i :: 0 <= i < |recs| && LastWriter(Slots(recs), i) ==>
              var s := recs[i].id - 1;
              && d.atomID[s] == recs[i].id && d.pos[s] == recs[i].pos
              && d.ke[s] == recs[i].ke && d.pe[s] == recs[i].pe && d.charge[s] == recs[i].charge
              && 0 <= d.specie[s] < |d.specieList| && d.specieList[d.specie[s]] == recs[i].sym
  {
    forall i | 0 <= i < |recs| && LastWriter(Slots(recs), i)
      ensures var d, s := RefFields(recs, RefSpecie(recs), Interned(RefSyms(recs)), count0), recs[i].id - 1;
              && d.atomID[s] == recs[i].id && d.pos[s] == recs[i].pos
              && d.ke[s] == recs[i].ke && d.pe[s] == recs[i].pe && d.charge[s] == recs[i].charge
              && 0 <= d.specie[s] < |d.specieList| && d.specieList[d.specie[s]] == recs[i].sym
    {
      RefStoredAt(recs, count0, i);
    }
  }

  /**
   * A reference file listing atom 2 (Ga) before atom 1 (Pu): the reader as
   * written stores atom 1's position in slot 0 but gives slot 0 the species
   * of the first record, Ga, while the corrected reader gives it Pu.
   */
  lemma RefSpeciesMisplaced()
    ensures && MisplacedScans()
            && var recs, f := MisplacedRecs(), MisplacedFile();
               var w, c := ReadRefAsWritten(f, [0, 0]).value, ReadRef(f, [0, 0]).value;
               && w.pos[0] == recs[1].pos && w.specieList[w.specie[0]] == "Ga"
               && c.pos[0] == recs[1].pos && c.specieList[c.specie[0]] == "Pu"
  {
    MisplacedFacts();
    var w := ReadRefAsWritten(MisplacedFile(), [0, 0]).value;
    assert w.specieList[w.specie[0]] == MisplacedRecs()[0].sym;
  }

  /** Atom 2 (Ga) listed before atom 1 (Pu). */
  function MisplacedRecs(): seq<RefRecord>
  {
    [RefRecord(2, "Ga", Vec3(1.0, 0.0, 0.0), 0.0, 0.0, 0.0),
     RefRecord(1, "Pu", Vec3(0.0, 0.0, 0.0), 0.0, 0.0, 0.0)]
  }

  function MisplacedFile(): Scanned<RefRecord>
  {
    Scanned(Some(2), Some(Vec3(4.0, 4.0, 4.0)), MisplacedRecs())
  }

  /** The file scans, its ids fit, and each record is the last to name its slot. */
  predicate MisplacedScans()
  {
    && MisplacedFile().Complete() && MisplacedFile().Read() == MisplacedRecs()
    && IdsInRange(MisplacedRecs()) && SpeciesFit(RefSyms(MisplacedRecs()), [0, 0])
    && Slots(MisplacedRecs()) == [1, 0] && RefSyms(MisplacedRecs()) == ["Ga", "Pu"]
    && LastWriter(Slots(MisplacedRecs()), 0) && LastWriter(Slots(MisplacedRecs()), 1)
  }

  lemma MisplacedFacts()
    ensures MisplacedScans()
  {
    var recs := MisplacedRecs();
    assert MisplacedFile().Read() == recs;
    assert Slots(recs) == [1, 0];
    assert RefSyms(recs) == ["Ga", "Pu"];
    assert |Interned(RefSyms(recs))| <= 2;
  }
}

=== FILE: renderer.dfy ===
/*
 * The pure parts of the renderer (atoman/rendering/renderer.py): placing
 * the camera on the cell, the rotate-and-save loop's count, status and
 * camera restore, the choice of an unused image file name, the bounding
 * box of an overlay's non-background pixels, and the renumbering of a
 * hull's vertices for its POV-Ray mesh. VTK, Qt, POV-Ray and the file
 * system are not part of this model; what they report is passed in.
 */
module Renderer {
  import opened Base

  datatype Camera = Camera(position: Vec3, focalPoint: Vec3, viewUp: Vec3)

  /**
   * setCameraToCell: nothing without a reference lattice; otherwise the
   * camera looks at the cell's centre from three times its larger y/z
   * extent back along -x, level with the centre, y up.
   */
  function SetCameraToCell(cam: Camera, refDims: Option<Vec3>): (r: Camera)
    ensures refDims.None? ==> r == cam
    ensures refDims.Some? ==>
              var d := refDims.value;
              && r.focalPoint == Vec3(0.5 * d.x, 0.5 * d.y, 0.5 * d.z)
              && r.viewUp == Vec3(0.0, 1.0, 0.0)
              && r.position.y == r.focalPoint.y && r.position.z == r.focalPoint.z
              && r.position.x <= -3.0 * d.y && r.position.x <= -3.0 * d.z
              && (r.position.x == -3.0 * d.y || r.position.x == -3.0 * d.z)
  {
    if refDims.None? then cam
    else
      var d := refDims.value;
      var x := if d.y > d.z then -3.0 * d.y else -3.0 * d.z;
      Camera(Vec3(x, 0.5 * d.y, 0.5 * d.z), Vec3(0.5 * d.x, 0.5 * d.y, 0.5 * d.z), Vec3(0.0, 1.0, 0.0))
  }

  // ---------------------------------------------------------------------
  // Rotate and save

  /** Python's int() of a float: toward zero. */
  function Trunc(x: real): (r: int)
    ensures x >= 0.0 ==> r as real <= x < r as real + 1.0
    ensures x < 0.0 ==> r as real - 1.0 < x <= r as real
  {
    if x >= 0.0 then x.Floor else -((-x).Floor)
  }

  /** The number of images the rotator saves: one per step of a full turn, counting both ends. */
  function NRotations(degreesPerRotation: real): int
    requires degreesPerRotation != 0.0
  {
    Trunc(360.0 / degreesPerRotation) + 1
  }

  /**
   * With a positive step the images cover the full turn: NRotations - 1
   * whole steps fit in 360 degrees and NRotations steps do not.
   */
  lemma NRotationsCover(deg: real)
    requires deg > 0.0
    ensures NRotations(deg) >= 1
    ensures (NRotations(deg) - 1) as real <= 360.0 / deg < NRotations(deg) as real
  {
  }

  /** What happens at one step of the rotator, as the dialog and the image writer report it. */
  datatype Step = Step(cancelledBefore: bool, saved: bool, cancelledAfter: bool)

  predicate Completes(s: Step)
  {
    !s.cancelledBefore && s.saved && !s.cancelledAfter
  }

  /** The first step that does not complete, or n when the first n all do. */
  function FirstStop(steps: seq<Step>, n: nat): (k: nat)
    requires n <= |steps|
    ensures k <= n && (forall i :: 0 <= i < k ==> Completes(steps[i])) && (k < n ==> !Completes(steps[k]))
  {
    if n == 0 then 0
    else
      var k := FirstStop(steps, n - 1);
      if k < n - 1 then k else if Completes(steps[n - 1]) then n else n - 1
  }

  /** The file prefixes of the images of steps 0 .. k-1. */
  function Prefixes(prefix: string, k: nat): (r: seq<string>)
    ensures |r| == k && forall i :: 0 <= i < k ==> r[i] == prefix + Decimal(i)
  {
    seq(k, i requires 0 <= i < k => prefix + Decimal(i))
  }

  /**
   * rotateAndSaveImage: NRotations steps, step i saving the image
   * "<prefix><i>" and then turning the camera. A cancel before the save, or
   * after it, stops with status 2; a failed save stops with status 1;
   * otherwise the status is 0. The camera is put back as it was.
   */
  method RotateAndSaveImage(prefix: string, degreesPerRotation: real, steps: seq<Step>, cam: Camera,
                            azimuth: Camera -> Camera)
    returns (status: int, savedImages: seq<string>, cam': Camera)
    requires degreesPerRotation != 0.0
    requires |steps| >= NRotations(degreesPerRotation)
    ensures cam' == cam
    ensures var n := if NRotations(degreesPerRotation) < 0 then 0 else NRotations(degreesPerRotation);
            var k := FirstStop(steps, n);
            && (status == 0 <==> k == n)
            && (status == 1 <==> k < n && !steps[k].cancelledBefore && !steps[k].saved)
            && (status == 2 <==> k < n && (steps[k].cancelledBefore || (steps[k].saved && steps[k].cancelledAfter)))
            && savedImages == Prefixes(prefix, if k < n && !steps[k].cancelledBefore && steps[k].saved then k + 1 else k)
  {
    var n := NRotations(degreesPerRotation);
    ghost var bound := if n < 0 then 0 else n;
    var camera := cam;
    status := 0;
    savedImages := [];
    var i := 0;
    while i < n
      invariant 0 <= i <= bound && status == 0
      invariant forall t :: 0 <= t < i ==> Completes(steps[t])
      invariant savedImages == Prefixes(prefix, i)
    {
      var step := steps[i];
      if step.cancelledBefore {
        status := 2;
        break;
      }
      if !step.saved {
        status := 1;
        break;
      }
      savedImages := savedImages + [prefix + Decimal(i)];
      if step.cancelledAfter {
        status := 2;
        break;
      }
      camera := azimuth(camera);
      i := i + 1;
    }
    FirstStopAt(steps, bound, i);
    cam' := cam;
  }

  /** When the first i steps complete and step i does not (or i is the end), the first stop is i. */
  lemma {:induction false} FirstStopAt(steps: seq<Step>, n: nat, i: nat)
    requires i <= n <= |steps|
    requires forall t :: 0 <= t < i ==> Completes(steps[t])
    requires i < n ==> !Completes(steps[i])
    ensures FirstStop(steps, n) == i
  {
  }

  // ---------------------------------------------------------------------
  // File names

  function PlainName(prefix: string, fmt: string): string
  {
    prefix + "." + fmt
  }

  /** "%s(%d).%s": the k-th alternative name. */
  function NumberedName(prefix: string, k: nat, fmt: string): string
  {
    prefix + "(" + Decimal(k) + ")." + fmt
  }

  /** Two strings of digits followed by a ')' are the same when the whole strings are. */
  lemma DigitsBeforeParen(d1: string, t1: string, d2: string, t2: string)
    requires forall k :: 0 <= k < |d1| ==> '0' <= d1[k] <= '9'
    requires forall k :: 0 <= k < |d2| ==> '0' <= d2[k] <= '9'
    requires |t1| > 0 && |t2| > 0 && t1[0] == ')' && t2[0] == ')'
    requires d1 + t1 == d2 + t2
    ensures d1 == d2
  {
    assert d1 == (d1 + t1)[..|d1|] && d2 == (d2 + t2)[..|d2|];
  }

  /** Different counts give different names. */
  lemma NumberedInjective(prefix: string, fmt: string, a: nat, b: nat)
    requires NumberedName(prefix, a, fmt) == NumberedName(prefix, b, fmt)
    ensures a == b
  {
    var u := prefix + "(";
    var na, nb := NumberedName(prefix, a, fmt), NumberedName(prefix, b, fmt);
    assert na == u + (Decimal(a) + (")." + fmt));
    assert nb == u + (Decimal(b) + (")." + fmt));
    assert na[|u|..] == Decimal(a) + (")." + fmt);
    assert nb[|u|..] == Decimal(b) + (")." + fmt);
    DigitsBeforeParen(Decimal(a), ")." + fmt, Decimal(b), ")." + fmt);
    DecimalInjective(a, b);
  }

  /** The names numbered 1 .. c. */
  function NameSet(prefix: string, fmt: string, c: nat): set<string>
  {
    if c == 0 then {} else NameSet(prefix, fmt, c - 1) + {NumberedName(prefix, c, fmt)}
  }

  lemma {:induction false} NameSetMembers(prefix: string, fmt: string, c: nat, x: string)
    ensures x in NameSet(prefix, fmt, c) <==> exists j :: 1 <= j <= c && x == NumberedName(prefix, j, fmt)
  {
    if c > 0 {
      NameSetMembers(prefix, fmt, c - 1, x);
    }
  }

  lemma {:induction false} NameSetSize(prefix: string, fmt: string, c: nat)
    ensures |NameSet(prefix, fmt, c)| == c
  {
    if c > 0 {
      NameSetSize(prefix, fmt, c - 1);
      var name := NumberedName(prefix, c, fmt);
      NameSetMembers(prefix, fmt, c - 1, name);
      if name in NameSet(prefix, fmt, c - 1) {
        var j :| 1 <= j <= c - 1 && name == NumberedName(prefix, j, fmt);
        NumberedInjective(prefix, fmt, c, j);
        assert false;
      }
    }
  }

  /** A finite directory cannot hold more numbered names than files. */
  lemma NamesBounded(prefix: string, fmt: string, existing: set<string>, c: nat)
    requires forall j :: 1 <= j <= c ==> NumberedName(prefix, j, fmt) in existing
    ensures c <= |existing|
  {
    NameSetSize(prefix, fmt, c);
    forall x | x in NameSet(prefix, fmt, c)
      ensures x in existing
    {
      NameSetMembers(prefix, fmt, c, x);
    }
    SubsetSize(NameSet(prefix, fmt, c), existing);
  }

  lemma {:induction false} SubsetSize<T>(a: set<T>, b: set<T>)
    requires a <= b
    ensures |a| <= |b|
    decreases |a|
  {
    if a != {} {
      var x :| x in a;
      SubsetSize(a - {x}, b - {x});
    }
  }

  /**
   * The file-name choice of saveImage: with overwrite the plain name;
   * otherwise the plain name if it is free, else the first numbered name
   * "prefix(k).fmt", k from 1, that is free.
   */
  method ChooseFileName(prefix: string, fmt: string, existing: set<string>, overwrite: bool)
    returns (filename: string, count: nat)
    ensures overwrite ==> filename == PlainName(prefix, fmt) && count == 0
    ensures !overwrite ==> filename !in existing
    ensures count == 0 ==> filename == PlainName(prefix, fmt)
    ensures count > 0 ==> filename == NumberedName(prefix, count, fmt) && PlainName(prefix, fmt) in existing
    ensures forall j :: 1 <= j < count ==> NumberedName(prefix, j, fmt) in existing
  {
    filename := PlainName(prefix, fmt);
    count := 0;
    if overwrite {
      return;
    }
    while filename in existing
      invariant count == 0 ==> filename == PlainName(prefix, fmt)
      invariant count > 0 ==> filename == NumberedName(prefix, count, fmt) && PlainName(prefix, fmt) in existing
      invariant forall j :: 1 <= j < count ==> NumberedName(prefix, j, fmt) in existing
      decreases |existing| - count
    {
      NamesBounded(prefix, fmt, existing, count);
      count := count + 1;
      filename := NumberedName(prefix, count, fmt);
    }
  }

  // ---------------------------------------------------------------------
  // Overlay extremes

  datatype Pixel = Pixel(r: int, g: int, b: int)

  /** A pixel whose three channels all differ from the background level. */
  predicate Foreground(p: Pixel, level: int)
  {
    p.r != level && p.g != level && p.b != level
  }

  /** The channel level of the background: 0 for black, 255 for white. */
  function Level(blackBackground: bool): int
  {
    if blackBackground then 0 else 255
  }

  /** The image holds every pixel of the window (getpixel is not asked for any other). */
  predicate Covers(im: seq<seq<Pixel>>, i0: int, i1: int, j0: int, j1: int)
  {
    && (i0 < i1 ==> 0 <= i0 && i1 <= |im|)
    && (forall i :: i0 <= i < i1 && j0 < j1 ==> 0 <= j0 && j1 <= |im[i]|)
  }

  predicate FgAt(im: seq<seq<Pixel>>, i: int, j: int, level: int)
  {
    0 <= i < |im| && 0 <= j < |im[i]| && Foreground(im[i][j], level)
  }

  /** The foreground pixels of columns i0 .. iEnd-1 lie in the box. */
  predicate Bounded(im: seq<seq<Pixel>>, i0: int, iEnd: int, j0: int, j1: int, level: int,
                    xmin: int, xmax: int, ymin: int, ymax: int)
  {
    forall i, j :: i0 <= i < iEnd && j0 <= j < j1 && FgAt(im, i, j, level) ==>
      xmin <= i <= xmax && ymin <= j <= ymax
  }

  /** Side x of the box is its initial value or the column of a foreground pixel. */
  predicate ColumnSide(im: seq<seq<Pixel>>, i0: int, iEnd: int, j0: int, j1: int, level: int, x: int, init: int)
  {
    x == init || (i0 <= x < iEnd && exists j :: j0 <= j < j1 && FgAt(im, x, j, level))
  }

  /** Side y of the box is its initial value or the row of a foreground pixel. */
  predicate RowSide(im: seq<seq<Pixel>>, i0: int, iEnd: int, j0: int, j1: int, level: int, y: int, init: int)
  {
    y == init || (j0 <= y < j1 && exists i :: i0 <= i < iEnd && FgAt(im, i, y, level))
  }

  /** Every side of the box is its initial value or attained by a foreground pixel. */
  predicate Attained(im: seq<seq<Pixel>>, i0: int, iEnd: int, j0: int, j1: int, level: int,
                     xmin: int, xmax: int, ymin: int, ymax: int)
  {
    && ColumnSide(im, i0, iEnd, j0, j1, level, xmin, 1000) && ColumnSide(im, i0, iEnd, j0, j1, level, xmax, 0)
    && RowSide(im, i0, iEnd, j0, j1, level, ymin, 1000) && RowSide(im, i0, iEnd, j0, j1, level, ymax, 0)
  }

  /** The window's foreground pixels so far lie in the box, and each side is its initial value or attained. */
  predicate Boxed(im: seq<seq<Pixel>>, i0: int, iEnd: int, j0: int, j1: int, level: int,
                  xmin: int, xmax: int, ymin: int, ymax: int)
  {
    Bounded(im, i0, iEnd, j0, j1, level, xmin, xmax, ymin, ymax)
    && Attained(im, i0, iEnd, j0, j1, level, xmin, xmax, ymin, ymax)
  }

  /**
   * findOverlayExtremes: the box of the pixels that differ from the
   * background in all three channels, its sides starting at 1000, 0, 1000
   * and 0, so an image without such pixels gives (1000, 0, 1000, 0).
   */
  method FindOverlayExtremes(im: seq<seq<Pixel>>, i0: int, i1: int, j0: int, j1: int, blackBackground: bool)
    returns (xmin: int, xmax: int, ymin: int, ymax: int)
    requires Covers(im, i0, i1, j0, j1)
    ensures Boxed(im, i0, if i1 < i0 then i0 else i1, j0, j1, Level(blackBackground), xmin, xmax, ymin, ymax)
    ensures xmin <= 1000 && xmax >= 0 && ymin <= 1000 && ymax >= 0
    ensures (forall i, j :: i0 <= i < i1 && j0 <= j < j1 ==> !FgAt(im, i, j, Level(blackBackground)))
            ==> xmin == 1000 && xmax == 0 && ymin == 1000 && ymax == 0
  {
    var level := Level(blackBackground);
    xmax, ymax, xmin, ymin := 0, 0, 1000, 1000;
    var i := i0;
    while i < i1
      invariant i0 <= i && (i0 <= i1 ==> i <= i1) && (i1 < i0 ==> i == i0)
      invariant xmin <= 1000 && xmax >= 0 && ymin <= 1000 && ymax >= 0
      invariant Boxed(im, i0, i, j0, j1, level, xmin, xmax, ymin, ymax)
      invariant (forall a, b :: i0 <= a < i && j0 <= b < j1 ==> !FgAt(im, a, b, level))
                ==> xmin == 1000 && xmax == 0 && ymin == 1000 && ymax == 0
    {
      assert j0 < j1 ==> 0 <= j0 && j1 <= |im[i]|;
      xmin, xmax, ymin, ymax := ScanColumn(im, i0, i, j0, j1, level, xmin, xmax, ymin, ymax);
      i := i + 1;
    }
    assert i == if i1 < i0 then i0 else i1;
  }

  /** The inner loop: column i of the window folded into the box. */
  method ScanColumn(im: seq<seq<Pixel>>, i0: int, i: int, j0: int, j1: int, level: int,
                    xmin0: int, xmax0: int, ymin0: int, ymax0: int)
    returns (xmin: int, xmax: int, ymin: int, ymax: int)
    requires i0 <= i < |im| && 0 <= i
    requires j0 < j1 ==> 0 <= j0 && j1 <= |im[i]|
    requires xmin0 <= 1000 && xmax0 >= 0 && ymin0 <= 1000 && ymax0 >= 0
    requires Boxed(im, i0, i, j0, j1, level, xmin0, xmax0, ymin0, ymax0)
    ensures xmin <= 1000 && xmax >= 0 && ymin <= 1000 && ymax >= 0
    ensures Boxed(im, i0, i + 1, j0, j1, level, xmin, xmax, ymin, ymax)
    ensures (forall b :: j0 <= b < j1 ==> !FgAt(im, i, b, level)) ==>
              xmin == xmin0 && xmax == xmax0 && ymin == ymin0 && ymax == ymax0
  {
    xmin, xmax, ymin, ymax := xmin0, xmax0, ymin0, ymax0;
    AttainedGrow(im, i0, i, j0, j1, level, xmin, xmax, ymin, ymax);
    var j := j0;
    while j < j1
      invariant j0 <= j && (j0 <= j1 ==> j <= j1)
      invariant xmin <= 1000 && xmax >= 0 && ymin <= 1000 && ymax >= 0
      invariant Bounded(im, i0, i, j0, j1, level, xmin, xmax, ymin, ymax)
      invariant forall b :: j0 <= b < j && FgAt(im, i, b, level) ==> xmin <= i <= xmax && ymin <= b <= ymax
      invariant Attained(im, i0, i + 1, j0, j1, level, xmin, xmax, ymin, ymax)
      invariant (forall b :: j0 <= b < j ==> !FgAt(im, i, b, level)) ==>
                  xmin == xmin0 && xmax == xmax0 && ymin == ymin0 && ymax == ymax0
    {
      xmin, xmax, ymin, ymax := AddPixel(im, i0, i, j0, j, j1, level, xmin, xmax, ymin, ymax);
      j := j + 1;
    }
    BoundedColumn(im, i0, i, j0, j1, level, xmin, xmax, ymin, ymax);
  }

  /** One pixel of the inner loop: a foreground pixel widens the box to take it in. */
  method AddPixel(im: seq<seq<Pixel>>, i0: int, i: int, j0: int, j: int, j1: int, level: int,
                  xmin0: int, xmax0: int, ymin0: int, ymax0: int)
    returns (xmin: int, xmax: int, ymin: int, ymax: int)
    requires 0 <= i < |im| && 0 <= j0 <= j < j1 <= |im[i]| && i0 <= i
    requires xmin0 <= 1000 && xmax0 >= 0 && ymin0 <= 1000 && ymax0 >= 0
    requires Attained(im, i0, i + 1, j0, j1, level, xmin0, xmax0, ymin0, ymax0)
    ensures xmin <= 1000 && xmax >= 0 && ymin <= 1000 && ymax >= 0
    ensures xmin <= xmin0 && xmax >= xmax0 && ymin <= ymin0 && ymax >= ymax0
    ensures FgAt(im, i, j, level) ==> xmin <= i <= xmax && ymin <= j <= ymax
    ensures Attained(im, i0, i + 1, j0, j1, level, xmin, xmax, ymin, ymax)
    ensures !FgAt(im, i, j, level) ==> xmin == xmin0 && xmax == xmax0 && ymin == ymin0 && ymax == ymax0
  {
    xmin, xmax, ymin, ymax := xmin0, xmax0, ymin0, ymax0;
    if Foreground(im[i][j], level) {
      assert FgAt(im, i, j, level);
      if i > xmax { xmax := i; }
      if j > ymax { ymax := j; }
      if i < xmin { xmin := i; }
      if j < ymin { ymin := j; }
      ColumnSideAt(im, i0, i + 1, j0, j1, level, xmin0, xmin, 1000, i, j);
      ColumnSideAt(im, i0, i + 1, j0, j1, level, xmax0, xmax, 0, i, j);
      RowSideAt(im, i0, i + 1, j0, j1, level, ymin0, ymin, 1000, i, j);
      RowSideAt(im, i0, i + 1, j0, j1, level, ymax0, ymax, 0, i, j);
    }
  }

  /** A side that moves to the column of a foreground pixel stays attained. */
  lemma ColumnSideAt(im: seq<seq<Pixel>>, i0: int, iEnd: int, j0: int, j1: int, level: int,
                     x0: int, x: int, init: int, i: int, j: int)
    requires ColumnSide(im, i0, iEnd, j0, j1, level, x0, init)
    requires i0 <= i < iEnd && j0 <= j < j1 && FgAt(im, i, j, level) && (x == x0 || x == i)
    ensures ColumnSide(im, i0, iEnd, j0, j1, level, x, init)
  {
  }

  /** A side that moves to the row of a foreground pixel stays attained. */
  lemma RowSideAt(im: seq<seq<Pixel>>, i0: int, iEnd: int, j0: int, j1: int, level: int,
                  y0: int, y: int, init: int, i: int, j: int)
    requires RowSide(im, i0, iEnd, j0, j1, level, y0, init)
    requires i0 <= i < iEnd && j0 <= j < j1 && FgAt(im, i, j, level) && (y == y0 || y == j)
    ensures RowSide(im, i0, iEnd, j0, j1, level, y, init)
  {
  }

  /** Sides attained in columns i0 .. i-1 are attained in columns i0 .. i. */
  lemma AttainedGrow(im: seq<seq<Pixel>>, i0: int, i: int, j0: int, j1: int, level: int,
                     xmin: int, xmax: int, ymin: int, ymax: int)
    requires Attained(im, i0, i, j0, j1, level, xmin, xmax, ymin, ymax)
    ensures Attained(im, i0, i + 1, j0, j1, level, xmin, xmax, ymin, ymax)
  {
  }

  /** Columns i0 .. i-1 bounded and column i bounded make columns i0 .. i bounded. */
  lemma BoundedColumn(im: seq<seq<Pixel>>, i0: int, i: int, j0: int, j1: int, level: int,
                      xmin: int, xmax: int, ymin: int, ymax: int)
    requires Bounded(im, i0, i, j0, j1, level, xmin, xmax, ymin, ymax)
    requires forall b :: j0 <= b < j1 && FgAt(im, i, b, level) ==> xmin <= i <= xmax && ymin <= b <= ymax
    ensures Bounded(im, i0, i + 1, j0, j1, level, xmin, xmax, ymin, ymax)
  {
  }

  // ---------------------------------------------------------------------
  // Hull mesh

  datatype Facet = Facet(a: int, b: int, c: int)

  /** The vertex indices of the facets, three per facet, in facet order. */
  function Flatten(facets: seq<Facet>): (r: seq<int>)
    ensures |r| == 3 * |facets|
    ensures forall f :: 0 <= f < |facets| ==>
              r[3 * f] == facets[f].a && r[3 * f + 1] == facets[f].b && r[3 * f + 2] == facets[f].c
  {
    if |facets| == 0 then []
    else
      var n := |facets| - 1;
      var p := Flatten(facets[..n]);
      var r := p + [facets[n].a, facets[n].b, facets[n].c];
      assert forall f :: 0 <= f < n ==> facets[..n][f] == facets[f];
      r
  }

  /**
   * The vertex mapper of writePovrayHull: each vertex index, on its first
   * appearance, gets the next mesh number.
   */
  method VertexMapper(facets: seq<Facet>) returns (mapper: map<int, int>, nVertices: nat)
    ensures nVertices == |FirstAppearance(Flatten(facets))|
    ensures MapsOrder(mapper, FirstAppearance(Flatten(facets)))
  {
    var flat := Flatten(facets);
    mapper := map[];
    nVertices := 0;
    var t := 0;
    while t < |flat|
      invariant 0 <= t <= |flat|
      invariant nVertices == |FirstAppearance(flat[..t])|
      invariant MapsOrder(mapper, FirstAppearance(flat[..t]))
    {
      mapper, nVertices := MapVertex(flat, t, mapper, nVertices);
      t := t + 1;
    }
    TakeAll(flat);
  }

  /** One index of the vertex mapper: numbered on its first appearance, otherwise passed over. */
  method MapVertex(flat: seq<int>, t: int, mapper: map<int, int>, nVertices: nat) returns (mapper': map<int, int>, nVertices': nat)
    requires 0 <= t < |flat|
    requires nVertices == |FirstAppearance(flat[..t])| && MapsOrder(mapper, FirstAppearance(flat[..t]))
    ensures nVertices' == |FirstAppearance(flat[..t + 1])| && MapsOrder(mapper', FirstAppearance(flat[..t + 1]))
  {
    FirstAppearanceStep(flat, t);
    var v := flat[t];
    mapper', nVertices' := mapper, nVertices;
    if v !in mapper {
      MapsOrderExtend(mapper, FirstAppearance(flat[..t]), v);
      mapper', nVertices' := mapper[v := nVertices], nVertices + 1;
    }
  }

  datatype Mesh = Mesh(vertices: seq<Vec3>, faces: seq<Facet>)

  /** Every facet names an atom of the cluster. */
  predicate FacetsIndexAtoms(facets: seq<Facet>, clusterPos: seq<real>)
  {
    forall f :: 0 <= f < |facets| ==>
      var x := facets[f];
      0 <= x.a && 3 * x.a + 2 < |clusterPos| && 0 <= x.b && 3 * x.b + 2 < |clusterPos|
      && 0 <= x.c && 3 * x.c + 2 < |clusterPos|
  }

  /** Atom k of a flat position array, mirrored in x as the mesh writes it. */
  function MeshVertex(clusterPos: seq<real>, k: int): Vec3
    requires 0 <= k && 3 * k + 2 < |clusterPos|
  {
    Vec3(-clusterPos[3 * k], clusterPos[3 * k + 1], clusterPos[3 * k + 2])
  }

  /**
   * writePovrayHull's mesh: nothing for a cluster of fewer than three
   * atoms; otherwise one vertex per distinct facet index, in mapper order,
   * and each facet's indices renumbered so that they pick those vertices.
   */
  method HullMesh(facets: seq<Facet>, clusterPos: seq<real>) returns (r: Option<Mesh>)
    requires FacetsIndexAtoms(facets, clusterPos)
    ensures r.None? <==> |clusterPos| / 3 < 3
    ensures r.Some? ==> |r.value.vertices| == |FirstAppearance(Flatten(facets))| && |r.value.faces| == |facets|
    ensures r.Some? ==> forall f :: 0 <= f < |facets| ==>
              var face := r.value.faces[f];
              && 0 <= face.a < |r.value.vertices| && 0 <= face.b < |r.value.vertices| && 0 <= face.c < |r.value.vertices|
              && r.value.vertices[face.a] == MeshVertex(clusterPos, facets[f].a)
              && r.value.vertices[face.b] == MeshVertex(clusterPos, facets[f].b)
              && r.value.vertices[face.c] == MeshVertex(clusterPos, facets[f].c)
  {
    if |clusterPos| / 3 < 3 {
      return None;
    }
    var mapper, nVertices := VertexMapper(facets);
    var order := FirstAppearance(Flatten(facets));  // the mapper sorted by mesh number
    IndicesAreAtoms(facets, clusterPos);
    assert forall k :: 0 <= k < |order| ==> order[k] in order;
    var vertices := seq(nVertices, k requires 0 <= k < nVertices => MeshVertex(clusterPos, order[k]));
    assert forall x :: x in Flatten(facets) ==> x in order;
    FacetsMapped(facets, mapper);
    var faces := seq(|facets|, f requires 0 <= f < |facets| =>
                     Facet(mapper[facets[f].a], mapper[facets[f].b], mapper[facets[f].c]));
    r := Some(Mesh(vertices, faces));
  }

  /** A mapper numbering every flattened index numbers every index of every facet. */
  lemma FacetsMapped(facets: seq<Facet>, mapper: map<int, int>)
    requires forall x :: x in Flatten(facets) ==> x in mapper
    ensures forall f :: 0 <= f < |facets| ==> facets[f].a in mapper && facets[f].b in mapper && facets[f].c in mapper
  {
    var flat := Flatten(facets);
    forall f | 0 <= f < |facets|
      ensures facets[f].a in mapper && facets[f].b in mapper && facets[f].c in mapper
    {
      assert flat[3 * f] in flat && flat[3 * f + 1] in flat && flat[3 * f + 2] in flat;
    }
  }

  /** Every value of the flattened facets is a cluster atom. */
  lemma IndicesAreAtoms(facets: seq<Facet>, clusterPos: seq<real>)
    requires FacetsIndexAtoms(facets, clusterPos)
    ensures forall v :: v in FirstAppearance(Flatten(facets)) ==> 0 <= v && 3 * v + 2 < |clusterPos|
  {
    var flat := Flatten(facets);
    forall v | v in flat
      ensures 0 <= v && 3 * v + 2 < |clusterPos|
    {
      var t :| 0 <= t < |flat| && flat[t] == v;
      var f := t / 3;
      assert 0 <= f < |facets|;
      var x := facets[f];
      if t == 3 * f {
        assert v == x.a;
      } else if t == 3 * f + 1 {
        assert v == x.b;
      } else {
        assert t == 3 * f + 2;
        assert v == x.c;
      }
    }
  }
}

=== FILE: renderer_window.dfy ===
/*
 * The bookkeeping of a renderer window (CDJSVis/gui/rendererSubWindow.py):
 * the text colour check, the anti-aliasing frame counter, the projection and
 * background toggles, and the counts refreshOnScreenInfo gathers from the
 * filter lists. VTK and Qt calls are not part of this model.
 */
module RendererWindow {
  import opened Base

  datatype Colour = Colour(r: real, g: real, b: real)

  const Black := Colour(0.0, 0.0, 0.0)
  const White := Colour(1.0, 1.0, 1.0)

  /**
   * checkTextRGB: black text on a black background turns white, white text
   * on a white background turns black, every other colour is kept.
   */
  function CheckTextRGB(blackBackground: bool, c: Colour): (r: Colour)
    ensures blackBackground && c == Black ==> r == White
    ensures !blackBackground && c == White ==> r == Black
    ensures (blackBackground && c != Black) || (!blackBackground && c != White) ==> r == c
    ensures r != (if blackBackground then Black else White)
  {
    if blackBackground then
      (if c.r == c.g == c.b == 0.0 then White else c)
    else
      (if c.r == c.g == c.b == 1.0 then Black else c)
  }

  /** Checking a checked colour again changes nothing. */
  lemma CheckTextIdempotent(blackBackground: bool, c: Colour)
    ensures CheckTextRGB(blackBackground, CheckTextRGB(blackBackground, c)) == CheckTextRGB(blackBackground, c)
  {
  }

  // ---------------------------------------------------------------------
  // Window state

  datatype Window = Window(
    parallelProjection: bool,
    parallelScale: real,
    blackBackground: bool,
    background: Colour,
    frameColour: Colour,
    aaFrames: int)

  /** The background is black or white as the flag says, and the cell frame is the other colour. */
  predicate Coherent(w: Window)
  {
    && w.background == (if w.blackBackground then Black else White)
    && w.frameColour == (if w.blackBackground then White else Black)
    && w.aaFrames >= 0
  }

  /** increaseAA: one more frame. */
  function IncreaseAA(w: Window): (r: Window)
    ensures r.aaFrames == w.aaFrames + 1 && r.(aaFrames := w.aaFrames) == w
  {
    w.(aaFrames := w.aaFrames + 1)
  }

  /** decreaseAA: one frame fewer, except at none. */
  function DecreaseAA(w: Window): (r: Window)
    ensures w.aaFrames == 0 ==> r == w
    ensures w.aaFrames != 0 ==> r.aaFrames == w.aaFrames - 1
    ensures w.aaFrames >= 0 ==> r.aaFrames >= 0
    ensures r.(aaFrames := w.aaFrames) == w
  {
    if w.aaFrames == 0 then w else w.(aaFrames := w.aaFrames - 1)
  }

  /** Decreasing after increasing restores the frame count. */
  lemma IncreaseThenDecrease(w: Window)
    requires w.aaFrames >= 0
    ensures DecreaseAA(IncreaseAA(w)) == w
  {
  }

  /**
   * toggleProjection: flips the projection; turning parallel projection on
   * sets the parallel scale to the mean of the first two cell dimensions.
   */
  function ToggleProjection(w: Window, cellDims: Vec3): (r: Window)
    ensures r.parallelProjection == !w.parallelProjection
    ensures r.parallelProjection ==> r.parallelScale == (cellDims.x + cellDims.y) / 2.0
    ensures !r.parallelProjection ==> r.parallelScale == w.parallelScale
    ensures r.blackBackground == w.blackBackground && r.background == w.background && r.aaFrames == w.aaFrames
  {
    if w.parallelProjection then w.(parallelProjection := false)
    else w.(parallelProjection := true, parallelScale := (cellDims.x + cellDims.y) / 2.0)
  }

  /** toggleBackgroundColour: black and white swap, with the cell frame in the other colour. */
  function ToggleBackgroundColour(w: Window): (r: Window)
    ensures r.blackBackground == !w.blackBackground
    ensures Coherent(w) ==> Coherent(r)
    ensures r.parallelProjection == w.parallelProjection && r.aaFrames == w.aaFrames
  {
    if w.blackBackground then w.(blackBackground := false, background := White, frameColour := Black)
    else w.(blackBackground := true, background := Black, frameColour := White)
  }

  /** Toggling the background twice restores a coherent window. */
  lemma BackgroundTwice(w: Window)
    requires Coherent(w)
    ensures ToggleBackgroundColour(ToggleBackgroundColour(w)) == w
  {
  }

  /** On a coherent window, checked text never has the background's colour. */
  lemma TextVisible(w: Window, c: Colour)
    requires Coherent(w)
    ensures CheckTextRGB(w.blackBackground, c) != w.background
  {
  }

  // ---------------------------------------------------------------------
  // Visible and cluster counts

  /** What the on-screen counts read from one filter list. */
  datatype ListInfo = ListInfo(visible: bool, defectFilterSelected: bool, nVis: int, nClusters: int,
                               visibleSpecieCount: seq<int>)

  /** A list whose visible atoms are counted: shown and without the point-defects filter. */
  predicate Counted(l: ListInfo)
  {
    l.visible && !l.defectFilterSelected
  }

  function CountedMask(lists: seq<ListInfo>): (m: seq<bool>)
    ensures |m| == |lists| && forall k :: 0 <= k < |lists| ==> (m[k] <==> Counted(lists[k]))
  {
    seq(|lists|, k requires 0 <= k < |lists| => Counted(lists[k]))
  }

  function VisibleMask(lists: seq<ListInfo>): (m: seq<bool>)
    ensures |m| == |lists| && forall k :: 0 <= k < |lists| ==> (m[k] <==> lists[k].visible)
  {
    seq(|lists|, k requires 0 <= k < |lists| => lists[k].visible)
  }

  function NVisColumn(lists: seq<ListInfo>): (c: seq<int>)
    ensures |c| == |lists| && forall k :: 0 <= k < |lists| ==> c[k] == lists[k].nVis
  {
    seq(|lists|, k requires 0 <= k < |lists| => lists[k].nVis)
  }

  function ClusterColumn(lists: seq<ListInfo>): (c: seq<int>)
    ensures |c| == |lists| && forall k :: 0 <= k < |lists| ==> c[k] == lists[k].nClusters
  {
    seq(|lists|, k requires 0 <= k < |lists| => lists[k].nClusters)
  }

  /**
   * The atom-count part of refreshOnScreenInfo: the visible count is the
   * total of NVis over the shown lists without the point-defects filter,
   * and appears when there is such a list; the cluster count is the total
   * over all shown lists, and appears when it is not zero.
   */
  method OnScreenCounts(lists: seq<ListInfo>) returns (visibleCount: Option<int>, clusterCount: Option<int>)
    ensures visibleCount.Some? <==> exists k :: 0 <= k < |lists| && Counted(lists[k])
    ensures visibleCount.Some? ==> visibleCount.value == Sum(Select(NVisColumn(lists), CountedMask(lists)))
    ensures var total := Sum(Select(ClusterColumn(lists), VisibleMask(lists)));
            clusterCount == if total != 0 then Some(total) else None
  {
    var active := false;
    var visCount := 0;
    var numClusters := 0;
    var k := 0;
    TallyStart(lists);
    while k < |lists|
      invariant Tallied(lists, k, active, visCount, numClusters)
    {
      var l := lists[k];
      TallyStep(lists, k, active, visCount, numClusters);
      active := active || Counted(l);
      visCount := visCount + if Counted(l) then l.nVis else 0;
      numClusters := numClusters + if l.visible then l.nClusters else 0;
      k := k + 1;
    }
    TallyDone(lists, active, visCount, numClusters);
    visibleCount := if active then Some(visCount) else None;
    clusterCount := if numClusters != 0 then Some(numClusters) else None;
  }

  /** The loop's state after k lists: whether one was counted, and the two running totals. */
  ghost predicate Tallied(lists: seq<ListInfo>, k: int, active: bool, visCount: int, numClusters: int)
  {
    && 0 <= k <= |lists|
    && (active <==> exists t :: 0 <= t < k && Counted(lists[t]))
    && visCount == VisibleTotal(lists[..k])
    && numClusters == ClusterTotal(lists[..k])
  }

  /** The running visible total, list by list. */
  function VisibleTotal(lists: seq<ListInfo>): int
  {
    if |lists| == 0 then 0
    else
      var n := |lists| - 1;
      VisibleTotal(lists[..n]) + if Counted(lists[n]) then lists[n].nVis else 0
  }

  /** The running cluster total, list by list. */
  function ClusterTotal(lists: seq<ListInfo>): int
  {
    if |lists| == 0 then 0
    else
      var n := |lists| - 1;
      ClusterTotal(lists[..n]) + if lists[n].visible then lists[n].nClusters else 0
  }

  /** The running totals are the sums over the selected columns. */
  lemma {:induction false} TotalsAreSums(lists: seq<ListInfo>)
    ensures VisibleTotal(lists) == Sum(Select(NVisColumn(lists), CountedMask(lists)))
    ensures ClusterTotal(lists) == Sum(Select(ClusterColumn(lists), VisibleMask(lists)))
  {
    if |lists| > 0 {
      var n := |lists| - 1;
      TotalsAreSums(lists[..n]);
      CountsStep(lists, n);
      TakeAll(lists);
    }
  }

  lemma TallyStart(lists: seq<ListInfo>)
    ensures Tallied(lists, 0, false, 0, 0)
  {
    assert lists[..0] == [];
  }

  lemma TallyStep(lists: seq<ListInfo>, k: int, active: bool, visCount: int, numClusters: int)
    requires Tallied(lists, k, active, visCount, numClusters) && k < |lists|
    ensures var l := lists[k];
            Tallied(lists, k + 1, active || Counted(l), visCount + (if Counted(l) then l.nVis else 0),
                    numClusters + (if l.visible then l.nClusters else 0))
  {
    TakeTake(lists, k, k + 1);
    if Counted(lists[k]) {
      assert exists t :: 0 <= t < k + 1 && Counted(lists[t]) by {
        assert Counted(lists[k]);
      }
    }
  }

  lemma TallyDone(lists: seq<ListInfo>, active: bool, visCount: int, numClusters: int)
    requires Tallied(lists, |lists|, active, visCount, numClusters)
    ensures active <==> exists k :: 0 <= k < |lists| && Counted(lists[k])
    ensures visCount == Sum(Select(NVisColumn(lists), CountedMask(lists)))
    ensures numClusters == Sum(Select(ClusterColumn(lists), VisibleMask(lists)))
  {
    TakeAll(lists);
    TotalsAreSums(lists);
  }

  /** Taking one more list into the totals. */
  lemma CountsStep(lists: seq<ListInfo>, k: int)
    requires 0 <= k < |lists|
    ensures Sum(Select(NVisColumn(lists[..k + 1]), CountedMask(lists[..k + 1])))
            == Sum(Select(NVisColumn(lists[..k]), CountedMask(lists[..k]))) + (if Counted(lists[k]) then lists[k].nVis else 0)
    ensures Sum(Select(ClusterColumn(lists[..k + 1]), VisibleMask(lists[..k + 1])))
            == Sum(Select(ClusterColumn(lists[..k]), VisibleMask(lists[..k]))) + (if lists[k].visible then lists[k].nClusters else 0)
  {
    var p := lists[..k];
    assert NVisColumn(lists[..k + 1]) == NVisColumn(p) + [lists[k].nVis];
    assert CountedMask(lists[..k + 1]) == CountedMask(p) + [Counted(lists[k])];
    assert ClusterColumn(lists[..k + 1]) == ClusterColumn(p) + [lists[k].nClusters];
    assert VisibleMask(lists[..k + 1]) == VisibleMask(p) + [lists[k].visible];
    SelectAppend(NVisColumn(p), CountedMask(p), lists[k].nVis, Counted(lists[k]));
    SelectAppend(ClusterColumn(p), VisibleMask(p), lists[k].nClusters, lists[k].visible);
    SumAppend(Select(NVisColumn(p), CountedMask(p)), if Counted(lists[k]) then [lists[k].nVis] else []);
    SumAppend(Select(ClusterColumn(p), VisibleMask(p)), if lists[k].visible then [lists[k].nClusters] else []);
  }

  // ---------------------------------------------------------------------
  // Visible counts per species

  /** A list whose per-species counts are added: counted, with atoms, and with one count per species. */
  predicate AddsSpecies(l: ListInfo, nSpecies: int)
  {
    Counted(l) && l.nVis != 0 && |l.visibleSpecieCount| == nSpecies
  }

  function SpeciesMask(lists: seq<ListInfo>, nSpecies: int): (m: seq<bool>)
    ensures |m| == |lists| && forall k :: 0 <= k < |lists| ==> (m[k] <==> AddsSpecies(lists[k], nSpecies))
  {
    seq(|lists|, k requires 0 <= k < |lists| => AddsSpecies(lists[k], nSpecies))
  }

  /** Each list's count of species s, where it has one. */
  function SpeciesColumn(lists: seq<ListInfo>, s: int): (c: seq<int>)
    requires 0 <= s
    ensures |c| == |lists|
    ensures forall k :: 0 <= k < |lists| && s < |lists[k].visibleSpecieCount| ==> c[k] == lists[k].visibleSpecieCount[s]
  {
    seq(|lists|, k requires 0 <= k < |lists| =>
      if s < |lists[k].visibleSpecieCount| then lists[k].visibleSpecieCount[s] else 0)
  }

  /**
   * The "Visible specie count" totals: species s's entry adds up the count
   * of s of every counted list with visible atoms whose count array has
   * one entry per species; other lists are passed over.
   */
  method VisibleSpecieCount(lists: seq<ListInfo>, nSpecies: nat) returns (total: seq<int>)
    ensures |total| == nSpecies
    ensures forall s :: 0 <= s < nSpecies ==> total[s] == Sum(Select(SpeciesColumn(lists, s), SpeciesMask(lists, nSpecies)))
  {
    total := seq(nSpecies, s => 0);
    var k := 0;
    while k < |lists|
      invariant 0 <= k <= |lists| && |total| == nSpecies
      invariant forall s :: 0 <= s < nSpecies ==> total[s] == SpeciesTotal(lists[..k], s, nSpecies)
    {
      total := AddSpecies(lists, k, nSpecies, total);
      k := k + 1;
    }
    TakeAll(lists);
  }

  /** One more list's species counts added to the totals. */
  method AddSpecies(lists: seq<ListInfo>, k: int, nSpecies: nat, total: seq<int>) returns (total': seq<int>)
    requires 0 <= k < |lists| && |total| == nSpecies
    requires forall s :: 0 <= s < nSpecies ==> total[s] == SpeciesTotal(lists[..k], s, nSpecies)
    ensures |total'| == nSpecies
    ensures forall s :: 0 <= s < nSpecies ==> total'[s] == SpeciesTotal(lists[..k + 1], s, nSpecies)
  {
    var l := lists[k];
    forall s | 0 <= s < nSpecies
      ensures SpeciesTotal(lists[..k + 1], s, nSpecies)
              == SpeciesTotal(lists[..k], s, nSpecies) + (if AddsSpecies(l, nSpecies) then l.visibleSpecieCount[s] else 0)
    {
      SpeciesStep(lists, k, s, nSpecies);
    }
    if AddsSpecies(l, nSpecies) {
      total' := seq(nSpecies, s requires 0 <= s < nSpecies => total[s] + l.visibleSpecieCount[s]);
    } else {
      total' := total;
    }
  }

  /** The total of species s over the lists that add their species counts. */
  function SpeciesTotal(lists: seq<ListInfo>, s: int, nSpecies: int): int
    requires 0 <= s
  {
    Sum(Select(SpeciesColumn(lists, s), SpeciesMask(lists, nSpecies)))
  }

  lemma SpeciesStep(lists: seq<ListInfo>, k: int, s: int, nSpecies: int)
    requires 0 <= k < |lists| && 0 <= s < nSpecies
    ensures SpeciesTotal(lists[..k + 1], s, nSpecies)
            == SpeciesTotal(lists[..k], s, nSpecies) + (if AddsSpecies(lists[k], nSpecies) then lists[k].visibleSpecieCount[s] else 0)
  {
    var p := lists[..k];
    var x := SpeciesColumn(lists[..k + 1], s)[k];
    var b := AddsSpecies(lists[k], nSpecies);
    assert SpeciesColumn(lists[..k + 1], s) == SpeciesColumn(p, s) + [x];
    assert SpeciesMask(lists[..k + 1], nSpecies) == SpeciesMask(p, nSpecies) + [b];
    SelectAppend(SpeciesColumn(p, s), SpeciesMask(p, nSpecies), x, b);
    SumAppend(Select(SpeciesColumn(p, s), SpeciesMask(p, nSpecies)), if b then [x] else []);
  }

  // ---------------------------------------------------------------------
  // Split-interstitial entries

  /** The split-interstitial count shown for species pair i <= j: the diagonal entry, or both orders added. */
  function PairCount(m: seq<seq<int>>, i: int, j: int): int
    requires 0 <= i < |m| && 0 <= j < |m| && |m[i]| == |m| && |m[j]| == |m|
  {
    if i == j then m[i][i] else m[i][j] + m[j][i]
  }

  predicate Square(m: seq<seq<int>>)
  {
    forall i :: 0 <= i < |m| ==> |m[i]| == |m|
  }

  datatype SplitEntry = SplitEntry(i: int, j: int, count: int)

  function CountsOf(es: seq<SplitEntry>): (r: seq<int>)
    ensures |r| == |es| && forall k :: 0 <= k < |es| ==> r[k] == es[k].count
  {
    seq(|es|, k requires 0 <= k < |es| => es[k].count)
  }

  /** The entries of row i: j from i up to the last species. */
  function RowEntries(m: seq<seq<int>>, i: int, hi: int): (r: seq<SplitEntry>)
    requires Square(m) && 0 <= i < |m| && hi <= |m|
    ensures |r| == if hi <= i then 0 else hi - i
    ensures forall k :: 0 <= k < |r| ==> r[k] == SplitEntry(i, i + k, PairCount(m, i, i + k))
    decreases hi
  {
    if hi <= i then [] else RowEntries(m, i, hi - 1) + [SplitEntry(i, hi - 1, PairCount(m, i, hi - 1))]
  }

  /**
   * The split-interstitial entries refreshOnScreenInfo lists, for the rows
   * before k: the pairs i <= j in row order.
   */
  function SplitEntries(m: seq<seq<int>>, k: int): seq<SplitEntry>
    requires Square(m) && 0 <= k <= |m|
  {
    if k == 0 then [] else SplitEntries(m, k - 1) + RowEntries(m, k - 1, |m|)
  }

  /** The entries are the pairs i <= j of the rows before k, each with its PairCount. */
  lemma SplitEntriesCover(m: seq<seq<int>>, k: int)
    requires Square(m) && 0 <= k <= |m|
    ensures forall e :: e in SplitEntries(m, k) ==> 0 <= e.i <= e.j < |m| && e.i < k && e.count == PairCount(m, e.i, e.j)
    ensures forall i, j :: 0 <= i < k && i <= j < |m| ==> SplitEntry(i, j, PairCount(m, i, j)) in SplitEntries(m, k)
  {
    forall e | e in SplitEntries(m, k)
      ensures 0 <= e.i <= e.j < |m| && e.i < k && e.count == PairCount(m, e.i, e.j)
    {
      SplitEntryValid(m, k, e);
    }
    forall i, j | 0 <= i < k && i <= j < |m|
      ensures SplitEntry(i, j, PairCount(m, i, j)) in SplitEntries(m, k)
    {
      SplitEntryPresent(m, k, i, j);
    }
  }

  lemma {:induction false} SplitEntryValid(m: seq<seq<int>>, k: int, e: SplitEntry)
    requires Square(m) && 0 <= k <= |m| && e in SplitEntries(m, k)
    ensures 0 <= e.i <= e.j < |m| && e.i < k && e.count == PairCount(m, e.i, e.j)
  {
    var prev := SplitEntries(m, k - 1);
    var row := RowEntries(m, k - 1, |m|);
    assert SplitEntries(m, k) == prev + row;
    if e in prev {
      SplitEntryValid(m, k - 1, e);
    } else {
      RowEntryValid(m, k - 1, e);
    }
  }

  /** An entry of row i pairs i with a later j and carries their count. */
  lemma RowEntryValid(m: seq<seq<int>>, i: int, e: SplitEntry)
    requires Square(m) && 0 <= i < |m| && e in RowEntries(m, i, |m|)
    ensures e.i == i && i <= e.j < |m| && e.count == PairCount(m, e.i, e.j)
  {
    var row := RowEntries(m, i, |m|);
    var t :| 0 <= t < |row| && row[t] == e;
  }

  lemma {:induction false} SplitEntryPresent(m: seq<seq<int>>, k: int, i: int, j: int)
    requires Square(m) && 0 <= i < k <= |m| && i <= j < |m|
    ensures SplitEntry(i, j, PairCount(m, i, j)) in SplitEntries(m, k)
  {
    var prev := SplitEntries(m, k - 1);
    var row := RowEntries(m, k - 1, |m|);
    assert SplitEntries(m, k) == prev + row;
    if i < k - 1 {
      SplitEntryPresent(m, k - 1, i, j);
    } else {
      assert row[j - i] == SplitEntry(i, j, PairCount(m, i, j));
    }
  }

  lemma RowEntriesMembers(m: seq<seq<int>>, i: int)
    requires Square(m) && 0 <= i < |m|
    ensures forall j :: i <= j < |m| ==> SplitEntry(i, j, PairCount(m, i, j)) in RowEntries(m, i, |m|)
  {
    var row := RowEntries(m, i, |m|);
    forall j | i <= j < |m|
      ensures SplitEntry(i, j, PairCount(m, i, j)) in row
    {
      assert row[j - i] == SplitEntry(i, j, PairCount(m, i, j));
    }
  }

  // The matrix total, and the sums over the upper triangle.

  function RowSum(m: seq<seq<int>>, i: int, hi: int): int
    requires Square(m) && 0 <= i < |m| && 0 <= hi <= |m|
  {
    if hi == 0 then 0 else RowSum(m, i, hi - 1) + m[i][hi - 1]
  }

  function ColSum(m: seq<seq<int>>, j: int, hi: int): int
    requires Square(m) && 0 <= j < |m| && 0 <= hi <= |m|
  {
    if hi == 0 then 0 else ColSum(m, j, hi - 1) + m[hi - 1][j]
  }

  /** The sum of m[i][j] over i < k and j < w. */
  function Grid(m: seq<seq<int>>, k: int, w: int): int
    requires Square(m) && 0 <= k <= |m| && 0 <= w <= |m|
  {
    if k == 0 then 0 else Grid(m, k - 1, w) + RowSum(m, k - 1, w)
  }

  /** The total of the whole matrix. */
  function MatrixTotal(m: seq<seq<int>>): int
    requires Square(m)
  {
    Grid(m, |m|, |m|)
  }

  /** The sum of PairCount(i, j) over i <= j < w. */
  function UpperRow(m: seq<seq<int>>, i: int, w: int): int
    requires Square(m) && 0 <= i < |m| && 0 <= w <= |m|
  {
    if w <= i then 0 else UpperRow(m, i, w - 1) + PairCount(m, i, w - 1)
  }

  function Upper(m: seq<seq<int>>, k: int, w: int): int
    requires Square(m) && 0 <= k <= |m| && 0 <= w <= |m|
  {
    if k == 0 then 0 else Upper(m, k - 1, w) + UpperRow(m, k - 1, w)
  }

  lemma {:induction false} GridWiden(m: seq<seq<int>>, k: int, w: int)
    requires Square(m) && 0 <= k <= |m| && 0 <= w < |m|
    ensures Grid(m, k, w + 1) == Grid(m, k, w) + ColSum(m, w, k)
  {
    if k > 0 {
      GridWiden(m, k - 1, w);
    }
  }

  /** Widening the upper triangle by column w adds PairCount(i, w) for every row i below k. */
  lemma {:induction false} UpperWiden(m: seq<seq<int>>, k: int, w: int)
    requires Square(m) && 0 <= k <= w < |m|
    ensures Upper(m, k, w + 1) == Upper(m, k, w) + ColSum(m, w, k) + RowSum(m, w, k)
  {
    if k > 0 {
      UpperWiden(m, k - 1, w);
      assert UpperRow(m, k - 1, w + 1) == UpperRow(m, k - 1, w) + m[k - 1][w] + m[w][k - 1];
    }
  }

  lemma {:induction false} UpperIsTotal(m: seq<seq<int>>, n: int)
    requires Square(m) && 0 <= n <= |m|
    ensures Upper(m, n, n) == Grid(m, n, n)
  {
    if n > 0 {
      var p := n - 1;
      UpperIsTotal(m, p);
      UpperWiden(m, p, p);
      GridWiden(m, p, p);
      assert UpperRow(m, p, n) == m[p][p];
      assert Grid(m, n, n) == Grid(m, p, n) + RowSum(m, p, n);
    }
  }

  lemma {:induction false} RowEntriesSum(m: seq<seq<int>>, i: int, hi: int)
    requires Square(m) && 0 <= i < |m| && 0 <= hi <= |m|
    ensures Sum(CountsOf(RowEntries(m, i, hi))) == UpperRow(m, i, hi)
    decreases hi
  {
    if hi > i {
      RowEntriesSum(m, i, hi - 1);
      RowEntriesStep(m, i, hi);
    } else {
      assert RowEntries(m, i, hi) == [];
    }
  }

  /** One more entry in the row adds its pair count to both sides. */
  lemma RowEntriesStep(m: seq<seq<int>>, i: int, hi: int)
    requires Square(m) && 0 <= i < hi <= |m|
    requires Sum(CountsOf(RowEntries(m, i, hi - 1))) == UpperRow(m, i, hi - 1)
    ensures Sum(CountsOf(RowEntries(m, i, hi))) == UpperRow(m, i, hi)
  {
    var e := RowEntries(m, i, hi - 1);
    var c := PairCount(m, i, hi - 1);
    var x := SplitEntry(i, hi - 1, c);
    assert RowEntries(m, i, hi) == e + [x];
    CountsOfSnoc(e, x);
    SumSnoc(CountsOf(e), c);
  }

  lemma CountsOfSnoc(es: seq<SplitEntry>, x: SplitEntry)
    ensures CountsOf(es + [x]) == CountsOf(es) + [x.count]
  {
    assert forall k :: 0 <= k < |es| + 1 ==> CountsOf(es + [x])[k] == (CountsOf(es) + [x.count])[k];
  }

  lemma CountsOfAppend(a: seq<SplitEntry>, b: seq<SplitEntry>)
    ensures CountsOf(a + b) == CountsOf(a) + CountsOf(b)
  {
    assert forall k :: 0 <= k < |a + b| ==> CountsOf(a + b)[k] == (a + b)[k].count;
  }

  /** The total of the entries' counts. */
  function EntriesTotal(es: seq<SplitEntry>): int
  {
    Sum(CountsOf(es))
  }

  lemma SplitEntriesStep(m: seq<seq<int>>, k: int)
    requires Square(m) && 0 < k <= |m|
    ensures EntriesTotal(SplitEntries(m, k)) == EntriesTotal(SplitEntries(m, k - 1)) + UpperRow(m, k - 1, |m|)
  {
    var prev := SplitEntries(m, k - 1);
    var row := RowEntries(m, k - 1, |m|);
    RowEntriesSum(m, k - 1, |m|);
    assert SplitEntries(m, k) == prev + row;
    CountsOfAppend(prev, row);
    SumAppend(CountsOf(prev), CountsOf(row));
  }

  lemma {:induction false} SplitEntriesSum(m: seq<seq<int>>, k: int)
    requires Square(m) && 0 <= k <= |m|
    ensures EntriesTotal(SplitEntries(m, k)) == Upper(m, k, |m|)
  {
    if k > 0 {
      SplitEntriesSum(m, k - 1);
      SplitEntriesStep(m, k);
    }
  }

  /** The split-interstitial entries account for every split interstitial counted, once. */
  lemma SplitEntriesTotal(m: seq<seq<int>>)
    requires Square(m)
    ensures EntriesTotal(SplitEntries(m, |m|)) == MatrixTotal(m)
  {
    SplitEntriesSum(m, |m|);
    UpperIsTotal(m, |m|);
  }

  // ---------------------------------------------------------------------
  // Antisite entries

  /** The pairs (i, j) of row i, j below m, that skip does not pass over. */
  function RowPairs(i: int, m: nat, skip: (int, int) -> bool): seq<(int, int)>
  {
    if m == 0 then [] else RowPairs(i, m - 1, skip) + (if skip(i, m - 1) then [] else [(i, m - 1)])
  }

  /** The pairs (i, j), i below n and j below m, in row order, that skip does not pass over. */
  function Pairs(n: nat, m: nat, skip: (int, int) -> bool): seq<(int, int)>
  {
    if n == 0 then [] else Pairs(n - 1, m, skip) + RowPairs(n - 1, m, skip)
  }

  lemma {:induction false} RowPairsMember(i: int, m: nat, skip: (int, int) -> bool, x: int, y: int)
    ensures (x, y) in RowPairs(i, m, skip) <==> x == i && 0 <= y < m && !skip(x, y)
  {
    if m > 0 {
      RowPairsMember(i, m - 1, skip, x, y);
    }
  }

  lemma {:induction false} PairsMember(n: nat, m: nat, skip: (int, int) -> bool, x: int, y: int)
    ensures (x, y) in Pairs(n, m, skip) <==> 0 <= x < n && 0 <= y < m && !skip(x, y)
  {
    if n > 0 {
      PairsMember(n - 1, m, skip, x, y);
      RowPairsMember(n - 1, m, skip, x, y);
      PairsLastRow(n, m, skip, x, y);
    }
  }

  /** The listing up to row n holds the earlier rows' pairs and row n-1's. */
  lemma PairsLastRow(n: nat, m: nat, skip: (int, int) -> bool, x: int, y: int)
    requires n > 0
    requires (x, y) in Pairs(n - 1, m, skip) <==> 0 <= x < n - 1 && 0 <= y < m && !skip(x, y)
    requires (x, y) in RowPairs(n - 1, m, skip) <==> x == n - 1 && 0 <= y < m && !skip(x, y)
    ensures (x, y) in Pairs(n, m, skip) <==> 0 <= x < n && 0 <= y < m && !skip(x, y)
  {
    var a, b := Pairs(n - 1, m, skip), RowPairs(n - 1, m, skip);
    assert (x, y) in Pairs(n, m, skip) <==> (x, y) in a || (x, y) in b;
  }

  lemma PairsMembers(n: nat, m: nat, skip: (int, int) -> bool)
    ensures forall p :: p in Pairs(n, m, skip) <==> 0 <= p.0 < n && 0 <= p.1 < m && !skip(p.0, p.1)
  {
    forall p
      ensures p in Pairs(n, m, skip) <==> 0 <= p.0 < n && 0 <= p.1 < m && !skip(p.0, p.1)
    {
      PairsMember(n, m, skip, p.0, p.1);
    }
  }

  /** Pair listings whose skip rules agree on the grid are the same listing. */
  lemma {:induction false} PairsAgree(n: nat, m: nat, skip1: (int, int) -> bool, skip2: (int, int) -> bool)
    requires forall i, j :: 0 <= i < n && 0 <= j < m ==> skip1(i, j) == skip2(i, j)
    ensures Pairs(n, m, skip1) == Pairs(n, m, skip2)
  {
    if n > 0 {
      PairsAgree(n - 1, m, skip1, skip2);
      RowPairsAgree(n - 1, m, skip1, skip2);
    }
  }

  lemma {:induction false} RowPairsAgree(i: int, m: nat, skip1: (int, int) -> bool, skip2: (int, int) -> bool)
    requires forall j :: 0 <= j < m ==> skip1(i, j) == skip2(i, j)
    ensures RowPairs(i, m, skip1) == RowPairs(i, m, skip2)
  {
    if m > 0 {
      RowPairsAgree(i, m - 1, skip1, skip2);
    }
  }

  /**
   * The antisite rows as refreshOnScreenInfo lists them: reference species
   * i against input species j, passing over i == j. The two indices point
   * into different species lists.
   */
  function AntisiteRowsAsWritten(refList: seq<Symbol>, inputList: seq<Symbol>): (r: seq<(int, int)>)
    ensures forall p :: p in r <==> 0 <= p.0 < |refList| && 0 <= p.1 < |inputList| && p.0 != p.1
  {
    PairsMembers(|refList|, |inputList|, (i, j) => i == j);
    Pairs(|refList|, |inputList|, (i, j) => i == j)
  }

  /** The species pair (i, j) is a real antisite kind: input species j on a site of a different reference species i. */
  function SameSpecies(refList: seq<Symbol>, inputList: seq<Symbol>): (int, int) -> bool
  {
    (i, j) => 0 <= i < |refList| && 0 <= j < |inputList| && refList[i] == inputList[j]
  }

  /**
   * The antisite rows passing over the pairs whose symbols agree, as the
   * older driver's log does: exactly the pairs of different species.
   */
  function AntisiteRows(refList: seq<Symbol>, inputList: seq<Symbol>): (r: seq<(int, int)>)
    ensures forall p :: p in r <==>
              0 <= p.0 < |refList| && 0 <= p.1 < |inputList| && refList[p.0] != inputList[p.1]
  {
    PairsMembers(|refList|, |inputList|, SameSpecies(refList, inputList));
    Pairs(|refList|, |inputList|, SameSpecies(refList, inputList))
  }

  /** When both lattices carry the same list of distinct species the two listings coincide. */
  lemma AntisiteRowsAgree(species: seq<Symbol>)
    requires Distinct(species)
    ensures AntisiteRowsAsWritten(species, species) == AntisiteRows(species, species)
  {
    PairsAgree(|species|, |species|, (i, j) => i == j, SameSpecies(species, species));
  }

  /**
   * With the species in different orders the listing by index shows
   * "Pu on Pu", which is no antisite, and hides "Ga on Pu", which is one.
   */
  lemma AntisiteRowsByIndexWrong()
    ensures (0, 1) in AntisiteRowsAsWritten(["Pu", "Ga"], ["Ga", "Pu"])
    ensures (0, 0) !in AntisiteRowsAsWritten(["Pu", "Ga"], ["Ga", "Pu"])
    ensures (0, 1) !in AntisiteRows(["Pu", "Ga"], ["Ga", "Pu"])
    ensures (0, 0) in AntisiteRows(["Pu", "Ga"], ["Ga", "Pu"])
  {
    var refList: seq<Symbol> := ["Pu", "Ga"];
    var inputList: seq<Symbol> := ["Ga", "Pu"];
    assert refList[0] == inputList[1];
    assert refList[0] != inputList[0];
  }
}

=== FILE: species_filter.dfy ===
/*
 * SpeciesFilter.apply (atoman/filtering/filters/speciesFilter.py): the
 * argument type checks, the array of visible species indices, and the
 * resize of the visible atoms to the count the native filter returns. The
 * native _filtering.specieFilter is not part of this model; it is stood in
 * for by its stated effect, an order-preserving compaction of the visible
 * atoms to those whose species index is listed.
 */
module SpeciesFilter {
  import opened Base
  import FilterDriver

  /** What apply finds in its first argument: a FilterInput, or something else. */
  datatype InputArg = FilterInput(specieList: seq<Symbol>, specie: seq<int>, visibleAtoms: seq<int>) | OtherInput

  /** What apply finds in its second argument: species-filter settings, or something else. */
  datatype SettingsArg = SpeciesFilterSettings(visibleSpeciesList: seq<Symbol>) | OtherSettings

  /** The settings a new SpeciesFilterSettings registers: no species visible. */
  function DefaultSettings(): (r: SettingsArg)
    ensures r.SpeciesFilterSettings? && |r.visibleSpeciesList| == 0
  {
    SpeciesFilterSettings([])
  }

  /** The TypeError of a wrong first argument, and of a wrong second one. */
  const BadInput := 1
  const BadSettings := 2

  /** A fresh base.FilterResult: nothing recorded yet. */
  datatype FilterResult = FilterResult(clusterList: seq<seq<int>>)

  function FreshResult(): FilterResult { FilterResult([]) }

  /** visSpecArray: the ascending indices of the species whose symbol is in the settings' list. */
  function VisSpecArray(specieList: seq<Symbol>, visibleSpeciesList: seq<Symbol>): (r: seq<int>)
    ensures StrictlyIncreasing(r) && AllIndices(r, |specieList|)
    ensures forall i :: 0 <= i < |specieList| ==> (i in r <==> specieList[i] in visibleSpeciesList)
  {
    var mask := seq(|specieList|, i requires 0 <= i < |specieList| => specieList[i] in visibleSpeciesList);
    IndicesWhereSpec(mask);
    IndicesWhere(mask)
  }

  /** Whether each atom's species index is one of the listed ones. */
  function ListedSpecies(specie: seq<int>, visSpec: seq<int>): (pass: seq<bool>)
    ensures |pass| == |specie| && forall a :: 0 <= a < |specie| ==> (pass[a] <==> specie[a] in visSpec)
  {
    seq(|specie|, a requires 0 <= a < |specie| => specie[a] in visSpec)
  }

  /**
   * SpeciesFilter.apply: a TypeError unless the arguments are a FilterInput
   * and species-filter settings, checked in that order; otherwise the visible
   * atoms become those whose species' symbol is listed, in their order, and
   * the result is a fresh FilterResult.
   */
  function Apply(input: InputArg, settings: SettingsArg): (r: Result<(seq<int>, FilterResult)>)
    requires input.FilterInput? ==> AllIndices(input.visibleAtoms, |input.specie|)
    ensures input.OtherInput? ==> r == Err(BadInput)
    ensures input.FilterInput? && settings.OtherSettings? ==> r == Err(BadSettings)
    ensures r.Ok? <==> input.FilterInput? && settings.SpeciesFilterSettings?
    ensures r.Ok? ==>
              var (visible, result) := r.value;
              && result == FreshResult()
              && |visible| <= |input.visibleAtoms|
              && (StrictlyIncreasing(input.visibleAtoms) ==> StrictlyIncreasing(visible))
    ensures r.Ok? ==>
              forall a :: a in r.value.0 <==>
                a in input.visibleAtoms && 0 <= a < |input.specie|
                && 0 <= input.specie[a] < |input.specieList| && input.specieList[input.specie[a]] in settings.visibleSpeciesList
  {
    if input.OtherInput? then Err(BadInput)
    else if settings.OtherSettings? then Err(BadSettings)
    else
      var visSpec := VisSpecArray(input.specieList, settings.visibleSpeciesList);
      var kept := FilterDriver.KeepWhere(input.visibleAtoms, ListedSpecies(input.specie, visSpec));
      assert forall a :: 0 <= a < |input.specie| ==>
        (input.specie[a] in visSpec <==>
         0 <= input.specie[a] < |input.specieList| && input.specieList[input.specie[a]] in settings.visibleSpeciesList);
      Ok((kept, FreshResult()))
  }

  /** Under the default settings the species array is empty and no atom stays visible. */
  lemma DefaultHidesAll(input: InputArg)
    requires input.FilterInput? && AllIndices(input.visibleAtoms, |input.specie|)
    ensures VisSpecArray(input.specieList, DefaultSettings().visibleSpeciesList) == []
    ensures Apply(input, DefaultSettings()) == Ok(([], FreshResult()))
  {
    var r := VisSpecArray(input.specieList, []);
    if |r| > 0 {
      HeadIn(r);
    }
    var v := Apply(input, DefaultSettings()).value.0;
    if |v| > 0 {
      HeadIn(v);
    }
  }

  lemma HeadIn(s: seq<int>)
    requires |s| > 0
    ensures s[0] in s
  {
  }
}

=== FILE: species_settings.dfy ===
/*
 * The species filter's settings form
 * (CDJSVis/gui/filterSettings/speciesSettingsDialog.py): a check list with
 * one item per species of the input or reference lattice, refreshed when
 * the lattices change, and the list of checked symbols it hands the filter.
 */
module SpeciesSettings {
  import opened Base

  /** An entry of the check list; a new one starts checked. */
  datatype SpeciesItem = SpeciesItem(symbol: Symbol, checked: bool)

  function Symbols(items: seq<SpeciesItem>): (r: seq<Symbol>)
    ensures |r| == |items| && forall i :: 0 <= i < |items| ==> r[i] == items[i].symbol
  {
    seq(|items|, i requires 0 <= i < |items| => items[i].symbol)
  }

  function Checked(items: seq<SpeciesItem>): (m: seq<bool>)
    ensures |m| == |items| && forall i :: 0 <= i < |items| ==> (m[i] <==> items[i].checked)
  {
    seq(|items|, i requires 0 <= i < |items| => items[i].checked)
  }

  /**
   * getVisibleSpecieList: the symbols of the checked items, in list order.
   */
  function GetVisibleSpecieList(items: seq<SpeciesItem>): (r: seq<Symbol>)
    ensures |r| <= |items|
    ensures forall y :: y in r <==> exists i :: 0 <= i < |items| && items[i].checked && items[i].symbol == y
    ensures Distinct(Symbols(items)) ==> Distinct(r)
  {
    VisibleFacts(items);
    Select(Symbols(items), Checked(items))
  }

  lemma VisibleFacts(items: seq<SpeciesItem>)
    ensures var r := Select(Symbols(items), Checked(items));
            && |r| <= |items|
            && (forall y :: y in r <==> exists i :: 0 <= i < |items| && items[i].checked && items[i].symbol == y)
            && (Distinct(Symbols(items)) ==> Distinct(r))
  {
    var r := Select(Symbols(items), Checked(items));
    CountTrueBound(Checked(items));
    forall y
      ensures y in r <==> exists i :: 0 <= i < |items| && items[i].checked && items[i].symbol == y
    {
      SelectMembership(Symbols(items), Checked(items), y);
    }
    if Distinct(Symbols(items)) {
      SelectDistinct(Symbols(items), Checked(items));
    }
  }

  lemma {:induction false} CountTrueBound(m: seq<bool>)
    ensures CountTrue(m) <= |m|
  {
    if |m| > 0 {
      CountTrueBound(m[..|m| - 1]);
    }
  }

  /** An order-preserving selection of distinct values has distinct values. */
  lemma {:induction false} SelectDistinct<T>(s: seq<T>, mask: seq<bool>)
    requires |s| == |mask| && Distinct(s)
    ensures Distinct(Select(s, mask))
  {
    if |s| > 0 {
      var n := |s| - 1;
      var p := Select(s[..n], mask[..n]);
      SelectDistinct(s[..n], mask[..n]);
      if mask[n] {
        SelectMembership(s[..n], mask[..n], s[n]);
        assert s[n] !in p;
        assert Select(s, mask) == p + [s[n]];
      }
    }
  }

  /** Selecting items and then reading their symbols reads the selected symbols. */
  lemma {:induction false} SymbolsSelect(items: seq<SpeciesItem>, mask: seq<bool>)
    requires |items| == |mask|
    ensures Symbols(Select(items, mask)) == Select(Symbols(items), mask)
  {
    if |items| > 0 {
      var n := |items| - 1;
      SymbolsSelect(items[..n], mask[..n]);
      assert Symbols(items[..n]) == Symbols(items)[..n];
    }
  }

  /** Which items name a species that still exists. */
  function Present(items: seq<SpeciesItem>, avail: set<Symbol>): (m: seq<bool>)
    ensures |m| == |items| && forall i :: 0 <= i < |items| ==> (m[i] <==> items[i].symbol in avail)
  {
    seq(|items|, i requires 0 <= i < |items| => items[i].symbol in avail)
  }

  /** Which symbols are not yet in the list. */
  function Missing(order: seq<Symbol>, current: set<Symbol>): (m: seq<bool>)
    ensures |m| == |order| && forall i :: 0 <= i < |order| ==> (m[i] <==> order[i] !in current)
  {
    seq(|order|, i requires 0 <= i < |order| => order[i] !in current)
  }

  /** A new, checked item per symbol. */
  function NewItems(order: seq<Symbol>): (r: seq<SpeciesItem>)
    ensures |r| == |order| && forall i :: 0 <= i < |order| ==> r[i] == SpeciesItem(order[i], true)
  {
    seq(|order|, i requires 0 <= i < |order| => SpeciesItem(order[i], true))
  }

  /** The species of the two lattices. */
  function Available(inputList: seq<Symbol>, refList: seq<Symbol>): set<Symbol>
  {
    set y | y in inputList + refList
  }

  /**
   * refresh: the items of species in neither lattice go, the others stay in
   * their order and with their check state, and every species of either
   * lattice not yet listed is appended, checked. setOrder is the order in
   * which the set of the two lattices' symbols is walked.
   */
  function Refresh(items: seq<SpeciesItem>, inputList: seq<Symbol>, refList: seq<Symbol>, setOrder: seq<Symbol>)
    : (r: seq<SpeciesItem>)
    requires Distinct(setOrder) && forall y :: y in setOrder <==> y in inputList || y in refList
    ensures forall y :: y in Symbols(r) <==> y in inputList || y in refList
    ensures Distinct(Symbols(items)) ==> Distinct(Symbols(r))
    ensures forall it :: it in items && (it.symbol in inputList || it.symbol in refList) ==> it in r
    ensures forall it :: it in r ==> it in items || (it.checked && it.symbol !in Symbols(items))
    ensures var m := CountTrue(Present(items, Available(inputList, refList)));
      m <= |r| && r[..m] == Select(items, Present(items, Available(inputList, refList)))
    ensures var m := CountTrue(Present(items, Available(inputList, refList)));
      forall k :: m <= k < |r| ==> r[k].checked && r[k].symbol !in Symbols(items)
  {
    var avail := Available(inputList, refList);
    var kept := Select(items, Present(items, avail));
    var current := set it | it in kept :: it.symbol;
    var added := Select(NewItems(setOrder), Missing(setOrder, current));
    var r := kept + added;
    RefreshFacts(items, avail, setOrder, kept, current, added);
    AddedMembers(setOrder, current, added);
    RefreshLayout(items, avail, kept, current, added);
    r
  }

  /** The kept items come first, in their old order; every item after them is new. */
  lemma RefreshLayout(items: seq<SpeciesItem>, avail: set<Symbol>, kept: seq<SpeciesItem>,
                      current: set<Symbol>, added: seq<SpeciesItem>)
    requires kept == Select(items, Present(items, avail))
    requires current == set it | it in kept :: it.symbol
    requires forall it :: it in added ==> it.checked && it.symbol in avail && it.symbol !in current
    ensures (kept + added)[..|kept|] == kept
    ensures forall k :: |kept| <= k < |kept + added| ==>
      (kept + added)[k].checked && (kept + added)[k].symbol !in Symbols(items)
  {
    KeptMembers(items, avail, kept);
    var r := kept + added;
    forall k | |kept| <= k < |r|
      ensures r[k].checked && r[k].symbol !in Symbols(items)
    {
      var it := added[k - |kept|];
      assert it == r[k] && it in added;
    }
  }

  lemma RefreshFacts(items: seq<SpeciesItem>, avail: set<Symbol>, setOrder: seq<Symbol>,
                     kept: seq<SpeciesItem>, current: set<Symbol>, added: seq<SpeciesItem>)
    requires Distinct(setOrder) && forall y :: y in setOrder <==> y in avail
    requires kept == Select(items, Present(items, avail))
    requires current == set it | it in kept :: it.symbol
    requires added == Select(NewItems(setOrder), Missing(setOrder, current))
    ensures forall y :: y in Symbols(kept + added) <==> y in avail
    ensures Distinct(Symbols(items)) ==> Distinct(Symbols(kept + added))
    ensures forall it :: it in items && it.symbol in avail ==> it in kept + added
    ensures forall it :: it in kept + added ==> it in items || (it.checked && it.symbol !in Symbols(items))
  {
    KeptMembers(items, avail, kept);
    AddedMembers(setOrder, current, added);
    RefreshSymbols(avail, kept, current, added);
    RefreshOrigins(items, avail, kept, current, added);
    if Distinct(Symbols(items)) {
      RefreshDistinct(items, avail, setOrder, kept, current, added);
    }
  }

  lemma KeptMembers(items: seq<SpeciesItem>, avail: set<Symbol>, kept: seq<SpeciesItem>)
    requires kept == Select(items, Present(items, avail))
    ensures forall it :: it in kept <==> it in items && it.symbol in avail
  {
    forall it
      ensures it in kept <==> it in items && it.symbol in avail
    {
      SelectMembership(items, Present(items, avail), it);
    }
  }

  lemma AddedMembers(setOrder: seq<Symbol>, current: set<Symbol>, added: seq<SpeciesItem>)
    requires added == Select(NewItems(setOrder), Missing(setOrder, current))
    ensures forall it :: it in added <==> it.checked && it.symbol in setOrder && it.symbol !in current
  {
    forall it
      ensures it in added <==> it.checked && it.symbol in setOrder && it.symbol !in current
    {
      SelectMembership(NewItems(setOrder), Missing(setOrder, current), it);
    }
  }

  lemma RefreshSymbols(avail: set<Symbol>, kept: seq<SpeciesItem>, current: set<Symbol>, added: seq<SpeciesItem>)
    requires forall it :: it in kept ==> it.symbol in avail
    requires current == set it | it in kept :: it.symbol
    requires forall it :: it in added <==> it.checked && it.symbol in avail && it.symbol !in current
    ensures forall y :: y in Symbols(kept + added) <==> y in avail
  {
    var r := kept + added;
    forall y
      ensures y in Symbols(r) <==> y in avail
    {
      if y in avail && y !in current {
        var k := IndexOf(added, SpeciesItem(y, true));
        assert Symbols(r)[|kept| + k] == y;
      }
      if y in current {
        var it :| it in kept && it.symbol == y;
        assert Symbols(r)[IndexOf(kept, it)] == y;
      }
      if y in Symbols(r) {
        var i := IndexOf(Symbols(r), y);
        assert r[i] in r;
      }
    }
  }

  lemma RefreshOrigins(items: seq<SpeciesItem>, avail: set<Symbol>, kept: seq<SpeciesItem>, current: set<Symbol>,
                       added: seq<SpeciesItem>)
    requires forall it :: it in kept <==> it in items && it.symbol in avail
    requires current == set it | it in kept :: it.symbol
    requires forall it :: it in added ==> it.checked && it.symbol in avail && it.symbol !in current
    ensures forall it :: it in items && it.symbol in avail ==> it in kept + added
    ensures forall it :: it in kept + added ==> it in items || (it.checked && it.symbol !in Symbols(items))
  {
    forall it | it in added
      ensures it.symbol !in Symbols(items)
    {
      forall i | 0 <= i < |items|
        ensures items[i].symbol != it.symbol
      {
        if items[i].symbol in avail {
          assert items[i] in kept;
          assert items[i].symbol in current;
        }
      }
    }
  }

  lemma RefreshDistinct(items: seq<SpeciesItem>, avail: set<Symbol>, setOrder: seq<Symbol>,
                        kept: seq<SpeciesItem>, current: set<Symbol>, added: seq<SpeciesItem>)
    requires Distinct(setOrder) && Distinct(Symbols(items))
    requires kept == Select(items, Present(items, avail))
    requires current == set it | it in kept :: it.symbol
    requires added == Select(NewItems(setOrder), Missing(setOrder, current))
    requires forall it :: it in added ==> it.symbol !in current
    ensures Distinct(Symbols(kept + added))
  {
    var pm := Present(items, avail);
    var mm := Missing(setOrder, current);
    SymbolsSelect(items, pm);
    SelectDistinct(Symbols(items), pm);
    SymbolsSelect(NewItems(setOrder), mm);
    SymbolsNew(setOrder);
    SelectDistinct(setOrder, mm);
    var sk, sa := Symbols(kept), Symbols(added);
    forall x | x in sk
      ensures x !in sa
    {
      var i :| 0 <= i < |sk| && sk[i] == x;
      assert kept[i] in kept;
      forall j | 0 <= j < |sa|
        ensures sa[j] != x
      {
        assert added[j] in added;
      }
    }
    DistinctConcat(sk, sa);
    SymbolsAppend(kept, added);
  }

  lemma SymbolsAppend(a: seq<SpeciesItem>, b: seq<SpeciesItem>)
    ensures Symbols(a + b) == Symbols(a) + Symbols(b)
  {
    assert forall i :: 0 <= i < |a + b| ==> Symbols(a + b)[i] == (Symbols(a) + Symbols(b))[i];
  }

  lemma SymbolsNew(order: seq<Symbol>)
    ensures Symbols(NewItems(order)) == order
  {
    assert forall i :: 0 <= i < |order| ==> Symbols(NewItems(order))[i] == order[i];
  }

  function IndexOf<T(==)>(s: seq<T>, x: T): (i: int)
    requires x in s
    ensures 0 <= i < |s| && s[i] == x
  {
    if s[0] == x then 0 else 1 + IndexOf(s[1..], x)
  }

  /** Refreshing twice against the same lattices changes nothing more. */
  lemma RefreshIdempotent(items: seq<SpeciesItem>, inputList: seq<Symbol>, refList: seq<Symbol>, setOrder: seq<Symbol>)
    requires Distinct(setOrder) && forall y :: y in setOrder <==> y in inputList || y in refList
    ensures var r := Refresh(items, inputList, refList, setOrder);
            Refresh(r, inputList, refList, setOrder) == r
  {
    var r := Refresh(items, inputList, refList, setOrder);
    var avail := Available(inputList, refList);
    KeepAll(r, avail);
    NoneMissing(setOrder, r, avail);
  }

  lemma KeepAll(r: seq<SpeciesItem>, avail: set<Symbol>)
    requires forall y :: y in Symbols(r) ==> y in avail
    ensures Select(r, Present(r, avail)) == r
  {
    var pm := Present(r, avail);
    forall i | 0 <= i < |r|
      ensures pm[i]
    {
      assert Symbols(r)[i] == r[i].symbol;
    }
    SelectAll(r, pm);
  }

  lemma NoneMissing(setOrder: seq<Symbol>, r: seq<SpeciesItem>, avail: set<Symbol>)
    requires forall y :: y in setOrder ==> y in Symbols(r)
    ensures Select(NewItems(setOrder), Missing(setOrder, set it | it in r :: it.symbol)) == []
  {
    var current := set it | it in r :: it.symbol;
    var mm := Missing(setOrder, current);
    forall i | 0 <= i < |setOrder|
      ensures !mm[i]
    {
      var k := IndexOf(Symbols(r), setOrder[i]);
      assert r[k] in r;
    }
    CountTrueNone(mm);
  }

  /**
   * After a refresh the filter sees only species of the two lattices, and
   * every species the list did not show before is visible.
   */
  lemma RefreshedVisible(items: seq<SpeciesItem>, inputList: seq<Symbol>, refList: seq<Symbol>, setOrder: seq<Symbol>)
    requires Distinct(setOrder) && forall y :: y in setOrder <==> y in inputList || y in refList
    ensures var v := GetVisibleSpecieList(Refresh(items, inputList, refList, setOrder));
            && (forall y :: y in v ==> y in inputList || y in refList)
            && (forall y :: (y in inputList || y in refList) && y !in Symbols(items) ==> y in v)
  {
    var r := Refresh(items, inputList, refList, setOrder);
    forall y | y in GetVisibleSpecieList(r)
      ensures y in inputList || y in refList
    {
      var i :| 0 <= i < |r| && r[i].checked && r[i].symbol == y;
      assert Symbols(r)[i] == y;
    }
    forall y | (y in inputList || y in refList) && y !in Symbols(items)
      ensures y in GetVisibleSpecieList(r)
    {
      var i :| 0 <= i < |r| && Symbols(r)[i] == y;
      assert r[i] in r;
      assert r[i].symbol == y;
      assert forall it :: it in items ==> it.symbol in Symbols(items) by {
        forall it | it in items
          ensures it.symbol in Symbols(items)
        {
          assert Symbols(items)[IndexOf(items, it)] == it.symbol;
        }
      }
    }
  }
}

=== FILE: species_split.dfy ===
/*
 * splitVisAtomsBySpecie (CDJSVis/visclibs/rendering.c): the renderer's split
 * of the visible atoms into one position array and one scalar array per
 * species, after a counting pass over the visible atoms.
 */
module SpeciesSplit {
  import opened Base

  /** The per-atom arrays the split reads. */
  datatype AtomData = AtomData(specie: seq<int>, pos: seq<Vec3>, ke: seq<real>, pe: seq<real>, charge: seq<real>)
  {
    predicate Valid(nSpecies: int)
    {
      |pos| == |specie| && |ke| == |specie| && |pe| == |specie| && |charge| == |specie| && AllIndices(specie, nSpecies)
    }
  }

  /** The scalar types with a built-in meaning: species, height, KE, PE, charge. */
  predicate Builtin(scalarType: int)
  {
    0 <= scalarType <= 4
  }

  /** What the split needs of its arguments. */
  predicate Fits(visible: seq<int>, a: AtomData, nSpecies: int, scalars: seq<real>, scalarType: int, heightAxis: int)
  {
    a.Valid(nSpecies) && AllIndices(visible, |a.specie|) && 0 <= heightAxis < 3
    && (!Builtin(scalarType) ==> |scalars| >= |visible|)
  }

  /** The species of each visible atom, in visible order. */
  function VisibleSpecies(a: AtomData, visible: seq<int>): (r: seq<int>)
    requires AllIndices(visible, |a.specie|)
    ensures |r| == |visible|
  {
    Pick(a.specie, visible)
  }

  /**
   * The scalar of the j-th visible atom: its species, its coordinate on the
   * height axis, its kinetic or potential energy or charge, or else entry j
   * of the scalars array, which is indexed by visible position, not atom.
   */
  function ScalarAt(a: AtomData, visible: seq<int>, scalars: seq<real>, scalarType: int, heightAxis: int, j: int): real
    requires |a.pos| == |a.specie| && |a.ke| == |a.specie| && |a.pe| == |a.specie| && |a.charge| == |a.specie|
    requires AllIndices(visible, |a.specie|) && 0 <= heightAxis < 3 && 0 <= j < |visible|
    requires !Builtin(scalarType) ==> |scalars| >= |visible|
  {
    var index := visible[j];
    if scalarType == 0 then a.specie[index] as real
    else if scalarType == 1 then a.pos[index].Get(heightAxis)
    else if scalarType == 2 then a.ke[index]
    else if scalarType == 3 then a.pe[index]
    else if scalarType == 4 then a.charge[index]
    else scalars[j]
  }

  /** The scalar of every visible atom, in visible order. */
  function ScalarColumn(a: AtomData, visible: seq<int>, nSpecies: int, scalars: seq<real>, scalarType: int, heightAxis: int)
    : (r: seq<real>)
    requires Fits(visible, a, nSpecies, scalars, scalarType, heightAxis)
    ensures |r| == |visible|
  {
    seq(|visible|, j requires 0 <= j < |visible| => ScalarAt(a, visible, scalars, scalarType, heightAxis, j))
  }

  /** Which entries of keys equal s. */
  function EqMask(keys: seq<int>, s: int): (m: seq<bool>)
    ensures |m| == |keys| && forall j :: 0 <= j < |keys| ==> (m[j] <==> keys[j] == s)
  {
    seq(|keys|, j requires 0 <= j < |keys| => keys[j] == s)
  }

  lemma {:induction false} EqMaskCount(keys: seq<int>, s: int)
    ensures CountTrue(EqMask(keys, s)) == CountEq(keys, s)
  {
    if |keys| > 0 {
      var n := |keys| - 1;
      EqMaskCount(keys[..n], s);
      assert EqMask(keys, s)[..n] == EqMask(keys[..n], s);
    }
  }

  /** One species' output: its atoms' positions and scalars, in visible order. */
  datatype Group = Group(pos: seq<Vec3>, scalars: seq<real>)

  /** The atoms of species s among the visible ones, as the inner loop gathers them. */
  predicate Gathered(g: Group, pos: seq<Vec3>, col: seq<real>, keys: seq<int>, s: int)
    requires |pos| == |keys| && |col| == |keys|
  {
    g.pos == Select(pos, EqMask(keys, s)) && g.scalars == Select(col, EqMask(keys, s))
  }

  /**
   * The inner loop for species s: walk the visible atoms in order and copy
   * the position and scalar of those of species s.
   */
  method Gather(pos: seq<Vec3>, col: seq<real>, keys: seq<int>, s: int) returns (g: Group)
    requires |pos| == |keys| && |col| == |keys|
    ensures Gathered(g, pos, col, keys, s)
    ensures |g.pos| == |g.scalars| == CountEq(keys, s)
  {
    g := Group([], []);
    var j := 0;
    while j < |keys|
      invariant 0 <= j <= |keys|
      invariant Gathered(g, pos[..j], col[..j], keys[..j], s)
    {
      GatherStep(g, pos, col, keys, s, j);
      if keys[j] == s {
        g := Group(g.pos + [pos[j]], g.scalars + [col[j]]);
      }
      j := j + 1;
    }
    TakeAll(pos);
    TakeAll(col);
    TakeAll(keys);
    EqMaskCount(keys, s);
  }

  /** Visiting atom j appends its position and scalar exactly when it is of species s. */
  lemma GatherStep(g: Group, pos: seq<Vec3>, col: seq<real>, keys: seq<int>, s: int, j: int)
    requires |pos| == |keys| && |col| == |keys| && 0 <= j < |keys|
    requires Gathered(g, pos[..j], col[..j], keys[..j], s)
    ensures Gathered(if keys[j] == s then Group(g.pos + [pos[j]], g.scalars + [col[j]]) else g,
                     pos[..j + 1], col[..j + 1], keys[..j + 1], s)
  {
    TakeNext(pos, j);
    TakeNext(col, j);
    TakeNext(keys, j);
    assert EqMask(keys[..j + 1], s) == EqMask(keys[..j], s) + [keys[j] == s];
    SelectAppend(pos[..j], EqMask(keys[..j], s), pos[j], keys[j] == s);
    SelectAppend(col[..j], EqMask(keys[..j], s), col[j], keys[j] == s);
  }

  /**
   * splitVisAtomsBySpecie: the counters grow by the number of visible atoms
   * of each species, and species s's group holds exactly the positions and
   * scalars of the visible atoms of species s, in visible order, one per
   * counted atom. The status is always 0.
   */
  method SplitVisAtomsBySpecie(visible: seq<int>, nSpecies: int, a: AtomData, count0: seq<int>, scalars: seq<real>,
                               scalarType: int, heightAxis: int)
    returns (count: seq<int>, groups: seq<Group>, status: int)
    requires Fits(visible, a, nSpecies, scalars, scalarType, heightAxis) && |count0| == nSpecies
    ensures status == 0
    ensures |count| == nSpecies
    ensures forall s :: 0 <= s < nSpecies ==> count[s] == count0[s] + CountEq(VisibleSpecies(a, visible), s)
    ensures |groups| == nSpecies
    ensures forall s :: 0 <= s < nSpecies ==>
              var mask := EqMask(VisibleSpecies(a, visible), s);
              && groups[s].pos == Select(Pick(a.pos, visible), mask)
              && groups[s].scalars == Select(ScalarColumn(a, visible, nSpecies, scalars, scalarType, heightAxis), mask)
              && |groups[s].pos| == count[s] - count0[s]
  {
    var keys := VisibleSpecies(a, visible);
    count := Tally(count0, keys);
    var pos := Pick(a.pos, visible);
    var col := ScalarColumn(a, visible, nSpecies, scalars, scalarType, heightAxis);
    groups := [];
    var i := 0;
    while i < nSpecies
      invariant 0 <= i <= nSpecies && |groups| == i
      invariant forall s :: 0 <= s < i ==> Gathered(groups[s], pos, col, keys, s) && |groups[s].pos| == CountEq(keys, s)
    {
      var g := Gather(pos, col, keys, i);
      groups := groups + [g];
      i := i + 1;
    }
    status := 0;
  }

  /**
   * With the counters zeroed beforehand, as the caller does, the counts
   * total the visible atoms, so the groups partition them.
   */
  lemma GroupsCoverVisible(a: AtomData, visible: seq<int>, nSpecies: int, count: seq<int>)
    requires a.Valid(nSpecies) && AllIndices(visible, |a.specie|) && |count| == nSpecies
    requires forall s :: 0 <= s < nSpecies ==> count[s] == CountEq(VisibleSpecies(a, visible), s)
    ensures Sum(count) == |visible|
  {
    HistogramTotal(count, VisibleSpecies(a, visible));
  }
}

=== FILE: time_units.dfy ===
/*
 * The simulation-time line of src/utilities.py: a time in femtoseconds is
 * shown in the largest unit it strictly exceeds, divided by that unit's
 * size in femtoseconds. The "%.3f" rendering of the number is not part of
 * this model.
 */
module TimeUnits {

  datatype Unit = Fs | Ps | Ns | Us | Ms | S

  /** The unit's size in femtoseconds. */
  function Factor(u: Unit): (f: real)
    ensures f >= 1.0
  {
    match u
    case Fs => 1.0
    case Ps => 1.0e3
    case Ns => 1.0e6
    case Us => 1.0e9
    case Ms => 1.0e12
    case S => 1.0e15
  }

  /** The unit's place from the smallest, femtoseconds being 0. */
  function Rank(u: Unit): (k: nat)
    ensures k <= 5
  {
    match u
    case Fs => 0
    case Ps => 1
    case Ns => 2
    case Us => 3
    case Ms => 4
    case S => 5
  }

  /** The threshold a time must pass for the unit: its factor, or none for femtoseconds. */
  predicate Exceeds(t: real, u: Unit)
  {
    u == Fs || t > Factor(u)
  }

  /** A line of the time display: the number and its unit. */
  datatype TimeLine = TimeLine(value: real, unit: Unit)

  /**
   * simulationTimeLine: the unit is picked by strict comparisons from
   * seconds down, femtoseconds when none holds, and the value is the time
   * in that unit.
   */
  function SimulationTimeLine(simTimeInFs: real): (r: TimeLine)
    ensures r.value * Factor(r.unit) == simTimeInFs
    ensures Exceeds(simTimeInFs, r.unit)
    ensures forall v :: Rank(v) > Rank(r.unit) ==> !Exceeds(simTimeInFs, v)
  {
    if simTimeInFs > 1.0e15 then TimeLine(simTimeInFs / 1.0e15, S)
    else if simTimeInFs > 1.0e12 then TimeLine(simTimeInFs / 1.0e12, Ms)
    else if simTimeInFs > 1.0e9 then TimeLine(simTimeInFs / 1.0e9, Us)
    else if simTimeInFs > 1.0e6 then TimeLine(simTimeInFs / 1.0e6, Ns)
    else if simTimeInFs > 1.0e3 then TimeLine(simTimeInFs / 1.0e3, Ps)
    else TimeLine(simTimeInFs, Fs)
  }

  /** The factors grow with the rank. */
  lemma FactorIncreasing(u: Unit, v: Unit)
    requires Rank(u) < Rank(v)
    ensures Factor(u) < Factor(v)
  {
  }

  /** The unit is the largest one the time exceeds: the display has one answer. */
  lemma UnitDetermined(t: real, u: Unit)
    requires Exceeds(t, u)
    requires forall v :: Rank(v) > Rank(u) ==> !Exceeds(t, v)
    ensures SimulationTimeLine(t).unit == u
  {
    var w := SimulationTimeLine(t).unit;
    assert Rank(w) <= Rank(u);
    assert Rank(u) <= Rank(w);
    assert forall a, b :: Rank(a) == Rank(b) ==> a == b;
  }

  /** A later time is never shown in a smaller unit. */
  lemma UnitMonotone(t1: real, t2: real)
    requires t1 <= t2
    ensures Rank(SimulationTimeLine(t1).unit) <= Rank(SimulationTimeLine(t2).unit)
  {
    var u1 := SimulationTimeLine(t1).unit;
    var u2 := SimulationTimeLine(t2).unit;
    assert Exceeds(t1, u1);
    assert Exceeds(t2, u1);
  }

  /** A time exactly at a threshold stays in the smaller unit; no positive time below 1000 fs leaves femtoseconds. */
  lemma Boundaries(u: Unit)
    requires u != Fs
    ensures Rank(SimulationTimeLine(Factor(u)).unit) == Rank(u) - 1
    ensures forall t: real :: t <= 1.0e3 ==> SimulationTimeLine(t).unit == Fs
  {
  }
}

=== FILE: vectors.dfy ===
/*
 * Vector helpers of the visualiser's C library (CDJSVis/visclibs/vectors.c):
 * minimum-image separation in an orthorhombic cell, the largest force and
 * the largest displacement, per-image separations of a flat position array,
 * element-wise arithmetic and the "partial displacement" routines.
 *
 * Positions are flat arrays x0,y0,z0,x1,... exactly as the C receives them.
 * Square roots: the separation and magnitude routines and the force norm
 * report the squared value v where the C returns sqrt(v). maxMovement
 * reports roots, taken by a root function given as a parameter that is
 * only asked to be never negative.
 */
module Vectors {
  import opened Base

  /** Orthorhombic cell: edge lengths and a periodic flag per axis (1 = periodic). */
  datatype Cell = Cell(dims: Vec3, pbcX: int, pbcY: int, pbcZ: int)
  {
    function Pbc(k: int): int
      requires 0 <= k < 3
    {
      if k == 0 then pbcX else if k == 1 then pbcY else pbcZ
    }
  }

  /** Every periodic axis has a positive length, so that d / dim is defined. */
  predicate WellFormed(c: Cell)
  {
    (c.pbcX == 1 ==> c.dims.x > 0.0) && (c.pbcY == 1 ==> c.dims.y > 0.0) && (c.pbcZ == 1 ==> c.dims.z > 0.0)
  }

  /** C's round(): the nearest integer, halfway cases away from zero. */
  function Round(x: real): (r: int)
    ensures x - 0.5 <= r as real <= x + 0.5
    ensures r as real == x + 0.5 ==> x > 0.0
    ensures r as real == x - 0.5 ==> x < 0.0
  {
    if x >= 0.0 then (x + 0.5).Floor else -((-x + 0.5).Floor)
  }

  lemma RoundOdd(x: real)
    ensures Round(-x) == -Round(x)
  {
  }

  /** The component d moved by n whole cells of length dim. */
  function Shifted(d: real, n: int, dim: real): real
  {
    d - n as real * dim
  }

  /** r is d moved by some whole number of cells. */
  ghost predicate WholeCellsFrom(r: real, d: real, dim: real)
  {
    exists n: int :: r == Shifted(d, n, dim)
  }

  /**
   * One component of the separation: on a periodic axis, d less the whole
   * number of cells that brings it within half a cell.
   */
  function MinImage(d: real, dim: real, pbc: int): (r: real)
    requires pbc == 1 ==> dim > 0.0
    ensures pbc != 1 ==> r == d
    ensures pbc == 1 ==> -dim / 2.0 <= r <= dim / 2.0
    ensures pbc == 1 ==> WholeCellsFrom(r, d, dim)
    ensures pbc == 1 && r == dim / 2.0 ==> d < 0.0
    ensures pbc == 1 && r == -dim / 2.0 ==> d > 0.0
  {
    if pbc == 1 then
      var n := Round(d / dim);
      MinImageBound(d, dim, n);
      MinImageTie(d, dim, n);
      Shifted(d, n, dim)
    else d
  }

  /** At a tie C's round() goes away from zero, so a positive d lands on -dim/2 and a negative one on +dim/2. */
  lemma MinImageTie(d: real, dim: real, n: int)
    requires dim > 0.0 && n == Round(d / dim)
    ensures Shifted(d, n, dim) == dim / 2.0 ==> d < 0.0
    ensures Shifted(d, n, dim) == -dim / 2.0 ==> d > 0.0
  {
    var x := d / dim;
    var m := n as real;
    assert Shifted(d, n, dim) == (x - m) * dim by {
      assert d == x * dim;
    }
    if Shifted(d, n, dim) == dim / 2.0 {
      CancelFactor(x - m, 0.5, dim);
    }
    if Shifted(d, n, dim) == -dim / 2.0 {
      CancelFactor(x - m, -0.5, dim);
    }
  }

  lemma CancelFactor(a: real, b: real, dim: real)
    requires dim > 0.0 && a * dim == b * dim
    ensures a == b
  {
    assert (a - b) * dim == 0.0;
  }

  /**
   * Away from a tie at exactly half a cell, the nearest image is the only
   * whole-cell shift of d within half a cell, so the bound and the shift
   * of MinImage determine its value.
   */
  lemma MinImageUnique(d: real, dim: real, n: int)
    requires dim > 0.0
    requires -dim / 2.0 < Shifted(d, n, dim) < dim / 2.0
    ensures MinImage(d, dim, 1) == Shifted(d, n, dim)
  {
    var k := Round(d / dim);
    MinImageBound(d, dim, k);
    var m := n - k;
    var gap := Shifted(d, k, dim) - Shifted(d, n, dim);
    assert -dim < gap < dim;
    assert gap == m as real * dim by {
      assert m as real == n as real - k as real;
      assert (n as real - k as real) * dim == n as real * dim - k as real * dim;
    }
    WholeCellsBelowOne(m, dim, gap);
  }

  /** A whole number of cells shorter than one cell is no cell at all. */
  lemma WholeCellsBelowOne(m: int, dim: real, gap: real)
    requires dim > 0.0 && gap == m as real * dim && -dim < gap < dim
    ensures m == 0
  {
    if m >= 1 {
      MulMonotone(1.0, m as real, dim);
    } else if m <= -1 {
      MulMonotone(m as real, -1.0, dim);
    }
  }

  lemma MinImageBound(d: real, dim: real, n: int)
    requires dim > 0.0
    requires d / dim - 0.5 <= n as real <= d / dim + 0.5
    ensures -dim / 2.0 <= d - n as real * dim <= dim / 2.0
  {
    var q := d / dim;
    assert q * dim == d;
    MulMonotone(n as real, q + 0.5, dim);
    MulMonotone(q - 0.5, n as real, dim);
    assert (q + 0.5) * dim == d + dim / 2.0;
    assert (q - 0.5) * dim == d - dim / 2.0;
  }

  lemma MulMonotone(a: real, b: real, c: real)
    requires a <= b && c > 0.0
    ensures a * c <= b * c
  {
    assert b * c - a * c == (b - a) * c;
  }

  lemma MinImageZero(dim: real, pbc: int)
    requires pbc == 1 ==> dim > 0.0
    ensures MinImage(0.0, dim, pbc) == 0.0
  {
    if pbc == 1 {
      assert 0.0 / dim == 0.0;
      assert Round(0.0) == 0;
    }
  }

  /** atomSeparationVector: the vector from a to b under the cell's boundary conditions. */
  function SeparationVector(a: Vec3, b: Vec3, c: Cell): (r: Vec3)
    requires WellFormed(c)
    ensures c.pbcX != 1 ==> r.x == b.x - a.x
    ensures c.pbcY != 1 ==> r.y == b.y - a.y
    ensures c.pbcZ != 1 ==> r.z == b.z - a.z
    ensures c.pbcX == 1 ==> -c.dims.x / 2.0 <= r.x <= c.dims.x / 2.0
    ensures c.pbcY == 1 ==> -c.dims.y / 2.0 <= r.y <= c.dims.y / 2.0
    ensures c.pbcZ == 1 ==> -c.dims.z / 2.0 <= r.z <= c.dims.z / 2.0
    ensures c.pbcX == 1 ==> WholeCellsFrom(r.x, b.x - a.x, c.dims.x)
    ensures c.pbcY == 1 ==> WholeCellsFrom(r.y, b.y - a.y, c.dims.y)
    ensures c.pbcZ == 1 ==> WholeCellsFrom(r.z, b.z - a.z, c.dims.z)
  {
    Vec3(MinImage(b.x - a.x, c.dims.x, c.pbcX),
         MinImage(b.y - a.y, c.dims.y, c.pbcY),
         MinImage(b.z - a.z, c.dims.z, c.pbcZ))
  }

  /** The squared separation used by every distance test of the library. */
  function Sep2(a: Vec3, b: Vec3, c: Cell): (r: real)
    requires WellFormed(c)
    ensures r >= 0.0
  {
    var v := SeparationVector(a, b, c);
    SquareNonNegative(v.x);
    SquareNonNegative(v.y);
    SquareNonNegative(v.z);
    v.Norm2()
  }

  lemma SquareNonNegative(x: real)
    ensures x * x >= 0.0
  {
    if x < 0.0 {
      assert x * x == (-x) * (-x);
    }
  }

  /** Swapping the two atoms reverses the separation vector. */
  lemma SeparationAntisymmetric(a: Vec3, b: Vec3, c: Cell)
    requires WellFormed(c)
    ensures SeparationVector(b, a, c) == Vec3(-SeparationVector(a, b, c).x, -SeparationVector(a, b, c).y, -SeparationVector(a, b, c).z)
  {
    MinImageOdd(b.x - a.x, c.dims.x, c.pbcX);
    MinImageOdd(b.y - a.y, c.dims.y, c.pbcY);
    MinImageOdd(b.z - a.z, c.dims.z, c.pbcZ);
  }

  lemma MinImageOdd(d: real, dim: real, pbc: int)
    requires pbc == 1 ==> dim > 0.0
    ensures MinImage(-d, dim, pbc) == -MinImage(d, dim, pbc)
  {
    if pbc == 1 {
      assert (-d) / dim == -(d / dim);
      RoundOdd(d / dim);
    }
  }

  lemma Sep2Symmetric(a: Vec3, b: Vec3, c: Cell)
    requires WellFormed(c)
    ensures Sep2(a, b, c) == Sep2(b, a, c)
  {
    SeparationAntisymmetric(a, b, c);
    NegatedNorm(SeparationVector(a, b, c));
  }

  lemma NegatedNorm(v: Vec3)
    ensures Vec3(-v.x, -v.y, -v.z).Norm2() == v.Norm2()
  {
    assert (-v.x) * (-v.x) == v.x * v.x;
    assert (-v.y) * (-v.y) == v.y * v.y;
    assert (-v.z) * (-v.z) == v.z * v.z;
  }

  // ---------------------------------------------------------------------
  // Flat position arrays

  function Row(f: seq<real>, i: int): Vec3
    requires 0 <= i && 3 * i + 2 < |f|
  {
    Vec3(f[3 * i], f[3 * i + 1], f[3 * i + 2])
  }

  /** The rows f[off..off+3n) as three-vectors. */
  function Rows(f: seq<real>, off: int, n: nat): (r: seq<Vec3>)
    requires 0 <= off && off + 3 * n <= |f|
    ensures |r| == n
    ensures forall i :: 0 <= i < n ==> r[i] == Row(f[off..], i)
  {
    seq(n, i requires 0 <= i < n => Row(f[off..], i))
  }

  function Flatten(vs: seq<Vec3>): (f: seq<real>)
    ensures |f| == 3 * |vs|
  {
    if |vs| == 0 then [] else Flatten(vs[..|vs| - 1]) + [vs[|vs| - 1].x, vs[|vs| - 1].y, vs[|vs| - 1].z]
  }

  lemma {:induction false} FlattenRow(vs: seq<Vec3>, i: int)
    requires 0 <= i < |vs|
    ensures Row(Flatten(vs), i) == vs[i]
  {
    if i < |vs| - 1 {
      FlattenRow(vs[..|vs| - 1], i);
      assert Flatten(vs)[..3 * (|vs| - 1)] == Flatten(vs[..|vs| - 1]);
    }
  }

  // ---------------------------------------------------------------------
  // Largest entry

  /**
   * The loop shared by calcForceInfNorm and maxMovement: start from -1 and
   * keep the first index whose value is strictly larger than the best so far.
   */
  method FirstMaximum(vals: seq<real>) returns (best: real, index: int)
    requires forall i :: 0 <= i < |vals| ==> vals[i] >= 0.0
    ensures |vals| == 0 <==> index == -1
    ensures |vals| == 0 ==> best == -1.0
    ensures |vals| > 0 ==> 0 <= index < |vals| && best == vals[index]
    ensures forall i :: 0 <= i < |vals| ==> vals[i] <= best
    ensures forall i :: 0 <= i < index ==> vals[i] < best
  {
    best := -1.0;
    index := -1;
    var i := 0;
    while i < |vals|
      invariant 0 <= i <= |vals|
      invariant i == 0 <==> index == -1
      invariant i == 0 ==> best == -1.0
      invariant i > 0 ==> 0 <= index < i && best == vals[index]
      invariant forall k :: 0 <= k < i ==> vals[k] <= best
      invariant forall k :: 0 <= k < index ==> vals[k] < best
    {
      if vals[i] > best {
        best := vals[i];
        index := i;
      }
      i := i + 1;
    }
  }

  /** Squared magnitude of each row of a flat array of length 3n. */
  function RowNorms(f: seq<real>): (r: seq<real>)
    ensures |r| == |f| / 3
    ensures forall i :: 0 <= i < |r| ==> r[i] == Row(f, i).Norm2() && r[i] >= 0.0
  {
    seq(|f| / 3, i requires 0 <= i < |f| / 3 =>
      SquareNonNegative(f[3 * i]); SquareNonNegative(f[3 * i + 1]); SquareNonNegative(f[3 * i + 2]);
      Row(f, i).Norm2())
  }

  /**
   * calcForceInfNorm: the largest squared force magnitude and the first atom
   * that has it; (-1, -1) when there are no atoms.
   */
  method CalcForceInfNorm(forces: seq<real>) returns (maxSq: real, maxIndex: int)
    ensures |forces| < 3 <==> maxIndex == -1
    ensures maxIndex == -1 ==> maxSq == -1.0
    ensures maxIndex != -1 ==> 0 <= maxIndex < |forces| / 3 && maxSq == Row(forces, maxIndex).Norm2()
    ensures forall i :: 0 <= i < |forces| / 3 ==> Row(forces, i).Norm2() <= maxSq
    ensures forall i :: 0 <= i < maxIndex ==> Row(forces, i).Norm2() < maxSq
  {
    var norms := RowNorms(forces);
    maxSq, maxIndex := FirstMaximum(norms);
  }

  /** The cell of maxMovement and friends: the diagonal of a 3x3 matrix plus flags. */
  function DiagonalCell(cellDims: seq<real>, pbcX: int, pbcY: int, pbcZ: int): Cell
    requires |cellDims| >= 9
  {
    Cell(Vec3(cellDims[0], cellDims[4], cellDims[8]), pbcX, pbcY, pbcZ)
  }

  /** Squared displacement of each atom of pos1 from the same atom in pos2. */
  function Displacements2(pos1: seq<real>, pos2: seq<real>, c: Cell): (r: seq<real>)
    requires WellFormed(c) && |pos2| >= 3 * (|pos1| / 3)
    ensures |r| == |pos1| / 3
    ensures forall i :: 0 <= i < |r| ==> r[i] == Sep2(Row(pos1, i), Row(pos2, i), c)
  {
    seq(|pos1| / 3, i requires 0 <= i < |pos1| / 3 => Sep2(Row(pos1, i), Row(pos2, i), c))
  }

  /**
   * root stands for the C library's sqrt: on every non-negative argument it
   * returns the non-negative number whose square is that argument.
   */
  ghost predicate IsSquareRoot(root: real -> real)
  {
    NeverNegative(root) && forall x :: x >= 0.0 ==> root(x) * root(x) == x
  }

  /** All maxMovement needs of its root: no distance comes out negative. */
  ghost predicate NeverNegative(root: real -> real)
  {
    forall x :: x >= 0.0 ==> root(x) >= 0.0
  }

  /** The distance each atom of pos1 moved to reach pos2: the root of its squared displacement. */
  function Magnitudes(root: real -> real, d2: seq<real>): (r: seq<real>)
    ensures |r| == |d2| && forall i :: 0 <= i < |d2| ==> r[i] == root(d2[i])
  {
    seq(|d2|, i requires 0 <= i < |d2| => root(d2[i]))
  }

  lemma MagnitudesNonNegative(root: real -> real, d2: seq<real>)
    requires NeverNegative(root) && forall i :: 0 <= i < |d2| ==> d2[i] >= 0.0
    ensures forall i :: 0 <= i < |d2| ==> Magnitudes(root, d2)[i] >= 0.0
  {
  }

  /** The mean of a non-empty sequence: the value that, taken |s| times, makes up the sum. */
  function Mean(s: seq<real>): (a: real)
    requires |s| > 0
    ensures a * (|s| as real) == SumReal(s)
  {
    SumReal(s) / (|s| as real)
  }

  datatype Movement = Movement(maxIndex: int, maxMove: real, avgMove: real, separation: real)

  /**
   * maxMovement: the first atom with the largest distance moved, that
   * distance, the mean distance moved, and the root of the sum of squared
   * distances. With no atoms the source returns an uninitialised index and
   * divides by zero; that case is modelled as None. The contract holds for
   * any root that is never negative, the C library's sqrt among them, and
   * MaxMovementBySquares shows that with sqrt the atom reported is the one
   * with the largest squared displacement.
   */
  method MaxMovement(root: real -> real, pos1: seq<real>, pos2: seq<real>, cellDims: seq<real>, pbcX: int, pbcY: int, pbcZ: int)
    returns (m: Option<Movement>)
    requires NeverNegative(root)
    requires |cellDims| >= 9 && WellFormed(DiagonalCell(cellDims, pbcX, pbcY, pbcZ))
    requires |pos2| >= 3 * (|pos1| / 3)
    ensures m.None? <==> |pos1| / 3 == 0
    ensures m.Some? ==> var c := DiagonalCell(cellDims, pbcX, pbcY, pbcZ);
      var dist := Magnitudes(root, Displacements2(pos1, pos2, c));
      0 <= m.value.maxIndex < |dist|
      && m.value.maxMove == dist[m.value.maxIndex]
      && (forall i :: 0 <= i < |dist| ==> dist[i] <= m.value.maxMove)
      && (forall i :: 0 <= i < m.value.maxIndex ==> dist[i] < m.value.maxMove)
      && m.value.avgMove == Mean(dist)
      && m.value.separation == root(SumReal(Displacements2(pos1, pos2, c)))
  {
    var c := DiagonalCell(cellDims, pbcX, pbcY, pbcZ);
    var d2 := Displacements2(pos1, pos2, c);
    var dist := Magnitudes(root, d2);
    MagnitudesNonNegative(root, d2);
    var best, index := FirstMaximum(dist);
    if index == -1 {
      m := None;
    } else {
      m := Some(Movement(index, best, Mean(dist), root(SumReal(d2))));
    }
  }

  /** A square root keeps order, so it picks out the same atoms as the squared displacements do. */
  lemma SquareRootOrder(root: real -> real, x: real, y: real)
    requires IsSquareRoot(root) && x >= 0.0 && y >= 0.0
    ensures root(x) < root(y) <==> x < y
  {
    var a, b := root(x), root(y);
    if a < b {
      MulMonotone(a, b, b);
      assert a * a <= a * b by { if a > 0.0 { MulMonotone(a, b, a); } }
      assert a * b < b * b by { MulStrict(a, b, b); }
    } else {
      if b > 0.0 {
        MulMonotone(b, a, a);
        MulMonotone(b, a, b);
      } else {
        assert b * b == 0.0;
      }
    }
  }

  lemma MulStrict(a: real, b: real, c: real)
    requires a < b && c > 0.0
    ensures a * c < b * c
  {
    assert b * c - a * c == (b - a) * c;
  }

  /** The atom maxMovement reports is also the first atom with the largest squared displacement. */
  lemma MaxMovementBySquares(root: real -> real, d2: seq<real>, index: int)
    requires IsSquareRoot(root)
    requires forall i :: 0 <= i < |d2| ==> d2[i] >= 0.0
    requires 0 <= index < |d2|
    requires forall i :: 0 <= i < |d2| ==> Magnitudes(root, d2)[i] <= Magnitudes(root, d2)[index]
    requires forall i :: 0 <= i < index ==> Magnitudes(root, d2)[i] < Magnitudes(root, d2)[index]
    ensures forall i :: 0 <= i < |d2| ==> d2[i] <= d2[index]
    ensures forall i :: 0 <= i < index ==> d2[i] < d2[index]
  {
    forall i | 0 <= i < |d2|
      ensures d2[i] <= d2[index]
      ensures i < index ==> d2[i] < d2[index]
    {
      var dist := Magnitudes(root, d2);
      assert dist[i] == root(d2[i]) && dist[index] == root(d2[index]);
      SquareRootOrder(root, d2[i], d2[index]);
      SquareRootOrder(root, d2[index], d2[i]);
    }
  }

  // ---------------------------------------------------------------------
  // Separations of whole configurations

  /** separationVector: row i is the separation from atom i of pos1 to atom i of pos2. */
  function SeparationRows(pos1: seq<real>, pos2: seq<real>, length: nat, c: Cell): (r: seq<Vec3>)
    requires WellFormed(c) && 3 * length <= |pos1| && 3 * length <= |pos2|
    ensures |r| == length
  {
    seq(length, i requires 0 <= i < length => SeparationVector(Row(pos1, i), Row(pos2, i), c))
  }

  function SeparationVectorFlat(pos1: seq<real>, pos2: seq<real>, length: nat, c: Cell): (r: seq<real>)
    requires WellFormed(c) && 3 * length <= |pos1| && 3 * length <= |pos2|
    ensures |r| == 3 * length
  {
    Flatten(SeparationRows(pos1, pos2, length, c))
  }

  /** Sum of the squared entries of a flat array (magnitude() before its root). */
  function Magnitude2(f: seq<real>): (r: real)
    ensures r >= 0.0
  {
    if |f| == 0 then 0.0
    else
      SquareNonNegative(f[|f| - 1]);
      Magnitude2(f[..|f| - 1]) + f[|f| - 1] * f[|f| - 1]
  }

  /** separationMagnitude before its root: the sum of squared per-atom separations. */
  function SeparationMagnitude2(pos1: seq<real>, pos2: seq<real>, length: nat, c: Cell): real
    requires WellFormed(c) && 3 * length <= |pos1| && 3 * length <= |pos2|
  {
    if length == 0 then 0.0
    else SeparationMagnitude2(pos1, pos2, length - 1, c) + Sep2(Row(pos1, length - 1), Row(pos2, length - 1), c)
  }

  lemma Magnitude2Append(f: seq<real>, g: seq<real>)
    ensures Magnitude2(f + g) == Magnitude2(f) + Magnitude2(g)
  {
    if |g| > 0 {
      assert (f + g)[..|f + g| - 1] == f + g[..|g| - 1];
      Magnitude2Append(f, g[..|g| - 1]);
    } else {
      assert f + g == f;
    }
  }

  /** separationMagnitude is the magnitude of the vector separationVector returns. */
  lemma {:induction false} SeparationMagnitudeIsNorm(pos1: seq<real>, pos2: seq<real>, length: nat, c: Cell)
    requires WellFormed(c) && 3 * length <= |pos1| && 3 * length <= |pos2|
    ensures SeparationMagnitude2(pos1, pos2, length, c) == Magnitude2(SeparationVectorFlat(pos1, pos2, length, c))
  {
    if length > 0 {
      SeparationMagnitudeIsNorm(pos1, pos2, length - 1, c);
      var rows := SeparationRows(pos1, pos2, length, c);
      assert rows[..length - 1] == SeparationRows(pos1, pos2, length - 1, c);
      var v := rows[length - 1];
      Magnitude2Append(Flatten(rows[..length - 1]), [v.x, v.y, v.z]);
      Magnitude2Triple(v);
    }
  }

  lemma Magnitude2Triple(v: Vec3)
    ensures Magnitude2([v.x, v.y, v.z]) == v.Norm2()
  {
    assert [v.x, v.y, v.z][..2] == [v.x, v.y];
    assert [v.x, v.y][..1] == [v.x];
    assert [v.x][..0] == [];
    assert Magnitude2([v.x]) == v.x * v.x;
    assert Magnitude2([v.x, v.y]) == v.x * v.x + v.y * v.y;
  }

  lemma SelfSeparation(a: Vec3, c: Cell)
    requires WellFormed(c)
    ensures Sep2(a, a, c) == 0.0
  {
    MinImageZero(c.dims.x, c.pbcX);
    MinImageZero(c.dims.y, c.pbcY);
    MinImageZero(c.dims.z, c.pbcZ);
    assert a.x - a.x == 0.0 && a.y - a.y == 0.0 && a.z - a.z == 0.0;
    assert SeparationVector(a, a, c) == Vec3(0.0, 0.0, 0.0);
  }

  /** Separations between two configurations are reversed when they are swapped. */
  lemma SeparationRowsAntisymmetric(pos1: seq<real>, pos2: seq<real>, length: nat, c: Cell, i: int)
    requires WellFormed(c) && 3 * length <= |pos1| && 3 * length <= |pos2|
    requires 0 <= i < length
    ensures SeparationRows(pos2, pos1, length, c)[i].x == -SeparationRows(pos1, pos2, length, c)[i].x
    ensures SeparationRows(pos2, pos1, length, c)[i].y == -SeparationRows(pos1, pos2, length, c)[i].y
    ensures SeparationRows(pos2, pos1, length, c)[i].z == -SeparationRows(pos1, pos2, length, c)[i].z
  {
    SeparationAntisymmetric(Row(pos1, i), Row(pos2, i), c);
  }

  // ---------------------------------------------------------------------
  // NEB images stored one after another in a single array

  /** Start of image k (counted from 1) in an array of images of n atoms each. */
  function ImageOffset(image: int, n: nat): int
  {
    3 * (image - 1) * n
  }

  predicate ImageInside(f: seq<real>, image: int, n: nat)
  {
    image >= 1 && ImageOffset(image, n) + 3 * n <= |f|
  }

  function Image(f: seq<real>, image: int, n: nat): (r: seq<real>)
    requires ImageInside(f, image, n)
    ensures |r| == 3 * n
  {
    f[ImageOffset(image, n)..ImageOffset(image, n) + 3 * n]
  }

  lemma ImageOffsetNonNegative(image: int, n: nat)
    requires image >= 1
    ensures ImageOffset(image, n) >= 0
  {
    assert (image - 1) * n >= 0;
  }

  /** imageSeparationVector: separations from each atom of image1 to the same atom of image2. */
  function ImageSeparationVector(image1: int, image2: int, n: nat, pos: seq<real>, c: Cell): (r: seq<real>)
    requires WellFormed(c) && ImageInside(pos, image1, n) && ImageInside(pos, image2, n)
    ensures |r| == 3 * n
  {
    ImageOffsetNonNegative(image1, n);
    ImageOffsetNonNegative(image2, n);
    SeparationVectorFlat(Image(pos, image1, n), Image(pos, image2, n), n, c)
  }

  /** The separation of an image from itself is zero everywhere. */
  lemma {:induction false} ImageSelfSeparation(image: int, n: nat, pos: seq<real>, c: Cell)
    requires WellFormed(c) && ImageInside(pos, image, n)
    ensures Magnitude2(ImageSeparationVector(image, image, n, pos, c)) == 0.0
  {
    ImageOffsetNonNegative(image, n);
    var f := Image(pos, image, n);
    SeparationMagnitudeIsNorm(f, f, n, c);
    SelfMagnitudeZero(f, f, n, c);
  }

  lemma {:induction false} SelfMagnitudeZero(f: seq<real>, g: seq<real>, length: nat, c: Cell)
    requires WellFormed(c) && 3 * length <= |f| && 3 * length <= |g|
    requires forall i :: 0 <= i < length ==> Row(f, i) == Row(g, i)
    ensures SeparationMagnitude2(f, g, length, c) == 0.0
  {
    if length > 0 {
      SelfMagnitudeZero(f, g, length - 1, c);
      SelfSeparation(Row(f, length - 1), c);
    }
  }

  /**
   * imageSeparationVector_fixed: image 0 stands for the fixed initial state
   * held in its own array pos1; otherwise image1 is read from pos1 and the
   * final state from pos2.
   */
  function ImageSeparationVectorFixed(image1: int, image2: int, n: nat, pos1: seq<real>, pos2: seq<real>, c: Cell): (r: seq<real>)
    requires WellFormed(c)
    requires image1 == 0 ==> 3 * n <= |pos1| && ImageInside(pos2, image2, n)
    requires image1 != 0 ==> ImageInside(pos1, image1, n) && 3 * n <= |pos2|
    ensures |r| == 3 * n
  {
    if image1 == 0 then
      ImageOffsetNonNegative(image2, n);
      SeparationVectorFlat(pos1, Image(pos2, image2, n), n, c)
    else
      ImageOffsetNonNegative(image1, n);
      SeparationVectorFlat(Image(pos1, image1, n), pos2, n, c)
  }

  /** Row i of imageSeparationVector_fixed separates atom i of the fixed state, or of image1, from atom i of the other state. */
  lemma ImageFixedRow(image1: int, image2: int, n: nat, pos1: seq<real>, pos2: seq<real>, c: Cell, i: int)
    requires WellFormed(c)
    requires image1 == 0 ==> 3 * n <= |pos1| && ImageInside(pos2, image2, n)
    requires image1 != 0 ==> ImageInside(pos1, image1, n) && 3 * n <= |pos2|
    requires 0 <= i < n
    ensures image1 == 0 ==> ImageOffset(image2, n) >= 0
    ensures image1 != 0 ==> ImageOffset(image1, n) >= 0
    ensures image1 == 0 ==>
      Row(ImageSeparationVectorFixed(image1, image2, n, pos1, pos2, c), i)
      == SeparationVector(Row(pos1, i), Row(Image(pos2, image2, n), i), c)
    ensures image1 != 0 ==>
      Row(ImageSeparationVectorFixed(image1, image2, n, pos1, pos2, c), i)
      == SeparationVector(Row(Image(pos1, image1, n), i), Row(pos2, i), c)
  {
    if image1 == 0 {
      ImageOffsetNonNegative(image2, n);
      FlattenRow(SeparationRows(pos1, Image(pos2, image2, n), n, c), i);
    } else {
      ImageOffsetNonNegative(image1, n);
      FlattenRow(SeparationRows(Image(pos1, image1, n), pos2, n, c), i);
    }
  }

  /** imageSeparationMagnitude_fixed before its root: the same choice of states, summed per atom. */
  function ImageSeparationMagnitudeFixed2(image1: int, image2: int, n: nat, pos1: seq<real>, pos2: seq<real>, c: Cell): real
    requires WellFormed(c)
    requires image1 == 0 ==> 3 * n <= |pos1| && ImageInside(pos2, image2, n)
    requires image1 != 0 ==> ImageInside(pos1, image1, n) && 3 * n <= |pos2|
  {
    if image1 == 0 then
      ImageOffsetNonNegative(image2, n);
      SeparationMagnitude2(pos1, Image(pos2, image2, n), n, c)
    else
      ImageOffsetNonNegative(image1, n);
      SeparationMagnitude2(Image(pos1, image1, n), pos2, n, c)
  }

  /** The fixed-image magnitude is the norm of the fixed-image vector. */
  lemma FixedMagnitudes(image1: int, image2: int, n: nat, pos1: seq<real>, pos2: seq<real>, c: Cell)
    requires WellFormed(c)
    requires image1 == 0 ==> 3 * n <= |pos1| && ImageInside(pos2, image2, n)
    requires image1 != 0 ==> ImageInside(pos1, image1, n) && 3 * n <= |pos2|
    ensures Magnitude2(ImageSeparationVectorFixed(image1, image2, n, pos1, pos2, c))
         == ImageSeparationMagnitudeFixed2(image1, image2, n, pos1, pos2, c)
  {
    if image1 == 0 {
      ImageOffsetNonNegative(image2, n);
      SeparationMagnitudeIsNorm(pos1, Image(pos2, image2, n), n, c);
    } else {
      ImageOffsetNonNegative(image1, n);
      SeparationMagnitudeIsNorm(Image(pos1, image1, n), pos2, n, c);
    }
  }

  /** The magnitude routines are the norms of the vector routines. */
  lemma ImageMagnitudes(image1: int, image2: int, n: nat, pos: seq<real>, c: Cell)
    requires WellFormed(c) && ImageInside(pos, image1, n) && ImageInside(pos, image2, n)
    ensures ImageOffset(image1, n) >= 0 && ImageOffset(image2, n) >= 0
    ensures Magnitude2(ImageSeparationVector(image1, image2, n, pos, c))
         == SeparationMagnitude2(Image(pos, image1, n), Image(pos, image2, n), n, c)
  {
    ImageOffsetNonNegative(image1, n);
    ImageOffsetNonNegative(image2, n);
    SeparationMagnitudeIsNorm(Image(pos, image1, n), Image(pos, image2, n), n, c);
  }

  // ---------------------------------------------------------------------
  // Element-wise arithmetic over the first dim4 entries

  function AddVectors(a: seq<real>, b: seq<real>): (r: seq<real>)
    requires |b| >= |a|
    ensures |r| == |a| && forall i :: 0 <= i < |a| ==> r[i] == a[i] + b[i]
  {
    seq(|a|, i requires 0 <= i < |a| => a[i] + b[i])
  }

  function SubtractVectors(a: seq<real>, b: seq<real>): (r: seq<real>)
    requires |b| >= |a|
    ensures |r| == |a| && forall i :: 0 <= i < |a| ==> r[i] == a[i] - b[i]
  {
    seq(|a|, i requires 0 <= i < |a| => a[i] - b[i])
  }

  function ScaleVector(a: seq<real>, factor: real): (r: seq<real>)
    ensures |r| == |a| && forall i :: 0 <= i < |a| ==> r[i] == a[i] * factor
  {
    seq(|a|, i requires 0 <= i < |a| => a[i] * factor)
  }

  /** Adding back what was subtracted restores the vector. */
  lemma AddUndoesSubtract(a: seq<real>, b: seq<real>)
    requires |b| >= |a|
    ensures AddVectors(SubtractVectors(a, b), b) == a
  {
  }

  /** Scaling by -1 and adding gives the difference. */
  lemma SubtractIsAddNegated(a: seq<real>, b: seq<real>)
    requires |b| >= |a|
    ensures SubtractVectors(a, b) == AddVectors(a, ScaleVector(b, -1.0))
  {
  }

  function Dot(a: seq<real>, b: seq<real>): real
    requires |b| >= |a|
  {
    if |a| == 0 then 0.0 else Dot(a[..|a| - 1], b) + a[|a| - 1] * b[|a| - 1]
  }

  /** dotProduct, accumulated left to right as the C loop does. */
  method DotProduct(a: seq<real>, b: seq<real>) returns (sum: real)
    requires |b| >= |a|
    ensures sum == Dot(a, b)
    ensures a == b ==> sum == Magnitude2(a)
  {
    sum := 0.0;
    var i := 0;
    while i < |a|
      invariant 0 <= i <= |a|
      invariant sum == Dot(a[..i], b)
      invariant a == b ==> sum == Magnitude2(a[..i])
    {
      assert a[..i + 1][..i] == a[..i];
      sum := sum + a[i] * b[i];
      i := i + 1;
    }
    assert a[..|a|] == a;
  }

  lemma {:induction false} DotSymmetric(a: seq<real>, b: seq<real>)
    requires |a| == |b|
    ensures Dot(a, b) == Dot(b, a)
  {
    if |a| > 0 {
      DotPrefix(a[..|a| - 1], b);
      DotPrefix(b[..|b| - 1], a);
      DotSymmetric(a[..|a| - 1], b[..|b| - 1]);
    }
  }

  lemma {:induction false} DotPrefix(a: seq<real>, b: seq<real>)
    requires |b| >= |a|
    ensures Dot(a, b) == Dot(a, b[..|a|])
  {
    if |a| > 0 {
      DotPrefix(a[..|a| - 1], b);
      DotPrefix(a[..|a| - 1], b[..|a|]);
      assert b[..|a|][..|a| - 1] == b[..|a| - 1];
    }
  }

  // ---------------------------------------------------------------------
  // Partial displacements: a displacement per listed atom

  /** The guard shared by the three partial routines. */
  predicate PartialShapeOk(pos2: seq<real>, displLen: int)
  {
    |pos2| == 3 * displLen && displLen > 0
  }

  predicate DisplAtomsOk(pos1: seq<real>, displLen: int, displAtoms: seq<int>)
  {
    0 <= displLen <= |displAtoms| && forall i :: 0 <= i < displLen ==> 0 <= displAtoms[i] && 3 * displAtoms[i] + 2 < |pos1|
  }

  /** The listed atoms' rows of pos1, one after another. */
  function Gather(pos1: seq<real>, displAtoms: seq<int>, n: nat): (r: seq<real>)
    requires DisplAtomsOk(pos1, n, displAtoms)
    ensures |r| == 3 * n
    ensures forall i :: 0 <= i < n ==> Row(r, i) == Row(pos1, displAtoms[i])
  {
    if n == 0 then []
    else
      var a := displAtoms[n - 1];
      Gather(pos1, displAtoms, n - 1) + [pos1[3 * a], pos1[3 * a + 1], pos1[3 * a + 2]]
  }

  /** Entry j of the i-th gathered row is entry j of that atom's row. */
  lemma GatherEntry(pos1: seq<real>, displAtoms: seq<int>, n: nat, i: int, j: int)
    requires DisplAtomsOk(pos1, n, displAtoms) && 0 <= i < n && 0 <= j < 3
    ensures Gather(pos1, displAtoms, n)[3 * i + j] == pos1[3 * displAtoms[i] + j]
  {
    var g := Gather(pos1, displAtoms, n);
    assert Row(g, i) == Row(pos1, displAtoms[i]);
  }

  /** One more term of a dot product. */
  lemma DotNext(a: seq<real>, b: seq<real>, n: int)
    requires 0 <= n < |a| <= |b|
    ensures Dot(a[..n + 1], b) == Dot(a[..n], b) + a[n] * b[n]
  {
    assert a[..n + 1][..n] == a[..n];
  }

  /** What the first n listed displacements add to entry k of pos1 (atoms may repeat). */
  function Contribution(pos2: seq<real>, displAtoms: seq<int>, n: nat, k: int): real
    requires n <= |displAtoms| && 3 * n <= |pos2|
  {
    if n == 0 then 0.0
    else
      var a := displAtoms[n - 1];
      Contribution(pos2, displAtoms, n - 1, k)
        + (if 3 * a <= k < 3 * a + 3 then pos2[3 * (n - 1) + (k - 3 * a)] else 0.0)
  }

  /**
   * applyPartialDisplacement: each listed atom's row of pos1 receives the
   * matching row of pos2; nothing happens unless pos2 holds exactly one row
   * per listed atom.
   */
  method ApplyPartialDisplacement(pos1: seq<real>, pos2: seq<real>, displLen: int, displAtoms: seq<int>)
    returns (r: seq<real>)
    requires PartialShapeOk(pos2, displLen) ==> DisplAtomsOk(pos1, displLen, displAtoms)
    ensures !PartialShapeOk(pos2, displLen) ==> r == pos1
    ensures PartialShapeOk(pos2, displLen) ==> |r| == |pos1|
    ensures PartialShapeOk(pos2, displLen) ==>
      forall k :: 0 <= k < |pos1| ==> r[k] == pos1[k] + Contribution(pos2, displAtoms, displLen, k)
  {
    r := pos1;
    if PartialShapeOk(pos2, displLen) {
      var i := 0;
      while i < displLen
        invariant 0 <= i <= displLen
        invariant |r| == |pos1|
        invariant forall k :: 0 <= k < |pos1| ==> r[k] == pos1[k] + Contribution(pos2, displAtoms, i, k)
      {
        var atom := displAtoms[i];
        var j := 0;
        while j < 3
          invariant 0 <= j <= 3
          invariant |r| == |pos1|
          invariant forall k :: 0 <= k < |pos1| ==>
            r[k] == pos1[k] + Contribution(pos2, displAtoms, i, k) + (if 3 * atom <= k < 3 * atom + j then pos2[3 * i + (k - 3 * atom)] else 0.0)
        {
          r := r[3 * atom + j := r[3 * atom + j] + pos2[3 * i + j]];
          j := j + 1;
        }
        i := i + 1;
      }
    }
  }

  /** Negating the displacements undoes applyPartialDisplacement. */
  lemma {:induction false} ContributionNegated(pos2: seq<real>, displAtoms: seq<int>, n: nat, k: int)
    requires n <= |displAtoms| && 3 * n <= |pos2|
    ensures Contribution(ScaleVector(pos2, -1.0), displAtoms, n, k) == -Contribution(pos2, displAtoms, n, k)
  {
    if n > 0 {
      ContributionNegated(pos2, displAtoms, n - 1, k);
    }
  }

  method PartialDisplacementRoundTrip(pos1: seq<real>, pos2: seq<real>, displLen: int, displAtoms: seq<int>)
    returns (back: seq<real>)
    requires PartialShapeOk(pos2, displLen) ==> DisplAtomsOk(pos1, displLen, displAtoms)
    ensures back == pos1
  {
    var there := ApplyPartialDisplacement(pos1, pos2, displLen, displAtoms);
    back := ApplyPartialDisplacement(there, ScaleVector(pos2, -1.0), displLen, displAtoms);
    if PartialShapeOk(pos2, displLen) {
      forall k | 0 <= k < |pos1|
        ensures back[k] == pos1[k]
      {
        ContributionNegated(pos2, displAtoms, displLen, k);
      }
    }
  }

  /**
   * applyPartialDisplacementReverse: the listed atoms' rows of pos1 are added
   * into pos2, row by row.
   */
  method ApplyPartialDisplacementReverse(pos1: seq<real>, pos2: seq<real>, displLen: int, displAtoms: seq<int>)
    returns (r: seq<real>)
    requires PartialShapeOk(pos2, displLen) ==> DisplAtomsOk(pos1, displLen, displAtoms)
    ensures !PartialShapeOk(pos2, displLen) ==> r == pos2
    ensures PartialShapeOk(pos2, displLen) ==> r == AddVectors(pos2, Gather(pos1, displAtoms, displLen))
  {
    r := pos2;
    if PartialShapeOk(pos2, displLen) {
      var g := Gather(pos1, displAtoms, displLen);
      var i := 0;
      while i < displLen
        invariant 0 <= i <= displLen
        invariant |r| == |pos2|
        invariant forall k :: 0 <= k < 3 * i ==> r[k] == pos2[k] + g[k]
        invariant forall k :: 3 * i <= k < |pos2| ==> r[k] == pos2[k]
      {
        var atom := displAtoms[i];
        var j := 0;
        while j < 3
          invariant 0 <= j <= 3
          invariant |r| == |pos2|
          invariant forall k :: 0 <= k < 3 * i + j ==> r[k] == pos2[k] + g[k]
          invariant forall k :: 3 * i + j <= k < |pos2| ==> r[k] == pos2[k]
        {
          assert Row(g, i) == Row(pos1, atom);
          r := r[3 * i + j := r[3 * i + j] + pos1[3 * atom + j]];
          j := j + 1;
        }
        i := i + 1;
      }
    }
  }

  /**
   * partialDotProduct: the dot product of the listed atoms' rows of pos1 with
   * pos2; zero when the shapes do not match.
   */
  method PartialDotProduct(pos1: seq<real>, pos2: seq<real>, displLen: int, displAtoms: seq<int>)
    returns (sum: real)
    requires PartialShapeOk(pos2, displLen) ==> DisplAtomsOk(pos1, displLen, displAtoms)
    ensures !PartialShapeOk(pos2, displLen) ==> sum == 0.0
    ensures PartialShapeOk(pos2, displLen) ==> sum == Dot(Gather(pos1, displAtoms, displLen), pos2)
  {
    sum := 0.0;
    if PartialShapeOk(pos2, displLen) {
      var g := Gather(pos1, displAtoms, displLen);
      var i := 0;
      while i < displLen
        invariant 0 <= i <= displLen
        invariant sum == Dot(g[..3 * i], pos2)
      {
        GatherEntry(pos1, displAtoms, displLen, i, 0);
        GatherEntry(pos1, displAtoms, displLen, i, 1);
        GatherEntry(pos1, displAtoms, displLen, i, 2);
        sum := AddAtomRow(pos1, pos2, displAtoms[i], g, i, sum);
        i := i + 1;
      }
      assert g[..3 * displLen] == g;
    }
  }

  /** The inner loop of partialDotProduct: the three products of one listed atom's row. */
  method AddAtomRow(pos1: seq<real>, pos2: seq<real>, atom: int, g: seq<real>, i: nat, sum0: real)
    returns (sum: real)
    requires 3 * i + 3 <= |g| <= |pos2| && 0 <= atom && 3 * atom + 2 < |pos1|
    requires g[3 * i] == pos1[3 * atom] && g[3 * i + 1] == pos1[3 * atom + 1] && g[3 * i + 2] == pos1[3 * atom + 2]
    requires sum0 == Dot(g[..3 * i], pos2)
    ensures sum == Dot(g[..3 * i + 3], pos2)
  {
    sum := sum0;
    var j := 0;
    while j < 3
      invariant 0 <= j <= 3
      invariant sum == Dot(g[..3 * i + j], pos2)
    {
      assert g[3 * i + j] == pos1[3 * atom + j] by {
        if j == 0 {} else if j == 1 {} else {}
      }
      DotNext(g, pos2, 3 * i + j);
      sum := sum + pos1[3 * atom + j] * pos2[3 * i + j];
      j := j + 1;
    }
  }
}
